=== FILE: README.md ===
# goc core, modelled in Dafny

goc is a coverage tool for Go services that run for a long time. It
rewrites a project's packages so that every basic block bumps a counter,
compiles an agent into each main package, and lets a central goc server
collect, merge and reset the counters of running services. A VS Code
extension highlights covered blocks, and a Prow job reports the coverage
delta of a pull request. This project models that core as pure functions
over sequences, strings and finite maps, and proves properties of them.

One module per component of the program:

- `ProfileFormat` and `AgentCover`: the profile text the instrumented agent writes (`pkg/cover/instrument.go`) and its counter bookkeeping.
- `CoverList`: the CLI's reading of a profile into per-file totals, plus the `internal` path tests (`pkg/cover/cover.go`).
- `CoverVars`: cover-variable naming (`declareCoverVars`). The copy in `pkg/build/cover.go:25-57` has the same text as the one in `pkg/cover/cover.go:353-385`, so one model covers both.
- `Delta` and `Keyed`: delta coverage between two lists, its map and its stable sort (`pkg/cover/delta.go`).
- `CoverServer` and `ServiceStore`: the cover server's address selection, profile filters, service registration and its service registry with the line file behind it (`pkg/cover/server.go`, `pkg/cover/store.go`).
- `InjectPlan`: the dependency traversal of `Inject` and the agent files of `injectGocAgent`. Both code bases are covered (`pkg/build/inject.go`, `pkg/cover/inject.go`).
- `BuildArgs` and `BuildEnv`: argument rewriting, package-pattern classification and the legacy build's directory decisions (`pkg/build/*.go`, `pkg/flag/*.go`).
- `AgentServer` and `KvFileStore`: the goc server's agent registry, the status bits of its agents' streams, and its key/value file store (`pkg/server`).
- `EditorClient` and `EditorProfile`: the editor extension (`tools/vscode-ext/src/gocserver.ts`).
- `ProwJob` and `Qiniu`: the Prow presubmit job and the bucket helpers it uses (`pkg/prow/job.go`, `pkg/qiniu/*.go`).
- `CliFlags`: the command line's flag values and client output (`cmd/commonflags.go`, `pkg/client/client.go`).
- Shared helpers: `Text`, `Decimal`, `Paths`, `Filter`, `Sums`, `GoList`, `Wrappers`.

Everything outside the model is a parameter rather than an unproved
assumption. That covers hashing, regular-expression matching other than
the editor's fixed expression, URL and host:port parsing, JSON, the clock,
the file system, the bucket's answers and Go's map iteration order. Each
property is proved for every value of those parameters.

## Behaviour as the code has it

These are places where the code does something a reader might not expect; the model does what the code does.

- `parseProfile` in `gocserver.ts` has no guard around `rxp.exec(blockInfo)!`. A line of the target file whose block text does not match, or whose coordinates are 0, throws and ends the parse. The model reports that as `Throw`; it does not skip the line.
- `stopQueryLoop` keeps `lastProfile`, so a restarted loop does not re-render an unchanged profile. A change of the active editor does not trigger a render either.
- In the key/value file store, `Get` and `Range` index `items[1]` without a check. A line without a space therefore makes them fail (`Crash`/`Fault` in the model), even when the key sought comes later.
- `register` keeps the new agent in memory when saving it to the store fails.
- `restoreAgents` ignores the error of the range read.
- A skippattern such as "a,,b" contains an empty pattern, which every file name contains, so every profile is skipped.
- `listEntries` counts every listing error over the whole listing, never only consecutive ones, since a successful page does not reset the count; it gives up on the ninth. `ListSubDirs` resets its count after every page that yields a marker.
- `runWithRetry` returns the last attempt's error. When every attempt of a ranged read is throttled (status 571/573), that error is nil, so the read reports success with the last throttled response, and `ReadObject` returns that response's body.
- The client's `ListAgents` decodes the body whatever the status code.
- The editor extension checks its flag after the 2-second sleep but not after the profile request returns. A stop that arrives while a request is out is followed by that request's render, and the loop then ends at its `while` check without clearing: the highlights painted after the stop stay.
- The client's `Profile` decodes the empty body when the transport fails.
- `SetDeltaCovLinks` sorts the caller's list in place before it numbers the links.
- In `pkg/build`, an already-annotated dependency is still listed in a later main package's covers; in `pkg/cover` it is not.

## Model

| member | source | states |
|---|---|---|
| CliFlags.DefaultCoverMode | cmd/commonflags.go:40-42 | before any `--mode` the flag holds "count", a mode `go tool cover` accepts |
| CliFlags.SetCoverMode | cmd/commonflags.go:84-95 | Set succeeds exactly for "" and the three known modes; "" selects "count", a known mode is stored, anything else is refused with "unknown mode" and leaves the flag as it was |
| CliFlags.SetCoverModes | cmd/commonflags.go:84-95 | after repeated `--mode` values a final known mode is the one kept, a final "" gives "count", and the mode is always the starting one, "count" or one of the values given |
| CliFlags.CoverModeRoundTrip | cmd/commonflags.go:80-95 | setting the flag from its own String() form, starting from any value, gives back the same flag without error |
| CliFlags.CoverModeStaysKnown | cmd/commonflags.go:40-95 | whatever sequence of values the command line supplies, the mode stays set, count or atomic |
| CliFlags.LastAcceptedWins | cmd/commonflags.go:84-95 | after a run of Set calls the mode is the last known value given, when every later value is refused |
| CliFlags.RefusedKeep | cmd/commonflags.go:90-92 | a run of refused values leaves the flag unchanged |
| CliFlags.SetAgentPort | cmd/commonflags.go:111-123 | "" clears the port; a value SplitHostPort rejects returns that error and keeps the old port; any other value is stored; an accepted flag is empty or splits |
| CliFlags.AgentPortRoundTrip | cmd/commonflags.go:107-123 | a port that was accepted is accepted again, unchanged, from its String() form |
| CliFlags.Shown | pkg/client/client.go:169-174 | the number of command characters shown is at least 16: the terminal width less the other columns when that leaves more than 16, else 16 |
| CliFlags.SimpleCmdLine | pkg/client/client.go:169-179 | the shortened command is a prefix of the command line, of exactly min(length, shown) characters, never shorter than min(length, 16), and equal to the command exactly when it fits |
| CliFlags.SimpleCmdLineNoTerminal | pkg/client/client.go:171-174 | without a terminal the other columns do not matter and a longer command keeps its first 16 characters |
| CliFlags.SimpleCmdLineWider | pkg/client/client.go:171-177 | a wider terminal shows a longer (or equal) prefix of the command |
| CliFlags.SimpleCmdLineExample | pkg/client/client_test.go:131-144 | the two table cases of the Go test: a 16-character name is kept, a 19-character one is cut to 16 |
| CliFlags.PreLen | pkg/client/client.go:118 | the room the id and address columns take is their lengths plus 9 |
| CliFlags.TableHeader | pkg/client/client.go:107-113 | the wide listing has five columns, the short one three |
| CliFlags.TableRow | pkg/client/client.go:114-121 | every row has the header's width and starts with the id and address; wide rows carry all five fields, short rows the command shortened for that row's own columns |
| CliFlags.Rows | pkg/client/client.go:114-121 | one row per agent, in the order the server listed them |
| CliFlags.Fetch | pkg/client/client.go:84-87 | a network error is retried once and the second answer used; any other answer is used as it is |
| CliFlags.ListCommand | pkg/client/client.go:82-124 | a failed request ends with "goc list failed: " and its error; a body that does not decode ends with "goc list failed: json unmarshal failed: " and the decode error; otherwise the table has the wide or short header and one row per decoded agent |
| CliFlags.ListAgentsIgnoresStatus | pkg/client/client.go:84-95 | the status code of the reply plays no part in the listing |
| CliFlags.OutputFile | pkg/client/client.go:145-154 | a path naming a file is written as given, a bare directory gets "coverage.cov" appended; the result always names a file in the same directory |
| CliFlags.OutputFileIdempotent | pkg/client/client.go:145-154 | naming the output file twice gives the same file as naming it once |
| CliFlags.ProfileCommand | pkg/client/client.go:126-166 | a non-200 reply ends with its body; a profile that does not decode ends with "profile unmarshal failed: "; otherwise the decoded profile goes to stdout when no output is named, or to the output file, with its directory created when the path has one |
| CliFlags.ProfileDirectoryTarget | pkg/client/client.go:145-154 | `-o d/` and `-o d/coverage.cov` write the same file with the same contents |
| BuildEnv.TmpFolderName | pkg/build/tmpfolder.go:124-131 | the temporary folder is "goc-build-" followed by the 12 hex digits of the first six bytes of the path's hash, 22 characters in all |
| BuildEnv.TmpPackageName | pkg/build/tmpfolder.go:133-140 | the package name is "gocbuild" followed by the same 12 hex digits |
| BuildEnv.TmpNamesShareSuffix | pkg/build/tmpfolder.go:124-140 | the folder and package names of one project carry the same hash suffix and still differ |
| BuildEnv.NewGopathFallbackInert | pkg/build/tmpfolder.go:52-66 | as written, the rootless fallback never changes the GOPATH chosen first (see Findings) |
| BuildEnv.NewGopath | pkg/build/tmpfolder.go:52-66 | the GOPATH choice as written, with its fallback for a rootless project; BuildEnv.NewGopathFallbackInert and BuildEnv.NewGopathRootlessExample show the fallback never fires, and BuildEnv.NewGopathAgrees that it matches the corrected choice for modules and rooted projects (see Findings) |
| BuildEnv.NewGopathRootlessExample | pkg/build/tmpfolder.go:52-66 | the input that shows it: a rootless GOPATH project still builds with the temporary dir in front of the original GOPATH |
| BuildEnv.NewGopathIntended | pkg/build/tmpfolder.go:52-66 | the corrected choice: no GOPATH for modules, the original GOPATH for a rootless legacy project, otherwise the temporary dir in front of the original GOPATH (or alone) |
| BuildEnv.NewGopathAgrees | pkg/build/tmpfolder.go:52-66 | the corrected and the written choice agree on every module project and every project with a root |
| BuildEnv.TraversePkgsList | pkg/build/tmpfolder.go:142-163 | no package is the error "should never be reached"; otherwise the module flag and root come from one of the packages |
| BuildEnv.TraverseOrderIndependent | pkg/build/tmpfolder.go:148-159 | when all packages agree on module flag and root, the map's iteration order does not change the result |
| BuildEnv.GetTmpwd | pkg/build/tmpfolder.go:165-187 | no package is "should never be reached"; a module project whose first package has no module dereferences nil; otherwise, when the working dir contains the first package's parent dir, the result is the temporary dir joined with the rest of the working dir past the parent's length, and when it does not, the result is "goc not support for such project directory" |
| BuildEnv.TmpwdBelowParent | pkg/build/tmpfolder.go:165-184 | a working dir root/rel of a legacy project maps to tmpDir/rel |
| BuildEnv.FindWhereToInstall | pkg/build/tmpfolder.go:189-204 | GOBIN wins when set; a legacy project without a root gets "don't know where to install"; otherwise root/bin, the first GOPATH entry's bin, or HOME/go/bin, case by case |
| BuildEnv.InstallDirIsBin | pkg/build/tmpfolder.go:194-203 | with GOBIN unset every install dir found is a "bin" path element |
| BuildEnv.DetermineOutputDir | pkg/build/build.go:79-98 | a named output is made absolute; with none, the binary is the current dir's last element, '_' turned to '-', inside the current dir |
| BuildEnv.DefaultOutputName | pkg/build/build.go:87-91 | the default binary lies directly inside the current dir and its name has no '_' |
| BuildEnv.NewBuildTarget | pkg/build/build.go:45-57 | any package pattern but "." is refused with `packages only support "."`; otherwise the target is the output dir decided above |
| BuildEnv.TargetOutputWins | pkg/build/build.go:61-63 | split into shell words, the build flags end in "-o" and the target, so the target's -o comes after any -o of the user |
| BuildArgs.FindAndDelGocFlag | pkg/build/build_flags.go:121-143 | the result is a subsequence of the input, no longer than it, and holds no "--gocdebug", "--name" or "--name=value" token |
| BuildArgs.DelGocFlagKeeps | pkg/build/build_flags.go:121-143 | the result is exactly the tokens, in input order, that are neither goc tokens nor the value swallowed by a bare "--name" that was not itself swallowed |
| BuildArgs.DelGocFlagIsFilter | pkg/build/build_flags.go:121-143 | when no bare "--name" token occurs, the removal is exactly the order-preserving filter that drops goc's tokens |
| BuildArgs.DelGocFlagPlain | pkg/flag/build_flags.go:111-133 | a command line without goc tokens passes through unchanged |
| BuildArgs.DelGocFlagIdempotent | pkg/flag/build_flags.go:111-133 | removing goc's flag a second time removes nothing more |
| BuildArgs.DelGocFlagPair | pkg/build/build_flags.go:129-132 | a bare "--name" is removed together with the token after it, whatever that token is |
| BuildArgs.FindAndDelHelpFlag | pkg/build/build_flags.go:145-156 | no "--help" or "-h" survives, every other token does, in its order |
| BuildArgs.DelHelpIsFilter | pkg/flag/build_flags.go:135-146 | the help removal is the order-preserving filter on the non-help tokens |
| BuildArgs.DelHelpIdempotent | pkg/flag/build_flags.go:135-146 | removing the help flags twice is the same as once |
| BuildArgs.RenderGoFlags | pkg/build/build_flags.go:100-113 | the go flags are written out as two tokens each, and rendering fails exactly when filepath.Abs fails on some "-o" value, with "output flag is not valid: " and that error |
| BuildArgs.RenderReadsBack | pkg/flag/build_flags.go:91-104 | reading the rendered "-name value" pairs back gives the flags that were set, in order, with the "-o" value made absolute |
| BuildArgs.FirstNonGo | pkg/flag/packages.go:64-69 | finds the first name without the ".go" suffix, and finds none exactly when all names carry it |
| BuildArgs.SameDirectoryNone | pkg/flag/packages.go:71-95 | the second loop passes exactly when every name is an existing regular file and all lie in one directory (the one seen first) |
| BuildArgs.GoFilesPackage | pkg/build/build_flags.go:297-332 | no error exactly when all names end in ".go", are existing files and share one directory; a bad suffix is reported for the first offending name |
| BuildArgs.NamesCheckedFirst | pkg/flag/packages.go:63-98 | a list with a name lacking ".go" gets the same verdict whatever the file system holds, because the suffix loop runs before any stat |
| BuildArgs.FirstElementOf | pkg/flag/packages.go:162-166 | the first path element is a prefix of the path with no slash in it, followed by the first slash when there is one |
| BuildArgs.LocalImportFirstElement | pkg/flag/packages.go:162-166 | isLocalImport holds exactly when the path's first element is "." or ".." |
| BuildArgs.GetDirFromImportPaths | pkg/build/build_flags.go:338-394 | no pattern gives the working directory; several are refused; for one pattern the "...", '@' version query and std/cmd/all cases are decided in the source's order, with the meta-package error exactly for std, cmd and all; a "..." pattern succeeds exactly when its dir exists and then gives that dir; a plain pattern succeeds exactly when its absolute path resolves and exists and then gives that path, and an unresolvable one gives the directory error |
| BuildArgs.DotsDirIsPrefix | pkg/flag/packages.go:134-140 | in the flag package a "..." pattern resolves to the directory text in front of "...", which is a prefix of the pattern |
| BuildArgs.FirstGoFile | pkg/flag/packages.go:26-28 | finds the first pattern that ends in ".go" and is a regular file, and none exactly when no pattern is both |
| BuildArgs.GetPackagesDir | pkg/flag/packages.go:21-56 | without a file pattern the result is the import path's directory and no binary name; with one, a files-package error is passed on, and otherwise the result succeeds exactly when the first file's absolute path resolves, giving its directory and binary name |
| BuildArgs.PlainPackagesDir | pkg/flag/packages.go:21-56 | an existing plain directory pattern makes its absolute path the package directory, with no binary name |
| BuildArgs.PackagesDirJoinsBack | pkg/flag/packages.go:34-44 | for a file pattern, the package directory joined with the binary name is the file's absolute path again |
| BuildArgs.Relativise | pkg/build/build_flags.go:265-276 | absolute patterns are replaced by their path relative to the working directory and others are kept, position by position; it fails exactly when some filepath.Rel fails |
| BuildArgs.BuildPackages | pkg/build/build_flags.go:252-290 | import paths are passed on unchanged; with named files it succeeds exactly when the files form one package and every absolute one has a relative path, otherwise it fails with the package check's error or the relative-path error; on success each absolute file becomes its path relative to the working directory, each relative one is kept, and the bridge file follows in the directory of the first entry |
| BuildArgs.BuildPackagesRelativeFiles | pkg/build/build_flags.go:258-282 | relative named files that form one package are passed on exactly as given, followed by the bridge file beside the first one |
| BuildArgs.BridgeLast | pkg/build/build_flags.go:279-281 | the added entry always names the bridge file "goc-cover-agent-apis-auto-generated-11111-22222-bridge.go" |
| BuildArgs.FindModuleRoot | pkg/build/build_flags.go:409-425 | a returned root holds a go.mod, and a directory that holds one is its own root |
| BuildArgs.ModuleRootIsNearest | pkg/flag/packages.go:174-190 | the module root is the first of the directory and its parents, up to the root, that holds go.mod, and "" when none does |
| CoverList.ToBlockCases | pkg/cover/cover.go:481-494 | a row fails with "the profile line … is not expected" exactly when it does not split into three space-separated fields; a first field without ':' makes the slice expression panic; a good row gives the file name before the first ':' and the two counts as Atoi reads them |
| CoverList.ToBlock | pkg/cover/cover.go:481-494 | one profile row read as a block; CoverList.ToBlockCases gives its three outcomes and CoverList.ToBlockLine shows that an agent-written line reads back as its block |
| CoverList.AddToGroup | pkg/cover/cover.go:497-508 | a new entry, with an empty link, is appended exactly when the list is empty or its last entry is another file; all other entries stay as they are, the last entry keeps its link, and its totals grow by the block's statements, covered ones only when the count is positive |
| CoverList.GroupAll | pkg/cover/cover.go:448-455 | the blocks added in order to an empty list; CoverList.GroupAllDistinct, CoverList.GroupAllSums and CoverList.GroupAllBounded state that neighbouring entries name different files, that no statement is lost, and that covered stays within all |
| CoverList.CovRowsAllRead | pkg/cover/cover.go:443-457 | when every row reads, the list is the blocks grouped one after the other into an empty list |
| CoverList.CovRowsFirstBad | pkg/cover/cover.go:448-453 | the first row that does not read decides the outcome, whatever follows it |
| CoverList.CovRowsListed | pkg/cover/cover.go:443-457 | a list comes out exactly when every row after the discarded first line reads |
| CoverList.FirstUnread | pkg/cover/cover.go:448-453 | the first row that fails to read, when one does, with all rows before it reading |
| CoverList.AddToGroupStep | pkg/cover/cover.go:497-508 | adding one block keeps neighbouring entries on different files and covered within all, and adds exactly its statements to the totals |
| CoverList.GroupAllDistinct | pkg/cover/cover.go:497-508 | no two neighbouring entries of a grouped list name the same file |
| CoverList.GroupAllSums | pkg/cover/cover.go:443-508 | grouping loses no statement: the list's totals of all and of covered statements are those of the blocks |
| CoverList.GroupAllBounded | pkg/cover/cover.go:504-507 | with non-negative statement counts every entry has covered statements within all statements |
| CoverList.ToBlockLine | pkg/cover/cover.go:481-494 | an agent profile line "name:l0.c0,l1.c1 stmts count" reads back as the block it was written from |
| CoverList.CovListOfProfile | pkg/cover/cover.go:443-457 | reading a profile written by the agent gives the per-file totals of its blocks, grouped in the order they come |
| CoverList.CovList | pkg/cover/cover.go:443-457 | the first line is discarded and the rest read as rows; CoverList.CovRowsListed, CoverList.CovRowsFirstBad and CoverList.CovListOfProfile state when a list comes out, that the first bad row decides, and what an agent profile reads as |
| CoverList.RatioOf | pkg/cover/cover.go:573-580 | the ratio is an error "[file] has 0 statement" exactly when the file has no statements, and otherwise equals covered over all |
| CoverList.PercentageOf | pkg/cover/cover.go:564-570 | "N/A" exactly when the file has no statements, otherwise the percentage of its ratio |
| CoverList.TotalRatio | pkg/cover/cover.go:539-546 | the total ratio is covered over all of the summed entries, and an error exactly when the sum of all statements is zero |
| CoverList.TotalRatioOfBlocks | pkg/cover/cover.go:539-546 | for a read profile, the total ratio is that of all its blocks taken together |
| CoverList.SortList | pkg/cover/cover.go:523-527 | a permutation of the list ordered by file name that keeps the relative order of entries with the same name (stable) |
| CoverList.MapList | pkg/cover/cover.go:550-556 | every file name of the list is a key; each key maps to an entry of that name; where a name repeats, the last entry wins |
| CoverList.InternalElement | pkg/cover/cover.go:307-321 | hasInternalPath holds exactly when "internal" is one of the path's slash-separated elements |
| CoverList.HasInternalPath | pkg/cover/cover.go:307-321 | the four tests of hasInternalPath; CoverList.InternalElement, CoverList.InternalAt and CoverList.ElementInternal show together that it holds exactly when "internal" is a path element |
| CoverList.InternalAt | pkg/cover/cover.go:307-321 | when hasInternalPath holds, an "internal" element exists at some position |
| CoverList.ElementInternal | pkg/cover/cover.go:307-321 | an "internal" element anywhere makes hasInternalPath hold |
| CoverList.InternalParent | pkg/cover/cover.go:323-335 | the parent is "" for a path without an internal element; for a path ending in "/internal" it is the text before the first "/internal", and otherwise, for a path holding "/internal/", the text before the first "/internal/" |
| CoverList.BeforeFirstParts | pkg/cover/cover.go:326-328 | the first piece of strings.Split is followed by the separator in the text and does not hold it |
| CoverList.InternalParentOf | pkg/cover/cover.go:323-335 | a parent free of "/internal" followed by an internal element, at the end of the path or not, is given back as the parent |
| CoverList.InternalParentFirstSeparator | pkg/cover/cover.go:327-328 | the first "/internal/" decides: for "a/internalx" + "/internal/b" the parent is "a/internalx", which itself contains "/internal" |
| CoverList.SeparatorAfter | pkg/cover/cover.go:327-328 | when no "/internal/" can start inside the text before an internal element, strings.Split's first piece is exactly that text |
| CoverServer.ContainsString | pkg/cover/server.go:458-465 | true exactly when the string is an element of the slice |
| CoverServer.AddressAll | pkg/cover/server.go:469-472 | the collected addresses are exactly those registered under some service |
| CoverServer.AddressAllOrderFree | pkg/cover/server.go:469-472 | the same addresses are collected whatever order the map is ranged in |
| CoverServer.ServicePart | pkg/cover/server.go:478-490 | without force an unknown service name fails the call, and only then; every result carries a requested, registered service and one of its addresses, and each registered address of a requested service appears |
| CoverServer.AddressPart | pkg/cover/server.go:492-502 | without force an unregistered address fails the call, and only then; every result is a registered address and each requested registered address appears, without a name |
| CoverServer.FilterAddrInfo | pkg/cover/server.go:467-512 | services and addresses together are refused as ambiguous, and only they are; otherwise the first unknown service, then the first unknown address, fails the call with its "not found" error unless forced; on success the result is the requested services' tagged addresses followed by the requested registered addresses, and with neither request it is every registered address, untagged |
| CoverServer.SelectAddrs | pkg/cover/server.go:478-510 | once a request is not ambiguous: the service loop's error first, then the address loop's, and otherwise the requested services' tagged addresses, then the requested registered addresses, then every registered address exactly when nothing was requested |
| CoverServer.EverythingSelected | pkg/cover/server.go:504-508 | with no service and no address requested, an address is selected exactly when it is registered |
| CoverServer.KnownServiceSelected | pkg/cover/server.go:479-485 | a requested service that is registered contributes every one of its addresses, tagged with its name |
| CoverServer.RequestedAddressesSelected | pkg/cover/server.go:492-502 | asking by address selects an address exactly when it was requested and is registered, always untagged; without force an unregistered request fails |
| CoverServer.FirstMatch | pkg/cover/server.go:347-355 | the patterns are tried in order for one file: a match is reported only for a pattern that matches, and the call succeeds when no pattern errs |
| CoverServer.FilterProfile | pkg/cover/server.go:344-360 | it succeeds exactly when no pattern errs on any file; it keeps exactly the profiles some pattern matches |
| CoverServer.SkipProfile | pkg/cover/server.go:363-385 | it succeeds exactly when no pattern errs on any file; it keeps exactly the profiles no pattern matches |
| CoverServer.FilterProfileKeeps | pkg/cover/server.go:344-360 | the kept profiles are the matched ones in their order, each once |
| CoverServer.SkipProfileKeeps | pkg/cover/server.go:363-385 | the kept profiles are the unmatched ones in their order, each once |
| CoverServer.FilterSkipPartition | pkg/cover/server.go:344-385 | with the same patterns the two succeed together, and what one keeps and what the other keeps together are the profiles, as a multiset |
| CoverServer.RegisterAddress | pkg/cover/server.go:213-262 | a URL that does not parse, a scheme other than http or https ("unsupport schema") and an empty host ("empty host") are refused, the last two exactly in their cases; a kept address starts with the scheme and "://" |
| CoverServer.RegisterKeepsHost | pkg/cover/server.go:226-262 | without IP revision an address "scheme://h:p/path" is kept as "scheme://h:p": the path is dropped |
| CoverServer.RegisterService | pkg/cover/server.go:206-270 | the handler succeeds exactly when the address is accepted; registering an address already present for the name is not an error |
| CoverVars.Hex | pkg/cover/cover.go:362-363 | "%x" gives two lower-case hex digits per byte, all ASCII |
| CoverVars.HashSuffix | pkg/cover/cover.go:362-363 | the package suffix is 12 hex digits, from the first six hash bytes |
| CoverVars.VarNameInjective | pkg/cover/cover.go:369 | "GoCover_%d_%x" gives different names to different indices |
| CoverVars.VarsOf | pkg/cover/cover.go:364-382 | exactly the listed file names are keys, and where a name repeats, the later position's entry wins |
| CoverVars.DeclareCoverVars | pkg/cover/cover.go:353-385 | the keys are exactly the Go and cgo files; each entry is numbered by the file's (last) position in GoFiles followed by CgoFiles |
| CoverVars.CoverVarNamesDistinct | pkg/cover/cover.go:353-385 | the variables of two different files have different names |
| CoverVars.SharedSuffix | pkg/cover/cover.go:353-385 | every variable of a package ends in "_" and the hex of the package's one hash suffix, and its file is the import path joined with the file name |
| AgentCover.DecodeBlocks | pkg/cover/instrument.go:106-116 | block i has lines pos[3i] and pos[3i+1], columns the low and the high 16 bits of pos[3i+2], and numStmts[i] statements |
| AgentCover.DecodeEncode | pkg/cover/instrument.go:106-116 | decoding the position array the cover tool emits gives back the blocks, for columns that fit 16 bits |
| AgentCover.PackUnpack | pkg/cover/instrument.go:110-112 | two 16-bit columns packed into one word come back out as uint16(w) and uint16(w >> 16) |
| AgentCover.EncodeAt | pkg/cover/instrument.go:109-112 | block i of the emitted array sits at positions 3i, 3i+1 and 3i+2 |
| AgentCover.LoadFileCover | pkg/cover/instrument.go:97-117 | "coverage: mismatched sizes" exactly when len(pos) != 3 len(counter) or len(numStmts) != len(counter); an already registered file leaves both maps unchanged; a new one adds its counter and its decoded blocks and changes no other file |
| AgentCover.LoadKeepsConsistent | pkg/cover/instrument.go:97-117 | registering a file keeps the two maps on the same files, with one block per counter |
| AgentCover.LoadIdempotent | pkg/cover/instrument.go:101-104 | registering the same file twice is the same as once |
| AgentCover.ClearFileCover | pkg/cover/instrument.go:139-143 | every counter becomes 0 and the length is kept |
| AgentCover.ClearValues | pkg/cover/instrument.go:119-137 | the counters of every registered file are zeroed; the files and the blocks stay |
| AgentCover.Positive | pkg/cover/instrument.go:168-171 | the counters above zero number at most all counters, and none exactly when all are zero |
| AgentCover.CoverageHandler | pkg/cover/instrument.go:161-180 | "0" exactly when there is no counter at all; otherwise a fraction whose covered part is within the positive total |
| AgentCover.CoverageBounds | pkg/cover/instrument.go:166-174 | 0 <= n <= d, and d is 0 exactly when every file has an empty counter slice |
| AgentCover.CoverageOrderIndependent | pkg/cover/instrument.go:167-174 | the figures are the same whatever order the counters map is ranged in |
| AgentCover.ClearedCoversNothing | pkg/cover/instrument.go:213-217 | after a clear the coverage handler reports no counter above zero |
| AgentCover.FileBlocks | pkg/cover/instrument.go:191-204 | one profile block per counter of the file, with the file's name, the counter and the block's positions and statements |
| AgentCover.ActiveStmts | pkg/cover/instrument.go:194-199 | the active statements are within the total statements of a file |
| AgentCover.ProfileHandler | pkg/cover/instrument.go:183-211 | the text is the header then one line per block, file by file in map order; active <= total |
| AgentCover.ProfileTotalsOrderIndependent | pkg/cover/instrument.go:189-199 | the total and active statement counts do not depend on the map order |
| AgentCover.AgentBlocksCount | pkg/cover/instrument.go:191-193 | the profile has one line per counter of the files ranged over |
| AgentCover.AgentBlocksWellFormed | pkg/cover/instrument.go:97-117 | tables of uint32 lines and counts and uint16 columns and statement counts give profile lines of the agent's shape |
| ProfileFormat.BlockLines | pkg/cover/instrument.go:200-204 | one "%s:%d.%d,%d.%d %d %d" line per block, in order |
| ProfileFormat.BlockInfoShape | pkg/cover/instrument.go:200-204 | what follows the file name holds no ':' and no line break |
| ProfileFormat.ProfileLinesPlain | pkg/cover/instrument.go:184-204 | a profile scanned line by line gives back the header "mode: <mode> " and the block lines |
| ProfileFormat.SplitProfileText | pkg/cover/instrument.go:184-204 | split on '\n', a profile text is the header, the block lines and one empty last piece |
| Delta.MapListKeys | pkg/cover/cover.go:550-556 | the keys of CoverageList.Map are exactly the file names in the list |
| Delta.FullOf | pkg/cover/delta.go:38-65 | the two loops write one row per name of either map, each name once, each row the one its name calls for |
| Delta.GetFullDeltaCov | pkg/cover/delta.go:34-67 | one row per distinct file name of the union of the new and base lists, each name once, whatever the map order |
| Delta.FullDeltaColumns | pkg/cover/delta.go:39-64 | BasePer is "None" exactly when the file is missing from the base list and NewPer exactly when it is missing from the new list; otherwise each is that side's Percentage; no row has a link yet |
| Delta.FullDeltaOrderFree | pkg/cover/delta.go:34-67 | ranging the two maps in any other order gives the same rows, as a multiset |
| Delta.GetDeltaCov | pkg/cover/delta.go:70-79 | a sub-multiset of the full delta that has no zero-delta row and keeps every non-zero one |
| Delta.DeltaDropsOnlyZero | pkg/cover/delta.go:72-76 | what GetDeltaCov keeps and the full delta's zero-delta rows together are the full delta |
| Delta.DeltaMap | pkg/cover/delta.go:108-114 | every row's name is a key, every key maps to a row of that name, and the last row of a name wins |
| Delta.DeltaMapKeys | pkg/cover/delta.go:108-114 | the keys are exactly the rows' names |
| Delta.ChangedRows | pkg/cover/delta.go:85-89 | the names of the rows are the changed files that have a row, in the listed order and multiplicity; each row is the map's row for its name |
| Delta.GetChFileDeltaCov | pkg/cover/delta.go:82-91 | the rows follow the changed files that occur in either list, in order and repeated as listed, each the full delta's row for that file |
| Delta.SortDelta | pkg/cover/delta.go:117-121 | a permutation ordered by file name that keeps the relative order of rows with the same name |
| Delta.SetLineCovLink | pkg/cover/delta.go:129-136 | GetLineCovLink then returns the link set, and no other field changes |
| Delta.SetLinkRestores | pkg/cover/delta.go:129-136 | setting the old link back restores the row |
| ProwJob.TrimGhFileToProfile | pkg/prow/job.go:158-167 | one name per input, each the input with one leading "src/" removed when it has one and unchanged otherwise |
| ProwJob.TrimUnderSrc | pkg/prow/job.go:158-167 | trimming takes a GOPATH-style "src/…" listing back to the profile's names, even names that themselves start with "src/" |
| ProwJob.Copies | pkg/prow/job.go:183-187 | a row is written once per changed file that prefixes it, and at least once exactly when some changed file does |
| ProwJob.ChangedProfileRows | pkg/prow/job.go:182-188 | a row appears in the output exactly when it is a profile row that some changed file prefixes |
| ProwJob.ChangedProfileRowsCount | pkg/prow/job.go:182-188 | the number of rows written is the sum over the rows of the number of changed files prefixing each |
| ProwJob.ChangedProfileRowsSingle | pkg/prow/job.go:182-188 | with one changed file the output rows are the prefixed rows, in order, each once |
| ProwJob.WriteChangedCov | pkg/prow/job.go:170-191 | a read failure is returned and only then; otherwise the first line (empty for an empty profile) is written unconditionally, followed by the changed rows; with no output file nothing is written |
| ProwJob.JoinPathPlain | pkg/prow/job.go:200-202 | non-empty elements free of '/' are joined by single slashes |
| ProwJob.JobPrefixSplits | pkg/prow/job.go:200-202 | the prefix splits on '/' into "pr-logs", "pull", org_repo, the pull request number, the job name and the build id |
| ProwJob.JobPrefixOnQiniu | pkg/prow/job.go:200-202 | path.Join of "pr-logs", "pull", org_repo, the pull request number, the job name and the build id; ProwJob.JobPrefixSplits shows the six fields split back out |
| ProwJob.HtmlProfile | pkg/prow/job.go:204-206 | the report's name ends in "-coverage.html" |
| ProwJob.HtmlProfileSplits | pkg/prow/job.go:204-206 | for fields free of '-', the name splits back into org, repo, "pr" with the number, and "coverage.html" |
| ProwJob.RowLinksDiffer | pkg/prow/job.go:213 | the anchors "#file<i>" of different rows differ |
| ProwJob.SetDeltaCovLinks | pkg/prow/job.go:208-216 | the rows are sorted by file name and keep all their fields but the link; row i's link is the signed report URL with "#file<i>" |
| ProwJob.DeltaCovLinksDistinct | pkg/prow/job.go:208-216 | no two rows get the same link |
| ProwJob.TotalPercentage | pkg/cover/cover.go:530-536 | "N/A" exactly when the list has no statements |
| ProwJob.RunPresubmit | pkg/prow/job.go:69-144 | a failed changed-files read is fatal with its text; outside full-diff mode the run ends early exactly for a pull request without changed files; an unreadable or unlistable local profile, a failed base lookup or an unlistable base are fatal with "failed to get remote cover profile", a lister panic on either profile crashes the run, and the run ends quietly exactly when no healthy base exists; with both lists the result is the delta stage on them; a posted table is empty or sorted rows closed by "Total" |
| ProwJob.DeltaStage | pkg/prow/job.go:106-143 | outside full-diff mode the posted table is the changed files' delta, linked and closed by "Total"; in full-diff mode it is the non-zero delta, with its names as the changed files |
| ProwJob.PresubmitPosts | pkg/prow/job.go:69-144 | a pull request with changed files, both profiles listed and every write and post succeeding ends in a comment whose table is the changed files' delta, linked and closed by "Total" |
| ProwJob.FinishNonZero | pkg/prow/job.go:110-137 | with non-zero deltas only, every file named as changed has a non-zero row of its own before "Total" |
| ProwJob.LinkedNonZero | pkg/prow/job.go:127 | linking keeps every file's non-zero row |
| ProwJob.LinkedRowsCover | pkg/prow/job.go:127 | every row has a linked row with the same name and delta |
| ProwJob.Finish | pkg/prow/job.go:118-143 | a failed changed-profile write, report run or comment post is fatal with its own text and a comment is posted exactly when none fails; the table is the linked delta rows plus "Total" when there is any delta, and the changed profile written is the one posted |
| Qiniu.ParsedBuildsMember | pkg/qiniu/qnPresubmit.go:48-55 | a number is kept exactly when some listed name parses to it with strconv.Atoi |
| Qiniu.InsertDesc | pkg/qiniu/qnPresubmit.go:56 | inserting into a descending sequence keeps it descending and adds exactly that number |
| Qiniu.SortDesc | pkg/qiniu/qnPresubmit.go:56 | the result is descending and a permutation of the input |
| Qiniu.SortBuilds | pkg/qiniu/qnPresubmit.go:46-58 | the parsed builds, as a multiset, in descending order; names that do not parse are dropped |
| Qiniu.SortBuildsMember | pkg/qiniu/qnPresubmit.go:46-58 | a number is in the sorted builds exactly when some listed name parses to it |
| Qiniu.DescendingUnique | pkg/qiniu/qnPresubmit.go:56 | two descending arrangements of one multiset are equal, so the unstable sort.Sort still has one answer |
| Qiniu.DescendingHeadIsMax | pkg/qiniu/qnPresubmit.go:56 | the first build tried is the highest |
| Qiniu.FirstHealthy | pkg/qiniu/qnPresubmit.go:88-100 | the loop stops at the first build that is healthy, none before it is, and without one none is |
| Qiniu.IsBuildSucceeded | pkg/qiniu/qnPresubmit.go:65-69 | a build is healthy exactly when its finished.json decodes and its passed field is true; Qiniu.FirstHealthy and Qiniu.FindBaseProfileHighest use it to pick the build whose profile is read |
| Qiniu.FindBaseProfile | pkg/qiniu/qnPresubmit.go:73-108 | a listing failure gives "error listing qiniu objects, prowjob:…"; an empty listing gives no profile and no error; a returned profile is what some build's profile key reads as |
| Qiniu.FindBaseProfileHighest | pkg/qiniu/qnPresubmit.go:86-107 | the profile is read from the highest-numbered listed build that is healthy |
| Qiniu.FindBaseProfileNone | pkg/qiniu/qnPresubmit.go:101-104 | with no healthy build listed, nothing is read and the result is (nil, nil) |
| Qiniu.ProfileKeySplits | pkg/qiniu/qnPresubmit.go:89-97 | for '/'-free job and profile names the key is logs/<job>/<build>/artifacts/<name> |
| Qiniu.BuildDirRoundTrip | pkg/qiniu/client.go:243-250 | the build id read back from the directory "logs/<job>/<n>/" is n |
| Qiniu.ProfilePath | pkg/qiniu/qnPresubmit.go:124-126 | with no directory the path is the profile name; otherwise it starts with the directory |
| Qiniu.ProfilePathSplits | pkg/qiniu/qnPresubmit.go:124-126 | a '/'-free directory and name come back out of the path split on '/' |
| Qiniu.BuildId | pkg/qiniu/client.go:238-250 | an id exactly when the text ends in a digit and '/'; the id is the whole run of digits before that final '/' |
| Qiniu.BuildIdOf | pkg/qiniu/client.go:238-250 | the id of "<p><digits>/" is those digits when p does not end in a digit |
| Qiniu.ListEntriesFromMarkers | pkg/qiniu/client.go:112-130 | the first call sends the marker the loop starts with and each later call the next marker of the page before, the failed call's one again after an error |
| Qiniu.ListEntriesFromItems | pkg/qiniu/client.go:123 | the entries collected are those of the pages read, in order |
| Qiniu.ListEntriesFrom | pkg/qiniu/client.go:112-130 | the loop of listEntries from a given answer on, with the error count never reset: it reads at least up to that answer and at most all answers, sending one marker per request; ListEntriesFromMarkers, ListEntriesFromItems and ListEntriesFromStatus state the markers, the entries and the outcome |
| Qiniu.ListEntriesFromStatus | pkg/qiniu/client.go:114-121 | the loop gives up on the ninth error counted over the whole listing, never reset, with that error in the message, and finishes at the first page that has no next |
| Qiniu.ListEntriesFromTimedOut | pkg/qiniu/client.go:114-121 | a listing that times out has counted nine errors, the last answer read failed, and the message carries its error |
| Qiniu.ListEntriesFromDone | pkg/qiniu/client.go:122-128 | a finished listing ends on a page without a next one, with at most eight errors counted |
| Qiniu.ListEntries | pkg/qiniu/client.go:107-133 | from an empty marker: the markers sent, the entries of the pages read, a time-out exactly on the ninth failure with "timed out: error accessing QINIU artifact: " and its error, and fewer than nine failures when it finishes |
| Qiniu.Keys | pkg/qiniu/client.go:100-102 | one key per listed item, in order |
| Qiniu.ListAll | pkg/qiniu/client.go:92-104 | the keys of every listed object when the listing finishes, and otherwise the time-out error without the keys |
| Qiniu.SplitKey | pkg/qiniu/client.go:176-178 | the listing prefix is removed when present, and the key is kept otherwise |
| Qiniu.SizeText | pkg/qiniu/client.go:180-182 | the text is the byte count in decimal followed by " bytes", and reads back as that count |
| Qiniu.ArtifactDetails | pkg/qiniu/client.go:155-174 | a finished listing always gives the page and a timed-out one its "timed out" error; one row per listed object, in order: the name is the key without the listing prefix (or the whole key), the size text reads back as the object's size, the time is the converted upload time and the URL is the key's signed URL |
| Qiniu.ArtifactRowsAreListedKeys | pkg/qiniu/client.go:155-174 | the artifact page succeeds or fails exactly when ListAll does, with the same error, and its rows name ListAll's keys without the build's prefix |
| Qiniu.AnswerBuildIdsDigits | pkg/qiniu/client.go:213-223 | every build id collected is a non-empty run of digits |
| Qiniu.ListSubDirsFromMarkers | pkg/qiniu/client.go:200-233 | the markers sent: first the one the loop starts with, then the marker of the last entry of each page read |
| Qiniu.ListSubDirsFromItems | pkg/qiniu/client.go:213-226 | the ids collected are those of the pages read, in order |
| Qiniu.ListSubDirsFrom | pkg/qiniu/client.go:200-233 | the loop of ListSubDirs from a given answer on, with the error count reset after each page: it sends one marker per request and reads no further than the answers; ListSubDirsFromMarkers, ListSubDirsFromItems, ListSubDirsFromTimeout and ListSubDirsFromDone state the markers, the ids and the outcome |
| Qiniu.ListSubDirsFromTimeout | pkg/qiniu/client.go:203-210 | the loop gives up only after nine failures in a row, with the last error in the message |
| Qiniu.ListSubDirsFromDone | pkg/qiniu/client.go:228-232 | the loop finishes at the first page after which no marker remains |
| Qiniu.ListSubDirs | pkg/qiniu/client.go:195-236 | from an empty marker: the markers sent, the digit-only ids of the pages read, a time-out only after nine failures in a row (the count resets after each page), and a finish only on a page leaving no marker |
| Qiniu.RetryLoop | pkg/qiniu/object.go:97-114 | a loop with tries left makes at least one call and at most as many as are left; every call but the last asked for a retry or failed; stopping early means the last call settled; the error is the last call's |
| Qiniu.RunWithRetry | pkg/qiniu/object.go:97-114 | at most maxTry invocations and at least one when maxTry > 0; the first settled one ends the loop; the error returned is that of the last invocation |
| Qiniu.AttemptOf | pkg/qiniu/object.go:76-87 | a transport error and a 404 fail the attempt and ask for a retry; a response settles exactly when it is neither a 404 nor a throttling status |
| Qiniu.Wrap64 | pkg/qiniu/object.go:71 | offset+length-1 wraps around as int64 arithmetic does, and is unchanged when it fits |
| Qiniu.RangeHeader | pkg/qiniu/object.go:65-72 | no Range header exactly when the length is 0, or negative with a negative offset; the header always starts "bytes=<offset>-" |
| Qiniu.Verb | pkg/qiniu/object.go:56-59 | HEAD exactly for length 0, GET otherwise |
| Qiniu.ParseByteRangeOf | pkg/qiniu/object.go:68-71 | a header "bytes=<a>-<b>" of digit strings reads back as their values |
| Qiniu.RangeHeaderParses | pkg/qiniu/object.go:65-72 | the header names exactly the bytes asked for: from the offset to the end for a negative length, and length bytes from the offset otherwise |
| Qiniu.ReadAttempts | pkg/qiniu/object.go:64-88 | between one and three requests; each before the last was unsettled; fewer than three means the last settled |
| Qiniu.NewRangeReader | pkg/qiniu/object.go:55-95 | the read fails exactly when the last of its at most three attempts failed, with that attempt's error; a returned reader comes with the verb and Range header for the request and a status that is not 404 from that last attempt |
| Qiniu.NewReaderRequest | pkg/qiniu/object.go:49-51 | NewReader asks for the whole object: a GET from byte 0 to the end with "bytes=0-" |
| Qiniu.MissingObjectFails | pkg/qiniu/object.go:82-85 | a 404 on every attempt fails the read with "qiniu storage: object not exists" |
| Qiniu.NotFoundThenFound | pkg/qiniu/object.go:63-113 | a 404 followed by an answer that is neither 404 nor throttled opens the reader on the second request, with that answer's status |
| Qiniu.LastErrorReported | pkg/qiniu/object.go:97-113 | after two transport errors a 404 is the error reported, not the earlier ones |
| Qiniu.ThrottledReadSucceeds | pkg/qiniu/object.go:87-113 | when every response is a throttling 571 or 573, the reader gives up after three requests but reports no error, handing back the third response |
| Qiniu.ReadObject | pkg/qiniu/client.go:81-89 | when no reader opens, the error is that of the last read attempt wrapped as "error getting qiniu artifact reader: …"; otherwise the result is what ioutil.ReadAll gives for the body of the response that opened the reader, its bytes or its read error unwrapped; so it fails exactly when the last attempt failed or that body cannot be read |
| Qiniu.ReadErrorPassedOn | pkg/qiniu/client.go:87-88 | a reader that opens on the first request but whose body cannot be read makes ReadObject fail with the read error itself, without the reader prefix |
| Qiniu.ToSlash | pkg/qiniu/tools.go:43-45 | every '\' becomes '/' and every other character stays, so no '\' remains |
| Qiniu.ToSlashIdempotent | pkg/qiniu/tools.go:43-45 | converting twice is converting once |
| Qiniu.Artifact | pkg/qiniu/tools.go:38-40 | the name followed by the platform's extension |
| Qiniu.ShellCommand | pkg/qiniu/tools.go:30-35 | the shell, its command option and one command string that starts with the name and is the name alone without arguments |
| Qiniu.ShellCommandSplits | pkg/qiniu/tools.go:30-35 | for a name and arguments free of spaces, splitting the command string on spaces gives them back |
| ServiceStore.FirstWithAddress | pkg/cover/store.go:280-285 | the first entry of the list carrying the address, and none exactly when no entry does |
| ServiceStore.Add | pkg/cover/store.go:276-294 | "service already registered" exactly when the name already has the address, and then the names and addresses stay as they were; otherwise the address is appended to the name's list with the current time; other names are untouched |
| ServiceStore.Get | pkg/cover/store.go:297-309 | nil exactly for an unknown name, otherwise the name's addresses in insertion order |
| ServiceStore.GetAfterAdd | pkg/cover/store.go:276-309 | after adding a new address, Get returns the old addresses followed by it; an already registered address, and any other name, leave Get unchanged |
| ServiceStore.AddTwice | pkg/cover/store.go:280-285 | the second of two identical adds reports "service already registered" and keeps one entry |
| ServiceStore.AddNoEmptyLists | pkg/cover/store.go:276-294 | adding keeps every name's list non-empty |
| ServiceStore.GetAll | pkg/cover/store.go:312-324 | the same names as the store, each with what Get returns for it |
| ServiceStore.Init | pkg/cover/store.go:328-334 | afterwards Get finds no name |
| ServiceStore.Remove | pkg/cover/store.go:347-374 | "no service found" exactly when no name has the address; afterwards no name has it and none is left empty, every other entry is kept, and no entry is added (the order of each list is stated by ServiceStore.RemoveKeepsOrder) |
| ServiceStore.RemoveKeepsOrder | pkg/cover/store.go:352-366 | each surviving list is what the inner append loop builds from the old list: the entries with another address, in their original order; a name stays exactly when such an entry exists |
| ServiceStore.RemoveTwice | pkg/cover/store.go:347-374 | removing the same address again finds nothing and changes nothing |
| ServiceStore.RemoveAbsent | pkg/cover/store.go:369-371 | removing an address no list has reports "no service found" and leaves the store as it was |
| ServiceStore.Evict | pkg/cover/store.go:383-406 | it reports removal exactly when some entry has timed out; afterwards no entry is timed out, none is left empty, every live entry is kept and none is added (the order of each list is stated by ServiceStore.EvictKeepsOrder) |
| ServiceStore.EvictKeepsOrder | pkg/cover/store.go:388-403 | each surviving list is what the inner append loop builds from the old list: the live entries, in their original order; a name stays exactly when it has a live entry |
| ServiceStore.EvictTwice | pkg/cover/store.go:383-406 | evicting again at the same time removes nothing |
| ServiceStore.LoadLine | pkg/cover/store.go:194-212 | a line loads exactly when it has three non-empty '&' fields and the third parses as a time; the record is the name, the address and that time |
| ServiceStore.Group | pkg/cover/store.go:206-211 | the names loaded are exactly those of the records, each with its records' addresses in file order |
| ServiceStore.AddrsOfSave | pkg/cover/store.go:231-235 | save writes for each name exactly its list, in order, whatever the map order |
| ServiceStore.SaveNames | pkg/cover/store.go:231-235 | the names written are exactly the names with entries |
| ServiceStore.SaveRecordsFrom | pkg/cover/store.go:231-235 | every record written is an entry of the store |
| ServiceStore.LineRoundTrip | pkg/cover/store.go:194-212 | a "name&address&time" line of '&'-free fields loads back as its record |
| ServiceStore.SaveLoadsRecords | pkg/cover/store.go:224-243 | the lines save writes load back as the entries it visited, in order |
| ServiceStore.GroupSave | pkg/cover/store.go:181-243 | grouping what save visits rebuilds a store without empty lists |
| ServiceStore.LoadSave | pkg/cover/store.go:181-243 | loading what save wrote gives back the store, whatever order save ranged in, when no field holds '&' or a line break |
| ServiceStore.Load | pkg/cover/store.go:181-221 | the loaded lines grouped by name in file order; ServiceStore.LoadLine states which lines load, ServiceStore.GroupSave and ServiceStore.LoadSave that loading what save wrote rebuilds the store |
| ServiceStore.SaveText | pkg/cover/store.go:224-243 | one line per entry, each ended by a line break; ServiceStore.SaveLoadsRecords and ServiceStore.LoadSave state that the lines load back as the visited entries and that the whole store is recovered |
| KvFileStore.KeyOf | pkg/server/store/filestore.go:41-43 | the key is the part of the line before its first space, the whole line when it has none |
| KvFileStore.ValueOf | pkg/server/store/filestore.go:41-44 | for a line with a space, key, one space and value make up the line again |
| KvFileStore.EntryReadsBack | pkg/server/store/filestore.go:79 | an entry "key value" with a space-free key reads back as that key and value |
| KvFileStore.KeyIndex | pkg/server/store/filestore.go:39-49 | a read stops at the first line that lacks a space or holds the key, every line before it being well split with another key |
| KvFileStore.GetLines | pkg/server/store/filestore.go:28-56 | the first line with the key answers with its value; a line without a space reached first faults (the items[1] index); "no key found" when the scan ends |
| KvFileStore.GetNoKey | pkg/server/store/filestore.go:28-56 | "no key found" exactly when every line is well split and none holds the key |
| KvFileStore.SetLines | pkg/server/store/filestore.go:58-103 | every line with the key becomes "key value" and all others stay; the entry is appended exactly when no line had the key |
| KvFileStore.RemoveLines | pkg/server/store/filestore.go:105-143 | the lines with exactly that key go and every other line stays |
| KvFileStore.MatchingValues | pkg/server/store/filestore.go:157-167 | the values of every line whose key starts with the pattern are collected, and nothing when none does |
| KvFileStore.MatchingValuesIsFilter | pkg/server/store/filestore.go:157-167 | the collected values are exactly the value parts of the lines kept by the filter "key starts with the pattern", in file order |
| KvFileStore.RangeLines | pkg/server/store/filestore.go:145-178 | a line without a space anywhere faults; "no key found" exactly when every line is well split and no key starts with the pattern; a success returns the values of the matching lines in file order, at least one |
| KvFileStore.RangeRemoveLines | pkg/server/store/filestore.go:180-218 | the lines whose key starts with the pattern go and every other line stays |
| KvFileStore.RemoveIsFilter | pkg/server/store/filestore.go:117-128 | Remove is the order-preserving filter on "key differs" |
| KvFileStore.RangeRemoveIsFilter | pkg/server/store/filestore.go:192-203 | RangeRemove is the order-preserving filter on "key does not start with the pattern" |
| KvFileStore.GetAfterSetLines | pkg/server/store/filestore.go:28-103 | reading a space-free key just set returns the value set |
| KvFileStore.GetOtherKeyLines | pkg/server/store/filestore.go:28-103 | setting one key leaves what a read of any other key finds unchanged |
| KvFileStore.GetAfterRemoveLines | pkg/server/store/filestore.go:28-143 | after removing a key, a read of it finds "no key found" |
| KvFileStore.RangeAfterRangeRemoveLines | pkg/server/store/filestore.go:145-218 | after removing a prefix, no key under it can be read and a range read under it finds nothing |
| KvFileStore.SetFile | pkg/server/store/filestore.go:58-103 | on the file text, Set rewrites the scanned lines as SetLines does, keeps the file well formed, and the key reads back as the value |
| KvFileStore.SetLinesPlain | pkg/server/store/filestore.go:72-92 | setting a one-line entry keeps every line a single well-split line |
| KvFileStore.RemoveFile | pkg/server/store/filestore.go:105-143 | Remove keeps the file well formed and leaves nothing to read under the key |
| KvFileStore.RangeRemoveFile | pkg/server/store/filestore.go:180-218 | RangeRemove keeps the file well formed and leaves nothing under the prefix |
| KvFileStore.RemoveKeepsNoKey | pkg/server/store/filestore.go:105-143 | removing one key never makes another absent key readable |
| KvFileStore.GetValue | pkg/server/store/filestore.go:28-56 | on the file text, "no key found" exactly when every scanned line is well split and none holds the key; the first line that holds the key or lacks a space decides: its value when it is well split, the index fault otherwise; a found value completes a line "key value" of the file |
| KvFileStore.Set | pkg/server/store/filestore.go:58-103 | for a well-formed file and a one-line entry with a space-free key, the written file scans back as the rewritten lines, stays well formed, and the key reads back as the value |
| KvFileStore.RemoveKey | pkg/server/store/filestore.go:105-143 | a well-formed file is written back without the key's lines, stays well formed, and the key reads as "no key found" |
| KvFileStore.RangeValues | pkg/server/store/filestore.go:145-178 | on the file text, a fault exactly when a scanned line has no space, "no key found" exactly when no well-split key starts with the pattern, and otherwise the matching lines' values in file order |
| KvFileStore.RangeRemove | pkg/server/store/filestore.go:180-218 | a well-formed file is written back without the lines under the prefix, stays well formed, and a range read under the prefix finds nothing |
| Keyed.LexTransitive | pkg/cover/cover.go:523-527 | Go's `<` on file names is a strict order: transitive (with LexIrreflexive, LexAsymmetric and LexTotal) |
| Keyed.LexTotal | pkg/cover/cover.go:523-527 | of two different names one is less than the other |
| Keyed.SortBy | pkg/cover/cover.go:523-527 | sort.SliceStable yields a permutation of the list |
| Keyed.SortBySorted | pkg/cover/cover.go:523-527 | the sorted list never decreases in its key |
| Keyed.SortByStable | pkg/cover/delta.go:117-121 | the elements with any one key keep their relative order |
| Keyed.MapBy | pkg/cover/delta.go:108-114 | every element's key is in the map, and each key maps to the last element with that key |
| AgentServer.Connect | pkg/server/rpcstream.go:61-62 | opening a stream clears DISCONNECT, sets its own bit and leaves the other stream's bit as it was |
| AgentServer.Disconnect | pkg/server/rpcstream.go:87-91 | closing a stream clears its bit; a status left at zero becomes DISCONNECT, any other is kept, so the result is never zero |
| AgentServer.Step | pkg/server/rpcstream.go:61-91 | an up event sets its stream's bit and clears DISCONNECT, a down event clears its stream's bit, and the other stream's bit is kept |
| AgentServer.Run | pkg/server/watchstream.go:50-77 | any sequence of stream events keeps a reachable status reachable |
| AgentServer.StepReachable | pkg/server/watchstream.go:50-77 | a stream event keeps the status one of the four reachable ones; an open never yields DISCONNECT; a close yields the other stream's bit or DISCONNECT |
| AgentServer.RunReachable | pkg/server/server.go:52-56 | the status bits stay one of the four reachable combinations under every sequence of opens and closes |
| AgentServer.AgentKey | pkg/server/server.go:205 | an agent's store key is "/goc/agents/" followed by exactly its id |
| AgentServer.NextId | pkg/server/server.go:151-153 | `idCount++` on an int64 stays in range and adds one below the maximum |
| AgentServer.Register | pkg/server/server.go:137-197 | registration fails with "missing some params" exactly when hostname, pid or cmdline is empty; otherwise the new DISCONNECT agent is kept under the new counter's decimal id whether or not saving succeeded |
| AgentServer.Save | pkg/server/server.go:199-206 | an encoding failure leaves the store as it was; an encoded agent with a space-free id, written into a well-formed store, keeps it well formed and reads back under its key |
| AgentServer.RegisterFresh | pkg/server/server.go:151-189 | below the int64 limit a registration issues an id not yet registered, the registry keeps its ids at or below the counter and every status reachable |
| AgentServer.SaveReadsBack | pkg/server/server.go:199-206 | a saved one-line value under a space-free id reads back from the store, which stays well formed |
| AgentServer.RegisterSaved | pkg/server/server.go:180-189 | a registered agent whose encoding fits on one line can be read back from the store under its key |
| AgentServer.RegisterValue | pkg/server/server.go:151-189 | a successful registration, spelled out: the counter plus one as id, the token given, DISCONNECT, no remote IPs |
| AgentServer.Admit | pkg/server/rpcstream.go:37-56 | a stream is admitted exactly when the id is registered with that token; an unknown id gives "agent not registered" |
| AgentServer.OpenRpcStream | pkg/server/rpcstream.go:34-62 | an admitted rpc stream changes only its agent: remote IP recorded and RPCCONNECT set; a refused one reports the admission error |
| AgentServer.OpenWatchStream | pkg/server/watchstream.go:26-53 | an admitted watch stream changes only its agent: remote IP recorded and WATCHCONNECT set; a refused one reports the admission error |
| AgentServer.CloseStream | pkg/server/watchstream.go:72-77 | the deferred clean-up changes only that agent's status, and as Disconnect says |
| AgentServer.StreamsKeepReachable | pkg/server/rpcstream.go:58-97 | opening either stream and closing one keep every registered agent's status reachable |
| AgentServer.Reset | pkg/server/server.go:243-245 | a restored agent has no remote IPs and is DISCONNECT, and keeps id, token, hostname and extra |
| AgentServer.RestoreEach | pkg/server/server.go:225-246 | a restore that succeeds has decoded every stored value and registered exactly the earlier agents plus the decoded ids, each id holding the reset form of the last stored value with that id; a failure means some value does not decode or has an id that is not a number |
| AgentServer.AtoiError | pkg/server/server.go:232-235 | the text log.Fatalf exits with when an id does not convert: "fail to transform id to number: " followed by strconv.Atoi's error for the id; AgentServer.RestoreEach returns it as its error for a non-numeric id |
| AgentServer.LastWithIdIsLast | pkg/server/server.go:228-241 | the reference for "a later agent replaces an earlier one": a value is found exactly when some stored value decodes with the id, and no later value has that id |
| AgentServer.RestoreEachShape | pkg/server/server.go:225-246 | the loop ends with reset agents under numeric ids and the counter the largest of them or zero |
| AgentServer.RestoreStep | pkg/server/server.go:236-245 | one restored agent keeps the gathered agents reset, keyed by id and bounded by the maximum |
| AgentServer.RestoreAgents | pkg/server/server.go:218-250 | a restore keeps the store, every agent reset under a numeric id not above the counter, and the counter is zero or some restored id; nothing stored gives an empty registry, a stored line without a space gives the index panic, and otherwise the restore succeeds exactly when the decoding loop does, with exactly the decoded ids, each agent the reset form of the last stored value with its id, and passes on the loop's error |
| AgentServer.RestoreEachSucceeds | pkg/server/server.go:228-246 | stored values that all decode to agents with numeric ids restore without error |
| AgentServer.RestoreDecodable | pkg/server/server.go:218-250 | a store whose agent values all decode with numeric ids restores exactly those ids |
| AgentServer.RestoreLaterWins | pkg/server/server.go:238-241 | of several stored values with the same id, the last one is restored, reset |
| AgentServer.RestoreAfterClear | pkg/server/server.go:213-216 | after removing every agent key no agent can be read and a restore yields an empty registry with counter zero |
| AgentServer.IdQuerySelects | pkg/server/api.go:342-367 | a non-blank comma-separated query selects exactly the listed ids |
| AgentServer.BlankQuerySelectsAll | pkg/server/api.go:344-356 | a blank or all-space query selects every id |
| AgentServer.SkipPatterns | pkg/server/api.go:104-108 | "" gives no patterns, anything else the comma-separated pieces, none holding a comma |
| AgentServer.SkipPatternsRoundTrip | pkg/server/api.go:104-108 | comma-free patterns joined with commas split back into the same patterns |
| AgentServer.FilterProfileByPattern | pkg/server/api.go:318-340 | no patterns return the input; otherwise exactly the profiles whose file name contains none of the patterns |
| AgentServer.FilterProfileByPatternIdempotent | pkg/server/api.go:318-340 | filtering twice by the same patterns is filtering once |
| AgentServer.EmptyPatternSkipsAll | pkg/server/api.go:326-332 | an empty pattern, as "a,,b" produces, skips every profile |
| AgentServer.ListAgents | pkg/server/api.go:32-55 | every listed agent is registered under a selected id, and every agent under a selected id is listed |
| AgentServer.ListAgentsDistinct | pkg/server/api.go:38-50 | with each agent stored under its own id, no agent is listed twice |
| AgentServer.ProfileTargets | pkg/server/api.go:118-134 | the agents selected for a profile request are exactly the listed agents whose extra the expression matches |
| AgentServer.RemoveOne | pkg/server/api.go:62-86 | one turn removes the agent exactly when it is selected and its store removal succeeds, adds an error exactly when that removal fails, and keeps everything else |
| AgentServer.RemoveEach | pkg/server/api.go:62-86 | the loop keeps an agent exactly when it is unvisited, unselected or its store removal failed; the error text is empty exactly when no selected removal failed |
| AgentServer.RemoveAgents | pkg/server/api.go:57-95 | the call succeeds exactly when no selected removal fails, and then exactly the unselected agents remain, unchanged |
| AgentServer.RemoveEachStore | pkg/server/server.go:208-211 | every agent removed is gone from the store as well, which stays well formed |
| AgentServer.RemoveKeepsAbsent | pkg/server/server.go:208-211 | removals never make an absent store key present |
| InjectPlan.DepStep | pkg/cover/inject.go:38-53 | a dependency is seen afterwards exactly when it was seen or belongs to the project, and is annotated exactly when it was not seen and belongs to the project |
| InjectPlan.DepsLoop | pkg/build/inject.go:49-65 | the loop sees exactly the seen packages plus the visited dependencies that belong to the project, and only appends to the cover list and to the annotated list |
| InjectPlan.Inject | pkg/build/inject.go:28-86 | every package seen belongs to the project, and every planned agent is for a main package, at most one per visited package |
| InjectPlan.DepsLoopInv | pkg/build/inject.go:49-65 | the dependency loop keeps the annotated dependencies exactly the seen ones, each once, and sees every project dependency it visits |
| InjectPlan.InjectAnnotatesOnce | pkg/build/inject.go:28-86 | over a whole run every project dependency of a main package is annotated, and none twice |
| InjectPlan.InjectMains | pkg/cover/inject.go:16-69 | exactly the main packages get an agent, one each in visiting order, and each one's covers start with its own |
| InjectPlan.InjectLast | pkg/build/inject.go:37-73 | visiting one more package adds a plan entry exactly when it is a main package, and only for it |
| InjectPlan.InjectMainKeys | pkg/build/inject.go:37-38 | the planned mains are the main packages' keys in visiting order |
| InjectPlan.InjectCoversHead | pkg/build/inject.go:41-46 | every main's cover list is non-empty and starts with the main itself |
| InjectPlan.DepsLoopCovers | pkg/build/inject.go:49-65 | the dependency loop only appends to the cover list |
| InjectPlan.AppendSeenCovers | pkg/build/inject.go:49-65 | in pkg/build a main's covers after its own are all its project dependencies in order, whether seen before or not |
| InjectPlan.SkipSeenDepsLoop | pkg/cover/inject.go:38-53 | in pkg/cover the loop appends the same packages to the covers and to the annotated list |
| InjectPlan.SkipSeenCovers | pkg/cover/inject.go:16-57 | in pkg/cover the dependency covers of all mains together are the annotated packages, so no package serves two mains |
| InjectPlan.AgentMode | pkg/build/inject.go:186-191 | watch mode is written into the rpc agent as "cover"; every other mode is written as itself |
| InjectPlan.AgentFilesFor | pkg/build/inject.go:150-214 | the agent dir and the bridge file are elements of the main package's dir, the bridge imports the agent dir's element under the main's import path, rpcagent.go sits in the agent dir with the AgentMode mode, and watchagent.go sits there exactly in watch mode |
| InjectPlan.BuildInjectAgent | pkg/build/inject.go:141-232 | pkg/build writes nothing exactly when there is no cover or the main has no cover variables, and otherwise the agent layout for the first cover's package |
| InjectPlan.CoverInjectAgent | pkg/cover/inject.go:124-207 | pkg/cover always writes the agent layout for the first cover's package, so it needs one |
| InjectPlan.InjectAgentsAgree | pkg/build/inject.go:141-148 | when the main package has cover variables, pkg/build and pkg/cover write the same agent files |
| InjectPlan.InjectAgentsDiverge | pkg/cover/inject.go:124-131 | for a main package without cover variables pkg/build writes nothing, while pkg/cover still writes a full agent |
| InjectPlan.Rebase | pkg/build/inject.go:119-126 | the package directory is moved from the project directory onto the temporary one, keeping its relative part |
| InjectPlan.RebaseInverse | pkg/build/inject.go:119-126 | rebasing back onto the original project directory gives the package directory again |
| EditorClient.GetGoList | tools/vscode-ext/src/gocserver.ts:71-90 | no workspace or a failed spawn give no packages; otherwise the repaired listing is parsed, and a parse failure throws |
| EditorClient.RepairedListing | tools/vscode-ext/src/gocserver.ts:88 | for one or more objects as the go command prints them, the repaired text is a JSON array of exactly those objects, comma-separated |
| EditorClient.RepairObjects | tools/vscode-ext/src/gocserver.ts:88 | the replacement turns every break between two objects into a comma and touches nothing inside an object |
| EditorClient.RepairListing | tools/vscode-ext/src/gocserver.ts:88 | brackets around the output with every "}\n{" seam made a comma; EditorClient.RepairedListing and EditorClient.RepairObjects state that the result is a JSON array of exactly the printed objects |
| EditorClient.ReplaceSkipsPrefix | tools/vscode-ext/src/gocserver.ts:88 | a global replace leaves a prefix in which the pattern never starts as it is |
| EditorClient.NoBreakInside | tools/vscode-ext/src/gocserver.ts:88 | an object's text holds no "}\n{" except where its closing brace starts one |
| EditorClient.ClearAll | tools/vscode-ext/src/gocserver.ts:47-51 | every visible editor ends with no highlights, editors not visible keep theirs, and no other editor is touched |
| EditorClient.TriggerUpdate | tools/vscode-ext/src/gocserver.ts:154-169 | nothing changes without an active editor; no ranges clear every visible editor; otherwise only the active editor's highlights are replaced |
| EditorClient.PickInFirst | tools/vscode-ext/src/gocserver.ts:99-106 | the file picked in a package is its first GoFile whose joined path is the active file, and none picked means none matches |
| EditorClient.PickFileFirst | tools/vscode-ext/src/gocserver.ts:92-109 | the file rendered is that of the first (package, GoFile) pair matching the active file, under the package's import path joined with the file |
| EditorClient.PickFile | tools/vscode-ext/src/gocserver.ts:92-109 | a file is picked only when there is an active editor, a thrown error means the search reached a package without GoFiles, and with an active editor and GoFiles in every package nothing is thrown |
| EditorClient.RenderFile | tools/vscode-ext/src/gocserver.ts:92-109 | when no file is picked the highlights stay as they were, and any change needs an active editor |
| EditorClient.RenderTouchesOnlyActive | tools/vscode-ext/src/gocserver.ts:100-106 | a render leaves the highlights as they were, clears the visible editors, or replaces only the active editor's |
| EditorClient.Start | tools/vscode-ext/src/gocserver.ts:21-22 | starting sets the flag, adds one sleeping loop for the given packages and keeps the last profile and the highlights |
| EditorClient.Stop | tools/vscode-ext/src/gocserver.ts:41-45 | stopping clears the flag and every visible editor and keeps the last profile and the loops |
| EditorClient.ChangeWindow | tools/vscode-ext/src/gocserver.ts:93 | a change of windows changes neither the highlights nor the last profile |
| EditorClient.Wake | tools/vscode-ext/src/gocserver.ts:22-32 | a loop waking with the flag cleared ends and leaves every visible editor cleared; with the flag set it only starts waiting for the profile, changing neither the highlights nor the last profile |
| EditorClient.Continue | tools/vscode-ext/src/gocserver.ts:22 | the `while` check after a round ends the loop when the flag is cleared and otherwise puts it back to sleep, changing neither the highlights nor the last profile |
| EditorClient.Fetched | tools/vscode-ext/src/gocserver.ts:22-37 | when the request returns the flag is not consulted before the render: the last profile changes nothing; a changed profile is recorded, and the highlights become the render's, or stay as they were and the loop ends when the render throws; after that a cleared flag ends the loop without clearing anything, and a set one puts it back to sleep |
| EditorClient.RoundUnchanged | tools/vscode-ext/src/gocserver.ts:33-35 | a wake followed by a request that returns the last profile leaves the client exactly as it was |
| EditorClient.Round | tools/vscode-ext/src/gocserver.ts:22-37 | one wake and the request's return while the flag stays set leave the flag set; EditorClient.RoundUnchanged and EditorClient.RoundChanged state what the round does to the profile, the highlights and the loops |
| EditorClient.RoundChanged | tools/vscode-ext/src/gocserver.ts:36-37 | a changed profile is recorded whatever the render does, and at most the one loop ends |
| EditorClient.SecondFetchIsIdle | tools/vscode-ext/src/gocserver.ts:32-37 | after one request has rendered a profile, another request returning the same profile changes neither the highlights nor the last profile |
| EditorClient.WakeAfterStop | tools/vscode-ext/src/gocserver.ts:23-29 | after a stop a sleeping loop that wakes ends and leaves the visible editors cleared and the last profile kept |
| EditorClient.StopDuringFetchKeepsRender | tools/vscode-ext/src/gocserver.ts:22-37 | a stop arriving while a request is out does not prevent that request's render: the changed profile is recorded, the render's highlights replace the cleared ones, and the loop ends without clearing them |
| EditorClient.StopDuringFetchExample | tools/vscode-ext/src/gocserver.ts:22-45 | one concrete case: the stop clears the active editor, the late render highlights one block of its file again, and no loop remains |
| EditorClient.RestartKeepsLastProfile | tools/vscode-ext/src/gocserver.ts:17-45 | stop then start keeps the last profile, so the new loop's first round on an unchanged profile changes nothing |
| EditorProfile.DigitRun | tools/vscode-ext/src/gocserver.ts:129 | `\d+` consumes the longest run of digits at the start of the text |
| EditorProfile.DigitsThenDigits | tools/vscode-ext/src/gocserver.ts:129 | a digit group followed by its separator is captured whole, with the rest of the text after it |
| EditorProfile.DigitRunOf | tools/vscode-ext/src/gocserver.ts:129 | a run of digits followed by a non-digit is consumed exactly |
| EditorProfile.MatchAt | tools/vscode-ext/src/gocserver.ts:129 | a match of the expression captures six non-empty digit groups |
| EditorProfile.Exec | tools/vscode-ext/src/gocserver.ts:129-130 | exec's match, when there is one, captures six non-empty digit groups |
| EditorProfile.ExecLeftmost | tools/vscode-ext/src/gocserver.ts:129-130 | exec returns the match at the leftmost position where the expression matches, and none exactly when no position matches |
| EditorProfile.MkRange | tools/vscode-ext/src/gocserver.ts:143-146 | a Range has the two positions given as its ends, the earlier one first |
| EditorProfile.MkPosition | tools/vscode-ext/src/gocserver.ts:144-145 | a Position exists exactly when both coordinates are non-negative |
| EditorProfile.ParseProfile | tools/vscode-ext/src/gocserver.ts:111-116 | a profile without a line break yields no ranges |
| EditorProfile.ParseLine | tools/vscode-ext/src/gocserver.ts:121-130 | a line whose text before the first ':' is another file adds nothing, a line that is the target's name alone throws (no block text to match), and a range added has its earlier end first |
| EditorProfile.ReadMatch | tools/vscode-ext/src/gocserver.ts:131-146 | count "0" adds nothing; otherwise a zero coordinate throws, and the range added has as its ends the four captured numbers each less one |
| EditorProfile.ParseLines | tools/vscode-ext/src/gocserver.ts:119-151 | the parse throws exactly when some line throws; otherwise there are at most as many ranges as lines, each with its earlier end first |
| EditorProfile.ReadBlockMatch | tools/vscode-ext/src/gocserver.ts:131-148 | a block's captured numbers give nothing for count 0, the zero-based range for positive coordinates, and a throw for a zero coordinate |
| EditorProfile.MatchBlockInfo | tools/vscode-ext/src/gocserver.ts:129-130 | the expression matches the block text the agent writes after "name:" and captures its six numbers |
| EditorProfile.SplitBlockLine | tools/vscode-ext/src/gocserver.ts:122-123 | splitting an agent's block line at ':' gives the file name and the block text |
| EditorProfile.ParseAgentInfo | tools/vscode-ext/src/gocserver.ts:129-148 | the block text the agent writes reads back as nothing for count 0 and as the block's range otherwise |
| EditorProfile.ParseBlockLine | tools/vscode-ext/src/gocserver.ts:120-148 | a line of another file, or an uncovered block, adds nothing; a covered block of the target adds its range |
| EditorProfile.ParseBlockLines | tools/vscode-ext/src/gocserver.ts:120-151 | the agent's block lines read back as the ranges of the covered blocks of the target, in order |
| EditorProfile.ParseAgentProfile | tools/vscode-ext/src/gocserver.ts:111-152 | the editor highlights exactly the covered blocks of the file, in profile order, as zero-based ranges of the profile the agent writes |
| EditorProfile.HeaderSkipped | tools/vscode-ext/src/gocserver.ts:122-127 | the "mode:" header line is read as a line of the file "mode" and skipped |
| EditorProfile.ZeroCoordinateThrows | tools/vscode-ext/src/gocserver.ts:143-146 | a covered block of the target with a zero coordinate makes the parse throw |
| EditorProfile.UnmatchedTargetLineThrows | tools/vscode-ext/src/gocserver.ts:129-131 | a line of the target whose block text the expression does not match makes the parse throw |
| Decimal.ParseIntToString | pkg/server/server.go:168-237 | an id written with strconv.Itoa is read back by strconv.Atoi as the same number, for every int64 |
| Decimal.ParseInt | pkg/server/server.go:232-235 | strconv.Atoi succeeds only within int64, clamps a range error to a bound and rejects the empty text |
| Text.ScanRender | pkg/server/store/filestore.go:38-40 | lines written one per '\n' are scanned back as the same lines |
| Text.SplitJoin | pkg/server/api.go:104-108 | splitting the comma-join of comma-free pieces gives back the pieces |
| Text.JoinSplit | pkg/server/api.go:104-108 | joining the pieces of a split gives back the text |

## Left out

- Transport: HTTP routing, request parsing and JSON responses, websockets and ping/pong, the axios fetch and the `pkg/client/rest` clients. Only the decisions these handlers take are modelled; what the network answers is a parameter.
- Concurrency: goroutines, `sync.Map`, mutexes, once-closers, the ticker that evicts services, `watchLoop`, `watchProfileUpdate`, and the parallel rpc fan-out of `getProfiles` and `resetProfiles`. The model only selects the agents those calls go to (`AgentServer.ProfileTargets`).
- Floating point: the values of `Ratio`, `TotalRatio`, `Delta`, `TotalDelta` and `PercentStr`. Ratios are kept as numerator and denominator, and the printed delta is a parameter; their error conditions are modelled.
- Foreign libraries are parameters: sha256, `regexp` (the `extra` filter and the cover server's patterns), `url.Parse`, `net.SplitHostPort`, JSON, `strconv.ParseBool`, time formatting and parsing, URL signing, `filepath.Abs`/`Rel`/`IsAbs`, `os.Getwd` and `os.Stat`. Profile merging (`cov.MergeMultipleProfiles`), `tool.Annotate` and template rendering are not part of this model.
- `path.Clean`: path joins are modelled for operands that are already clean (no "." or ".." element, no doubled or trailing '/').
- File and process I/O: opening, truncating and writing files, scanner errors, `go list`, `go build` and `go install` runs, directory copies, tar extraction and the `go.mod` rewrite. Files are modelled by their contents.
- The cover server's `fileStore` wraps each `memoryStore` operation with a save, or with a file removal for `Init`. It is modelled as the memory operation plus `ServiceStore.SaveText`/`Load`. The handlers `clear`, `removeServices`, `initSystem` and the profile handler of `pkg/cover/server.go` are plumbing around the modelled selections and are left out.
- `CreateChangedProfile` in `pkg/qiniu/qnPresubmit.go:129-139` calls `log.Fatalf` when the changed-profile name is empty or the file cannot be created, so the real program never hands `writeLine` a nil file. `ProwJob.WriteChangedCov` keeps `writeLine`'s nil-file guard (`pkg/prow/job.go:193-197`) as its `created` parameter, and the fatal exits are not modelled.
- CliFlags.SimpleCmdLine: Go's `len` and slicing count bytes, while the model counts characters, so a command line with non-ASCII text is cut at a different place than the model's.
- CliFlags.Shown: the room for the command is computed from character counts, not the byte counts Go's `len` gives.
- CliFlags.PreLen: the id and address lengths are character counts, not the byte counts Go's `len` gives.
- BuildEnv.DetermineOutputDir: the `log.Fatalf` exits when `os.Getwd` or `filepath.Abs` fails (`pkg/build/build.go:82-98`) are not modelled; the working directory and `abs` are parameters that always answer.
- ProwJob.SetDeltaCovLinks: the source signs the report URL afresh for each row with the current time (`pkg/prow/job.go:210-213`); the model uses one signed URL for every row, because the clock and the signing are parameters.
- AgentCover.CoverageHandler: the ratio is returned as its numerator and denominator; the float division and the `%f` formatting of the reply are not modelled.
- Logging, the terminal spinner and terminal width queries. The width is a parameter of `CliFlags.SimpleCmdLine`.
- Bucket listings: the answers of the bucket are a finite sequence. A listing that would ask for more answers than the sequence holds ends as `Pending`, standing for the rest of the loop.
- Random tokens and the wall clock are parameters of `AgentServer.Register`, `ServiceStore` and the retry loops; the sleeps between retries are left out.
- `AgentServer.AtoiError`: strconv's quoting of the offending text is not reproduced.
- EditorProfile.ParseProfile: its contract only states the single-line case; the full reading is proved for the profiles the agent writes (`EditorProfile.ParseAgentProfile`), and for a non-matching line (`EditorProfile.UnmatchedTargetLineThrows`), not for every text.
- EditorClient.RenderFile: its contract states when nothing changes and that a change needs an active editor; what changes is stated by `EditorClient.RenderTouchesOnlyActive` and `EditorClient.TriggerUpdate`.
- AgentServer.ProfileTargets: the `extra` regular expression is a parameter, so the selection is proved for any matcher, not for Go's `regexp` semantics.
- CoverList.GroupAll: statement counts are summed as unbounded integers; Go's `int` (64 bits on the platforms goc targets) would wrap past 2^63 - 1 in `pkg/cover/cover.go:504-506`, which no real profile reaches.
- CoverList.TotalRatio: the package totals are likewise unbounded sums, without the 64-bit wrap-around of `pkg/cover/cover.go:542-543`.
- EditorClient.Fetched: the profile request and its 3-second time-out are not modelled; what it returns is a parameter, the empty text standing for a request that fails or times out, as in `getLatestProfile`.
- Text.ScanRender: `bufio.Scanner` is modelled without its 64 KiB token limit, so over-long lines do not fail.
- Documentation site, the extension's activation code, sample programs and end-to-end tests.

## Findings

| source | as written | input that shows it | evidently intended | confidence | as-written member | corrected member |
|---|---|---|---|---|---|---|
| pkg/build/tmpfolder.go:53-66 | the fallback to the original GOPATH only fires when NewGOPATH is still empty, but by then every non-module project has NewGOPATH set to TmpDir or TmpDir:OriGOPATH, so the fallback never changes anything | IsMod false, Root "", GOPATH "/go", TmpDir "/tmp/goc-build-0": NewGOPATH is "/tmp/goc-build-0:/go", not "/go" | a non-module project without a root (one outside any GOPATH, the case the comment at line 60 names) builds with the original GOPATH | low, not executed | BuildEnv.NewGopathFallbackInert, BuildEnv.NewGopathRootlessExample | BuildEnv.NewGopathIntended |

=== FILE: agent_cover.dfy ===
/**
 * The coverage bookkeeping of the agent that goc compiles into the
 * instrumented program: registering a file's counters and packed block
 * positions, zeroing counters, and the two HTTP handlers that report the
 * covered fraction and the full profile.
 */
module AgentCover {
  import opened Wrappers
  import opened Sums
  import opened ProfileFormat

  /** testing.CoverBlock: a block's position and statement count. */
  datatype CoverBlock = CoverBlock(line0: nat, col0: nat, line1: nat, col1: nat, stmts: nat)

  /** The two maps the agent keeps, keyed by file name. */
  datatype Tables = Tables(counters: map<string, seq<nat>>, blocks: map<string, seq<CoverBlock>>)

  /** Both maps have the same files, and every file one block per counter. */
  predicate Consistent(t: Tables)
  {
    t.counters.Keys == t.blocks.Keys
    && forall f :: f in t.counters ==> |t.counters[f]| == |t.blocks[f]|
  }

  const Empty := Tables(map[], map[])

  /** The low and high 16 bits of a packed column word, each as a uint16. */
  function Lo16(x: nat): nat { x % U16Limit }
  function Hi16(x: nat): nat { (x / U16Limit) % U16Limit }

  /** How the cover tool packs the two columns of a block into one word. */
  function PackCols(col0: nat, col1: nat): nat { col0 + col1 * U16Limit }

  /** Block i is read from pos[3i], pos[3i+1] and the packed pos[3i+2]. */
  function DecodeBlocks(pos: seq<nat>, numStmts: seq<nat>): (r: seq<CoverBlock>)
    requires |pos| == 3 * |numStmts|
    ensures |r| == |numStmts|
    ensures forall i :: 0 <= i < |r| ==>
              r[i] == CoverBlock(pos[3 * i], Lo16(pos[3 * i + 2]), pos[3 * i + 1], Hi16(pos[3 * i + 2]), numStmts[i])
  {
    seq(|numStmts|, i requires 0 <= i < |numStmts| =>
      CoverBlock(pos[3 * i], Lo16(pos[3 * i + 2]), pos[3 * i + 1], Hi16(pos[3 * i + 2]), numStmts[i]))
  }

  /** The position array the cover tool emits for a list of blocks. */
  function EncodePositions(blocks: seq<CoverBlock>): (pos: seq<nat>)
    ensures |pos| == 3 * |blocks|
  {
    if |blocks| == 0 then []
    else [blocks[0].line0, blocks[0].line1, PackCols(blocks[0].col0, blocks[0].col1)]
         + EncodePositions(blocks[1..])
  }

  function StmtCounts(blocks: seq<CoverBlock>): (r: seq<nat>)
    ensures |r| == |blocks| && forall i :: 0 <= i < |r| ==> r[i] == blocks[i].stmts
  {
    if |blocks| == 0 then [] else [blocks[0].stmts] + StmtCounts(blocks[1..])
  }

  /** Decoding what the cover tool encoded gives back the blocks, for 16-bit columns. */
  lemma DecodeEncode(blocks: seq<CoverBlock>)
    requires forall i :: 0 <= i < |blocks| ==> blocks[i].col0 < U16Limit && blocks[i].col1 < U16Limit
    ensures DecodeBlocks(EncodePositions(blocks), StmtCounts(blocks)) == blocks
  {
    var r := DecodeBlocks(EncodePositions(blocks), StmtCounts(blocks));
    forall i | 0 <= i < |blocks| ensures r[i] == blocks[i] {
      EncodeAt(blocks, i);
      PackUnpack(blocks[i].col0, blocks[i].col1);
    }
  }

  /** Two 16-bit columns come back out of their packed word. */
  lemma PackUnpack(col0: nat, col1: nat)
    requires col0 < U16Limit && col1 < U16Limit
    ensures Lo16(PackCols(col0, col1)) == col0 && Hi16(PackCols(col0, col1)) == col1
  {
    assert PackCols(col0, col1) / U16Limit == col1;
  }

  /** Block i of the encoding sits at positions 3i, 3i+1 and 3i+2. */
  lemma {:induction false} EncodeAt(blocks: seq<CoverBlock>, i: nat)
    requires i < |blocks|
    ensures EncodePositions(blocks)[3 * i] == blocks[i].line0
    ensures EncodePositions(blocks)[3 * i + 1] == blocks[i].line1
    ensures EncodePositions(blocks)[3 * i + 2] == PackCols(blocks[i].col0, blocks[i].col1)
    decreases i
  {
    if i > 0 {
      EncodeAt(blocks[1..], i - 1);
    }
  }

  /**
   * loadFileCover: a panic on mismatched lengths; otherwise a file that is
   * already registered is left alone, and a new one gets its counters and
   * decoded blocks.
   */
  function LoadFileCover(t: Tables, fileName: string, counter: seq<nat>, pos: seq<nat>, numStmts: seq<nat>)
    : (r: Result<Tables, string>)
    ensures r.Err? <==> (3 * |counter| != |pos| || |counter| != |numStmts|)
    ensures r.Err? ==> r.error == "coverage: mismatched sizes"
    ensures r.Ok? && fileName in t.counters ==> r.value == t
    ensures r.Ok? && fileName !in t.counters ==>
              && r.value.counters == t.counters[fileName := counter]
              && fileName in r.value.blocks
              && |r.value.blocks[fileName]| == |counter|
              && (forall f :: f in t.blocks && f != fileName ==> f in r.value.blocks && r.value.blocks[f] == t.blocks[f])
              && (forall i :: 0 <= i < |counter| ==>
                    r.value.blocks[fileName][i].line0 == pos[3 * i]
                    && r.value.blocks[fileName][i].line1 == pos[3 * i + 1]
                    && r.value.blocks[fileName][i].col0 == Lo16(pos[3 * i + 2])
                    && r.value.blocks[fileName][i].col1 == Hi16(pos[3 * i + 2])
                    && r.value.blocks[fileName][i].stmts == numStmts[i])
  {
    if 3 * |counter| != |pos| || |counter| != |numStmts| then Err("coverage: mismatched sizes")
    else if fileName in t.counters then Ok(t)
    else Ok(Tables(t.counters[fileName := counter], t.blocks[fileName := DecodeBlocks(pos, numStmts)]))
  }

  /** Registering files keeps the two maps aligned. */
  lemma LoadKeepsConsistent(t: Tables, fileName: string, counter: seq<nat>, pos: seq<nat>, numStmts: seq<nat>)
    requires Consistent(t)
    requires LoadFileCover(t, fileName, counter, pos, numStmts).Ok?
    ensures Consistent(LoadFileCover(t, fileName, counter, pos, numStmts).value)
  {
  }

  /** Registering a file twice is the same as registering it once. */
  lemma LoadIdempotent(t: Tables, fileName: string, counter: seq<nat>, pos: seq<nat>, numStmts: seq<nat>)
    requires LoadFileCover(t, fileName, counter, pos, numStmts).Ok?
    ensures var t1 := LoadFileCover(t, fileName, counter, pos, numStmts).value;
            LoadFileCover(t1, fileName, counter, pos, numStmts) == Ok(t1)
  {
  }

  /** clearFileCover: every counter back to zero, same length. */
  function ClearFileCover(counter: seq<nat>): (r: seq<nat>)
    ensures |r| == |counter| && forall i :: 0 <= i < |r| ==> r[i] == 0
  {
    if |counter| == 0 then [] else [0] + ClearFileCover(counter[1..])
  }

  /** clearValues: zero the counters of every registered file. */
  function ClearValues(t: Tables): (r: Tables)
    ensures r.blocks == t.blocks && r.counters.Keys == t.counters.Keys
    ensures forall f :: f in r.counters ==> r.counters[f] == ClearFileCover(t.counters[f])
  {
    Tables(map f | f in t.counters :: ClearFileCover(t.counters[f]), t.blocks)
  }

  /** The number of counters above zero. */
  function Positive(counter: seq<nat>): (n: nat)
    ensures n <= |counter|
    ensures n == 0 <==> forall i :: 0 <= i < |counter| ==> counter[i] == 0
  {
    if |counter| == 0 then 0
    else
      var rest := Positive(counter[1..]);
      assert forall i :: 1 <= i < |counter| ==> counter[i] == counter[1..][i - 1];
      (if counter[0] > 0 then 1 else 0) + rest
  }

  function CoveredOf(counters: map<string, seq<nat>>): string -> int
  {
    f => if f in counters then Positive(counters[f]) else 0
  }

  function LengthOf(counters: map<string, seq<nat>>): string -> int
  {
    f => if f in counters then |counters[f]| else 0
  }

  /** What the coverage handler writes: "0" when there is no counter, else n/d. */
  datatype CoverageReport = NoCounters | Fraction(covered: nat, all: nat)

  /**
   * The coverage handler, ranging over the counters in the map order
   * `order`: n counts the counters above zero, d all counters.
   */
  function CoverageHandler(counters: map<string, seq<nat>>, order: seq<string>): (r: CoverageReport)
    requires Enumerates(order, counters.Keys)
    ensures r.Fraction? ==> 0 < r.all && r.covered <= r.all
    ensures r.NoCounters? <==> forall f :: f in counters ==> counters[f] == []
  {
    var d := Sum(order, LengthOf(counters));
    var n := Sum(order, CoveredOf(counters));
    CoverageBounds(counters, order);
    if d == 0 then NoCounters else Fraction(n, d)
  }

  lemma CoverageBounds(counters: map<string, seq<nat>>, order: seq<string>)
    requires Enumerates(order, counters.Keys)
    ensures 0 <= Sum(order, CoveredOf(counters)) <= Sum(order, LengthOf(counters))
    ensures Sum(order, LengthOf(counters)) == 0 <==> forall f :: f in counters ==> counters[f] == []
  {
    SumNonNegative(order, CoveredOf(counters));
    SumMonotone(order, CoveredOf(counters), LengthOf(counters));
    if Sum(order, LengthOf(counters)) == 0 {
      forall f | f in counters ensures counters[f] == [] {
        assert f in order;
        var j :| 0 <= j < |order| && order[j] == f;
        SumRemove(order, j, LengthOf(counters));
        SumNonNegative(order[..j] + order[j + 1..], LengthOf(counters));
      }
    } else {
      AllEmptySumZero(order, counters);
    }
  }

  lemma {:induction false} AllEmptySumZero(order: seq<string>, counters: map<string, seq<nat>>)
    ensures (forall f :: f in counters ==> counters[f] == []) ==> Sum(order, LengthOf(counters)) == 0
    decreases |order|
  {
    if |order| > 0 {
      AllEmptySumZero(order[1..], counters);
    }
  }

  /** The coverage figures are the same whatever order the map is ranged in. */
  lemma CoverageOrderIndependent(counters: map<string, seq<nat>>, a: seq<string>, b: seq<string>)
    requires Enumerates(a, counters.Keys) && Enumerates(b, counters.Keys)
    ensures CoverageHandler(counters, a) == CoverageHandler(counters, b)
  {
    SumOverKeys(a, b, counters.Keys, LengthOf(counters));
    SumOverKeys(a, b, counters.Keys, CoveredOf(counters));
  }

  /** After clearing, the coverage handler reports nothing covered. */
  lemma {:induction false} ClearedCoversNothing(t: Tables, order: seq<string>)
    requires Enumerates(order, t.counters.Keys)
    ensures var r := CoverageHandler(ClearValues(t).counters, order);
            r.NoCounters? || r.covered == 0
  {
    var c := ClearValues(t).counters;
    ZeroCovered(order, c);
  }

  lemma {:induction false} ZeroCovered(order: seq<string>, c: map<string, seq<nat>>)
    requires forall f :: f in c ==> forall i :: 0 <= i < |c[f]| ==> c[f][i] == 0
    ensures Sum(order, CoveredOf(c)) == 0
    decreases |order|
  {
    if |order| > 0 {
      ZeroCovered(order[1..], c);
    }
  }

  /** The profile blocks of one file: its counters paired with its blocks. */
  function FileBlocks(name: string, counts: seq<nat>, blocks: seq<CoverBlock>): (r: seq<ProfileBlock>)
    requires |counts| == |blocks|
    ensures |r| == |counts|
    ensures forall i :: 0 <= i < |r| ==>
              (r[i].name == name && r[i].count == counts[i] && r[i].stmts == blocks[i].stmts
               && r[i].line0 == blocks[i].line0 && r[i].col0 == blocks[i].col0
               && r[i].line1 == blocks[i].line1 && r[i].col1 == blocks[i].col1)
  {
    if |counts| == 0 then []
    else
      var b := blocks[0];
      [ProfileBlock(name, b.line0, b.col0, b.line1, b.col1, b.stmts, counts[0])]
      + FileBlocks(name, counts[1..], blocks[1..])
  }

  /** The profile blocks of every file, in the map order `order`. */
  function AgentBlocks(t: Tables, order: seq<string>): seq<ProfileBlock>
    requires Consistent(t)
    requires forall i :: 0 <= i < |order| ==> order[i] in t.counters
  {
    if |order| == 0 then []
    else FileBlocks(order[0], t.counters[order[0]], t.blocks[order[0]]) + AgentBlocks(t, order[1..])
  }

  function StmtsOf(t: Tables): string -> int
  {
    f => if f in t.blocks then SumStmts(t.blocks[f]) else 0
  }

  function ActiveOf(t: Tables): string -> int
  {
    f => if f in t.blocks && f in t.counters && |t.counters[f]| == |t.blocks[f]|
         then ActiveStmts(t.counters[f], t.blocks[f]) else 0
  }

  function SumStmts(blocks: seq<CoverBlock>): nat
  {
    if |blocks| == 0 then 0 else blocks[0].stmts + SumStmts(blocks[1..])
  }

  /** The statements of blocks whose counter is above zero. */
  function ActiveStmts(counts: seq<nat>, blocks: seq<CoverBlock>): (r: nat)
    requires |counts| == |blocks|
    ensures r <= SumStmts(blocks)
  {
    if |counts| == 0 then 0
    else (if counts[0] > 0 then blocks[0].stmts else 0) + ActiveStmts(counts[1..], blocks[1..])
  }

  datatype ProfileReport = ProfileReport(text: string, active: nat, total: nat)

  /**
   * The profile handler: the header with the agent's mode, then one line
   * per block of every file in map order; it also totals the statements
   * and the statements of blocks that ran.
   */
  function ProfileHandler(mode: string, t: Tables, order: seq<string>): (r: ProfileReport)
    requires Consistent(t) && Enumerates(order, t.counters.Keys)
    ensures r.active <= r.total
    ensures r.text == ProfileText(mode, AgentBlocks(t, order))
  {
    var total := Sum(order, StmtsOf(t));
    var active := Sum(order, ActiveOf(t));
    SumMonotone(order, ActiveOf(t), StmtsOf(t));
    SumNonNegative(order, ActiveOf(t));
    ProfileReport(ProfileText(mode, AgentBlocks(t, order)), active, total)
  }

  /** The statement totals do not depend on the map order. */
  lemma ProfileTotalsOrderIndependent(mode: string, t: Tables, a: seq<string>, b: seq<string>)
    requires Consistent(t) && Enumerates(a, t.counters.Keys) && Enumerates(b, t.counters.Keys)
    ensures ProfileHandler(mode, t, a).total == ProfileHandler(mode, t, b).total
    ensures ProfileHandler(mode, t, a).active == ProfileHandler(mode, t, b).active
  {
    SumOverKeys(a, b, t.counters.Keys, StmtsOf(t));
    SumOverKeys(a, b, t.counters.Keys, ActiveOf(t));
  }

  /** The profile holds one line per counter of the files listed. */
  lemma {:induction false} AgentBlocksCount(t: Tables, order: seq<string>)
    requires Consistent(t)
    requires forall i :: 0 <= i < |order| ==> order[i] in t.counters
    ensures |AgentBlocks(t, order)| == Sum(order, LengthOf(t.counters))
    decreases |order|
  {
    if |order| > 0 {
      AgentBlocksCount(t, order[1..]);
    }
  }

  /** Values that fit the Go types of the agent's tables. */
  predicate InRange(t: Tables)
  {
    && (forall f :: f in t.counters ==> forall i :: 0 <= i < |t.counters[f]| ==> t.counters[f][i] < U32Limit)
    && (forall f :: f in t.blocks ==> forall i :: 0 <= i < |t.blocks[f]| ==>
          t.blocks[f][i].line0 < U32Limit && t.blocks[f][i].line1 < U32Limit
          && t.blocks[f][i].col0 < U16Limit && t.blocks[f][i].col1 < U16Limit
          && t.blocks[f][i].stmts < U16Limit)
    && (forall f :: f in t.counters ==> ':' !in f && ' ' !in f && '\n' !in f && '\r' !in f)
  }

  /** Tables of in-range values give profile lines of the agent's shape. */
  lemma {:induction false} AgentBlocksWellFormed(t: Tables, order: seq<string>)
    requires Consistent(t) && InRange(t)
    requires forall i :: 0 <= i < |order| ==> order[i] in t.counters
    ensures forall i :: 0 <= i < |AgentBlocks(t, order)| ==> AgentBlock(AgentBlocks(t, order)[i])
    decreases |order|
  {
    if |order| > 0 {
      AgentBlocksWellFormed(t, order[1..]);
      var f := order[0];
      var head := FileBlocks(f, t.counters[f], t.blocks[f]);
      assert forall i :: 0 <= i < |head| ==> AgentBlock(head[i]);
    }
  }
}

=== FILE: agent_server.dfy ===
/**
 * The goc server's registry of covered agents (pkg/server): registration
 * with a monotone id counter, the connection-status bitmask each agent
 * carries through its rpc and watch streams, restoring the registry from
 * the key/value store at start-up, and the id, extra and skip-pattern
 * selections of the HTTP API. Sockets, goroutines and the rpc calls are
 * not modelled; the token generator, JSON encoding, the client's remote
 * IP and the `extra` regular expression are parameters.
 */
module AgentServer {
  import opened Wrappers
  import opened Text
  import opened Sums
  import opened Filter
  import opened Decimal
  import opened KvFileStore
  import CoverServer

  // ---------------------------------------------------------------------
  // Connection status
  // ---------------------------------------------------------------------

  /** An agent's status word; Go keeps it in an `int` and only touches the low bits. */
  type Status = bv64

  const DISCONNECT: Status := 1
  const RPCCONNECT: Status := 2
  const WATCHCONNECT: Status := 4

  /** The four statuses an agent can be in: disconnected, or some non-empty set of streams open. */
  predicate Reachable(s: Status)
  {
    s == DISCONNECT || s == RPCCONNECT || s == WATCHCONNECT || s == RPCCONNECT | WATCHCONNECT
  }

  /** `status &= ^bit` then `status |= up`: the effect of a stream opening. */
  function Connect(s: Status, up: Status): (r: Status)
    requires up == RPCCONNECT || up == WATCHCONNECT
    ensures r & DISCONNECT == 0 && r & up == up
    ensures up == RPCCONNECT ==> r & WATCHCONNECT == s & WATCHCONNECT
    ensures up == WATCHCONNECT ==> r & RPCCONNECT == s & RPCCONNECT
    ensures r & !7 == s & !7
  {
    (s & !DISCONNECT) | up
  }

  /** `status &= ^bit`, and a status left at 0 becomes DISCONNECT: the effect of a stream closing. */
  function Disconnect(s: Status, down: Status): (r: Status)
    requires down == RPCCONNECT || down == WATCHCONNECT
    ensures r & down == 0 && r != 0
    ensures s & !down == 0 ==> r == DISCONNECT
    ensures s & !down != 0 ==> r == s & !down
  {
    var t := s & !down;
    if t == 0 then DISCONNECT else t
  }

  /** What can happen to an agent's streams. */
  datatype Event = RpcUp | RpcDown | WatchUp | WatchDown

  /** One stream event: the event's own bit is set by an up and cleared by a down, the other stream's bit is kept. */
  function Step(s: Status, e: Event): (r: Status)
    ensures e.RpcUp? || e.RpcDown? ==> r & WATCHCONNECT == s & WATCHCONNECT
    ensures e.WatchUp? || e.WatchDown? ==> r & RPCCONNECT == s & RPCCONNECT
    ensures e.RpcUp? ==> r & RPCCONNECT != 0 && r & DISCONNECT == 0
    ensures e.WatchUp? ==> r & WATCHCONNECT != 0 && r & DISCONNECT == 0
    ensures e.RpcDown? ==> r & RPCCONNECT == 0
    ensures e.WatchDown? ==> r & WATCHCONNECT == 0
  {
    match e
    case RpcUp => Connect(s, RPCCONNECT)
    case RpcDown => Disconnect(s, RPCCONNECT)
    case WatchUp => Connect(s, WATCHCONNECT)
    case WatchDown => Disconnect(s, WATCHCONNECT)
  }

  /** A sequence of stream events, first to last; a reachable status stays reachable. */
  function Run(s: Status, events: seq<Event>): (r: Status)
    ensures Reachable(s) ==> Reachable(r)
    decreases |events|
  {
    if |events| == 0 then s
    else
      if Reachable(s) then
        StepReachable(s, events[0]);
        Run(Step(s, events[0]), events[1..])
      else Run(Step(s, events[0]), events[1..])
  }

  /** Each bit tells whether its stream is open, and DISCONNECT is set exactly when none is. */
  lemma StepReachable(s: Status, e: Event)
    requires Reachable(s)
    ensures Reachable(Step(s, e))
    ensures e == RpcUp || e == WatchUp ==> Step(s, e) != DISCONNECT
    ensures e == RpcDown ==> Step(s, e) == (if s & WATCHCONNECT != 0 then WATCHCONNECT else DISCONNECT)
    ensures e == WatchDown ==> Step(s, e) == (if s & RPCCONNECT != 0 then RPCCONNECT else DISCONNECT)
  {
  }

  /** Under any sequence of stream events a reachable status stays reachable. */
  lemma {:induction false} RunReachable(s: Status, events: seq<Event>)
    requires Reachable(s)
    ensures Reachable(Run(s, events))
    decreases |events|
  {
    if |events| > 0 {
      StepReachable(s, events[0]);
      RunReachable(Step(s, events[0]), events[1..]);
    }
  }

  // ---------------------------------------------------------------------
  // Agents and the registry
  // ---------------------------------------------------------------------

  /** gocCoveredAgent without its connection handles. */
  datatype Agent = Agent(
    id: string,
    rpcRemoteIP: string,
    watchRemoteIP: string,
    hostname: string,
    cmdLine: string,
    pid: string,
    extra: string,
    token: string,
    status: Status)

  /** The server's state: the agents by id, the id counter, and the store file's text. */
  datatype Server = Server(agents: map<string, Agent>, idCount: int, store: string)

  const AgentPrefix := "/goc/agents/"

  /** The store key an agent is saved under. */
  function AgentKey(id: string): (r: string)
    ensures IsPrefix(AgentPrefix, r) && r[|AgentPrefix|..] == id
  {
    AgentPrefix + id
  }

  /** Every key issued or restored is a number no larger than the counter, and names its agent. */
  predicate IdsBelowCounter(gs: Server)
  {
    forall k :: k in gs.agents ==>
      gs.agents[k].id == k && ParseInt(k).Parsed? && ParseInt(k).value <= gs.idCount
  }

  /** Every agent is in one of the four reachable statuses. */
  predicate StatusesReachable(agents: map<string, Agent>)
  {
    forall k :: k in agents ==> Reachable(agents[k].status)
  }

  const ErrMissingParams := "missing some params"

  /** The counter after `idCount++` on an int64. */
  function NextId(n: int): (r: int)
    requires MinInt64 <= n <= MaxInt64
    ensures MinInt64 <= r <= MaxInt64
    ensures n < MaxInt64 ==> r == n + 1
  {
    if n == MaxInt64 then MinInt64 else n + 1
  }

  /** What register answers: the new id and token, and whether the agent reached the store. */
  datatype Registration = Registration(server: Server, id: string, token: string, saved: bool)

  /**
   * register: hostname, pid and cmdline are required; the counter is bumped
   * and its decimal form is the id. A JSON encoding failure is reported but
   * does not stop the agent from being kept in memory.
   */
  function Register(gs: Server, hostname: string, pid: string, cmdline: string, extra: string,
                    token: string, marshal: Agent -> Option<string>): (r: Result<Registration, string>)
    requires MinInt64 <= gs.idCount <= MaxInt64
    ensures r.Err? <==> hostname == "" || pid == "" || cmdline == ""
    ensures r.Err? ==> r.error == ErrMissingParams
    ensures r.Ok? ==> var g := r.value.server;
      g.idCount == NextId(gs.idCount) && r.value.id == IntToString(g.idCount) && r.value.token == token
      && g.agents.Keys == gs.agents.Keys + {r.value.id}
      && g.agents[r.value.id].status == DISCONNECT && g.agents[r.value.id].token == token
      && (forall k :: k in gs.agents && k != r.value.id ==> g.agents[k] == gs.agents[k])
  {
    if hostname == "" || pid == "" || cmdline == "" then Err(ErrMissingParams)
    else
      var n := NextId(gs.idCount);
      var id := IntToString(n);
      var agent := Agent(id, "", "", hostname, cmdline, pid, extra, token, DISCONNECT);
      var encoded := marshal(agent);
      var agents := gs.agents[id := agent];
      assert agents.Keys == gs.agents.Keys + {id};
      Ok(Registration(Server(agents, n, Save(gs.store, id, encoded)), id, token, encoded.Some?))
  }

  /** saveAgentToStore: the encoded agent is set under its key; an encoding failure writes nothing. */
  function Save(store: string, id: string, encoded: Option<string>): (r: string)
    ensures encoded.None? ==> r == store
    ensures encoded.Some? && WellFormed(store) && ' ' !in id && PlainLine(EntryLine(AgentKey(id), encoded.value)) ==>
              WellFormed(r) && GetValue(r, AgentKey(id)) == Found(encoded.value)
  {
    assert ' ' !in AgentPrefix;
    if encoded.Some? then Set(store, AgentKey(id), encoded.value) else store
  }

  /**
   * Below the int64 limit every registration issues a fresh id, strictly
   * above all earlier ones, and keeps the registry's invariants.
   */
  lemma RegisterFresh(gs: Server, hostname: string, pid: string, cmdline: string, extra: string,
                      token: string, marshal: Agent -> Option<string>)
    requires 0 <= gs.idCount < MaxInt64
    requires IdsBelowCounter(gs) && StatusesReachable(gs.agents)
    requires hostname != "" && pid != "" && cmdline != ""
    ensures var r := Register(gs, hostname, pid, cmdline, extra, token, marshal);
      r.Ok? && r.value.id !in gs.agents
      && ParseInt(r.value.id) == Parsed(r.value.server.idCount)
      && r.value.server.idCount > gs.idCount
      && (forall k :: k in gs.agents ==> ParseInt(k).value < ParseInt(r.value.id).value)
      && IdsBelowCounter(r.value.server) && StatusesReachable(r.value.server.agents)
  {
    var r := Register(gs, hostname, pid, cmdline, extra, token, marshal);
    var n := gs.idCount + 1;
    ParseIntToString(n);
    assert ParseInt(r.value.id) == Parsed(n);
  }

  /** A saved entry that fits on one line, under a key without spaces, reads back from the store. */
  lemma SaveReadsBack(store: string, id: string, value: string)
    requires WellFormed(store) && ' ' !in id && PlainLine(EntryLine(AgentKey(id), value))
    ensures WellFormed(Save(store, id, Some(value)))
    ensures GetValue(Save(store, id, Some(value)), AgentKey(id)) == Found(value)
  {
    assert ' ' !in AgentKey(id);
    SetFile(store, AgentKey(id), value);
  }

  /** A registered agent whose encoding is one line reads back from the store under its key. */
  lemma RegisterSaved(gs: Server, hostname: string, pid: string, cmdline: string, extra: string,
                      token: string, marshal: Agent -> Option<string>)
    requires 0 <= gs.idCount < MaxInt64 && WellFormed(gs.store)
    requires hostname != "" && pid != "" && cmdline != ""
    requires var a := Agent(IntToString(gs.idCount + 1), "", "", hostname, cmdline, pid, extra, token, DISCONNECT);
      marshal(a).Some? && PlainLine(EntryLine(AgentKey(a.id), marshal(a).value))
    ensures var r := Register(gs, hostname, pid, cmdline, extra, token, marshal);
      r.Ok? && r.value.saved && WellFormed(r.value.server.store)
      && GetValue(r.value.server.store, AgentKey(r.value.id)) == Found(marshal(r.value.server.agents[r.value.id]).value)
  {
    var id := IntToString(gs.idCount + 1);
    var a := Agent(id, "", "", hostname, cmdline, pid, extra, token, DISCONNECT);
    PositiveIdPlain(gs.idCount + 1);
    SaveReadsBack(gs.store, id, marshal(a).value);
    RegisterValue(gs, hostname, pid, cmdline, extra, token, marshal);
  }

  /** A positive identifier is written with digits only, so it holds no space. */
  lemma PositiveIdPlain(n: nat)
    ensures ' ' !in IntToString(n)
  {
    assert IntToString(n) == NatToString(n);
  }

  /** The registration of a new agent, below the identifier overflow, spelled out. */
  lemma RegisterValue(gs: Server, hostname: string, pid: string, cmdline: string, extra: string,
                      token: string, marshal: Agent -> Option<string>)
    requires 0 <= gs.idCount < MaxInt64
    requires hostname != "" && pid != "" && cmdline != ""
    ensures var id := IntToString(gs.idCount + 1);
      var a := Agent(id, "", "", hostname, cmdline, pid, extra, token, DISCONNECT);
      Register(gs, hostname, pid, cmdline, extra, token, marshal)
        == Ok(Registration(Server(gs.agents[id := a], gs.idCount + 1, Save(gs.store, id, marshal(a))), id, token, marshal(a).Some?))
  {
    assert NextId(gs.idCount) == gs.idCount + 1;
  }

  // ---------------------------------------------------------------------
  // Stream admission and status transitions
  // ---------------------------------------------------------------------

  const ErrNotRegistered := "agent not registered"
  const ErrTokenMismatch := "register token not match"

  /**
   * The checks at the head of both stream handlers: the id must be
   * registered and the token must be the one issued with it.
   */
  function Admit(gs: Server, id: string, token: string): (r: Option<string>)
    ensures r.None? <==> id in gs.agents && gs.agents[id].token == token
    ensures id !in gs.agents ==> r == Some(ErrNotRegistered)
  {
    if id !in gs.agents then Some(ErrNotRegistered)
    else if gs.agents[id].token != token then Some(ErrTokenMismatch)
    else None
  }

  /** serveRpcStream's opening: record the remote IP and mark the rpc stream open. */
  function OpenRpcStream(gs: Server, id: string, token: string, ip: string): (r: Result<Server, string>)
    ensures r.Err? <==> Admit(gs, id, token).Some?
    ensures r.Err? ==> r.error == Admit(gs, id, token).value
    ensures r.Ok? ==> (OnlyAgentChanged(gs, r.value, id)
      && r.value.agents[id].rpcRemoteIP == ip
      && r.value.agents[id].status & RPCCONNECT != 0
      && r.value.agents[id].status & DISCONNECT == 0
      && r.value.agents[id].status & WATCHCONNECT == gs.agents[id].status & WATCHCONNECT)
  {
    match Admit(gs, id, token)
    case Some(e) => Err(e)
    case None =>
      var a := gs.agents[id];
      Ok(gs.(agents := gs.agents[id := a.(rpcRemoteIP := ip, status := Connect(a.status, RPCCONNECT))]))
  }

  /** serveWatchInternalStream's opening: record the remote IP and mark the watch stream open. */
  function OpenWatchStream(gs: Server, id: string, token: string, ip: string): (r: Result<Server, string>)
    ensures r.Err? <==> Admit(gs, id, token).Some?
    ensures r.Err? ==> r.error == Admit(gs, id, token).value
    ensures r.Ok? ==> (OnlyAgentChanged(gs, r.value, id)
      && r.value.agents[id].watchRemoteIP == ip
      && r.value.agents[id].status & WATCHCONNECT != 0
      && r.value.agents[id].status & DISCONNECT == 0
      && r.value.agents[id].status & RPCCONNECT == gs.agents[id].status & RPCCONNECT)
  {
    match Admit(gs, id, token)
    case Some(e) => Err(e)
    case None =>
      var a := gs.agents[id];
      Ok(gs.(agents := gs.agents[id := a.(watchRemoteIP := ip, status := Connect(a.status, WATCHCONNECT))]))
  }

  /** The agents other than `id`, the counter and the store are as they were, and `id` keeps its identity. */
  predicate OnlyAgentChanged(before: Server, after: Server, id: string)
  {
    before.idCount == after.idCount && before.store == after.store
    && after.agents.Keys == before.agents.Keys
    && (forall k :: k in before.agents && k != id ==> after.agents[k] == before.agents[k])
    && (id in before.agents ==> var a, b := before.agents[id], after.agents[id];
         b.id == a.id && b.token == a.token && b.hostname == a.hostname && b.extra == a.extra)
  }

  /**
   * The deferred clean-up of a stream: its bit is cleared and a status left
   * empty becomes DISCONNECT. An agent removed meanwhile is no longer in
   * the registry, so nothing there changes.
   */
  function CloseStream(gs: Server, id: string, down: Status): (r: Server)
    requires down == RPCCONNECT || down == WATCHCONNECT
    ensures OnlyAgentChanged(gs, r, id)
    ensures id in gs.agents ==> r.agents[id].status == Disconnect(gs.agents[id].status, down)
  {
    if id in gs.agents then
      var a := gs.agents[id];
      gs.(agents := gs.agents[id := a.(status := Disconnect(a.status, down))])
    else gs
  }

  /** Opening and closing streams keeps every agent in a reachable status. */
  lemma StreamsKeepReachable(gs: Server, id: string, token: string, ip: string, down: Status)
    requires StatusesReachable(gs.agents)
    requires down == RPCCONNECT || down == WATCHCONNECT
    ensures OpenRpcStream(gs, id, token, ip).Ok? ==> StatusesReachable(OpenRpcStream(gs, id, token, ip).value.agents)
    ensures OpenWatchStream(gs, id, token, ip).Ok? ==> StatusesReachable(OpenWatchStream(gs, id, token, ip).value.agents)
    ensures StatusesReachable(CloseStream(gs, id, down).agents)
  {
    if id in gs.agents {
      var s := gs.agents[id].status;
      StepReachable(s, RpcUp);
      StepReachable(s, WatchUp);
      StepReachable(s, if down == RPCCONNECT then RpcDown else WatchDown);
    }
  }

  // ---------------------------------------------------------------------
  // Restoring the registry
  // ---------------------------------------------------------------------

  const IndexPanic := "runtime error: index out of range [1] with length 1"

  /** strconv.Atoi's error text; strconv.Quote's escaping of the id is not modelled. */
  function AtoiError(id: string, why: string): string
  {
    "fail to transform id to number: strconv.Atoi: parsing \"" + id + "\": " + why
  }

  /** A restored agent: no remote IPs and DISCONNECT, whatever was saved. */
  function Reset(a: Agent): (r: Agent)
    ensures r.rpcRemoteIP == "" && r.watchRemoteIP == "" && r.status == DISCONNECT
    ensures r.id == a.id && r.token == a.token && r.hostname == a.hostname && r.extra == a.extra
  {
    a.(rpcRemoteIP := "", watchRemoteIP := "", status := DISCONNECT)
  }

  /** What a restore has gathered so far: reset agents keyed by their ids, and the largest id seen. */
  predicate RestoredSoFar(agents: map<string, Agent>, maxId: int)
  {
    maxId >= 0
    && (forall k :: k in agents ==>
          agents[k].id == k && ParseInt(k).Parsed? && ParseInt(k).value <= maxId
          && agents[k].status == DISCONNECT && agents[k].rpcRemoteIP == "" && agents[k].watchRemoteIP == "")
    && (maxId == 0 || exists k :: k in agents && ParseInt(k) == Parsed(maxId))
  }

  /** The ids of the stored values that decode. */
  function IdsOf(raws: seq<string>, unmarshal: string -> Result<Agent, string>): set<string>
    decreases |raws|
  {
    if |raws| == 0 then {}
    else (if unmarshal(raws[0]).Ok? then {unmarshal(raws[0]).value.id} else {}) + IdsOf(raws[1..], unmarshal)
  }

  /** The last stored value that decodes to an agent with id k, if any. */
  function LastWithId(raws: seq<string>, unmarshal: string -> Result<Agent, string>, k: string): Option<Agent>
    decreases |raws|
  {
    if |raws| == 0 then None
    else
      match LastWithId(raws[1..], unmarshal, k)
      case Some(a) => Some(a)
      case None =>
        if unmarshal(raws[0]).Ok? && unmarshal(raws[0]).value.id == k then Some(unmarshal(raws[0]).value) else None
  }

  /** LastWithId finds a value with the id exactly when one exists, and no later value has that id. */
  lemma {:induction false} LastWithIdIsLast(raws: seq<string>, unmarshal: string -> Result<Agent, string>, k: string)
    ensures var r := LastWithId(raws, unmarshal, k);
      r.Some? <==> exists i :: 0 <= i < |raws| && unmarshal(raws[i]).Ok? && unmarshal(raws[i]).value.id == k
    ensures var r := LastWithId(raws, unmarshal, k);
      r.Some? ==> exists i :: 0 <= i < |raws| && unmarshal(raws[i]) == Ok(r.value) && r.value.id == k
                    && forall j :: i < j < |raws| ==> !(unmarshal(raws[j]).Ok? && unmarshal(raws[j]).value.id == k)
    decreases |raws|
  {
    if |raws| > 0 {
      LastWithIdIsLast(raws[1..], unmarshal, k);
      assert forall i :: 1 <= i < |raws| ==> raws[i] == raws[1..][i - 1];
      match LastWithId(raws[1..], unmarshal, k)
      case Some(a) =>
        var i :| 0 <= i < |raws[1..]| && unmarshal(raws[1..][i]) == Ok(a) && a.id == k
                 && forall j :: i < j < |raws[1..]| ==> !(unmarshal(raws[1..][j]).Ok? && unmarshal(raws[1..][j]).value.id == k);
        assert unmarshal(raws[i + 1]) == Ok(a);
      case None =>
        if unmarshal(raws[0]).Ok? && unmarshal(raws[0]).value.id == k {
          assert unmarshal(raws[0]) == Ok(LastWithId(raws, unmarshal, k).value);
        }
    }
  }

  /**
   * The loop of restoreAgents: each stored value is decoded and its id
   * parsed, either failure being fatal; a later agent with the same id
   * replaces an earlier one.
   */
  function RestoreEach(raws: seq<string>, unmarshal: string -> Result<Agent, string>,
                       agents: map<string, Agent>, maxId: int): (r: Result<(map<string, Agent>, int), string>)
    ensures r.Ok? ==> r.value.0.Keys == agents.Keys + IdsOf(raws, unmarshal)
    ensures r.Ok? ==> forall i :: 0 <= i < |raws| ==> unmarshal(raws[i]).Ok?
    ensures r.Ok? ==> RestoredFrom(raws, unmarshal, agents, r.value.0)
    ensures r.Err? ==> exists i :: 0 <= i < |raws| && !Restorable(raws[i], unmarshal)
    decreases |raws|
  {
    if |raws| == 0 then Ok((agents, maxId))
    else
      match unmarshal(raws[0])
      case Err(e) => Err("fail to unmarshal restore agents: " + e)
      case Ok(a) =>
        match ParseInt(a.id)
        case SyntaxError => Err(AtoiError(a.id, "invalid syntax"))
        case RangeError(_) => Err(AtoiError(a.id, "value out of range"))
        case Parsed(n) =>
          var rest := RestoreEach(raws[1..], unmarshal, agents[a.id := Reset(a)], if maxId < n then n else maxId);
          RestoreEachCons(raws, unmarshal, agents, rest);
          rest
  }

  /** What the loop's later turns restored, seen from the whole sequence once the first value is restored. */
  lemma RestoreEachCons(raws: seq<string>, unmarshal: string -> Result<Agent, string>,
                        agents: map<string, Agent>, out: Result<(map<string, Agent>, int), string>)
    requires |raws| > 0 && Restorable(raws[0], unmarshal)
    requires var a := unmarshal(raws[0]).value;
      out.Ok? ==>
        out.value.0.Keys == agents[a.id := Reset(a)].Keys + IdsOf(raws[1..], unmarshal)
        && (forall i :: 0 <= i < |raws[1..]| ==> unmarshal(raws[1..][i]).Ok?)
        && RestoredFrom(raws[1..], unmarshal, agents[a.id := Reset(a)], out.value.0)
    requires out.Err? ==> exists i :: 0 <= i < |raws[1..]| && !Restorable(raws[1..][i], unmarshal)
    ensures out.Ok? ==> out.value.0.Keys == agents.Keys + IdsOf(raws, unmarshal)
    ensures out.Ok? ==> forall i :: 0 <= i < |raws| ==> unmarshal(raws[i]).Ok?
    ensures out.Ok? ==> RestoredFrom(raws, unmarshal, agents, out.value.0)
    ensures out.Err? ==> exists i :: 0 <= i < |raws| && !Restorable(raws[i], unmarshal)
  {
    RestoreEachTail(raws, unmarshal);
    if out.Ok? {
      RestoredFromStep(raws, unmarshal, agents, out.value.0);
    } else {
      var i :| 0 <= i < |raws[1..]| && !Restorable(raws[1..][i], unmarshal);
      assert raws[i + 1] == raws[1..][i];
    }
  }

  /** A stored value that decodes to an agent whose id parses. */
  predicate Restorable(raw: string, unmarshal: string -> Result<Agent, string>)
  {
    unmarshal(raw).Ok? && ParseInt(unmarshal(raw).value.id).Parsed?
  }

  /** The tail's facts, as the loop's next turn sees them. */
  lemma RestoreEachTail(raws: seq<string>, unmarshal: string -> Result<Agent, string>)
    requires |raws| > 0 && unmarshal(raws[0]).Ok?
    ensures forall i :: 1 <= i < |raws| ==> raws[i] == raws[1..][i - 1]
    ensures IdsOf(raws, unmarshal) == {unmarshal(raws[0]).value.id} + IdsOf(raws[1..], unmarshal)
  {
  }

  /**
   * Every restored agent is the reset form of the last stored value with
   * its id; an id no stored value carries keeps what was there before.
   */
  predicate RestoredFrom(raws: seq<string>, unmarshal: string -> Result<Agent, string>,
                         agents: map<string, Agent>, out: map<string, Agent>)
  {
    forall k :: k in out ==>
      match LastWithId(raws, unmarshal, k)
      case Some(a) => out[k] == Reset(a)
      case None => k in agents && out[k] == agents[k]
  }

  /** Restoring the first value, then the rest, restores from the whole sequence. */
  lemma RestoredFromStep(raws: seq<string>, unmarshal: string -> Result<Agent, string>,
                         agents: map<string, Agent>, out: map<string, Agent>)
    requires |raws| > 0 && unmarshal(raws[0]).Ok?
    ensures RestoredFrom(raws[1..], unmarshal, agents[unmarshal(raws[0]).value.id := Reset(unmarshal(raws[0]).value)], out) ==>
              RestoredFrom(raws, unmarshal, agents, out)
  {
    var a := unmarshal(raws[0]).value;
    var next := agents[a.id := Reset(a)];
    if RestoredFrom(raws[1..], unmarshal, next, out) {
      forall k | k in out
        ensures match LastWithId(raws, unmarshal, k)
                case Some(b) => out[k] == Reset(b)
                case None => k in agents && out[k] == agents[k]
      {
        if LastWithId(raws[1..], unmarshal, k).None? && k != a.id {
          assert LastWithId(raws, unmarshal, k).None?;
        }
      }
    }
  }

  /** The loop ends with reset agents under their numeric ids and the largest of them (or 0) as the counter. */
  lemma {:induction false} RestoreEachShape(raws: seq<string>, unmarshal: string -> Result<Agent, string>,
                                            agents: map<string, Agent>, maxId: int)
    requires RestoredSoFar(agents, maxId)
    ensures var r := RestoreEach(raws, unmarshal, agents, maxId);
      r.Ok? ==> RestoredSoFar(r.value.0, r.value.1) && maxId <= r.value.1
    decreases |raws|
  {
    if |raws| > 0 && unmarshal(raws[0]).Ok? {
      var a := unmarshal(raws[0]).value;
      if ParseInt(a.id).Parsed? {
        var n := ParseInt(a.id).value;
        RestoreStep(agents, maxId, a, n);
        RestoreEachShape(raws[1..], unmarshal, agents[a.id := Reset(a)], if maxId < n then n else maxId);
      }
    }
  }

  /** One restored agent keeps what has been gathered in shape. */
  lemma RestoreStep(agents: map<string, Agent>, maxId: int, a: Agent, n: int)
    requires RestoredSoFar(agents, maxId) && ParseInt(a.id) == Parsed(n)
    ensures RestoredSoFar(agents[a.id := Reset(a)], if maxId < n then n else maxId)
  {
    var next := agents[a.id := Reset(a)];
    if maxId >= n && maxId != 0 {
      var k :| k in agents && ParseInt(k) == Parsed(maxId);
      assert k in next;
    } else if maxId < n {
      assert a.id in next;
    }
  }

  /**
   * restoreAgents: the values under "/goc/agents/" are restored (a failing
   * range read counts as none), and the counter continues from the largest
   * restored id, or 0.
   */
  function RestoreAgents(store: string, unmarshal: string -> Result<Agent, string>): (r: Result<Server, string>)
    ensures r.Ok? ==> r.value.store == store && IdsBelowCounter(r.value) && StatusesReachable(r.value.agents)
    ensures r.Ok? ==> forall k :: k in r.value.agents ==>
      r.value.agents[k].status == DISCONNECT && r.value.agents[k].rpcRemoteIP == "" && r.value.agents[k].watchRemoteIP == ""
    ensures r.Ok? ==> 0 <= r.value.idCount && (r.value.idCount == 0 || exists k :: k in r.value.agents && ParseInt(k) == Parsed(r.value.idCount))
    ensures RangeValues(store, AgentPrefix) == NoMatch ==> r == Ok(Server(map[], 0, store))
    ensures RangeValues(store, AgentPrefix) == Fault ==> r == Err(IndexPanic)
    ensures RangeValues(store, AgentPrefix).Values? ==>
              var raws := RangeValues(store, AgentPrefix).values;
              (r.Ok? <==> RestoreEach(raws, unmarshal, map[], 0).Ok?)
              && (r.Ok? ==> r.value.agents.Keys == IdsOf(raws, unmarshal))
              && (r.Err? ==> r == Err(RestoreEach(raws, unmarshal, map[], 0).error))
    ensures RangeValues(store, AgentPrefix).Values? && r.Ok? ==>
              var raws := RangeValues(store, AgentPrefix).values;
              forall k :: k in r.value.agents ==>
                LastWithId(raws, unmarshal, k).Some? && r.value.agents[k] == Reset(LastWithId(raws, unmarshal, k).value)
  {
    match RangeValues(store, AgentPrefix)
    case Fault => Err(IndexPanic)
    case NoMatch => Ok(Server(map[], 0, store))
    case Values(raws) => RestoreValues(raws, unmarshal, store)
  }

  /** The restore of the values found under the prefix. */
  function RestoreValues(raws: seq<string>, unmarshal: string -> Result<Agent, string>, store: string): (r: Result<Server, string>)
    ensures r.Ok? ==> r.value.store == store && IdsBelowCounter(r.value) && StatusesReachable(r.value.agents)
    ensures r.Ok? ==> forall k :: k in r.value.agents ==>
      r.value.agents[k].status == DISCONNECT && r.value.agents[k].rpcRemoteIP == "" && r.value.agents[k].watchRemoteIP == ""
    ensures r.Ok? ==> 0 <= r.value.idCount && (r.value.idCount == 0 || exists k :: k in r.value.agents && ParseInt(k) == Parsed(r.value.idCount))
    ensures r.Ok? <==> RestoreEach(raws, unmarshal, map[], 0).Ok?
    ensures r.Ok? ==> r.value.agents.Keys == IdsOf(raws, unmarshal)
    ensures r.Err? ==> r == Err(RestoreEach(raws, unmarshal, map[], 0).error)
    ensures r.Ok? ==> forall k :: k in r.value.agents ==>
      LastWithId(raws, unmarshal, k).Some? && r.value.agents[k] == Reset(LastWithId(raws, unmarshal, k).value)
  {
    RestoreEachShape(raws, unmarshal, map[], 0);
    match RestoreEach(raws, unmarshal, map[], 0)
    case Err(e) => Err(e)
    case Ok(p) =>
      RestoredFromNothing(raws, unmarshal, p.0);
      Ok(Server(p.0, p.1, store))
  }

  /** Restored from an empty registry, every agent comes from a stored value. */
  lemma RestoredFromNothing(raws: seq<string>, unmarshal: string -> Result<Agent, string>, out: map<string, Agent>)
    requires RestoredFrom(raws, unmarshal, map[], out)
    ensures forall k :: k in out ==> LastWithId(raws, unmarshal, k).Some? && out[k] == Reset(LastWithId(raws, unmarshal, k).value)
  {
  }

  /** The stored values that all decode, with ids that all parse, restore without error. */
  lemma {:induction false} RestoreEachSucceeds(raws: seq<string>, unmarshal: string -> Result<Agent, string>,
                                               agents: map<string, Agent>, maxId: int)
    requires forall i :: 0 <= i < |raws| ==> unmarshal(raws[i]).Ok? && ParseInt(unmarshal(raws[i]).value.id).Parsed?
    ensures RestoreEach(raws, unmarshal, agents, maxId).Ok?
    decreases |raws|
  {
    if |raws| > 0 {
      var a := unmarshal(raws[0]).value;
      var n := ParseInt(a.id).value;
      assert forall i :: 1 <= i < |raws| ==> raws[1..][i - 1] == raws[i];
      RestoreEachSucceeds(raws[1..], unmarshal, agents[a.id := Reset(a)], if maxId < n then n else maxId);
    }
  }

  /** A store whose agent values all decode to agents with numeric ids restores exactly those ids. */
  lemma RestoreDecodable(store: string, unmarshal: string -> Result<Agent, string>, raws: seq<string>)
    requires forall i :: 0 <= i < |raws| ==> unmarshal(raws[i]).Ok? && ParseInt(unmarshal(raws[i]).value.id).Parsed?
    ensures RangeValues(store, AgentPrefix) == Values(raws) ==>
              RestoreAgents(store, unmarshal).Ok?
              && RestoreAgents(store, unmarshal).value.agents.Keys == IdsOf(raws, unmarshal)
  {
    RestoreEachSucceeds(raws, unmarshal, map[], 0);
  }

  /** A value that decodes puts its id among the restored ids. */
  lemma {:induction false} IdsOfHas(raws: seq<string>, unmarshal: string -> Result<Agent, string>, i: nat)
    requires i < |raws| && unmarshal(raws[i]).Ok?
    ensures unmarshal(raws[i]).value.id in IdsOf(raws, unmarshal)
    decreases i
  {
    if i > 0 {
      assert raws[1..][i - 1] == raws[i];
      IdsOfHas(raws[1..], unmarshal, i - 1);
    }
  }

  /**
   * Of several stored values with the same id, the last one is the agent
   * a restore keeps, reset.
   */
  lemma RestoreLaterWins(store: string, unmarshal: string -> Result<Agent, string>, raws: seq<string>, j: nat)
    requires j < |raws| && unmarshal(raws[j]).Ok?
    requires forall l :: j < l < |raws| ==> !(unmarshal(raws[l]).Ok? && unmarshal(raws[l]).value.id == unmarshal(raws[j]).value.id)
    ensures RangeValues(store, AgentPrefix) == Values(raws) && RestoreAgents(store, unmarshal).Ok? ==>
              var a := unmarshal(raws[j]).value;
              a.id in RestoreAgents(store, unmarshal).value.agents
              && RestoreAgents(store, unmarshal).value.agents[a.id] == Reset(a)
  {
    var a := unmarshal(raws[j]).value;
    IdsOfHas(raws, unmarshal, j);
    LastWithIdIsLast(raws, unmarshal, a.id);
    var b := LastWithId(raws, unmarshal, a.id).value;
    var i :| 0 <= i < |raws| && unmarshal(raws[i]) == Ok(b) && b.id == a.id
             && forall l :: i < l < |raws| ==> !(unmarshal(raws[l]).Ok? && unmarshal(raws[l]).value.id == a.id);
    assert i == j;
  }

  /** Every agent key lies under the prefix, so clearing the prefix forgets every agent: a restore then starts from nothing. */
  lemma RestoreAfterClear(store: string, id: string, unmarshal: string -> Result<Agent, string>)
    requires WellFormed(store)
    ensures GetValue(RangeRemove(store, AgentPrefix), AgentKey(id)) == NoKey
    ensures RestoreAgents(RangeRemove(store, AgentPrefix), unmarshal) == Ok(Server(map[], 0, RangeRemove(store, AgentPrefix)))
  {
    RangeRemoveFile(store, AgentPrefix);
    var lines := ScanLines(store);
    assert Separated(lines);
    RangeAfterRangeRemoveLines(lines, AgentPrefix, AgentKey(id));
  }

  // ---------------------------------------------------------------------
  // The API's selections
  // ---------------------------------------------------------------------

  /**
   * idMaps: a blank query selects every id; otherwise exactly the
   * comma-separated ids (the empty text between two commas included).
   */
  predicate InIdMap(idQuery: string, key: string)
  {
    TrimSpace(idQuery) == "" || key in Split(idQuery, ',')
  }

  /** A query written as a comma-separated list of ids, not all blank, selects exactly those ids. */
  lemma IdQuerySelects(ids: seq<string>, key: string)
    requires |ids| >= 1 && forall i :: 0 <= i < |ids| ==> ',' !in ids[i]
    ensures TrimSpace(Join(ids, ',')) != "" ==> (InIdMap(Join(ids, ','), key) <==> key in ids)
  {
    SplitJoin(ids, ',');
  }

  /** A blank query selects every id. */
  lemma BlankQuerySelectsAll(idQuery: string, key: string)
    requires forall i :: 0 <= i < |idQuery| ==> IsSpace(idQuery[i])
    ensures InIdMap(idQuery, key)
  {
  }

  /** getProfiles' skippattern: no patterns for "", otherwise the comma-separated pieces. */
  function SkipPatterns(raw: string): (r: seq<string>)
    ensures |r| == 0 <==> raw == ""
    ensures forall i :: 0 <= i < |r| ==> ',' !in r[i]
  {
    if raw == "" then [] else Split(raw, ',')
  }

  /** Patterns joined with commas are split back into the same patterns. */
  lemma SkipPatternsRoundTrip(patterns: seq<string>)
    requires |patterns| >= 1 && forall i :: 0 <= i < |patterns| ==> ',' !in patterns[i]
    ensures Join(patterns, ',') != "" ==> SkipPatterns(Join(patterns, ',')) == patterns
  {
    SplitJoin(patterns, ',');
  }

  /** Some pattern occurs in the name. */
  predicate MatchesAny(name: string, patterns: seq<string>)
  {
    exists i :: 0 <= i < |patterns| && Contains(name, patterns[i])
  }

  /**
   * filterProfileByPattern: no patterns keep the input as it is; otherwise
   * the profiles whose file name contains none of the patterns, in order.
   */
  function FilterProfileByPattern(patterns: seq<string>, profiles: seq<CoverServer.Profile>): (r: seq<CoverServer.Profile>)
    ensures |patterns| == 0 ==> r == profiles
    ensures forall i :: 0 <= i < |r| ==> r[i] in profiles && !MatchesAny(r[i].fileName, patterns)
    ensures forall i :: 0 <= i < |profiles| && !MatchesAny(profiles[i].fileName, patterns) ==> profiles[i] in r
    ensures |r| <= |profiles|
    ensures |patterns| > 0 ==> r == Keep(profiles, (p: CoverServer.Profile) => !MatchesAny(p.fileName, patterns))
  {
    if |patterns| == 0 then profiles
    else Keep(profiles, (p: CoverServer.Profile) => !MatchesAny(p.fileName, patterns))
  }

  /** Filtering by the same patterns twice changes nothing more. */
  lemma FilterProfileByPatternIdempotent(patterns: seq<string>, profiles: seq<CoverServer.Profile>)
    ensures FilterProfileByPattern(patterns, FilterProfileByPattern(patterns, profiles)) == FilterProfileByPattern(patterns, profiles)
  {
    if |patterns| > 0 {
      KeepIdempotent(profiles, (p: CoverServer.Profile) => !MatchesAny(p.fileName, patterns));
    }
  }

  /** An empty piece, as in "a,,b", occurs in every name, so every profile is skipped. */
  lemma EmptyPatternSkipsAll(patterns: seq<string>, profiles: seq<CoverServer.Profile>)
    requires "" in patterns
    ensures FilterProfileByPattern(patterns, profiles) == []
  {
    var i :| 0 <= i < |patterns| && patterns[i] == "";
    forall p: CoverServer.Profile ensures MatchesAny(p.fileName, patterns) {
      assert IsPrefix("", p.fileName);
      assert Contains(p.fileName, patterns[i]);
    }
    KeepNone(profiles, (p: CoverServer.Profile) => !MatchesAny(p.fileName, patterns));
  }

  /** The agents stored under the selected ids, in the visiting order. */
  function AgentsOf(agents: map<string, Agent>, ids: seq<string>): (r: seq<Agent>)
    requires forall i :: 0 <= i < |ids| ==> ids[i] in agents
    ensures |r| == |ids| && forall i :: 0 <= i < |ids| ==> r[i] == agents[ids[i]]
  {
    if |ids| == 0 then [] else [agents[ids[0]]] + AgentsOf(agents, ids[1..])
  }

  /** The test listAgents applies to each id. */
  function Selects(idQuery: string): string -> bool
  {
    k => InIdMap(idQuery, k)
  }

  /** listAgents: the agents whose id the query selects, in the order the registry is visited. */
  function ListAgents(gs: Server, order: seq<string>, idQuery: string): (r: seq<Agent>)
    requires Enumerates(order, gs.agents.Keys)
    ensures forall i :: 0 <= i < |r| ==> exists k :: k in gs.agents && InIdMap(idQuery, k) && r[i] == gs.agents[k]
    ensures forall k :: k in gs.agents && InIdMap(idQuery, k) ==> gs.agents[k] in r
  {
    var ids := Keep(order, Selects(idQuery));
    ListedSelected(gs.agents, order, idQuery, ids);
    AgentsOf(gs.agents, ids)
  }

  lemma ListedSelected(agents: map<string, Agent>, order: seq<string>, idQuery: string, ids: seq<string>)
    requires Enumerates(order, agents.Keys) && ids == Keep(order, Selects(idQuery))
    ensures forall i :: 0 <= i < |ids| ==> ids[i] in agents
    ensures var r := AgentsOf(agents, ids);
      (forall i :: 0 <= i < |r| ==> exists k :: k in agents && InIdMap(idQuery, k) && r[i] == agents[k]) &&
      (forall k :: k in agents && InIdMap(idQuery, k) ==> agents[k] in r)
  {
    forall i | 0 <= i < |ids| ensures ids[i] in agents && InIdMap(idQuery, ids[i]) {
      assert ids[i] in order && Selects(idQuery)(ids[i]);
    }
    var r := AgentsOf(agents, ids);
    forall i | 0 <= i < |r| ensures exists k :: k in agents && InIdMap(idQuery, k) && r[i] == agents[k] {
      assert r[i] == agents[ids[i]];
    }
    forall k | k in agents && InIdMap(idQuery, k) ensures agents[k] in r {
      var j :| 0 <= j < |order| && order[j] == k;
      assert Selects(idQuery)(order[j]);
      var i :| 0 <= i < |ids| && ids[i] == k;
      assert r[i] == agents[k];
    }
  }

  /** With a registry whose keys name their agents, a listing holds no agent twice. */
  lemma ListAgentsDistinct(gs: Server, order: seq<string>, idQuery: string)
    requires Enumerates(order, gs.agents.Keys)
    requires forall k :: k in gs.agents ==> gs.agents[k].id == k
    ensures Distinct(ListAgents(gs, order, idQuery))
  {
    var ids := Keep(order, Selects(idQuery));
    KeepDistinct(order, Selects(idQuery));
    var r := ListAgents(gs, order, idQuery);
    forall i, j | 0 <= i < j < |r| ensures r[i] != r[j] {
      assert r[i].id == ids[i] && r[j].id == ids[j];
    }
  }

  /**
   * The agents getProfiles and resetProfiles select: chosen by id and with
   * an `extra` the expression matches, in visiting order. A selected agent
   * that is DISCONNECT or has no rpc connection is then skipped without a
   * call; that check is not part of this selection.
   */
  function ProfileTargets(gs: Server, order: seq<string>, idQuery: string, isExtra: string -> bool): (r: seq<Agent>)
    requires Enumerates(order, gs.agents.Keys)
    ensures forall i :: 0 <= i < |r| ==> isExtra(r[i].extra) && r[i] in ListAgents(gs, order, idQuery)
    ensures forall a :: a in ListAgents(gs, order, idQuery) && isExtra(a.extra) ==> a in r
  {
    Keep(ListAgents(gs, order, idQuery), (a: Agent) => isExtra(a.extra))
  }

  // ---------------------------------------------------------------------
  // Removing agents
  // ---------------------------------------------------------------------

  /**
   * The loop of removeAgents over the visiting order: a selected agent is
   * removed from the store and then from the registry; when the store
   * removal fails its error is appended and the agent is kept.
   */
  function RemoveEach(gs: Server, ids: seq<string>, idQuery: string, fails: string -> Option<string>): (r: (Server, string))
    ensures r.0.idCount == gs.idCount
    ensures forall k :: k in r.0.agents <==> k in gs.agents && !(k in ids && InIdMap(idQuery, k) && fails(k).None?)
    ensures forall k :: k in r.0.agents ==> r.0.agents[k] == gs.agents[k]
    ensures r.1 == "" <==> forall i :: 0 <= i < |ids| && InIdMap(idQuery, ids[i]) ==> fails(ids[i]).None?
    decreases |ids|
  {
    if |ids| == 0 then (gs, "")
    else
      var step := RemoveOne(gs, ids[0], idQuery, fails);
      var rest := RemoveEach(step.0, ids[1..], idQuery, fails);
      assert forall i :: 1 <= i < |ids| ==> ids[i] == ids[1..][i - 1];
      assert forall k :: k in ids <==> k == ids[0] || k in ids[1..];
      (rest.0, step.1 + rest.1)
  }

  /** One turn of the removeAgents loop. */
  function RemoveOne(gs: Server, id: string, idQuery: string, fails: string -> Option<string>): (r: (Server, string))
    ensures r.0.idCount == gs.idCount
    ensures forall k :: k in r.0.agents <==> k in gs.agents && !(k == id && InIdMap(idQuery, k) && fails(k).None?)
    ensures forall k :: k in r.0.agents ==> r.0.agents[k] == gs.agents[k]
    ensures r.1 == "" <==> !InIdMap(idQuery, id) || fails(id).None?
  {
    if !InIdMap(idQuery, id) then (gs, "")
    else match fails(id)
      case Some(e) => (gs, "fail to remove agent: " + id + ", err: " + e)
      case None => (Server(gs.agents - {id}, gs.idCount, RemoveKey(gs.store, AgentKey(id))), "")
  }

  /** removeAgents: the agents left and, when some removal failed, the collected message. */
  function RemoveAgents(gs: Server, order: seq<string>, idQuery: string, fails: string -> Option<string>): (r: Result<Server, (Server, string)>)
    requires Enumerates(order, gs.agents.Keys)
    ensures r.Ok? ==> forall k :: k in r.value.agents <==> k in gs.agents && !InIdMap(idQuery, k)
    ensures r.Ok? ==> forall k :: k in r.value.agents ==> r.value.agents[k] == gs.agents[k]
    ensures r.Ok? <==> forall k :: k in gs.agents && InIdMap(idQuery, k) ==> fails(k).None?
  {
    var p := RemoveEach(gs, order, idQuery, fails);
    if p.1 == "" then Ok(p.0) else Err(p)
  }

  /** Every agent the loop removed is gone from a well-formed store too, and the store stays well formed. */
  lemma {:induction false} RemoveEachStore(gs: Server, ids: seq<string>, idQuery: string, fails: string -> Option<string>, id: string)
    requires WellFormed(gs.store)
    ensures WellFormed(RemoveEach(gs, ids, idQuery, fails).0.store)
    ensures id in ids && InIdMap(idQuery, id) && fails(id).None? ==> GetValue(RemoveEach(gs, ids, idQuery, fails).0.store, AgentKey(id)) == NoKey
    decreases |ids|
  {
    if |ids| > 0 {
      var x := ids[0];
      if InIdMap(idQuery, x) && fails(x).None? {
        var g := Server(gs.agents - {x}, gs.idCount, RemoveKey(gs.store, AgentKey(x)));
        RemoveFile(gs.store, AgentKey(x));
        RemoveEachStore(g, ids[1..], idQuery, fails, id);
        if id == x {
          RemoveKeepsAbsent(g, ids[1..], idQuery, fails, AgentKey(id));
        }
      } else {
        RemoveEachStore(gs, ids[1..], idQuery, fails, id);
      }
    }
  }

  /** A key absent from a well-formed store stays absent while the loop removes others. */
  lemma {:induction false} RemoveKeepsAbsent(gs: Server, ids: seq<string>, idQuery: string, fails: string -> Option<string>, key: string)
    requires WellFormed(gs.store) && GetValue(gs.store, key) == NoKey
    ensures GetValue(RemoveEach(gs, ids, idQuery, fails).0.store, key) == NoKey
    decreases |ids|
  {
    if |ids| > 0 {
      var x := ids[0];
      if InIdMap(idQuery, x) && fails(x).None? {
        RemoveKeepsNoKey(gs.store, AgentKey(x), key);
        var g := Server(gs.agents - {x}, gs.idCount, RemoveKey(gs.store, AgentKey(x)));
        RemoveKeepsAbsent(g, ids[1..], idQuery, fails, key);
        assert RemoveEach(gs, ids, idQuery, fails).0 == RemoveEach(g, ids[1..], idQuery, fails).0;
      } else {
        RemoveKeepsAbsent(gs, ids[1..], idQuery, fails, key);
        assert RemoveEach(gs, ids, idQuery, fails).0 == RemoveEach(gs, ids[1..], idQuery, fails).0;
      }
    }
  }
}

=== FILE: build_args.dfy ===
/**
 * The command line of `goc build` and `goc install`: goc's own flags and
 * the help flags are taken out of the arguments before the go flag set
 * parses them, the go flags that were set are written out again, and the
 * remaining [packages] patterns are classified into the directory to
 * instrument. os.Getwd, os.Stat, filepath.Abs, filepath.IsAbs and
 * filepath.Rel are inputs.
 */
module BuildArgs {
  import opened Wrappers
  import opened Text
  import opened Filter
  import opened Paths

  /** Whether `r` is `a` with some tokens left out and the rest in their order. */
  predicate Subsequence(r: seq<string>, a: seq<string>)
    decreases |a|
  {
    if |r| == 0 then true
    else if |a| == 0 then false
    else if r[0] == a[0] then Subsequence(r[1..], a[1..])
    else Subsequence(r, a[1..])
  }

  /** Leaving out one more leading token keeps a subsequence one. */
  lemma {:induction false} SubsequenceDrop(r: seq<string>, x: string, a: seq<string>)
    requires Subsequence(r, a)
    ensures Subsequence(r, [x] + a)
    decreases |a|, 1
  {
    var xa := [x] + a;
    assert xa[1..] == a;
    if |r| > 0 && r[0] == x {
      assert |a| > 0;
      if r[0] == a[0] {
        SubsequenceDrop(r[1..], a[0], a[1..]);
        assert [a[0]] + a[1..] == a;
      } else {
        SubsequenceTail(r, a);
      }
    }
  }

  /** A subsequence stays one when its first token is left out as well. */
  lemma {:induction false} SubsequenceTail(r: seq<string>, a: seq<string>)
    requires |r| > 0 && Subsequence(r, a)
    ensures Subsequence(r[1..], a)
    decreases |a|, 0
  {
    if r[0] == a[0] {
      SubsequenceDrop(r[1..], a[0], a[1..]);
      assert [a[0]] + a[1..] == a;
    } else {
      SubsequenceTail(r, a[1..]);
      SubsequenceDrop(r[1..], a[0], a[1..]);
      assert [a[0]] + a[1..] == a;
    }
  }

  /** The tokens findAndDelGocFlag removes on sight for the goc flag `name` set to `value`. */
  predicate IsGocToken(t: string, name: string, value: string)
  {
    t == "--gocdebug" || t == "--" + name || t == "--" + name + "=" + value
  }

  /**
   * findAndDelGocFlag: "--gocdebug" goes, "--name" goes together with the
   * token after it, "--name=value" goes; everything else stays in order.
   */
  function FindAndDelGocFlag(a: seq<string>, name: string, value: string): (r: seq<string>)
    ensures |r| <= |a|
    ensures forall i :: 0 <= i < |r| ==> !IsGocToken(r[i], name, value)
    ensures Subsequence(r, a)
    decreases |a|
  {
    if |a| == 0 then []
    else if a[0] == "--gocdebug" then
      var r := FindAndDelGocFlag(a[1..], name, value);
      SubsequenceDrop(r, a[0], a[1..]);
      assert [a[0]] + a[1..] == a;
      r
    else if a[0] == "--" + name then
      if |a| == 1 then []
      else
        var r := FindAndDelGocFlag(a[2..], name, value);
        SubsequenceDrop(r, a[1], a[2..]);
        assert [a[1]] + a[2..] == a[1..];
        SubsequenceDrop(r, a[0], a[1..]);
        assert [a[0]] + a[1..] == a;
        r
    else if a[0] == "--" + name + "=" + value then
      var r := FindAndDelGocFlag(a[1..], name, value);
      SubsequenceDrop(r, a[0], a[1..]);
      assert [a[0]] + a[1..] == a;
      r
    else
      var rest := FindAndDelGocFlag(a[1..], name, value);
      var r := [a[0]] + rest;
      assert r[1..] == rest;
      r
  }

  /**
   * Without a bare "--name" token (the one that swallows its successor),
   * findAndDelGocFlag is a plain filter on the goc tokens.
   */
  lemma {:induction false} DelGocFlagIsFilter(a: seq<string>, name: string, value: string, keep: string -> bool)
    requires forall i :: 0 <= i < |a| ==> a[i] != "--" + name
    requires forall t :: keep(t) == !IsGocToken(t, name, value)
    ensures FindAndDelGocFlag(a, name, value) == Keep(a, keep)
    decreases |a|
  {
    if |a| > 0 {
      assert forall i :: 0 <= i < |a| - 1 ==> a[1..][i] == a[i + 1];
      DelGocFlagIsFilter(a[1..], name, value, keep);
    }
  }

  /**
   * Position i is the value of a bare "--name" flag: the token before it
   * is "--name" (and not "--gocdebug", which never takes a value) and is
   * not itself a value.
   */
  predicate IsFlagValue(a: seq<string>, name: string, i: nat)
    requires i < |a|
    decreases i
  {
    i > 0 && a[i - 1] == "--" + name && a[i - 1] != "--gocdebug" && !IsFlagValue(a, name, i - 1)
  }

  /** The tokens from position i on that are neither goc tokens nor a goc flag's value, in order. */
  function KeptTokens(a: seq<string>, name: string, value: string, i: nat): seq<string>
    requires i <= |a|
    decreases |a| - i
  {
    if i == |a| then []
    else
      var here := if IsGocToken(a[i], name, value) || IsFlagValue(a, name, i) then [] else [a[i]];
      here + KeptTokens(a, name, value, i + 1)
  }

  /** findAndDelGocFlag keeps exactly the tokens that are neither goc tokens nor a goc flag's value. */
  lemma DelGocFlagKeeps(a: seq<string>, name: string, value: string)
    ensures FindAndDelGocFlag(a, name, value) == KeptTokens(a, name, value, 0)
  {
    DelGocFlagKeepsFrom(a, name, value, 0);
  }

  lemma {:induction false} DelGocFlagKeepsFrom(a: seq<string>, name: string, value: string, i: nat)
    requires i <= |a| && (i < |a| ==> !IsFlagValue(a, name, i))
    ensures FindAndDelGocFlag(a[i..], name, value) == KeptTokens(a, name, value, i)
    decreases |a| - i
  {
    if i < |a| {
      var s := a[i..];
      assert s[0] == a[i] && s[1..] == a[i + 1..];
      assert "--" + name != "--" + name + "=" + value by {
        assert |"--" + name| < |"--" + name + "=" + value|;
      }
      if a[i] == "--gocdebug" {
        DelGocFlagKeepsFrom(a, name, value, i + 1);
      } else if a[i] == "--" + name {
        if i + 1 < |a| {
          assert IsFlagValue(a, name, i + 1);
          assert s[2..] == a[i + 2..];
          DelGocFlagKeepsFrom(a, name, value, i + 2);
          assert KeptTokens(a, name, value, i + 1) == KeptTokens(a, name, value, i + 2);
        }
      } else if a[i] == "--" + name + "=" + value {
        DelGocFlagKeepsFrom(a, name, value, i + 1);
      } else {
        DelGocFlagKeepsFrom(a, name, value, i + 1);
      }
    }
  }

  /** A command line without goc tokens passes through unchanged. */
  lemma {:induction false} DelGocFlagPlain(a: seq<string>, name: string, value: string)
    requires forall i :: 0 <= i < |a| ==> !IsGocToken(a[i], name, value)
    ensures FindAndDelGocFlag(a, name, value) == a
    decreases |a|
  {
    if |a| > 0 {
      assert forall i :: 0 <= i < |a| - 1 ==> a[1..][i] == a[i + 1];
      DelGocFlagPlain(a[1..], name, value);
    }
  }

  /** Removing goc's flags twice removes nothing more. */
  lemma DelGocFlagIdempotent(a: seq<string>, name: string, value: string)
    ensures FindAndDelGocFlag(FindAndDelGocFlag(a, name, value), name, value) == FindAndDelGocFlag(a, name, value)
  {
    DelGocFlagPlain(FindAndDelGocFlag(a, name, value), name, value);
  }

  /**
   * "--name v" is removed as a pair, whatever v looks like, unless the flag
   * is "gocdebug" itself, which never takes a separate value.
   */
  lemma DelGocFlagPair(name: string, value: string, v: string, rest: seq<string>)
    requires name != "gocdebug"
    ensures FindAndDelGocFlag(["--" + name, v] + rest, name, value) == FindAndDelGocFlag(rest, name, value)
  {
    var a := ["--" + name, v] + rest;
    assert a[0] == "--" + name && a[2..] == rest;
    assert "--" + name != "--gocdebug" by {
      assert ("--" + name)[2..] == name && "--gocdebug"[2..] == "gocdebug";
    }
  }

  /** The help flags findAndDelHelpFlag removes. */
  predicate IsHelp(t: string)
  {
    t == "--help" || t == "-h"
  }

  /** findAndDelHelpFlag: every "--help" and "-h" token goes, the rest stays in order. */
  function FindAndDelHelpFlag(a: seq<string>): (r: seq<string>)
    ensures forall i :: 0 <= i < |r| ==> !IsHelp(r[i])
    ensures forall i :: 0 <= i < |a| && !IsHelp(a[i]) ==> a[i] in r
    ensures Subsequence(r, a)
    decreases |a|
  {
    if |a| == 0 then []
    else
      var rest := FindAndDelHelpFlag(a[1..]);
      assert forall i :: 0 < i < |a| ==> a[i] == a[1..][i - 1];
      if IsHelp(a[0]) then
        SubsequenceDrop(rest, a[0], a[1..]);
        assert [a[0]] + a[1..] == a;
        rest
      else
        var r := [a[0]] + rest;
        assert r[1..] == rest;
        r
  }

  /** findAndDelHelpFlag is the filter that keeps the non-help tokens. */
  lemma {:induction false} DelHelpIsFilter(a: seq<string>, keep: string -> bool)
    requires forall t :: keep(t) == !IsHelp(t)
    ensures FindAndDelHelpFlag(a) == Keep(a, keep)
    decreases |a|
  {
    if |a| > 0 {
      DelHelpIsFilter(a[1..], keep);
    }
  }

  /** Removing the help flags twice removes nothing more. */
  lemma DelHelpIdempotent(a: seq<string>)
    ensures FindAndDelHelpFlag(FindAndDelHelpFlag(a)) == FindAndDelHelpFlag(a)
  {
    var keep := (t: string) => !IsHelp(t);
    DelHelpIsFilter(a, keep);
    DelHelpIsFilter(Keep(a, keep), keep);
    KeepIdempotent(a, keep);
  }

  /** A go flag that the go flag set saw set, with its value as text. */
  datatype GoFlag = GoFlag(name: string, value: string)

  /** The flag as it is passed on: "-o" gets the absolute form of its value. */
  function Passed(f: GoFlag, abs: string -> Result<string, string>): GoFlag
    requires f.name == "o" ==> abs(f.value).Ok?
  {
    if f.name == "o" then GoFlag("o", abs(f.value).value) else f
  }

  /**
   * The go flags written out again in visiting order, each as "-name" and
   * its value; a failing filepath.Abs on the output path is fatal.
   */
  function RenderGoFlags(flags: seq<GoFlag>, abs: string -> Result<string, string>): (r: Result<seq<string>, string>)
    ensures r.Ok? <==> forall i :: 0 <= i < |flags| && flags[i].name == "o" ==> abs(flags[i].value).Ok?
    ensures r.Err? ==> exists i :: 0 <= i < |flags| && flags[i].name == "o" && abs(flags[i].value).Err?
                        && r.error == "output flag is not valid: " + abs(flags[i].value).error
    ensures r.Ok? ==> |r.value| == 2 * |flags|
    decreases |flags|
  {
    if |flags| == 0 then Ok([])
    else
      var f := flags[0];
      assert forall i :: 0 < i < |flags| ==> flags[i] == flags[1..][i - 1];
      if f.name == "o" && abs(f.value).Err? then Err("output flag is not valid: " + abs(f.value).error)
      else
        match RenderGoFlags(flags[1..], abs)
        case Err(e) => Err(e)
        case Ok(rest) => Ok(["-" + f.name, Passed(f, abs).value] + rest)
  }

  /** Reading "-name value" pairs back, as the go command's flag parser does. */
  function ReadGoFlags(args: seq<string>): (r: seq<GoFlag>)
    requires |args| % 2 == 0
    requires forall i :: 0 <= i < |args| && i % 2 == 0 ==> |args[i]| > 0
    decreases |args|
  {
    if |args| == 0 then []
    else
      assert forall i :: 0 <= i < |args| - 2 ==> args[2..][i] == args[i + 2];
      [GoFlag(args[0][1..], args[1])] + ReadGoFlags(args[2..])
  }

  /** What is rendered reads back as the flags that were set, with "-o" made absolute. */
  lemma {:induction false} RenderReadsBack(flags: seq<GoFlag>, abs: string -> Result<string, string>)
    requires RenderGoFlags(flags, abs).Ok?
    ensures var args := RenderGoFlags(flags, abs).value;
            (forall i :: 0 <= i < |args| && i % 2 == 0 ==> |args[i]| > 0)
            && |ReadGoFlags(args)| == |flags|
            && forall i :: 0 <= i < |flags| ==> ReadGoFlags(args)[i] == Passed(flags[i], abs)
    decreases |flags|
  {
    if |flags| > 0 {
      var f := flags[0];
      assert forall i :: 0 < i < |flags| && flags[i].name == "o" ==> flags[i] == flags[1..][i - 1];
      RenderReadsBack(flags[1..], abs);
      var rest := RenderGoFlags(flags[1..], abs).value;
      var args := RenderGoFlags(flags, abs).value;
      assert args == ["-" + f.name, Passed(f, abs).value] + rest;
      assert args[2..] == rest;
      assert forall i :: 2 <= i < |args| ==> args[i] == rest[i - 2];
      assert ("-" + f.name)[1..] == f.name;
      var read := ReadGoFlags(args);
      assert read == [GoFlag(f.name, Passed(f, abs).value)] + ReadGoFlags(rest);
      assert read[0] == Passed(f, abs);
      forall i | 1 <= i < |flags| ensures read[i] == Passed(flags[i], abs) {
        assert read[i] == ReadGoFlags(rest)[i - 1];
        assert flags[i] == flags[1..][i - 1];
      }
    }
  }

  /** The file system and process facts argument classification consults. */
  datatype Host = Host(
    getwd: Result<string, string>,
    abs: string -> Result<string, string>,
    /** os.Stat: whether the path is a directory, or the error text. */
    stat: string -> Result<bool, string>,
    isAbs: string -> bool,
    rel: (string, string) -> Result<string, string>)

  /** The directory of a named file as goFilesPackage compares them: filepath.Split's dir, "./" for none. */
  function FileDirOf(file: string): (r: string)
    ensures r != ""
  {
    var d := DirPart(file);
    if d == "" then "./" else d
  }

  /** The first name that does not end in ".go". */
  function FirstNonGo(files: seq<string>): (r: Option<nat>)
    ensures r.None? <==> forall i :: 0 <= i < |files| ==> IsSuffix(".go", files[i])
    ensures r.Some? ==> r.value < |files| && !IsSuffix(".go", files[r.value])
                        && forall j :: 0 <= j < r.value ==> IsSuffix(".go", files[j])
  {
    if |files| == 0 then None
    else if !IsSuffix(".go", files[0]) then Some(0)
    else
      assert forall i :: 0 < i < |files| ==> files[i] == files[1..][i - 1];
      match FirstNonGo(files[1..])
      case None => None
      case Some(k) => Some(k + 1)
  }

  /** Every name is an existing file, not a directory. */
  predicate AllPlainFiles(files: seq<string>, stat: string -> Result<bool, string>)
  {
    forall i :: 0 <= i < |files| ==> stat(files[i]) == Ok(false)
  }

  /** Every name lies in directory `d`. */
  predicate AllIn(files: seq<string>, d: string)
  {
    forall i :: 0 <= i < |files| ==> FileDirOf(files[i]) == d
  }

  /** All names lie in one directory. */
  predicate OneDirectory(files: seq<string>)
  {
    forall i, j :: 0 <= i < |files| && 0 <= j < |files| ==> FileDirOf(files[i]) == FileDirOf(files[j])
  }

  /** The second loop of goFilesPackage, with the directory of the files seen so far ("" before the first). */
  function SameDirectory(files: seq<string>, stat: string -> Result<bool, string>, dir: string): (r: Option<string>)
    decreases |files|
  {
    if |files| == 0 then None
    else
      var f := files[0];
      match stat(f)
      case Err(e) => Some(e)
      case Ok(isDir) =>
        if isDir then Some(f + " is a directory, should be a Go file")
        else
          var d := FileDirOf(f);
          if dir == "" then SameDirectory(files[1..], stat, d)
          else if dir != d then Some("named files must all be in one directory: have " + dir + " and " + d)
          else SameDirectory(files[1..], stat, dir)
  }

  /**
   * The loop passes exactly when every name is an existing file and all
   * lie in one directory, which is `dir` once a directory has been seen.
   */
  lemma {:induction false} SameDirectoryNone(files: seq<string>, stat: string -> Result<bool, string>, dir: string)
    ensures SameDirectory(files, stat, dir).None? <==>
              AllPlainFiles(files, stat) && (dir != "" ==> AllIn(files, dir)) && OneDirectory(files)
    decreases |files|
  {
    if |files| > 0 {
      var f, t := files[0], files[1..];
      var d := FileDirOf(f);
      ConsFiles(files, stat);
      OneDirectoryHead(files);
      if stat(f) == Ok(false) {
        if dir == "" {
          SameDirectoryNone(t, stat, d);
          AllInOne(t, d);
        } else if dir == d {
          SameDirectoryNone(t, stat, dir);
          AllInOne(t, d);
        }
      }
    }
  }

  /** The three predicates, split into the first name and the rest. */
  lemma ConsFiles(files: seq<string>, stat: string -> Result<bool, string>)
    requires |files| > 0
    ensures AllPlainFiles(files, stat) <==> stat(files[0]) == Ok(false) && AllPlainFiles(files[1..], stat)
    ensures forall d :: AllIn(files, d) <==> FileDirOf(files[0]) == d && AllIn(files[1..], d)
  {
    assert forall i :: 0 < i < |files| ==> files[i] == files[1..][i - 1];
  }

  /** A non-empty list lies in one directory iff it lies in its first name's. */
  lemma OneDirectoryHead(files: seq<string>)
    requires |files| > 0
    ensures OneDirectory(files) <==> AllIn(files, FileDirOf(files[0]))
  {
  }

  /** Names all in one given directory lie in one directory. */
  lemma AllInOne(files: seq<string>, d: string)
    ensures AllIn(files, d) ==> OneDirectory(files)
  {
  }

  /**
   * goFilesPackage: every name must end in ".go" (checked for all names
   * before any file is looked at), and each must be an existing file, all
   * in one directory.
   */
  function GoFilesPackage(files: seq<string>, stat: string -> Result<bool, string>): (r: Option<string>)
    ensures r.None? <==>
              (forall i :: 0 <= i < |files| ==> IsSuffix(".go", files[i]) && stat(files[i]) == Ok(false))
              && (forall i, j :: 0 <= i < |files| && 0 <= j < |files| ==> FileDirOf(files[i]) == FileDirOf(files[j]))
    ensures (exists i :: 0 <= i < |files| && !IsSuffix(".go", files[i])) ==>
              exists i :: 0 <= i < |files| && !IsSuffix(".go", files[i])
                          && (forall j :: 0 <= j < i ==> IsSuffix(".go", files[j]))
                          && r == Some("named files must be .go files: " + files[i])
  {
    match FirstNonGo(files)
    case Some(i) => Some("named files must be .go files: " + files[i])
    case None =>
      SameDirectoryNone(files, stat, "");
      SameDirectory(files, stat, "")
  }

  /** The suffix check comes first: a bad name is reported whatever the file system says. */
  lemma NamesCheckedFirst(files: seq<string>, stat1: string -> Result<bool, string>, stat2: string -> Result<bool, string>)
    requires exists i :: 0 <= i < |files| && !IsSuffix(".go", files[i])
    ensures GoFilesPackage(files, stat1) == GoFilesPackage(files, stat2)
  {
    var k := FirstNonGo(files);
    assert k.Some?;
  }

  /** Which line of goc the classification follows: the legacy build package or the flag package. */
  datatype Generation = Legacy | Current

  const ErrOneImportPath := "goc only support one import path now"
  const ErrVersionQuery := "import path with @ version query " + "is not supported in goc"
  const ErrMetaPackage := "`std`, `cmd`, `all` import path " + "is not supported by goc"

  /** The error text for a pattern whose directory cannot be resolved or does not exist. */
  function DirError(e: string, pattern: string): (r: string)
    ensures |r| > 0 && r[0] == 'e'
  {
    var r := "error (" + e + ") get directory from the import path: " + pattern;
    assert r[0] == "error ("[0];
    r
  }

  /** isMetaPackage */
  predicate IsMetaPackage(name: string)
  {
    name == "std" || name == "cmd" || name == "all"
  }

  /** The first element of a slash-separated path. */
  function FirstElementOf(p: string): (r: string)
    ensures IsPrefix(r, p) && '/' !in r
    ensures '/' in p ==> p[|r|] == '/'
  {
    var i := IndexOfChar(p, '/');
    if i < 0 then p else p[..i]
  }

  /** isLocalImport: ".", "..", or a path starting "./" or "../". */
  predicate IsLocalImport(path: string)
  {
    path == "." || path == ".." || IsPrefix("./", path) || IsPrefix("../", path)
  }

  /** A local import path is exactly one whose first element is "." or "..". */
  lemma LocalImportFirstElement(path: string)
    ensures IsLocalImport(path) <==> FirstElementOf(path) == "." || FirstElementOf(path) == ".."
  {
    var e := FirstElementOf(path);
    if IsPrefix("./", path) {
      assert path[1] == '/' && path[0] != '/';
      assert IndexOfChar(path, '/') == 1;
    } else if IsPrefix("../", path) {
      assert path[2] == '/' && path[0] != '/' && path[1] != '/';
      assert IndexOfChar(path, '/') == 2;
    }
    if e == "." || e == ".." {
      if '/' in path {
        assert path[..|e| + 1] == e + "/";
      } else {
        assert path == e;
      }
    }
  }

  /** The directory a "..." pattern names: the dir part of the text before "...". */
  function DotsDir(pattern: string, gen: Generation, host: Host): (r: string)
    requires Contains(pattern, "...")
  {
    var dir := DirPart(pattern[..IndexOf(pattern, "...")]);
    match gen
    case Current => dir
    case Legacy => match host.abs(dir) case Ok(d) => d case Err(_) => ""
  }

  /** A pattern that is neither "...", a version query nor a meta-package: a plain directory. */
  predicate PlainPattern(pattern: string)
  {
    !Contains(pattern, "...") && !('@' in pattern && pattern[0] != '@') && !IsMetaPackage(pattern)
  }

  /**
   * getDirFromImportPaths: the working directory for no pattern; more than
   * one is refused; otherwise the checks run in order: "...", an '@'
   * after the first character, std/cmd/all, and then a plain directory.
   */
  function GetDirFromImportPaths(patterns: seq<string>, gen: Generation, host: Host): (r: Result<string, string>)
    ensures |patterns| == 0 ==>
              r == (match host.getwd case Ok(wd) => Ok(wd) case Err(e) => Err("fail to parse import path: " + e))
    ensures |patterns| > 1 ==> r == Err(ErrOneImportPath)
    ensures |patterns| == 1 && !Contains(patterns[0], "...") ==>
              (r == Err(ErrVersionQuery) <==> '@' in patterns[0] && patterns[0][0] != '@')
    ensures |patterns| == 1 ==> (r == Err(ErrMetaPackage) <==> IsMetaPackage(patterns[0]))
    ensures |patterns| == 1 && r.Ok? ==> host.stat(r.value).Ok?
    ensures |patterns| == 1 && Contains(patterns[0], "...") ==>
              (r.Ok? <==> host.stat(DotsDir(patterns[0], gen, host)).Ok?)
              && (r.Ok? ==> r.value == DotsDir(patterns[0], gen, host))
    ensures |patterns| == 1 && PlainPattern(patterns[0]) ==>
              (r.Ok? <==> host.abs(patterns[0]).Ok? && host.stat(host.abs(patterns[0]).value).Ok?)
              && (r.Ok? ==> r.value == host.abs(patterns[0]).value)
              && (host.abs(patterns[0]).Err? ==> r == Err(DirError(host.abs(patterns[0]).error, patterns[0])))
  {
    if |patterns| == 0 then
      match host.getwd
      case Ok(wd) => Ok(wd)
      case Err(e) => Err("fail to parse import path: " + e)
    else if |patterns| > 1 then Err(ErrOneImportPath)
    else DirOfPattern(patterns[0], gen, host)
  }

  /** The first characters that tell the refusals of a pattern apart. */
  lemma PatternErrorHeads()
    ensures ErrMetaPackage[0] == '`' && ErrVersionQuery[0] == 'i'
  {
  }

  /** GetDirFromImportPaths for its one pattern. */
  function DirOfPattern(pattern: string, gen: Generation, host: Host): (r: Result<string, string>)
    ensures !Contains(pattern, "...") ==> (r == Err(ErrVersionQuery) <==> '@' in pattern && pattern[0] != '@')
    ensures r == Err(ErrMetaPackage) <==> IsMetaPackage(pattern)
    ensures r.Ok? ==> host.stat(r.value).Ok?
    ensures Contains(pattern, "...") ==> r == ExistingDir(Ok(DotsDir(pattern, gen, host)), pattern, host)
    ensures PlainPattern(pattern) ==> r == ExistingDir(host.abs(pattern), pattern, host)
  {
    PatternErrorHeads();
    if Contains(pattern, "...") then
      var i := IndexOf(pattern, "...");
      assert pattern[i..][0] == '.' && pattern[i] == '.';
      assert !IsMetaPackage(pattern);
      ExistingDir(Ok(DotsDir(pattern, gen, host)), pattern, host)
    else if IndexOfChar(pattern, '@') > 0 then Err(ErrVersionQuery)
    else if IsMetaPackage(pattern) then Err(ErrMetaPackage)
    else ExistingDir(host.abs(pattern), pattern, host)
  }

  /** The directory found for `pattern`, when it was resolved and exists; its error otherwise. */
  function ExistingDir(dir: Result<string, string>, pattern: string, host: Host): (r: Result<string, string>)
    ensures r.Ok? <==> dir.Ok? && host.stat(dir.value).Ok?
    ensures r.Ok? ==> r.value == dir.value
    ensures dir.Err? ==> r == Err(DirError(dir.error, pattern))
    ensures dir.Ok? && host.stat(dir.value).Err? ==> r == Err(DirError(host.stat(dir.value).error, pattern))
    ensures r.Err? ==> r.error[0] == 'e'
  {
    match dir
    case Err(e) => Err(DirError(e, pattern))
    case Ok(d) =>
      match host.stat(d)
      case Err(e) => Err(DirError(e, pattern))
      case Ok(_) => Ok(d)
  }

  /**
   * In the flag package a "..." pattern resolves to the directory text in
   * front of it as written, not made absolute.
   */
  lemma DotsDirIsPrefix(pattern: string, host: Host)
    requires Contains(pattern, "...")
    ensures GetDirFromImportPaths([pattern], Current, host).Ok? ==>
              IsPrefix(GetDirFromImportPaths([pattern], Current, host).value, pattern)
  {
    var i := IndexOf(pattern, "...");
    var head := pattern[..i];
    var dir := DirPart(head);
    assert dir + LastElement(head) == head;
    assert pattern[..|dir|] == head[..|dir|];
  }

  /** os.Stat found a regular file. */
  predicate IsFile(host: Host, p: string)
  {
    host.stat(p) == Ok(false)
  }

  /** The first pattern that ends in ".go" and is a regular file. */
  function FirstGoFile(patterns: seq<string>, host: Host): (r: Option<nat>)
    ensures r.None? <==> forall i :: 0 <= i < |patterns| ==> !(IsSuffix(".go", patterns[i]) && IsFile(host, patterns[i]))
    ensures r.Some? ==> r.value < |patterns| && IsSuffix(".go", patterns[r.value]) && IsFile(host, patterns[r.value])
  {
    if |patterns| == 0 then None
    else if IsSuffix(".go", patterns[0]) && IsFile(host, patterns[0]) then Some(0)
    else
      assert forall i :: 0 < i < |patterns| ==> patterns[i] == patterns[1..][i - 1];
      match FirstGoFile(patterns[1..], host)
      case None => None
      case Some(k) => Some(k + 1)
  }

  /** Where the packages to build are, and the binary name a file pattern implies. */
  datatype PackagesDir = PackagesDir(curPkgDir: string, binaryName: string)

  /**
   * GetPackagesDir: when some pattern is a ".go" file the patterns must
   * form one files package, and the first such file's absolute path gives
   * the directory and the binary name; otherwise the patterns are an
   * import path and there is no binary name. Every failure is fatal.
   */
  function GetPackagesDir(patterns: seq<string>, host: Host): (r: Result<PackagesDir, string>)
    ensures FirstGoFile(patterns, host).None? ==>
              r == (match GetDirFromImportPaths(patterns, Current, host)
                    case Ok(d) => Ok(PackagesDir(d, ""))
                    case Err(e) => Err(e))
    ensures r.Ok? && r.value.binaryName != "" ==>
              FirstGoFile(patterns, host).Some? && GoFilesPackage(patterns, host.stat).None?
    ensures r.Ok? && FirstGoFile(patterns, host).Some? ==>
              var absp := host.abs(patterns[FirstGoFile(patterns, host).value]);
              absp.Ok? && r.value == PackagesDir(Dir(absp.value), Base(absp.value))
    ensures FirstGoFile(patterns, host).Some? && GoFilesPackage(patterns, host.stat).Some? ==>
              r == Err(GoFilesPackage(patterns, host.stat).value)
    ensures FirstGoFile(patterns, host).Some? && GoFilesPackage(patterns, host.stat).None? ==>
              var absp := host.abs(patterns[FirstGoFile(patterns, host).value]);
              (r.Ok? <==> absp.Ok?) && (absp.Err? ==> r == Err(absp.error))
  {
    match FirstGoFile(patterns, host)
    case Some(i) =>
      (match GoFilesPackage(patterns, host.stat)
       case Some(e) => Err(e)
       case None =>
         match host.abs(patterns[i])
         case Err(e) => Err(e)
         case Ok(absp) => Ok(PackagesDir(Dir(absp), Base(absp))))
    case None =>
      match GetDirFromImportPaths(patterns, Current, host)
      case Ok(d) => Ok(PackagesDir(d, ""))
      case Err(e) => Err(e)
  }

  /** An existing plain directory pattern names its own absolute path as the package directory, with no binary name. */
  lemma PlainPackagesDir(pattern: string, host: Host)
    requires PlainPattern(pattern) && !IsSuffix(".go", pattern)
    requires host.abs(pattern).Ok? && host.stat(host.abs(pattern).value).Ok?
    ensures GetPackagesDir([pattern], host) == Ok(PackagesDir(host.abs(pattern).value, ""))
  {
    assert FirstGoFile([pattern], host).None?;
  }

  /** For a file pattern, the package directory joined with the binary name is the file's absolute path. */
  lemma PackagesDirJoinsBack(patterns: seq<string>, host: Host, i: nat, absp: string)
    requires |absp| > 1 && absp[0] == '/' && absp[|absp| - 1] != '/'
    requires forall k :: 0 < k < |absp| && absp[k] == '/' ==> absp[k - 1] != '/'
    ensures GetPackagesDir(patterns, host).Ok? && FirstGoFile(patterns, host) == Some(i)
            && i < |patterns| && host.abs(patterns[i]) == Ok(absp) ==>
              var r := GetPackagesDir(patterns, host).value;
              PathJoin(r.curPkgDir, r.binaryName) == absp
  {
    DirBaseJoin(absp);
  }

  /** The bridge file the legacy build adds next to named .go files. */
  const BridgeFile := "goc-cover-agent-apis-auto-generated" + "-11111-22222-bridge.go"

  /** Named files made relative to the working directory; relative ones are kept as given. */
  function Relativise(patterns: seq<string>, curWd: string, host: Host): (r: Result<seq<string>, string>)
    ensures r.Ok? ==> |r.value| == |patterns|
                      && forall i :: 0 <= i < |patterns| ==>
                           (if host.isAbs(patterns[i])
                            then host.rel(curWd, patterns[i]).Ok? && r.value[i] == host.rel(curWd, patterns[i]).value
                            else r.value[i] == patterns[i])
    ensures r.Err? <==> exists i :: 0 <= i < |patterns| && host.isAbs(patterns[i]) && host.rel(curWd, patterns[i]).Err?
    decreases |patterns|
  {
    if |patterns| == 0 then Ok([])
    else
      var p := patterns[0];
      assert forall i :: 0 < i < |patterns| ==> patterns[i] == patterns[1..][i - 1];
      var q := if host.isAbs(p) then host.rel(curWd, p) else Ok(p);
      match q
      case Err(e) => Err("fail to get [packages] relative path from current working directory: " + e)
      case Ok(x) =>
        match Relativise(patterns[1..], curWd, host)
        case Err(e) => Err(e)
        case Ok(rest) => Ok([x] + rest)
  }

  /**
   * The legacy getPackagesDir: named .go files are passed on relative to
   * the working directory with the bridge file added in the first one's
   * directory; import paths are passed on as they are.
   */
  function BuildPackages(patterns: seq<string>, curWd: string, host: Host): (r: Result<seq<string>, string>)
    ensures FirstGoFile(patterns, host).None? ==> r == Ok(patterns)
    ensures FirstGoFile(patterns, host).Some? && r.Ok? ==>
              |r.value| == |patterns| + 1 && |patterns| > 0
              && LastElement(r.value[|patterns|]) == BridgeFile
              && GoFilesPackage(patterns, host.stat).None?
    ensures FirstGoFile(patterns, host).Some? && r.Ok? ==>
              forall i :: 0 <= i < |patterns| && !host.isAbs(patterns[i]) ==> r.value[i] == patterns[i]
    ensures FirstGoFile(patterns, host).Some? ==>
              (r.Ok? <==> GoFilesPackage(patterns, host.stat).None? && Relativise(patterns, curWd, host).Ok?)
    ensures FirstGoFile(patterns, host).Some? && GoFilesPackage(patterns, host.stat).Some? ==>
              r == Err(GoFilesPackage(patterns, host.stat).value)
    ensures FirstGoFile(patterns, host).Some? && GoFilesPackage(patterns, host.stat).None?
            && Relativise(patterns, curWd, host).Err? ==>
              r == Err(Relativise(patterns, curWd, host).error)
    ensures FirstGoFile(patterns, host).Some? && r.Ok? ==>
              (forall i :: 0 <= i < |patterns| && host.isAbs(patterns[i]) ==>
                 host.rel(curWd, patterns[i]).Ok? && r.value[i] == host.rel(curWd, patterns[i]).value)
              && r.value[|patterns|] == BridgePath(Dir(r.value[0]))
  {
    match FirstGoFile(patterns, host)
    case None => Ok(patterns)
    case Some(_) =>
      match GoFilesPackage(patterns, host.stat)
      case Some(e) => Err(e)
      case None =>
        match Relativise(patterns, curWd, host)
        case Err(e) => Err(e)
        case Ok(packages) =>
          var dir := Dir(packages[0]);
          BridgeAppended(packages, dir);
          Ok(packages + [BridgePath(dir)])
  }

  /**
   * When the named files are all relative, the build is handed exactly
   * those files followed by the bridge file in the first one's directory.
   */
  lemma BuildPackagesRelativeFiles(patterns: seq<string>, curWd: string, host: Host)
    requires FirstGoFile(patterns, host).Some? && GoFilesPackage(patterns, host.stat).None?
    requires forall i :: 0 <= i < |patterns| ==> !host.isAbs(patterns[i])
    ensures BuildPackages(patterns, curWd, host) == Ok(patterns + [BridgePath(Dir(patterns[0]))])
  {
    RelativeKept(patterns, curWd, host);
  }

  /** Relative patterns come through Relativise unchanged. */
  lemma {:induction false} RelativeKept(patterns: seq<string>, curWd: string, host: Host)
    requires forall i :: 0 <= i < |patterns| ==> !host.isAbs(patterns[i])
    ensures Relativise(patterns, curWd, host) == Ok(patterns)
    decreases |patterns|
  {
    if |patterns| > 0 {
      assert forall i :: 0 < i < |patterns| ==> patterns[i] == patterns[1..][i - 1];
      RelativeKept(patterns[1..], curWd, host);
      assert [patterns[0]] + patterns[1..] == patterns;
    }
  }

  /** Where the bridge file goes: beside the first named file. */
  function BridgePath(dir: string): string
  {
    if dir == "." then BridgeFile else PathJoin(dir, BridgeFile)
  }

  /** Appending the bridge keeps the packages and ends in the bridge file's name. */
  lemma BridgeAppended(packages: seq<string>, dir: string)
    ensures var out := packages + [BridgePath(dir)];
      |out| == |packages| + 1 && LastElement(out[|packages|]) == BridgeFile
      && forall i :: 0 <= i < |packages| ==> out[i] == packages[i]
  {
    BridgeLast(dir);
  }

  /** The bridge path, joined to any directory, still ends in the bridge file's name. */
  lemma BridgeLast(dir: string)
    ensures LastElement(BridgePath(dir)) == BridgeFile
  {
    assert '/' !in BridgeFile;
    var p := BridgePath(dir);
    if dir != "." && dir != "" {
      assert IsSuffix(BridgeFile, p) by {
        if dir[|dir| - 1] == '/' {
          assert p == dir + BridgeFile;
        } else {
          assert p == dir + "/" + BridgeFile;
        }
      }
      var i := LastIndexOfChar(p, '/');
      assert p[|p| - |BridgeFile| - 1] == '/';
      assert i == |p| - |BridgeFile| - 1;
    }
  }

  /**
   * findModuleRoot, for a clean directory: the directory itself or the
   * nearest parent holding a go.mod file, or "" when the walk reaches the
   * root (where filepath.Dir stops changing) without one.
   */
  function FindModuleRoot(dir: string, hasGoMod: string -> bool): (r: string)
    requires dir != ""
    ensures r != "" ==> hasGoMod(r)
    ensures hasGoMod(dir) ==> r == dir
    decreases WalkMeasure(dir)
  {
    if hasGoMod(dir) then dir
    else if Dir(dir) == dir then ""
    else
      DirShrinks(dir);
      FindModuleRoot(Dir(dir), hasGoMod)
  }

  /** The directories findModuleRoot visits, from `dir` up to the fixpoint of filepath.Dir. */
  function Ancestors(dir: string): (r: seq<string>)
    requires dir != ""
    ensures |r| > 0 && r[0] == dir
    ensures forall i :: 0 <= i < |r| ==> r[i] != ""
    decreases WalkMeasure(dir)
  {
    if Dir(dir) == dir then [dir]
    else
      DirShrinks(dir);
      var rest := Ancestors(Dir(dir));
      var r := [dir] + rest;
      assert forall i :: 1 <= i < |r| ==> r[i] == rest[i - 1];
      r
  }

  /** The position of the first of `s` that satisfies `p`, or -1. */
  function FirstWith(s: seq<string>, p: string -> bool): (r: int)
    ensures -1 <= r < |s|
    ensures r < 0 <==> forall i :: 0 <= i < |s| ==> !p(s[i])
    ensures 0 <= r ==> p(s[r]) && forall j :: 0 <= j < r ==> !p(s[j])
  {
    if |s| == 0 then -1
    else if p(s[0]) then 0
    else
      assert forall i :: 1 <= i < |s| ==> s[i] == s[1..][i - 1];
      var k := FirstWith(s[1..], p);
      if k < 0 then -1 else k + 1
  }

  /** The first of `s` that satisfies `p`, or "" when none does. */
  function Nearest(s: seq<string>, p: string -> bool): (r: string)
    requires forall i :: 0 <= i < |s| ==> s[i] != ""
    ensures r == "" <==> forall i :: 0 <= i < |s| ==> !p(s[i])
    ensures r != "" ==> r == s[FirstWith(s, p)]
  {
    var k := FirstWith(s, p);
    if k < 0 then "" else s[k]
  }

  /** findModuleRoot answers with the nearest directory on the walk up that holds go.mod. */
  lemma {:induction false} ModuleRootIsNearest(dir: string, hasGoMod: string -> bool)
    requires dir != ""
    ensures FindModuleRoot(dir, hasGoMod) == Nearest(Ancestors(dir), hasGoMod)
    decreases WalkMeasure(dir)
  {
    if !hasGoMod(dir) && Dir(dir) != dir {
      DirShrinks(dir);
      ModuleRootIsNearest(Dir(dir), hasGoMod);
      var a := Ancestors(dir);
      assert a == [dir] + Ancestors(Dir(dir));
      assert a[1..] == Ancestors(Dir(dir));
    }
  }

  /** Zero at the fixpoints "." and "/", and the length plus one elsewhere. */
  function WalkMeasure(dir: string): nat
  {
    if dir == "." || dir == "/" then 0 else |dir| + 1
  }

  /** Each step of the walk moves to a strictly smaller directory. */
  lemma DirShrinks(dir: string)
    requires Dir(dir) != dir
    ensures WalkMeasure(Dir(dir)) < WalkMeasure(dir)
  {
    var i := LastIndexOfChar(dir, '/');
    if i > 0 {
      assert |Dir(dir)| == i < |dir|;
    }
  }
}

=== FILE: build_env.dfy ===
/**
 * The decisions the legacy build step makes before it runs `go build` in a
 * temporary copy of the project: the temporary names, the GOPATH of the
 * build, the working directory inside the copy, where binaries are
 * installed and where the built binary goes. Environment variables, the
 * current directory, the hash of the project path and filepath.Abs are
 * inputs.
 */
module BuildEnv {
  import opened Wrappers
  import opened Text
  import opened Paths
  import opened GoList
  import opened Sums
  import opened CoverVars

  /** "goc-build-" and the hex of the first six bytes of the path's SHA-256. */
  function TmpFolderName(sum: seq<nat>): (r: string)
    requires |sum| >= 6 && AllBytes(sum)
    ensures IsPrefix("goc-build-", r) && r[10..] == HashSuffix(sum) && |r| == 22
  {
    "goc-build-" + HashSuffix(sum)
  }

  /** "gocbuild" and the same hex suffix. */
  function TmpPackageName(sum: seq<nat>): (r: string)
    requires |sum| >= 6 && AllBytes(sum)
    ensures IsPrefix("gocbuild", r) && r[8..] == HashSuffix(sum) && |r| == 20
  {
    "gocbuild" + HashSuffix(sum)
  }

  /** The two temporary names of one project share its hash suffix. */
  lemma TmpNamesShareSuffix(sum: seq<nat>)
    requires |sum| >= 6 && AllBytes(sum)
    ensures TmpFolderName(sum)[10..] == TmpPackageName(sum)[8..]
    ensures TmpFolderName(sum) != TmpPackageName(sum)
  {
    assert |TmpFolderName(sum)| != |TmpPackageName(sum)|;
  }

  /**
   * The GOPATH of the temporary build, as written: none for a module
   * project, else the temporary dir in front of the original GOPATH; then
   * the fallback to the original GOPATH for a project without a root.
   */
  function NewGopath(isMod: bool, oriGopath: string, tmpDir: string, root: string): string
  {
    var first := if isMod then "" else if oriGopath == "" then tmpDir else tmpDir + ":" + oriGopath;
    if first == "" && root == "" && !isMod then oriGopath else first
  }

  /**
   * The fallback for a project without a root never changes the first
   * choice: a non-module project only gets an empty first choice when
   * both the temporary dir and the original GOPATH are empty.
   */
  lemma NewGopathFallbackInert(isMod: bool, oriGopath: string, tmpDir: string, root: string)
    ensures NewGopath(isMod, oriGopath, tmpDir, root)
            == (if isMod then "" else if oriGopath == "" then tmpDir else tmpDir + ":" + oriGopath)
  {
  }

  /** The input that shows it: a GOPATH project without a root still builds with the temporary dir first. */
  lemma NewGopathRootlessExample()
    ensures NewGopath(false, "/go", "/tmp/goc-build-0", "") == "/tmp/goc-build-0:/go"
  {
  }

  /**
   * The GOPATH as the fix for projects outside any GOPATH intends it: such
   * a project (no module, no root) builds with the original GOPATH.
   */
  function NewGopathIntended(isMod: bool, oriGopath: string, tmpDir: string, root: string): (r: string)
    ensures isMod ==> r == ""
    ensures !isMod && root == "" ==> r == oriGopath
    ensures !isMod && root != "" ==> (oriGopath == "" ==> r == tmpDir) && (oriGopath != "" ==> r == tmpDir + ":" + oriGopath)
    ensures !isMod && root != "" && tmpDir != "" ==> IsPrefix(tmpDir, r)
  {
    if isMod then ""
    else if root == "" then oriGopath
    else if oriGopath == "" then tmpDir
    else tmpDir + ":" + oriGopath
  }

  /** The two agree on every project that has a root or is a module. */
  lemma NewGopathAgrees(isMod: bool, oriGopath: string, tmpDir: string, root: string)
    requires isMod || root != ""
    ensures NewGopath(isMod, oriGopath, tmpDir, root) == NewGopathIntended(isMod, oriGopath, tmpDir, root)
  {
  }

  datatype ProjectKind = ProjectKind(isMod: bool, root: string)

  /**
   * traversePkgsList: the first package in map order decides whether the
   * project is a module and what its root is; no package is an error.
   */
  function TraversePkgsList(pkgs: map<string, Package>, order: seq<string>): (r: Result<ProjectKind, string>)
    requires Enumerates(order, pkgs.Keys)
    ensures r.Err? <==> |pkgs| == 0
    ensures r.Err? ==> r.error == "should never be reached"
    ensures r.Ok? ==> exists k :: k in pkgs && r.value == ProjectKind(pkgs[k].modInfo.Some?, pkgs[k].root)
  {
    if |order| == 0 then
      assert pkgs.Keys == {};
      Err("should never be reached")
    else
      assert order[0] in pkgs;
      var v := pkgs[order[0]];
      Ok(ProjectKind(v.modInfo.Some?, v.root))
  }

  /** When all packages agree, the map order does not matter. */
  lemma TraverseOrderIndependent(pkgs: map<string, Package>, a: seq<string>, b: seq<string>)
    requires Enumerates(a, pkgs.Keys) && Enumerates(b, pkgs.Keys)
    requires forall k, k' :: k in pkgs && k' in pkgs ==>
               pkgs[k].root == pkgs[k'].root && pkgs[k].modInfo.Some? == pkgs[k'].modInfo.Some?
    ensures TraversePkgsList(pkgs, a) == TraversePkgsList(pkgs, b)
  {
    if |a| > 0 { assert a[0] in pkgs; }
    if |b| > 0 { assert b[0] in pkgs; }
  }

  /** The outcome of getTmpwd: a directory, an error, or a nil module dereferenced. */
  datatype TmpwdOutcome = Tmpwd(dir: string) | TmpwdError(msg: string) | TmpwdPanic

  /**
   * getTmpwd: the first package in map order gives the parent dir (its
   * root, or its module dir in a module project); the working dir must
   * contain it, and the part after len(parent) characters is joined onto
   * the temporary dir.
   */
  function GetTmpwd(pkgs: map<string, Package>, order: seq<string>, isMod: bool, workingDir: string, tmpDir: string): (r: TmpwdOutcome)
    requires Enumerates(order, pkgs.Keys)
    ensures r.TmpwdError? && r.msg == "should never be reached" <==> |pkgs| == 0
    ensures r.TmpwdPanic? ==> |order| > 0 && isMod && pkgs[order[0]].modInfo.None?
    ensures r.Tmpwd? ==> (|order| > 0 && (!isMod || pkgs[order[0]].modInfo.Some?)
              && Contains(workingDir, ParentOf(pkgs[order[0]], isMod))
              && r.dir == PathJoin(tmpDir, workingDir[|ParentOf(pkgs[order[0]], isMod)|..]))
    ensures |order| > 0 && (!isMod || pkgs[order[0]].modInfo.Some?) ==>
              if Contains(workingDir, ParentOf(pkgs[order[0]], isMod))
              then r == Tmpwd(PathJoin(tmpDir, workingDir[|ParentOf(pkgs[order[0]], isMod)|..]))
              else r == TmpwdError("goc not support for such project directory")
  {
    if |order| == 0 then
      assert pkgs.Keys == {};
      TmpwdError("should never be reached")
    else
      assert order[0] in pkgs;
      var pkg := pkgs[order[0]];
      if isMod && pkg.modInfo.None? then TmpwdPanic
      else
        var parent := if isMod then pkg.modInfo.value.dir else pkg.root;
        if IndexOf(workingDir, parent) == -1 then TmpwdError("goc not support for such project directory")
        else Tmpwd(PathJoin(tmpDir, workingDir[|parent|..]))
  }

  /** The dir a package's project lives in: its module dir, or its root outside modules. */
  function ParentOf(pkg: Package, isMod: bool): string
    requires !isMod || pkg.modInfo.Some?
  {
    if isMod then pkg.modInfo.value.dir else pkg.root
  }

  /** A working dir below the parent maps to the same place below the temporary dir. */
  lemma TmpwdBelowParent(pkgs: map<string, Package>, order: seq<string>, workingDir: string, tmpDir: string, rel: string)
    requires Enumerates(order, pkgs.Keys) && |order| > 0
    requires pkgs[order[0]].root != "" && tmpDir != "" && tmpDir[|tmpDir| - 1] != '/' && rel != "" && rel[0] != '/'
    requires workingDir == pkgs[order[0]].root + "/" + rel
    ensures GetTmpwd(pkgs, order, false, workingDir, tmpDir) == Tmpwd(tmpDir + "/" + rel)
  {
    var parent := pkgs[order[0]].root;
    assert workingDir[..|parent|] == parent;
    ContainsAt(workingDir, parent, 0);
    assert workingDir[|parent|..] == "/" + rel;
    assert IndexOf(workingDir, parent) != -1;
    assert PathJoin(tmpDir, "/" + rel) == tmpDir + "/" + rel;
  }

  /**
   * findWhereToInstall: GOBIN if set; otherwise an error for a non-module
   * project without a root; Root/bin for a non-module project; the first
   * GOPATH entry's bin; HOME/go/bin.
   */
  function FindWhereToInstall(gobin: string, isMod: bool, root: string, oriGopath: string, home: string): (r: Result<string, string>)
    ensures gobin != "" ==> r == Ok(gobin)
    ensures r.Err? <==> gobin == "" && !isMod && root == ""
    ensures r.Err? ==> r.error == "don't know where to install"
    ensures gobin == "" && !isMod && root != "" ==> r == Ok(PathJoin(root, "bin"))
    ensures gobin == "" && isMod && oriGopath != "" ==> r == Ok(PathJoin(Split(oriGopath, ':')[0], "bin"))
    ensures gobin == "" && isMod && oriGopath == "" ==> r == Ok(PathJoin(PathJoin(home, "go"), "bin"))
  {
    if gobin != "" then Ok(gobin)
    else if !isMod then
      if root == "" then Err("don't know where to install") else Ok(PathJoin(root, "bin"))
    else if oriGopath != "" then Ok(PathJoin(Split(oriGopath, ':')[0], "bin"))
    else Ok(PathJoin(PathJoin(home, "go"), "bin"))
  }

  /** With GOBIN unset, every install dir found ends in a "bin" element. */
  lemma InstallDirIsBin(isMod: bool, root: string, oriGopath: string, home: string)
    ensures var r := FindWhereToInstall("", isMod, root, oriGopath, home);
      r.Ok? ==> IsSuffix("bin", r.value) && (r.value == "bin" || IsSuffix("/bin", r.value))
  {
    var r := FindWhereToInstall("", isMod, root, oriGopath, home);
    if r.Ok? {
      var dir := if !isMod then root else if oriGopath != "" then Split(oriGopath, ':')[0] else PathJoin(home, "go");
      assert r.value == PathJoin(dir, "bin");
      JoinBin(dir);
    }
  }

  lemma JoinBin(dir: string)
    ensures var p := PathJoin(dir, "bin");
      IsSuffix("bin", p) && (p == "bin" || IsSuffix("/bin", p))
  {
    var p := PathJoin(dir, "bin");
    if dir != "" && dir[|dir| - 1] == '/' {
      assert p == dir + "bin";
      assert p[|p| - 4..] == [dir[|dir| - 1]] + "bin";
    } else if dir != "" {
      assert p == dir + "/" + "bin";
    }
  }

  /** validatePackageForBuild: only "." can be built. */
  predicate ValidPackages(packages: string)
  {
    packages == "."
  }

  /**
   * determineOutputDir: with no output, the current dir joined with its
   * own last element with every '_' turned into '-'; otherwise the
   * absolute form of the output.
   */
  function DetermineOutputDir(outputDir: string, cwd: string, abs: string -> string): (r: string)
    ensures outputDir != "" ==> r == abs(outputDir)
    ensures outputDir == "" ==> r == PathJoin(cwd, ReplaceChar(LastElement(cwd), '_', '-'))
  {
    if outputDir == "" then PathJoin(cwd, ReplaceChar(LastElement(cwd), '_', '-'))
    else abs(outputDir)
  }

  /** The default binary sits in the current dir and its name has no '_'. */
  lemma DefaultOutputName(cwd: string, abs: string -> string)
    requires cwd != "" && cwd[|cwd| - 1] != '/'
    ensures var r := DetermineOutputDir("", cwd, abs);
      r == cwd + "/" + ReplaceChar(LastElement(cwd), '_', '-')
      && LastElement(r) == ReplaceChar(LastElement(cwd), '_', '-')
      && '_' !in LastElement(r)
  {
    var name := ReplaceChar(LastElement(cwd), '_', '-');
    var r := DetermineOutputDir("", cwd, abs);
    assert LastIndexOfChar(cwd, '/') != |cwd| - 1;
    assert LastElement(cwd) != "";
    assert |name| == |LastElement(cwd)|;
    assert '/' !in name;
    assert r == cwd + "/" + name;
    LastElementAfterSlash(cwd + "/", name);
  }

  lemma LastElementAfterSlash(p: string, name: string)
    requires p != "" && p[|p| - 1] == '/' && '/' !in name
    ensures LastElement(p + name) == name
  {
    var s := p + name;
    var i := LastIndexOfChar(s, '/');
    assert s[|p| - 1] == '/';
    assert forall k :: |p| <= k < |s| ==> s[k] == name[k - |p|];
    assert i == |p| - 1;
    assert s[i + 1..] == name;
  }

  /** NewBuild: an error for any package pattern but ".", else the build target. */
  function NewBuildTarget(packages: string, outputDir: string, cwd: string, abs: string -> string): (r: Result<string, string>)
    ensures r.Err? <==> !ValidPackages(packages)
    ensures r.Err? ==> r.error == "packages only support \".\""
    ensures r.Ok? ==> r.value == DetermineOutputDir(outputDir, cwd, abs)
  {
    if !ValidPackages(packages) then Err("packages only support \".\"")
    else Ok(DetermineOutputDir(outputDir, cwd, abs))
  }

  /** Build: " -o <target>" after the user's flags. */
  function BuildFlagsWithTarget(flags: string, target: string): string
  {
    flags + " -o " + target
  }

  /**
   * The shell splits the flags on spaces: the target's -o comes last, so it
   * overrides any -o among the user's flags.
   */
  lemma TargetOutputWins(flags: string, target: string)
    requires ' ' !in target
    ensures Split(BuildFlagsWithTarget(flags, target), ' ') == Split(flags, ' ') + ["-o", target]
    ensures var w := Split(BuildFlagsWithTarget(flags, target), ' ');
      w[|w| - 2] == "-o" && w[|w| - 1] == target
  {
    var words := Split(flags, ' ');
    var parts := words + ["-o", target];
    JoinedTarget(flags, target);
    NoSpaceParts(words, target);
    SplitJoin(parts, ' ');
  }

  lemma JoinedTarget(flags: string, target: string)
    ensures Join(Split(flags, ' ') + ["-o", target], ' ') == BuildFlagsWithTarget(flags, target)
  {
    JoinSplit(flags, ' ');
    JoinAppend(Split(flags, ' '), "-o", target);
    assert " -o " == " " + "-o" + " ";
  }

  lemma NoSpaceParts(words: seq<string>, target: string)
    requires forall i :: 0 <= i < |words| ==> ' ' !in words[i]
    requires ' ' !in target
    ensures forall i :: 0 <= i < |words + ["-o", target]| ==> ' ' !in (words + ["-o", target])[i]
  {
    var parts := words + ["-o", target];
    forall i | 0 <= i < |parts| ensures ' ' !in parts[i] {
      if i < |words| { assert parts[i] == words[i]; }
    }
  }

  lemma {:induction false} JoinAppend(parts: seq<string>, x: string, y: string)
    requires |parts| >= 1
    ensures Join(parts + [x, y], ' ') == Join(parts, ' ') + " " + x + " " + y
    decreases |parts|
  {
    var all := parts + [x, y];
    if |parts| == 1 {
      assert all == [parts[0], x, y];
      assert all[1..] == [x, y] && all[1..][1..] == [y];
      assert Join([y], ' ') == y;
      assert Join([x, y], ' ') == x + [' '] + y;
      assert Join(all, ' ') == parts[0] + [' '] + (x + [' '] + y);
    } else {
      JoinAppend(parts[1..], x, y);
      assert all[1..] == parts[1..] + [x, y];
      assert Join(all, ' ') == parts[0] + [' '] + Join(parts[1..] + [x, y], ' ');
      assert Join(parts, ' ') == parts[0] + [' '] + Join(parts[1..], ' ');
    }
  }
}

=== FILE: cli_flags.dfy ===
/**
 * The command line's own decisions: the `--mode` and `--agentport` flag
 * values (cmd/commonflags.go), and the client side of `goc list` and
 * `goc profile` (pkg/client/client.go) once the HTTP exchange, the JSON
 * decoding and the terminal query are given as parameters.
 */
module CliFlags {
  import opened Wrappers
  import opened Text
  import opened Paths

  // ---------------------------------------------------------------------
  // --mode
  // ---------------------------------------------------------------------

  /** The value behind the `--mode` flag. */
  datatype CoverMode = CoverMode(mode: string)

  /** The result of a flag's Set: the flag's new value and the error returned, if any. */
  datatype Assigned<T> = Assigned(flag: T, err: Option<string>)

  const UnknownMode := "unknown mode"

  /** The three modes `go tool cover` accepts. */
  predicate KnownMode(v: string)
  {
    v == "set" || v == "count" || v == "atomic"
  }

  /** The flag's value before any Set. */
  function DefaultCoverMode(): (r: CoverMode)
    ensures KnownMode(r.mode) && r.mode == "count"
  {
    CoverMode("count")
  }

  /** CoverMode.Set: "" selects "count", a known mode is kept, anything else is refused. */
  function SetCoverMode(m: CoverMode, v: string): (r: Assigned<CoverMode>)
    ensures r.err.None? <==> v == "" || KnownMode(v)
    ensures r.err.Some? ==> r.err.value == UnknownMode && r.flag == m
    ensures v == "" ==> r.flag.mode == "count"
    ensures KnownMode(v) ==> r.flag.mode == v
    ensures r.err.None? ==> KnownMode(r.flag.mode)
  {
    if v == "" then Assigned(CoverMode("count"), None)
    else if !KnownMode(v) then Assigned(m, Some(UnknownMode))
    else Assigned(CoverMode(v), None)
  }

  /** Setting the flag from its own String() form gives back the same value. */
  lemma CoverModeRoundTrip(m: CoverMode, any: CoverMode)
    requires KnownMode(m.mode)
    ensures SetCoverMode(any, m.mode) == Assigned(m, None)
  {
  }

  /** The flag's value after a sequence of Set calls, each refused value leaving it as it was. */
  function SetCoverModes(m: CoverMode, vs: seq<string>): (r: CoverMode)
    ensures |vs| > 0 && KnownMode(vs[|vs| - 1]) ==> r.mode == vs[|vs| - 1]
    ensures |vs| > 0 && vs[|vs| - 1] == "" ==> r.mode == "count"
    ensures r.mode == m.mode || r.mode == "count" || r.mode in vs
    decreases |vs|
  {
    if |vs| == 0 then m
    else
      var r := SetCoverModes(SetCoverMode(m, vs[0]).flag, vs[1..]);
      assert |vs| > 1 ==> vs[1..][|vs[1..]| - 1] == vs[|vs| - 1];
      assert r.mode in vs[1..] ==> r.mode in vs;
      r
  }

  /** Whatever values the command line supplies, the mode stays one `go tool cover` accepts. */
  lemma {:induction false} CoverModeStaysKnown(vs: seq<string>)
    ensures KnownMode(SetCoverModes(DefaultCoverMode(), vs).mode)
  {
    KnownAfterSets(DefaultCoverMode(), vs);
  }

  lemma {:induction false} KnownAfterSets(m: CoverMode, vs: seq<string>)
    requires KnownMode(m.mode)
    ensures KnownMode(SetCoverModes(m, vs).mode)
    decreases |vs|
  {
    if |vs| > 0 {
      KnownAfterSets(SetCoverMode(m, vs[0]).flag, vs[1..]);
    }
  }

  /** The last accepted value wins: after a run of Sets the mode is the last one not refused. */
  lemma {:induction false} LastAcceptedWins(m: CoverMode, vs: seq<string>, i: nat)
    requires i < |vs| && KnownMode(vs[i])
    requires forall j :: i < j < |vs| ==> vs[j] != "" && !KnownMode(vs[j])
    ensures SetCoverModes(m, vs).mode == vs[i]
    decreases |vs|
  {
    if i == 0 {
      RefusedKeep(SetCoverMode(m, vs[0]).flag, vs[1..]);
    } else {
      LastAcceptedWins(SetCoverMode(m, vs[0]).flag, vs[1..], i - 1);
    }
  }

  lemma {:induction false} RefusedKeep(m: CoverMode, vs: seq<string>)
    requires forall j :: 0 <= j < |vs| ==> vs[j] != "" && !KnownMode(vs[j])
    ensures SetCoverModes(m, vs) == m
    decreases |vs|
  {
    if |vs| > 0 {
      RefusedKeep(m, vs[1..]);
    }
  }

  // ---------------------------------------------------------------------
  // --agentport
  // ---------------------------------------------------------------------

  /** The value behind the `--agentport` flag; "" means a random port. */
  datatype AgentPort = AgentPort(port: string)

  /**
   * AgentPort.Set. `splitHostPort` stands for net.SplitHostPort and gives
   * the error it would return, or None when `v` splits.
   */
  function SetAgentPort(a: AgentPort, v: string, splitHostPort: string -> Option<string>): (r: Assigned<AgentPort>)
    ensures v == "" ==> r == Assigned(AgentPort(""), None)
    ensures v != "" && splitHostPort(v).Some? ==> r == Assigned(a, splitHostPort(v))
    ensures v != "" && splitHostPort(v).None? ==> r == Assigned(AgentPort(v), None)
    ensures r.err.None? ==> r.flag.port == "" || splitHostPort(r.flag.port).None?
  {
    if v == "" then Assigned(AgentPort(""), None)
    else match splitHostPort(v)
      case Some(e) => Assigned(a, Some(e))
      case None => Assigned(AgentPort(v), None)
  }

  /** An accepted port, set again from its String() form, is accepted unchanged. */
  lemma AgentPortRoundTrip(a: AgentPort, v: string, any: AgentPort, splitHostPort: string -> Option<string>)
    requires SetAgentPort(a, v, splitHostPort).err.None?
    ensures var b := SetAgentPort(a, v, splitHostPort).flag;
      SetAgentPort(any, b.port, splitHostPort) == Assigned(b, None)
  {
  }

  // ---------------------------------------------------------------------
  // goc list
  // ---------------------------------------------------------------------

  /** How many characters of the command line are shown: never fewer than 16. */
  function Shown(preLen: int, termWidth: Option<int>): (r: int)
    ensures r >= 16
    ensures termWidth.Some? && termWidth.value > preLen + 16 ==> r == termWidth.value - preLen
    ensures termWidth.None? ==> r == 16
  {
    var width := if termWidth.None? || termWidth.value <= preLen + 16 then 16 + preLen else termWidth.value;
    width - preLen
  }

  /**
   * getSimpleCmdLine. `termWidth` is the terminal's width, or None when the
   * terminal cannot be asked.
   */
  function SimpleCmdLine(preLen: int, cmdLine: string, termWidth: Option<int>): (r: string)
    ensures IsPrefix(r, cmdLine)
    ensures |r| == if |cmdLine| <= Shown(preLen, termWidth) then |cmdLine| else Shown(preLen, termWidth)
    ensures |r| >= if |cmdLine| < 16 then |cmdLine| else 16
    ensures r == cmdLine <==> |cmdLine| <= Shown(preLen, termWidth)
  {
    var width := if termWidth.None? || termWidth.value <= preLen + 16 then 16 + preLen else termWidth.value;
    if |cmdLine| > width - preLen then cmdLine[..width - preLen] else cmdLine
  }

  /** Without a terminal the first 16 characters are shown, whatever the other columns take. */
  lemma SimpleCmdLineNoTerminal(preLen: int, preLen': int, cmdLine: string)
    ensures SimpleCmdLine(preLen, cmdLine, None) == SimpleCmdLine(preLen', cmdLine, None)
    ensures |cmdLine| > 16 ==> SimpleCmdLine(preLen, cmdLine, None) == cmdLine[..16]
  {
  }

  /** A wider terminal shows at least as much of the command line. */
  lemma SimpleCmdLineWider(preLen: int, cmdLine: string, w: int, w': int)
    requires w <= w'
    ensures IsPrefix(SimpleCmdLine(preLen, cmdLine, Some(w)), SimpleCmdLine(preLen, cmdLine, Some(w')))
  {
    var r := SimpleCmdLine(preLen, cmdLine, Some(w));
    var r' := SimpleCmdLine(preLen, cmdLine, Some(w'));
    assert Shown(preLen, Some(w)) <= Shown(preLen, Some(w'));
    assert r == cmdLine[..|r|] && r' == cmdLine[..|r'|];
  }

  /** Without a terminal, a 19-character name loses its last three characters. */
  lemma SimpleCmdLineExample()
    ensures SimpleCmdLine(0, "1234567890abc.go", None) == "1234567890abc.go"
    ensures SimpleCmdLine(0, "1234567890abcdef.go", None) == "1234567890abcdef"
  {
    assert "1234567890abcdef.go"[..16] == "1234567890abcdef";
  }

  /** One entry of the agent list as the server reports it. */
  datatype ListedAgent = ListedAgent(id: string, remoteIp: string, hostname: string, cmdLine: string, pid: string)

  /** The room the ID and REMOTEIP columns take on a line of the short listing. */
  function PreLen(a: ListedAgent): (r: nat)
    ensures r >= 9 && r == |a.id| + |a.remoteIp| + 9
  {
    |a.id| + |a.remoteIp| + 9
  }

  function TableHeader(wide: bool): (r: seq<string>)
    ensures |r| == if wide then 5 else 3
  {
    if wide then ["ID", "REMOTEIP", "HOSTNAME", "PID", "CMD"] else ["ID", "REMOTEIP", "CMD"]
  }

  /** One table row: every column when wide, otherwise the id, the address and the shortened command. */
  function TableRow(a: ListedAgent, wide: bool, termWidth: Option<int>): (r: seq<string>)
    ensures |r| == |TableHeader(wide)|
    ensures r[0] == a.id && r[1] == a.remoteIp
    ensures wide ==> r == [a.id, a.remoteIp, a.hostname, a.pid, a.cmdLine]
    ensures !wide ==> IsPrefix(r[2], a.cmdLine) && r[2] == SimpleCmdLine(PreLen(a), a.cmdLine, termWidth)
  {
    if wide then [a.id, a.remoteIp, a.hostname, a.pid, a.cmdLine]
    else [a.id, a.remoteIp, SimpleCmdLine(PreLen(a), a.cmdLine, termWidth)]
  }

  function Rows(agents: seq<ListedAgent>, wide: bool, termWidth: Option<int>): (r: seq<seq<string>>)
    ensures |r| == |agents|
    ensures forall i :: 0 <= i < |r| ==> r[i] == TableRow(agents[i], wide, termWidth)
  {
    if |agents| == 0 then [] else [TableRow(agents[0], wide, termWidth)] + Rows(agents[1..], wide, termWidth)
  }

  /** What one HTTP exchange gave: a transport error, or a status and a body. */
  datatype Reply = Failed(err: string, network: bool) | Replied(status: int, body: string)

  /** client.do with its single retry: a network error is tried once more, nothing else is. */
  function Fetch(first: Reply, second: Reply): (r: Reply)
    ensures r == first || (first.Failed? && first.network && r == second)
    ensures !(first.Failed? && first.network) ==> r == first
  {
    if first.Failed? && first.network then second else first
  }

  /** The body handed to json.Unmarshal: a failed exchange leaves it empty. */
  function Body(r: Reply): string
  {
    if r.Failed? then "" else r.body
  }

  /** A table to print, or the message of a fatal exit. */
  datatype AgentListing = Table(header: seq<string>, rows: seq<seq<string>>) | ListFatal(msg: string)

  /**
   * ListAgents. `decode` stands for json.Unmarshal of the body into the
   * agent list, giving its error text on failure.
   */
  function ListCommand(wide: bool, first: Reply, second: Reply,
                      decode: string -> Result<seq<ListedAgent>, string>, termWidth: Option<int>): (r: AgentListing)
    ensures Fetch(first, second).Failed? ==> r == ListFatal("goc list failed: " + Fetch(first, second).err)
    ensures Fetch(first, second).Replied? && decode(Fetch(first, second).body).Err? ==>
      r == ListFatal("goc list failed: json unmarshal failed: " + decode(Fetch(first, second).body).error)
    ensures r.Table? <==> Fetch(first, second).Replied? && decode(Fetch(first, second).body).Ok?
    ensures r.Table? ==> var agents := decode(Fetch(first, second).body).value;
      r.header == TableHeader(wide) && |r.rows| == |agents| &&
      forall i :: 0 <= i < |agents| ==> r.rows[i] == TableRow(agents[i], wide, termWidth)
  {
    var reply := Fetch(first, second);
    if reply.Failed? then ListFatal("goc list failed: " + reply.err)
    else match decode(reply.body)
      case Err(e) => ListFatal("goc list failed: json unmarshal failed: " + e)
      case Ok(agents) => Table(TableHeader(wide), Rows(agents, wide, termWidth))
  }

  /** The listing ignores the status code: any reply whose body decodes is printed. */
  lemma ListAgentsIgnoresStatus(wide: bool, status: int, status': int, body: string,
                                decode: string -> Result<seq<ListedAgent>, string>, termWidth: Option<int>, any: Reply)
    ensures ListCommand(wide, Replied(status, body), any, decode, termWidth)
         == ListCommand(wide, Replied(status', body), any, decode, termWidth)
  {
  }

  // ---------------------------------------------------------------------
  // goc profile
  // ---------------------------------------------------------------------

  const DefaultProfileName := "coverage.cov"

  /** The file `goc profile -o output` writes: a bare directory gets "coverage.cov". */
  function OutputFile(output: string): (r: string)
    ensures LastElement(output) != "" ==> r == output
    ensures LastElement(output) == "" ==> r == output + DefaultProfileName
    ensures LastElement(r) != ""
    ensures DirPart(r) == DirPart(output)
  {
    if LastElement(output) != "" then output
    else
      var r := output + DefaultProfileName;
      assert output == DirPart(output);
      assert output != "" ==> output[|output| - 1] == '/' by {
        if output != "" { assert LastIndexOfChar(output, '/') == |output| - 1; }
      }
      NoSlashElement(output, DefaultProfileName);
      r
  }

  /** A name without '/' after a directory part is that path's file part. */
  lemma NoSlashElement(d: string, f: string)
    requires d == "" || d[|d| - 1] == '/'
    requires f != "" && '/' !in f
    ensures LastElement(d + f) == f
    ensures DirPart(d + f) == d
  {
    LastIndexPast(d, f, '/');
    var i := LastIndexOfChar(d, '/');
    assert i == |d| - 1;
    assert (d + f)[i + 1..] == f;
  }

  /** Text without `c` appended after `s` leaves the last `c` where it was. */
  lemma {:induction false} LastIndexPast(s: string, f: string, c: char)
    requires c !in f
    ensures LastIndexOfChar(s + f, c) == LastIndexOfChar(s, c)
    decreases |f|
  {
    if |f| == 0 {
      assert s + f == s;
    } else {
      var p := s + f;
      var f' := f[..|f| - 1];
      assert p[|p| - 1] == f[|f| - 1];
      assert p[..|p| - 1] == s + f';
      LastIndexPast(s, f', c);
    }
  }

  /** Naming the output file is idempotent: the file it names is named by itself. */
  lemma OutputFileIdempotent(output: string)
    ensures OutputFile(OutputFile(output)) == OutputFile(output)
  {
  }

  /** What `goc profile` ends in. */
  datatype ProfileAction =
    | ProfileFatal(msg: string)
    | Stdout(text: string)
    | WriteFile(mkdir: Option<string>, path: string, text: string)

  /**
   * client.Profile. `decode` stands for json.Unmarshal of the body into
   * gocProfile, giving its Profile field or the error text.
   */
  function ProfileCommand(output: string, first: Reply, second: Reply, decode: string -> Result<string, string>): (r: ProfileAction)
    ensures Fetch(first, second).Replied? && Fetch(first, second).status != 200 ==>
      r == ProfileFatal(Fetch(first, second).body)
    ensures !(Fetch(first, second).Replied? && Fetch(first, second).status != 200) && decode(Body(Fetch(first, second))).Err? ==>
      r == ProfileFatal("profile unmarshal failed: " + decode(Body(Fetch(first, second))).error)
    ensures r.Stdout? <==> output == "" && !r.ProfileFatal?
    ensures r.WriteFile? ==>
      r.path == OutputFile(output) &&
      (r.mkdir.Some? <==> DirPart(output) != "") &&
      (r.mkdir.Some? ==> r.mkdir.value == DirPart(output))
    ensures !r.ProfileFatal? ==> var reply := Fetch(first, second);
      (reply.Failed? || reply.status == 200) && decode(Body(reply)).Ok? &&
      (r.Stdout? ==> r.text == decode(Body(reply)).value) &&
      (r.WriteFile? ==> r.text == decode(Body(reply)).value)
  {
    var reply := Fetch(first, second);
    if reply.Replied? && reply.status != 200 then ProfileFatal(reply.body)
    else match decode(Body(reply))
      case Err(e) => ProfileFatal("profile unmarshal failed: " + e)
      case Ok(text) =>
        if output == "" then Stdout(text)
        else
          var dir := DirPart(output);
          WriteFile(if dir != "" then Some(dir) else None, OutputFile(output), text)
  }

  /** The file written by `goc profile -o d/` and by `goc profile -o d/coverage.cov` is the same. */
  lemma ProfileDirectoryTarget(d: string, first: Reply, second: Reply, decode: string -> Result<string, string>)
    requires d != "" && d[|d| - 1] == '/'
    requires ProfileCommand(d, first, second, decode).WriteFile?
    ensures ProfileCommand(d, first, second, decode) == ProfileCommand(d + DefaultProfileName, first, second, decode)
  {
    assert LastElement(d) == "" by {
      assert LastIndexOfChar(d, '/') == |d| - 1;
    }
    NoSlashElement(d, DefaultProfileName);
  }
}

=== FILE: cover_list.dfy ===
/**
 * The CLI's reading of a coverage profile into per-file statement totals
 * (`CovList`, `toBlock`, `addToGroupCov`), the ratio and percentage of a
 * file's coverage with their "no statements" error, and the import-path
 * tests for an `internal` element.
 */
module CoverList {
  import opened Wrappers
  import opened Text
  import opened Decimal
  import opened Sums
  import opened Keyed
  import opened ProfileFormat

  /** Coverage summary of one file. */
  datatype Coverage = Coverage(fileName: string, nCovered: int, nAll: int, lineCovLink: string)

  /** One profile row, as `toBlock` reads it. */
  datatype CodeBlock = CodeBlock(fileName: string, stmts: int, count: int)

  /**
   * What reading one row gives: a block, the "not expected" error, or a
   * run-time panic (slicing the name at index -1 when it has no ':').
   */
  datatype RowOutcome = Row(block: CodeBlock) | BadRow(msg: string) | RowPanic

  /** What reading a whole profile gives. */
  datatype ListOutcome = Listed(list: seq<Coverage>) | ListError(msg: string) | ListPanic

  function Name(c: Coverage): string { c.fileName }

  function BlockStmts(b: CodeBlock): int { b.stmts }

  /** The statements of a block that count as covered. */
  function CoveredStmts(b: CodeBlock): int { if b.count > 0 then b.stmts else 0 }

  function AllOf(c: Coverage): int { c.nAll }

  function CoveredCount(c: Coverage): int { c.nCovered }

  /**
   * toBlock: exactly three space-separated fields, else an error; the file
   * name is the first field up to its first ':'; numbers that do not parse
   * read as Atoi's value (0 on a syntax error).
   */
  function ToBlock(line: string): (r: RowOutcome)
  {
    var slice := Split(line, ' ');
    if |slice| != 3 then BadRow("the profile line " + line + " is not expected")
    else
      var i := IndexOfChar(slice[0], ':');
      if i < 0 then RowPanic
      else Row(CodeBlock(slice[0][..i], AtoiValue(slice[1]), AtoiValue(slice[2])))
  }

  /** What toBlock reads from a row, and when it fails. */
  lemma ToBlockCases(line: string)
    ensures ToBlock(line).BadRow? <==> |Split(line, ' ')| != 3
    ensures ToBlock(line).BadRow? ==> ToBlock(line).msg == "the profile line " + line + " is not expected"
    ensures ToBlock(line).RowPanic? <==> |Split(line, ' ')| == 3 && ':' !in Split(line, ' ')[0]
    ensures ToBlock(line).Row? ==> var f := Split(line, ' ');
              && IsPrefix(ToBlock(line).block.fileName + ":", f[0])
              && ':' !in ToBlock(line).block.fileName
              && ToBlock(line).block.stmts == AtoiValue(f[1])
              && ToBlock(line).block.count == AtoiValue(f[2])
  {
    var f := Split(line, ' ');
    if |f| == 3 && ':' in f[0] {
      var i := IndexOfChar(f[0], ':');
      assert f[0] == f[0][..i] + ":" + f[0][i + 1..];
    }
  }

  /**
   * addToGroupCov: a new entry only when the list is empty or the last
   * entry belongs to another file; the last entry's totals then grow.
   */
  function AddToGroup(g: seq<Coverage>, b: CodeBlock): (r: seq<Coverage>)
    ensures |r| == |g| || |r| == |g| + 1
    ensures |r| == |g| + 1 <==> |g| == 0 || g[|g| - 1].fileName != b.fileName
    ensures r[..|r| - 1] == (if |r| == |g| then g[..|g| - 1] else g)
    ensures r[|r| - 1].fileName == b.fileName
    ensures r[|r| - 1].nAll == (if |r| == |g| then g[|g| - 1].nAll else 0) + b.stmts
    ensures r[|r| - 1].nCovered == (if |r| == |g| then g[|g| - 1].nCovered else 0) + CoveredStmts(b)
    ensures r[|r| - 1].lineCovLink == (if |r| == |g| then g[|g| - 1].lineCovLink else "")
  {
    var g' := if |g| == 0 || g[|g| - 1].fileName != b.fileName then g + [Coverage(b.fileName, 0, 0, "")] else g;
    var last := g'[|g'| - 1];
    var covered := if b.count > 0 then last.nCovered + b.stmts else last.nCovered;
    g'[..|g'| - 1] + [last.(nAll := last.nAll + b.stmts, nCovered := covered)]
  }

  /** The blocks added one after the other to an empty list. */
  function GroupAll(blocks: seq<CodeBlock>): seq<Coverage>
  {
    if |blocks| == 0 then [] else AddToGroup(GroupAll(blocks[..|blocks| - 1]), blocks[|blocks| - 1])
  }

  /** The rows read in order; the first row that fails decides the outcome. */
  function CovRows(rows: seq<string>): ListOutcome
  {
    if |rows| == 0 then Listed([])
    else
      match CovRows(rows[..|rows| - 1])
      case Listed(g) =>
        (match ToBlock(rows[|rows| - 1])
         case Row(b) => Listed(AddToGroup(g, b))
         case BadRow(m) => ListError(m)
         case RowPanic => ListPanic)
      case other => other
  }

  /** CovList: the first line is discarded, the others are rows. */
  function CovList(text: string): ListOutcome
  {
    var lines := ScanLines(text);
    if |lines| == 0 then Listed([]) else CovRows(lines[1..])
  }

  /** The blocks of rows that all read. */
  function BlocksOf(rows: seq<string>): (r: seq<CodeBlock>)
    requires forall i :: 0 <= i < |rows| ==> ToBlock(rows[i]).Row?
    ensures |r| == |rows| && forall i :: 0 <= i < |rows| ==> r[i] == ToBlock(rows[i]).block
  {
    seq(|rows|, i requires 0 <= i < |rows| => ToBlock(rows[i]).block)
  }

  /** When every row reads, the list is the grouping of their blocks. */
  lemma {:induction false} CovRowsAllRead(rows: seq<string>)
    requires forall i :: 0 <= i < |rows| ==> ToBlock(rows[i]).Row?
    ensures CovRows(rows) == Listed(GroupAll(BlocksOf(rows)))
    decreases |rows|
  {
    if |rows| > 0 {
      var init := rows[..|rows| - 1];
      CovRowsAllRead(init);
      assert BlocksOf(rows)[..|rows| - 1] == BlocksOf(init);
    }
  }

  /** The outcome of a whole list when a row does not read. */
  function Failure(o: RowOutcome): ListOutcome
  {
    if o.BadRow? then ListError(o.msg) else ListPanic
  }

  /** The first row that does not read decides the outcome of the whole list. */
  lemma {:induction false} CovRowsFirstBad(rows: seq<string>, k: nat)
    requires k < |rows| && !ToBlock(rows[k]).Row?
    requires forall i :: 0 <= i < k ==> ToBlock(rows[i]).Row?
    ensures CovRows(rows) == Failure(ToBlock(rows[k]))
    decreases |rows|
  {
    var init := rows[..|rows| - 1];
    var f := Failure(ToBlock(rows[k]));
    assert !f.Listed?;
    if k < |rows| - 1 {
      FirstBadInInit(rows, k);
      CovRowsFirstBad(init, k);
      assert CovRows(init) == f;
      CovRowsSnoc(rows);
    } else {
      AllReadBeforeLast(rows);
      CovRowsAllRead(init);
      assert CovRows(init).Listed?;
      CovRowsSnoc(rows);
    }
  }

  lemma FirstBadInInit(rows: seq<string>, k: nat)
    requires k < |rows| - 1 && !ToBlock(rows[k]).Row?
    requires forall i :: 0 <= i < k ==> ToBlock(rows[i]).Row?
    ensures var init := rows[..|rows| - 1];
      k < |init| && !ToBlock(init[k]).Row? && init[k] == rows[k]
      && forall i :: 0 <= i < k ==> ToBlock(init[i]).Row?
  {
    var init := rows[..|rows| - 1];
    assert forall i :: 0 <= i < k ==> init[i] == rows[i];
  }

  lemma AllReadBeforeLast(rows: seq<string>)
    requires |rows| > 0
    requires forall i :: 0 <= i < |rows| - 1 ==> ToBlock(rows[i]).Row?
    ensures var init := rows[..|rows| - 1];
      forall i :: 0 <= i < |init| ==> ToBlock(init[i]).Row?
  {
    var init := rows[..|rows| - 1];
    assert forall i :: 0 <= i < |init| ==> init[i] == rows[i];
  }

  /** One more row after a failure changes nothing; after a list, a bad row fails it. */
  lemma CovRowsSnoc(rows: seq<string>)
    requires |rows| > 0
    ensures !CovRows(rows[..|rows| - 1]).Listed? ==> CovRows(rows) == CovRows(rows[..|rows| - 1])
    ensures CovRows(rows[..|rows| - 1]).Listed? && !ToBlock(rows[|rows| - 1]).Row? ==>
              CovRows(rows) == Failure(ToBlock(rows[|rows| - 1]))
  {
  }

  /** The list reads exactly when every row reads. */
  lemma CovRowsListed(rows: seq<string>)
    ensures CovRows(rows).Listed? <==> forall i :: 0 <= i < |rows| ==> ToBlock(rows[i]).Row?
  {
    if forall i :: 0 <= i < |rows| ==> ToBlock(rows[i]).Row? {
      CovRowsAllRead(rows);
    } else {
      var k := FirstUnread(rows);
      CovRowsFirstBad(rows, k);
    }
  }

  function FirstUnread(rows: seq<string>): (k: nat)
    requires exists i :: 0 <= i < |rows| && !ToBlock(rows[i]).Row?
    ensures k < |rows| && !ToBlock(rows[k]).Row?
    ensures forall i :: 0 <= i < k ==> ToBlock(rows[i]).Row?
  {
    FirstFailing(rows, Reads)
  }

  predicate Reads(line: string) { ToBlock(line).Row? }

  /** The index of the first element that fails `ok`. */
  function FirstFailing<T>(xs: seq<T>, ok: T -> bool): (k: nat)
    requires exists i :: 0 <= i < |xs| && !ok(xs[i])
    ensures k < |xs| && !ok(xs[k])
    ensures forall i :: 0 <= i < k ==> ok(xs[i])
  {
    if !ok(xs[0]) then 0
    else
      var t := xs[1..];
      assert forall i :: 1 <= i < |xs| ==> xs[i] == t[i - 1];
      var k := FirstFailing(t, ok);
      assert xs[k + 1] == t[k];
      k + 1
  }

  /** Consecutive entries belong to different files. */
  predicate AdjacentDistinct(g: seq<Coverage>)
  {
    forall i :: 0 <= i < |g| - 1 ==> g[i].fileName != g[i + 1].fileName
  }

  /** Per entry, covered statements never exceed all statements. */
  predicate CoveredBounded(g: seq<Coverage>)
  {
    forall i :: 0 <= i < |g| ==> 0 <= g[i].nCovered <= g[i].nAll
  }

  lemma SumSnoc<T>(xs: seq<T>, x: T, f: T -> int)
    ensures Sum(xs + [x], f) == Sum(xs, f) + f(x)
  {
    SumConcat(xs, [x], f);
  }

  lemma SumLast<T>(xs: seq<T>, f: T -> int)
    requires |xs| > 0
    ensures Sum(xs, f) == Sum(xs[..|xs| - 1], f) + f(xs[|xs| - 1])
  {
    assert xs == xs[..|xs| - 1] + [xs[|xs| - 1]];
    SumSnoc(xs[..|xs| - 1], xs[|xs| - 1], f);
  }

  /** One more block keeps the invariants and adds its statements to the totals. */
  lemma AddToGroupStep(g: seq<Coverage>, b: CodeBlock)
    requires AdjacentDistinct(g)
    ensures AdjacentDistinct(AddToGroup(g, b))
    ensures CoveredBounded(g) && b.stmts >= 0 ==> CoveredBounded(AddToGroup(g, b))
    ensures Sum(AddToGroup(g, b), AllOf) == Sum(g, AllOf) + b.stmts
    ensures Sum(AddToGroup(g, b), CoveredCount) == Sum(g, CoveredCount) + CoveredStmts(b)
  {
    AddToGroupDistinct(g, b);
    AddToGroupBounded(g, b);
    AddToGroupAll(g, b);
    AddToGroupCovered(g, b);
  }

  lemma AddToGroupDistinct(g: seq<Coverage>, b: CodeBlock)
    requires AdjacentDistinct(g)
    ensures AdjacentDistinct(AddToGroup(g, b))
  {
    var r := AddToGroup(g, b);
    forall i | 0 <= i < |r| - 1 ensures r[i].fileName != r[i + 1].fileName {
      assert r[i] == r[..|r| - 1][i];
      if i + 1 < |r| - 1 {
        assert r[i + 1] == r[..|r| - 1][i + 1];
      }
    }
  }

  lemma AddToGroupBounded(g: seq<Coverage>, b: CodeBlock)
    ensures CoveredBounded(g) && b.stmts >= 0 ==> CoveredBounded(AddToGroup(g, b))
  {
    var r := AddToGroup(g, b);
    if CoveredBounded(g) && b.stmts >= 0 {
      forall i | 0 <= i < |r| ensures 0 <= r[i].nCovered <= r[i].nAll {
        if i < |r| - 1 {
          assert r[i] == r[..|r| - 1][i];
        }
      }
    }
  }

  lemma AddToGroupAll(g: seq<Coverage>, b: CodeBlock)
    ensures Sum(AddToGroup(g, b), AllOf) == Sum(g, AllOf) + b.stmts
  {
    var r := AddToGroup(g, b);
    SumLast(r, AllOf);
    if |r| == |g| {
      SumLast(g, AllOf);
    }
  }

  lemma AddToGroupCovered(g: seq<Coverage>, b: CodeBlock)
    ensures Sum(AddToGroup(g, b), CoveredCount) == Sum(g, CoveredCount) + CoveredStmts(b)
  {
    var r := AddToGroup(g, b);
    SumLast(r, CoveredCount);
    if |r| == |g| {
      SumLast(g, CoveredCount);
    }
  }

  /** Grouping keeps neighbouring entries apart. */
  lemma {:induction false} GroupAllDistinct(blocks: seq<CodeBlock>)
    ensures AdjacentDistinct(GroupAll(blocks))
    decreases |blocks|
  {
    if |blocks| > 0 {
      GroupAllDistinct(blocks[..|blocks| - 1]);
      AddToGroupStep(GroupAll(blocks[..|blocks| - 1]), blocks[|blocks| - 1]);
    }
  }

  /** The totals of the grouped list are the totals of the blocks. */
  lemma GroupAllSums(blocks: seq<CodeBlock>)
    ensures Sum(GroupAll(blocks), AllOf) == Sum(blocks, BlockStmts)
    ensures Sum(GroupAll(blocks), CoveredCount) == Sum(blocks, CoveredStmts)
  {
    GroupAllAll(blocks);
    GroupAllCovered(blocks);
  }

  lemma {:induction false} GroupAllAll(blocks: seq<CodeBlock>)
    ensures Sum(GroupAll(blocks), AllOf) == Sum(blocks, BlockStmts)
    decreases |blocks|
  {
    if |blocks| > 0 {
      var init := blocks[..|blocks| - 1];
      var b := blocks[|blocks| - 1];
      var g := GroupAll(init);
      GroupAllAll(init);
      GroupAllDistinct(init);
      AddToGroupStep(g, b);
      assert GroupAll(blocks) == AddToGroup(g, b);
      SumLast(blocks, BlockStmts);
    }
  }

  lemma {:induction false} GroupAllCovered(blocks: seq<CodeBlock>)
    ensures Sum(GroupAll(blocks), CoveredCount) == Sum(blocks, CoveredStmts)
    decreases |blocks|
  {
    if |blocks| > 0 {
      var init := blocks[..|blocks| - 1];
      var b := blocks[|blocks| - 1];
      var g := GroupAll(init);
      GroupAllCovered(init);
      GroupAllDistinct(init);
      AddToGroupStep(g, b);
      assert GroupAll(blocks) == AddToGroup(g, b);
      SumLast(blocks, CoveredStmts);
    }
  }

  /** With non-negative statement counts, every entry has 0 <= covered <= all. */
  lemma {:induction false} GroupAllBounded(blocks: seq<CodeBlock>)
    requires forall i :: 0 <= i < |blocks| ==> blocks[i].stmts >= 0
    ensures CoveredBounded(GroupAll(blocks))
    decreases |blocks|
  {
    if |blocks| > 0 {
      var init := blocks[..|blocks| - 1];
      assert forall i :: 0 <= i < |init| ==> init[i] == blocks[i];
      GroupAllBounded(init);
      GroupAllDistinct(init);
      AddToGroupStep(GroupAll(init), blocks[|blocks| - 1]);
    }
  }

  /** The block a profile line of the agent stands for. */
  function CodeBlockOf(b: ProfileBlock): CodeBlock
  {
    CodeBlock(b.name, b.stmts, b.count)
  }

  function CodeBlocksOf(blocks: seq<ProfileBlock>): (r: seq<CodeBlock>)
    ensures |r| == |blocks| && forall i :: 0 <= i < |blocks| ==> r[i] == CodeBlockOf(blocks[i])
  {
    seq(|blocks|, i requires 0 <= i < |blocks| => CodeBlockOf(blocks[i]))
  }

  lemma DigitsNoSpace(n: nat)
    ensures ' ' !in NatToString(n) && ':' !in NatToString(n)
  {
  }

  /** "l0.c0,l1.c1": the positions part of a profile line. */
  function Positions(b: ProfileBlock): string
  {
    NatToString(b.line0) + "." + NatToString(b.col0) + "," + NatToString(b.line1) + "." + NatToString(b.col1)
  }

  lemma PositionsNoSpace(b: ProfileBlock)
    ensures ' ' !in Positions(b)
  {
    DigitsNoSpace(b.line0);
    DigitsNoSpace(b.col0);
    DigitsNoSpace(b.line1);
    DigitsNoSpace(b.col1);
  }

  lemma BlockLineShape(b: ProfileBlock)
    ensures BlockLine(b) == (b.name + ":" + Positions(b)) + " " + NatToString(b.stmts) + " " + NatToString(b.count)
  {
  }

  /** The three space-separated fields of an agent profile line. */
  lemma SplitBlockFields(b: ProfileBlock)
    requires AgentBlock(b)
    ensures Split(BlockLine(b), ' ') == [b.name + ":" + Positions(b), NatToString(b.stmts), NatToString(b.count)]
  {
    var head := b.name + ":" + Positions(b);
    var parts := [head, NatToString(b.stmts), NatToString(b.count)];
    PositionsNoSpace(b);
    DigitsNoSpace(b.stmts);
    DigitsNoSpace(b.count);
    assert ' ' !in head;
    JoinThree(head, NatToString(b.stmts), NatToString(b.count), ' ');
    BlockLineShape(b);
    assert forall i :: 0 <= i < 3 ==> ' ' !in parts[i];
    SplitJoin(parts, ' ');
  }

  /** toBlock reads back an agent profile line. */
  lemma ToBlockLine(b: ProfileBlock)
    requires AgentBlock(b)
    ensures ToBlock(BlockLine(b)) == Row(CodeBlockOf(b))
  {
    SplitBlockFields(b);
    var head := Split(BlockLine(b), ' ')[0];
    assert head[|b.name|] == ':' && head[..|b.name|] == b.name;
    assert IndexOfChar(head, ':') == |b.name|;
    ParseIntToString(b.stmts);
    ParseIntToString(b.count);
  }

  /**
   * Reading a profile the agent wrote gives the per-file totals of its
   * blocks, grouped as they come.
   */
  lemma CovListOfProfile(mode: string, blocks: seq<ProfileBlock>)
    requires '\n' !in mode
    requires forall i :: 0 <= i < |blocks| ==> AgentBlock(blocks[i])
    ensures CovList(ProfileText(mode, blocks)) == Listed(GroupAll(CodeBlocksOf(blocks)))
  {
    ProfileLinesPlain(mode, blocks);
    var lines := [Header(mode)] + BlockLines(blocks);
    var rows := lines[1..];
    assert rows == BlockLines(blocks);
    forall i | 0 <= i < |rows| ensures ToBlock(rows[i]) == Row(CodeBlockOf(blocks[i])) {
      ToBlockLine(blocks[i]);
    }
    CovRowsAllRead(rows);
    assert BlocksOf(rows) == CodeBlocksOf(blocks);
  }

  /** A ratio as its numerator and denominator (the float division is left abstract). */
  datatype Ratio = Ratio(covered: int, all: int)

  /** Coverage.Ratio: an error exactly when the file has no statements. */
  function RatioOf(c: Coverage): (r: Result<Ratio, string>)
    ensures r.Err? <==> c.nAll == 0
    ensures r.Err? ==> r.error == "[" + c.fileName + "] has 0 statement"
    ensures r.Ok? ==> r.value.all != 0 && r.value.covered * c.nAll == c.nCovered * r.value.all
  {
    if c.nAll == 0 then Err("[" + c.fileName + "] has 0 statement")
    else Ok(Ratio(c.nCovered, c.nAll))
  }

  /** A percentage text: "N/A", or a formatted ratio. */
  datatype Percent = NotAvailable | Percent(ratio: Ratio)

  /** Coverage.Percentage: "N/A" exactly when the ratio is an error. */
  function PercentageOf(c: Coverage): (p: Percent)
    ensures p.NotAvailable? <==> c.nAll == 0
    ensures p.Percent? ==> RatioOf(c) == Ok(p.ratio)
  {
    match RatioOf(c)
    case Ok(r) => Percent(r)
    case Err(_) => NotAvailable
  }

  /** CoverageList.TotalRatio: the ratio of the summed totals. */
  function TotalRatio(g: seq<Coverage>): (r: Result<Ratio, string>)
    ensures r.Err? <==> Sum(g, AllOf) == 0
    ensures r.Ok? ==> r.value == Ratio(Sum(g, CoveredCount), Sum(g, AllOf))
  {
    RatioOf(Coverage("", Sum(g, CoveredCount), Sum(g, AllOf), ""))
  }

  /** The total ratio of a profile's list is that of all its blocks. */
  lemma TotalRatioOfBlocks(blocks: seq<CodeBlock>)
    ensures TotalRatio(GroupAll(blocks)).Err? <==> Sum(blocks, BlockStmts) == 0
    ensures TotalRatio(GroupAll(blocks)).Ok? ==>
              TotalRatio(GroupAll(blocks)).value == Ratio(Sum(blocks, CoveredStmts), Sum(blocks, BlockStmts))
  {
    GroupAllSums(blocks);
  }

  /** CoverageList.Sort: a stable sort by file name. */
  function SortList(g: seq<Coverage>): (r: seq<Coverage>)
    ensures multiset(r) == multiset(g)
    ensures SortedBy(r, Name)
    ensures forall k :: WithKey(r, Name, k) == WithKey(g, Name, k)
  {
    SortBySorted(g, Name);
    assert forall k :: WithKey(SortBy(g, Name), Name, k) == WithKey(g, Name, k) by {
      forall k ensures WithKey(SortBy(g, Name), Name, k) == WithKey(g, Name, k) {
        SortByStable(g, Name, k);
      }
    }
    SortBy(g, Name)
  }

  /** CoverageList.Map: by file name, a later entry replacing an earlier one. */
  function MapList(g: seq<Coverage>): (m: map<string, Coverage>)
    ensures forall i :: 0 <= i < |g| ==> g[i].fileName in m
    ensures forall k :: k in m ==> m[k] in g && m[k].fileName == k
    ensures forall i :: 0 <= i < |g| && LastOfName(g, i) ==> m[g[i].fileName] == g[i]
  {
    var m := MapBy(g, Name);
    forall i | 0 <= i < |g| && LastOfName(g, i) ensures m[g[i].fileName] == g[i] {
      var k := g[i].fileName;
      var i' :| 0 <= i' < |g| && g[i'].fileName == k && m[k] == g[i']
                && forall j :: i' < j < |g| ==> g[j].fileName != k;
      assert i' == i;
    }
    m
  }

  /** No later entry has the same file name. */
  predicate LastOfName(g: seq<Coverage>, i: nat)
    requires i < |g|
  {
    forall j :: i < j < |g| ==> g[j].fileName != g[i].fileName
  }

  /** hasInternalPath, case by case. */
  predicate HasInternalPath(path: string)
  {
    IsSuffix("/internal", path) || Contains(path, "/internal/")
    || path == "internal" || IsPrefix("internal/", path)
  }

  /** hasInternalPath is true exactly when "internal" is one of the path's elements. */
  lemma InternalElement(path: string)
    ensures HasInternalPath(path) <==> "internal" in Split(path, '/')
  {
    SplitElement(path, "internal", '/');
    if HasInternalPath(path) {
      var i := InternalAt(path);
    }
    if "internal" in Split(path, '/') {
      var i: nat :| ElementAt(path, "internal", i, '/');
      ElementInternal(path, i);
    }
  }

  /** Where the "internal" element sits when hasInternalPath holds. */
  lemma InternalAt(path: string) returns (i: nat)
    requires HasInternalPath(path)
    ensures ElementAt(path, "internal", i, '/')
  {
    if IsSuffix("/internal", path) {
      i := |path| - 8;
      SuffixInternal(path);
    } else if Contains(path, "/internal/") {
      i := IndexOf(path, "/internal/") + 1;
      InnerInternal(path);
    } else {
      i := 0;
      PrefixInternal(path);
    }
  }

  lemma PrefixInternal(path: string)
    requires path == "internal" || IsPrefix("internal/", path)
    ensures ElementAt(path, "internal", 0, '/')
  {
    if path == "internal" {
      assert path[0..8] == path;
    } else {
      assert path[..9] == "internal/";
      assert path[..8] == path[..9][..8];
    }
  }

  lemma SuffixInternal(path: string)
    requires IsSuffix("/internal", path)
    ensures ElementAt(path, "internal", |path| - 8, '/')
  {
    var i := |path| - 8;
    assert path[i - 1..] == "/internal";
    assert path[i - 1] == '/';
    assert path[i..i + 8] == path[i - 1..][1..];
  }

  lemma InnerInternal(path: string)
    requires Contains(path, "/internal/")
    ensures ElementAt(path, "internal", IndexOf(path, "/internal/") + 1, '/')
  {
    var k := IndexOf(path, "/internal/");
    var w := path[k..][..10];
    assert w == "/internal/";
    var i := k + 1;
    assert path[i..i + 8] == w[1..9];
    assert w[1..9] == "internal";
    assert path[i + 8] == w[9] && path[i - 1] == w[0];
  }

  /** An "internal" element makes hasInternalPath hold. */
  lemma ElementInternal(path: string, i: nat)
    requires ElementAt(path, "internal", i, '/')
    ensures HasInternalPath(path)
  {
    if i == 0 {
      if |path| > 8 {
        assert path[..9] == path[..8] + [path[8]];
      }
    } else if i + 8 == |path| {
      assert path[|path| - 9..] == [path[i - 1]] + path[i..i + 8];
    } else {
      assert path[i - 1..i + 9] == [path[i - 1]] + path[i..i + 8] + [path[i + 8]];
      ContainsAt(path, "/internal/", i - 1);
    }
  }

  /** The text before the first occurrence of a separator is followed by it and does not hold it. */
  lemma BeforeFirstParts(s: string, sep: string)
    requires sep != "" && Contains(s, sep)
    ensures IsPrefix(BeforeFirst(s, sep) + sep, s) && !Contains(BeforeFirst(s, sep), sep)
  {
    var r := BeforeFirst(s, sep);
    assert s[..|r|] == r;
    assert s[|r|..][..|sep|] == sep;
    assert (r + sep) == s[..|r| + |sep|];
    forall k | 0 <= k <= |r| && IsPrefix(sep, r[k..]) ensures IsPrefix(sep, s[k..]) {
      PrefixCarries(r, s, sep, k);
    }
  }

  /** An occurrence inside a prefix of `s` is an occurrence in `s`. */
  lemma PrefixCarries(r: string, s: string, sep: string, k: nat)
    requires IsPrefix(r, s) && k <= |r| && IsPrefix(sep, r[k..])
    ensures IsPrefix(sep, s[k..])
  {
    assert s[k..][..|sep|] == r[k..][..|sep|];
  }

  /** getInternalParent, case by case, with strings.Split(...)[0] as BeforeFirst. */
  function InternalParent(path: string): (r: string)
    ensures !HasInternalPath(path) ==> r == ""
    ensures r == "" || (IsPrefix(r, path) && (IsPrefix("/internal", path[|r|..])))
    ensures r != "" ==> IsSuffix("/internal", path) || Contains(path, "/internal/")
    ensures IsSuffix("/internal", path) ==> IsPrefix(r + "/internal", path) && !Contains(r, "/internal")
    ensures !IsSuffix("/internal", path) && Contains(path, "/internal/") ==>
              IsPrefix(r + "/internal/", path) && !Contains(r, "/internal/")
    ensures !IsSuffix("/internal", path) && !Contains(path, "/internal/") ==> r == ""
  {
    if IsSuffix("/internal", path) then
      assert IsPrefix("/internal", path[|path| - 9..]);
      assert Contains(path, "/internal") by { ContainsAt(path, "/internal", |path| - 9); }
      var r := BeforeFirst(path, "/internal");
      BeforeFirstParts(path, "/internal");
      r
    else if Contains(path, "/internal/") then
      var r := BeforeFirst(path, "/internal/");
      assert path[|r|..][..9] == path[|r|..][..10][..9];
      BeforeFirstParts(path, "/internal/");
      r
    else if path == "internal" then ""
    else if IsPrefix("internal/", path) then
      assert IndexOf(path, "internal/") == 0;
      BeforeFirst(path, "internal/")
    else ""
  }

  /**
   * A parent free of "/internal" followed by an internal element is what
   * getInternalParent gives back, whether the element ends the path or not.
   */
  lemma InternalParentOf(p: string, rest: string)
    requires !Contains(p, "/internal")
    ensures InternalParent(p + "/internal") == p
    ensures InternalParent(p + "/internal/" + rest) == p
  {
    InternalParentAtEnd(p);
    InternalParentInside(p, rest);
  }

  /** The internal element ending the path. */
  lemma InternalParentAtEnd(p: string)
    requires !Contains(p, "/internal")
    ensures InternalParent(p + "/internal") == p
  {
    var s1 := p + "/internal";
    assert s1 == p + "/internal" + "";
    NoEarlyInternal(p, "");
    FirstAt(s1, "/internal", p);
    assert IsSuffix("/internal", s1);
  }

  /** The internal element followed by more of the path. */
  lemma InternalParentInside(p: string, rest: string)
    requires !Contains(p, "/internal")
    ensures InternalParent(p + "/internal/" + rest) == p
  {
    var s2 := p + "/internal/" + rest;
    assert s2 == p + "/internal" + ("/" + rest);
    NoEarlyInternal(p, "/" + rest);
    if IsSuffix("/internal", s2) {
      FirstAt(s2, "/internal", p);
    } else {
      assert s2[|p|..][..10] == "/internal/";
      forall k | 0 <= k < |p| ensures !IsPrefix("/internal/", s2[k..]) {
        assert !IsPrefix("/internal", s2[k..]);
      }
      FirstAt(s2, "/internal/", p);
    }
  }

  /**
   * The first "/internal/" decides, even when an earlier element only
   * starts with "internal": the parent found may itself contain "/internal".
   */
  lemma InternalParentFirstSeparator(path: string, p: string)
    requires p == "a/internalx" && path == p + "/internal/b"
    ensures InternalParent(path) == p
    ensures Contains(InternalParent(path), "/internal")
  {
    ExampleParent(p);
    assert path == p + "/internal/" + "b";
    assert !IsSuffix("/internal", path) by { assert path[|path| - 1] == 'b'; }
    SeparatorAfter(p, "b");
  }

  /** "a/internalx": its one '/' starts "/internal" and is followed by 'x' nine places later. */
  lemma ExampleParent(p: string)
    requires p == "a/internalx"
    ensures forall i :: 0 <= i < |p| && p[i] == '/' ==> i + 9 < |p| && p[i + 9] != '/'
    ensures Contains(p, "/internal")
  {
    assert forall i :: 0 <= i < |p| && p[i] == '/' ==> i == 1;
    assert p[10] == 'x';
    assert p[1..10] == "/internal";
    ContainsAt(p, "/internal", 1);
  }

  /**
   * When every '/' of `p` has a character other than '/' nine places
   * later, no "/internal/" starts inside `p`: the first one is the one
   * after it.
   */
  lemma SeparatorAfter(p: string, rest: string)
    requires forall i :: 0 <= i < |p| && p[i] == '/' ==> i + 9 < |p| && p[i + 9] != '/'
    ensures var s := p + "/internal/" + rest;
            Contains(s, "/internal/") && BeforeFirst(s, "/internal/") == p
  {
    var sep := "/internal/";
    var s := p + sep + rest;
    assert s[|p|..|p| + |sep|] == sep;
    ContainsAt(s, sep, |p|);
    assert sep[0] == '/' && sep[9] == '/';
    forall k | 0 <= k < |p| ensures !IsPrefix(sep, s[k..]) {
      if p[k] == '/' {
        assert s[k + 9] == p[k + 9];
        MismatchAt(s, sep, k, 9);
      } else {
        assert s[k] == p[k];
        MismatchAt(s, sep, k, 0);
      }
    }
    FirstAt(s, sep, p);
  }

  /** One differing character rules out an occurrence at that place. */
  lemma MismatchAt(s: string, sep: string, k: nat, j: nat)
    requires k + j < |s| && j < |sep| && s[k + j] != sep[j]
    ensures !IsPrefix(sep, s[k..])
  {
    assert s[k..][j] == s[k + j];
  }

  /** No occurrence of "/internal" starts inside a parent free of it. */
  lemma NoEarlyInternal(p: string, t: string)
    requires !Contains(p, "/internal")
    ensures var s := p + "/internal" + t;
      IsPrefix("/internal", s[|p|..]) && forall k :: 0 <= k < |p| ==> !IsPrefix("/internal", s[k..])
  {
    var sep := "/internal";
    var s := p + sep + t;
    assert s[|p|..][..9] == sep;
    assert forall i :: 1 <= i < 9 ==> sep[i] != '/';
    forall k | 0 <= k < |p| ensures !IsPrefix(sep, s[k..]) {
      if k + 9 <= |p| {
        assert s[k..][..9] == p[k..][..9];
        assert !IsPrefix(sep, p[k..]);
      } else {
        assert s[k..][|p| - k] == s[|p|] == '/';
      }
    }
  }

  /** When `sep` starts right after `p` and nowhere earlier, the text before its first occurrence is `p`. */
  lemma FirstAt(s: string, sep: string, p: string)
    requires sep != "" && IsPrefix(p, s) && IsPrefix(sep, s[|p|..])
    requires forall k :: 0 <= k < |p| ==> !IsPrefix(sep, s[k..])
    ensures BeforeFirst(s, sep) == p
  {
    assert s[|p|..|p| + |sep|] == s[|p|..][..|sep|];
    ContainsAt(s, sep, |p|);
    var r := BeforeFirst(s, sep);
    assert |r| == |p|;
  }
}

=== FILE: cover_server.dfy ===
/**
 * The pure decisions of the cover server's handlers: which registered
 * addresses a request selects, which merged profiles the cover-file and
 * skip-file patterns keep, and the address a service is registered under.
 * Regular-expression matching, url.Parse, net.SplitHostPort,
 * strconv.ParseBool and the client's IP are inputs.
 */
module CoverServer {
  import opened Wrappers
  import opened Text
  import opened Sums
  import opened Filter
  import opened ProfileFormat
  import opened ServiceStore

  /** contains: the string occurs in the slice. */
  function ContainsString(arr: seq<string>, str: string): (r: bool)
    ensures r <==> str in arr
  {
    if |arr| == 0 then false
    else if arr[0] == str then true
    else
      assert arr == [arr[0]] + arr[1..];
      ContainsString(arr[1..], str)
  }

  datatype ServiceUnderTest = ServiceUnderTest(name: string, address: string)

  /** Every registered address, service by service in map order. */
  function AddressAll(all: map<string, seq<string>>, order: seq<string>): (r: seq<string>)
    requires forall i :: 0 <= i < |order| ==> order[i] in all
    ensures forall a :: a in r <==> exists i :: 0 <= i < |order| && a in all[order[i]]
  {
    if |order| == 0 then []
    else
      var rest := AddressAll(all, order[1..]);
      assert forall i :: 0 < i < |order| ==> order[i] == order[1..][i - 1];
      assert forall i :: 0 <= i < |order| - 1 ==> order[1..][i] == order[i + 1];
      all[order[0]] + rest
  }

  /** The same addresses are collected whatever the map order. */
  lemma AddressAllOrderFree(all: map<string, seq<string>>, a: seq<string>, b: seq<string>, x: string)
    requires Enumerates(a, all.Keys) && Enumerates(b, all.Keys)
    ensures x in AddressAll(all, a) <==> x in AddressAll(all, b)
  {
    if x in AddressAll(all, a) {
      var i :| 0 <= i < |a| && x in all[a[i]];
      var j :| 0 <= j < |b| && b[j] == a[i];
    }
    if x in AddressAll(all, b) {
      var i :| 0 <= i < |b| && x in all[b[i]];
      var j :| 0 <= j < |a| && a[j] == b[i];
    }
  }

  const ErrAmbiguity := "use " + "'service' flag and 'address' flag at the same time may cause ambiguity, please use them separately"

  function Tagged(name: string, addrs: seq<string>): (r: seq<ServiceUnderTest>)
    ensures |r| == |addrs| && forall i :: 0 <= i < |addrs| ==> r[i] == ServiceUnderTest(name, addrs[i])
  {
    seq(|addrs|, i requires 0 <= i < |addrs| => ServiceUnderTest(name, addrs[i]))
  }

  /** The loop over the requested services. */
  function ServicePart(names: seq<string>, force: bool, all: map<string, seq<string>>): (r: Result<seq<ServiceUnderTest>, string>)
    ensures r.Err? <==> !force && exists i :: 0 <= i < |names| && names[i] !in all
    ensures r.Err? ==> exists i :: 0 <= i < |names| && names[i] !in all
                        && r.error == "service [" + names[i] + "] not found"
                        && forall j :: 0 <= j < i ==> names[j] in all
    ensures r.Ok? ==> forall x :: x in r.value ==> x.name in names && x.name in all && x.address in all[x.name]
    ensures r.Ok? ==> forall i, k :: 0 <= i < |names| && names[i] in all && 0 <= k < |all[names[i]]| ==>
                        ServiceUnderTest(names[i], all[names[i]][k]) in r.value
  {
    if |names| == 0 then Ok([])
    else
      var n := names[0];
      var rest := ServicePart(names[1..], force, all);
      assert forall i :: 0 < i < |names| ==> names[i] == names[1..][i - 1];
      if n in all then
        match rest
        case Err(e) => Err(e)
        case Ok(xs) =>
          var r := Tagged(n, all[n]) + xs;
          assert forall k :: 0 <= k < |all[n]| ==> r[k] == ServiceUnderTest(n, all[n][k]);
          Ok(r)
      else if !force then Err("service [" + n + "] not found")
      else rest
  }

  /** The loop over the requested addresses. */
  function AddressPart(addrs: seq<string>, force: bool, addressAll: seq<string>): (r: Result<seq<ServiceUnderTest>, string>)
    ensures r.Err? <==> !force && exists i :: 0 <= i < |addrs| && addrs[i] !in addressAll
    ensures r.Err? ==> exists i :: 0 <= i < |addrs| && addrs[i] !in addressAll
                        && r.error == "address [" + addrs[i] + "] not found"
                        && forall j :: 0 <= j < i ==> addrs[j] in addressAll
    ensures r.Ok? ==> |r.value| <= |addrs|
                      && forall i :: 0 <= i < |r.value| ==> r.value[i] == ServiceUnderTest("", r.value[i].address)
    ensures r.Ok? ==> forall i :: 0 <= i < |r.value| ==> r.value[i].address in addressAll && r.value[i].address in addrs
    ensures r.Ok? ==> forall i :: 0 <= i < |addrs| && addrs[i] in addressAll ==> ServiceUnderTest("", addrs[i]) in r.value
  {
    if |addrs| == 0 then Ok([])
    else
      var a := addrs[0];
      var rest := AddressPart(addrs[1..], force, addressAll);
      assert forall i :: 0 < i < |addrs| ==> addrs[i] == addrs[1..][i - 1];
      if ContainsString(addressAll, a) then
        match rest
        case Err(e) => Err(e)
        case Ok(xs) => Ok([ServiceUnderTest("", a)] + xs)
      else if !force then Err("address [" + a + "] not found")
      else rest
  }

  /**
   * filterAddrInfo: services and addresses together are ambiguous; else the
   * requested services' addresses tagged with their names, the requested
   * addresses that are registered, or every registered address when
   * nothing is requested. Unknown names fail unless `force`.
   */
  function FilterAddrInfo(services: seq<string>, addresses: seq<string>, force: bool,
                          all: map<string, seq<string>>, order: seq<string>): (r: Result<seq<ServiceUnderTest>, string>)
    requires Enumerates(order, all.Keys)
    ensures |services| > 0 && |addresses| > 0 <==> r == Err(ErrAmbiguity)
    ensures r.Ok? ==> forall x :: x in r.value ==> x.address in AddressAll(all, order)
    ensures force && (|services| == 0 || |addresses| == 0) ==> r.Ok?
    ensures |services| == 0 && |addresses| == 0 ==>
              r.Ok? && forall a :: a in AddressAll(all, order) <==> ServiceUnderTest("", a) in r.value
    ensures |services| == 0 && |addresses| == 0 ==> r == Ok(Tagged("", AddressAll(all, order)))
    ensures !(|services| > 0 && |addresses| > 0) && ServicePart(services, force, all).Err? ==>
              r == ServicePart(services, force, all)
    ensures !(|services| > 0 && |addresses| > 0) && ServicePart(services, force, all).Ok?
            && AddressPart(addresses, force, AddressAll(all, order)).Err? ==>
              r == AddressPart(addresses, force, AddressAll(all, order))
    ensures r.Ok? && (|services| > 0 || |addresses| > 0) ==>
              ServicePart(services, force, all).Ok? && AddressPart(addresses, force, AddressAll(all, order)).Ok?
              && r.value == ServicePart(services, force, all).value + AddressPart(addresses, force, AddressAll(all, order)).value
  {
    var addressAll := AddressAll(all, order);
    if |services| != 0 && |addresses| != 0 then Err(ErrAmbiguity)
    else
      var none := |addresses| == 0 && |services| == 0;
      var everything := if none then Tagged("", addressAll) else [];
      NotAmbiguous(services, addresses, force, all, addressAll);
      var r := SelectAddrs(services, addresses, force, all, addressAll);
      if r.Ok? then
        var a := ServicePart(services, force, all).value;
        var b := AddressPart(addresses, force, addressAll).value;
        ServicesRegistered(a, all, order);
        EverythingSelected(addressAll, everything, a, b, none);
        assert a + b + everything == if everything == [] then a + b else everything;
        r
      else r
  }

  /** The two loops of filterAddrInfo and the fallback to every address, once the request is not ambiguous. */
  function SelectAddrs(services: seq<string>, addresses: seq<string>, force: bool,
                       all: map<string, seq<string>>, addressAll: seq<string>): (r: Result<seq<ServiceUnderTest>, string>)
    ensures ServicePart(services, force, all).Err? ==> r == ServicePart(services, force, all)
    ensures ServicePart(services, force, all).Ok? && AddressPart(addresses, force, addressAll).Err? ==>
              r == AddressPart(addresses, force, addressAll)
    ensures ServicePart(services, force, all).Ok? && AddressPart(addresses, force, addressAll).Ok? ==>
              r == Ok(ServicePart(services, force, all).value + AddressPart(addresses, force, addressAll).value
                      + if |addresses| == 0 && |services| == 0 then Tagged("", addressAll) else [])
  {
    match ServicePart(services, force, all)
    case Err(e) => Err(e)
    case Ok(a) =>
      match AddressPart(addresses, force, addressAll)
      case Err(e) => Err(e)
      case Ok(b) => Ok(a + b + if |addresses| == 0 && |services| == 0 then Tagged("", addressAll) else [])
  }

  /** The not-found errors start with "service" or "address", so neither is the ambiguity error. */
  lemma NotAmbiguous(services: seq<string>, addresses: seq<string>, force: bool,
                     all: map<string, seq<string>>, addressAll: seq<string>)
    ensures ServicePart(services, force, all).Err? ==> ServicePart(services, force, all).error != ErrAmbiguity
    ensures AddressPart(addresses, force, addressAll).Err? ==> AddressPart(addresses, force, addressAll).error != ErrAmbiguity
  {
    assert ErrAmbiguity[0] == 'u';
    var sp := ServicePart(services, force, all);
    if sp.Err? {
      var i :| 0 <= i < |services| && services[i] !in all && sp.error == "service [" + services[i] + "] not found";
      assert sp.error[0] == 's';
    }
    var ap := AddressPart(addresses, force, addressAll);
    if ap.Err? {
      var i :| 0 <= i < |addresses| && addresses[i] !in addressAll && ap.error == "address [" + addresses[i] + "] not found";
      assert ap.error[0] == 'a';
    }
  }

  /** The addresses of registered services are among all registered addresses. */
  lemma ServicesRegistered(a: seq<ServiceUnderTest>, all: map<string, seq<string>>, order: seq<string>)
    requires Enumerates(order, all.Keys)
    requires forall x :: x in a ==> x.name in all && x.address in all[x.name]
    ensures forall x :: x in a ==> x.address in AddressAll(all, order)
  {
    forall x | x in a ensures x.address in AddressAll(all, order) {
      var j :| 0 <= j < |order| && order[j] == x.name;
    }
  }

  lemma EverythingSelected(addressAll: seq<string>, everything: seq<ServiceUnderTest>,
                           a: seq<ServiceUnderTest>, b: seq<ServiceUnderTest>, none: bool)
    requires everything == if none then Tagged("", addressAll) else []
    requires forall x :: x in a ==> x.address in addressAll
    requires forall i :: 0 <= i < |b| ==> b[i].address in addressAll
    requires none ==> a == [] && b == []
    ensures forall x :: x in a + b + everything ==> x.address in addressAll
    ensures none ==> forall x :: x in addressAll <==> ServiceUnderTest("", x) in a + b + everything
  {
    var r := a + b + everything;
    forall x | x in r ensures x.address in addressAll {
      if x in everything {
        var k :| 0 <= k < |everything| && everything[k] == x;
      } else if x in b {
        var k :| 0 <= k < |b| && b[k] == x;
      }
    }
    if none {
      assert r == everything;
      forall x | x in addressAll ensures ServiceUnderTest("", x) in r {
        var k :| 0 <= k < |addressAll| && addressAll[k] == x;
        assert everything[k] == ServiceUnderTest("", x);
      }
    }
  }

  /** A requested service that is registered contributes every one of its addresses. */
  lemma KnownServiceSelected(services: seq<string>, force: bool, all: map<string, seq<string>>, order: seq<string>, n: string)
    requires Enumerates(order, all.Keys)
    requires n in services && n in all
    requires FilterAddrInfo(services, [], force, all, order).Ok?
    ensures forall a :: a in all[n] ==> ServiceUnderTest(n, a) in FilterAddrInfo(services, [], force, all, order).value
  {
    var a := ServicePart(services, force, all);
    var i :| 0 <= i < |services| && services[i] == n;
    forall x | x in all[n] ensures ServiceUnderTest(n, x) in a.value {
      var k :| 0 <= k < |all[n]| && all[n][k] == x;
    }
  }

  /**
   * Asking by address selects exactly the requested addresses that are
   * registered, untagged; without `force` an unregistered one is an error.
   */
  lemma RequestedAddressesSelected(addresses: seq<string>, force: bool, all: map<string, seq<string>>,
                                   order: seq<string>, a: string)
    requires Enumerates(order, all.Keys) && |addresses| > 0
    ensures var r := FilterAddrInfo([], addresses, force, all, order);
      r.Ok? ==>
        (ServiceUnderTest("", a) in r.value <==> a in addresses && a in AddressAll(all, order))
        && forall x :: x in r.value ==> x.name == ""
    ensures !force && a in addresses && a !in AddressAll(all, order) ==> FilterAddrInfo([], addresses, force, all, order).Err?
  {
    var addressAll := AddressAll(all, order);
    var r := FilterAddrInfo([], addresses, force, all, order);
    var p := AddressPart(addresses, force, addressAll);
    assert ServicePart([], force, all) == Ok([]);
    if r.Ok? {
      assert r.value == p.value;
      forall x | x in r.value ensures x.name == "" {
        var k :| 0 <= k < |p.value| && p.value[k] == x;
      }
      if ServiceUnderTest("", a) in r.value {
        var k :| 0 <= k < |p.value| && p.value[k] == ServiceUnderTest("", a);
      }
      if a in addresses && a in addressAll {
        var i :| 0 <= i < |addresses| && addresses[i] == a;
      }
    }
  }

  /** A regular-expression match: whether it matched, or the error of a bad pattern. */
  type Matcher = (string, string) -> Result<bool, string>

  /** The patterns tried in order for one file name: the first error or the first match decides. */
  function FirstMatch(patterns: seq<string>, fileName: string, matches: Matcher): (r: Result<bool, string>)
    ensures r == Ok(true) ==> exists i :: 0 <= i < |patterns| && matches(patterns[i], fileName) == Ok(true)
    ensures (forall i :: 0 <= i < |patterns| ==> matches(patterns[i], fileName).Ok?) ==>
              r == Ok(exists i :: 0 <= i < |patterns| && matches(patterns[i], fileName) == Ok(true))
  {
    if |patterns| == 0 then Ok(false)
    else
      var p := patterns[0];
      assert forall i :: 0 < i < |patterns| ==> patterns[i] == patterns[1..][i - 1];
      match matches(p, fileName)
      case Err(e) => Err("filterProfile failed with pattern " + p + " for profile " + fileName + ", err: " + e)
      case Ok(true) => Ok(true)
      case Ok(false) => FirstMatch(patterns[1..], fileName, matches)
  }

  /** A merged profile of one file. */
  datatype Profile = Profile(fileName: string, mode: string, blocks: seq<ProfileBlock>)

  /** Whether the patterns, tried in order, end in a match (`want`) or in no match (not `want`). */
  predicate Decided(patterns: seq<string>, matches: Matcher, want: bool, p: Profile)
  {
    FirstMatch(patterns, p.fileName, matches) == Ok(want)
  }

  /** filterProfile: the profiles some pattern matches, in order; the first pattern error fails the call. */
  function FilterProfile(patterns: seq<string>, profiles: seq<Profile>, matches: Matcher): (r: Result<seq<Profile>, string>)
    ensures r.Ok? <==> forall i :: 0 <= i < |profiles| ==> FirstMatch(patterns, profiles[i].fileName, matches).Ok?
    ensures r.Ok? ==> forall i :: 0 <= i < |r.value| ==> r.value[i] in profiles && Decided(patterns, matches, true, r.value[i])
    ensures r.Ok? ==> forall i :: 0 <= i < |profiles| && Decided(patterns, matches, true, profiles[i]) ==> profiles[i] in r.value
  {
    if |profiles| == 0 then Ok([])
    else
      assert forall i :: 0 < i < |profiles| ==> profiles[i] == profiles[1..][i - 1];
      match FirstMatch(patterns, profiles[0].fileName, matches)
      case Err(e) => Err(e)
      case Ok(m) =>
        match FilterProfile(patterns, profiles[1..], matches)
        case Err(e) => Err(e)
        case Ok(rest) => Ok(if m then [profiles[0]] + rest else rest)
  }

  /** skipProfile: the profiles no pattern matches, in order; the first pattern error fails the call. */
  function SkipProfile(patterns: seq<string>, profiles: seq<Profile>, matches: Matcher): (r: Result<seq<Profile>, string>)
    ensures r.Ok? <==> forall i :: 0 <= i < |profiles| ==> FirstMatch(patterns, profiles[i].fileName, matches).Ok?
    ensures r.Ok? ==> forall i :: 0 <= i < |r.value| ==> r.value[i] in profiles && Decided(patterns, matches, false, r.value[i])
    ensures r.Ok? ==> forall i :: 0 <= i < |profiles| && Decided(patterns, matches, false, profiles[i]) ==> profiles[i] in r.value
  {
    if |profiles| == 0 then Ok([])
    else
      assert forall i :: 0 < i < |profiles| ==> profiles[i] == profiles[1..][i - 1];
      match FirstMatch(patterns, profiles[0].fileName, matches)
      case Err(e) => Err(e)
      case Ok(m) =>
        match SkipProfile(patterns, profiles[1..], matches)
        case Err(e) => Err(e)
        case Ok(rest) => Ok(if !m then [profiles[0]] + rest else rest)
  }

  /** filterProfile keeps the matched profiles in order, each once. */
  lemma {:induction false} FilterProfileKeeps(patterns: seq<string>, profiles: seq<Profile>, matches: Matcher, p: Profile -> bool)
    requires forall x :: p(x) == Decided(patterns, matches, true, x)
    requires FilterProfile(patterns, profiles, matches).Ok?
    ensures FilterProfile(patterns, profiles, matches).value == Keep(profiles, p)
    decreases |profiles|
  {
    if |profiles| > 0 {
      FilterProfileKeeps(patterns, profiles[1..], matches, p);
    }
  }

  /** skipProfile keeps the unmatched profiles in order, each once. */
  lemma {:induction false} SkipProfileKeeps(patterns: seq<string>, profiles: seq<Profile>, matches: Matcher, q: Profile -> bool)
    requires forall x :: q(x) == Decided(patterns, matches, false, x)
    requires SkipProfile(patterns, profiles, matches).Ok?
    ensures SkipProfile(patterns, profiles, matches).value == Keep(profiles, q)
    decreases |profiles|
  {
    if |profiles| > 0 {
      SkipProfileKeeps(patterns, profiles[1..], matches, q);
    }
  }

  /** With the same patterns, what filterProfile keeps and what skipProfile keeps partition the profiles. */
  lemma FilterSkipPartition(patterns: seq<string>, profiles: seq<Profile>, matches: Matcher)
    ensures FilterProfile(patterns, profiles, matches).Ok? <==> SkipProfile(patterns, profiles, matches).Ok?
    ensures FilterProfile(patterns, profiles, matches).Ok? ==>
              multiset(FilterProfile(patterns, profiles, matches).value) + multiset(SkipProfile(patterns, profiles, matches).value)
              == multiset(profiles)
  {
    var f := FilterProfile(patterns, profiles, matches);
    if f.Ok? {
      var p := (x: Profile) => Decided(patterns, matches, true, x);
      var q := (x: Profile) => Decided(patterns, matches, false, x);
      FilterProfileKeeps(patterns, profiles, matches, p);
      SkipProfileKeeps(patterns, profiles, matches, q);
      KeepOkPartition(profiles, patterns, matches, p, q);
    }
  }

  lemma KeepOkPartition(profiles: seq<Profile>, patterns: seq<string>, matches: Matcher,
                        p: Profile -> bool, q: Profile -> bool)
    requires forall i :: 0 <= i < |profiles| ==> FirstMatch(patterns, profiles[i].fileName, matches).Ok?
    requires forall x :: p(x) == Decided(patterns, matches, true, x)
    requires forall x :: q(x) == Decided(patterns, matches, false, x)
    ensures multiset(Keep(profiles, p)) + multiset(Keep(profiles, q)) == multiset(profiles)
  {
    forall i | 0 <= i < |profiles| ensures q(profiles[i]) == !p(profiles[i]) {
      var m := FirstMatch(patterns, profiles[i].fileName, matches);
      assert m == Ok(m.value);
      assert p(profiles[i]) == (m == Ok(true)) && q(profiles[i]) == (m == Ok(false));
      if m.value {
        assert p(profiles[i]) && !q(profiles[i]);
      } else {
        assert !p(profiles[i]) && q(profiles[i]);
      }
    }
    KeepPartition(profiles, p, q);
  }

  /** url.Parse of a registered address, as far as registration reads it. */
  datatype Url = Url(scheme: string, host: string)

  /** net.SplitHostPort: a host and a port, or the error text. */
  datatype HostPort = HostPort(host: string, port: string)

  /** The inputs registration takes from outside: the parsers and the caller's IP. */
  datatype Environment = Environment(
    parseUrl: string -> Result<Url, string>,
    splitHostPort: string -> Result<HostPort, string>,
    parseBool: string -> Result<bool, string>,
    serverRevise: bool,
    clientIP: string,
    isIPv4: string -> bool)

  /**
   * registerService: the address kept for a service: scheme "://" host,
   * then ":" port when there is one; the path of the URL is dropped. With
   * IP revision the host becomes the caller's IPv4 address.
   */
  function RegisterAddress(address: string, ipRevise: string, env: Environment): (r: Result<string, string>)
    ensures env.parseUrl(address).Err? ==> r.Err?
    ensures r == Err("unsupport schema") <==>
              env.parseUrl(address).Ok? && env.parseUrl(address).value.scheme != "http" && env.parseUrl(address).value.scheme != "https"
    ensures r == Err("empty host") <==>
              env.parseUrl(address).Ok? && env.parseUrl(address).value.scheme in {"http", "https"} && env.parseUrl(address).value.host == ""
    ensures r.Ok? ==> env.parseUrl(address).Ok? && IsPrefix(env.parseUrl(address).value.scheme + "://", r.value)
    ensures r.Ok? ==> env.parseUrl(address).value.scheme in {"http", "https"} && env.parseUrl(address).value.host != ""
  {
    match env.parseUrl(address)
    case Err(e) => Err("url.Parse " + address + " failed: " + e)
    case Ok(u) =>
      if u.scheme != "https" && u.scheme != "http" then Err("unsupport schema")
      else if u.host == "" then Err("empty host")
      else
        var hp := env.splitHostPort(u.host);
        if hp.Err? && !Text.Contains(hp.error, "missing port in address") then
          Err("net.SplitHostPort " + u.host + " failed: " + hp.error)
        else
          var host := if hp.Ok? then hp.value.host else u.host;
          var port := if hp.Ok? then hp.value.port else "";
          var revise := if ipRevise != "" then env.parseBool(ipRevise) else Ok(env.serverRevise);
          match revise
          case Err(e) =>
            Err("strconv.ParseBool " + ipRevise + " failed: " + e)
          case Ok(doRevise) =>
            var host' := if doRevise && env.isIPv4(env.clientIP) && host != env.clientIP then env.clientIP else host;
            var base := u.scheme + "://" + host';
            Ok(if port != "" then base + ":" + port else base)
  }

  /**
   * Without IP revision, an address whose host part splits back into
   * itself is registered as scheme "://" host: whatever followed the host
   * (a path, a query) is gone.
   */
  lemma RegisterKeepsHost(address: string, env: Environment, h: string, p: string)
    requires env.parseUrl(address).Ok?
    requires env.parseUrl(address).value.scheme in {"http", "https"}
    requires env.parseUrl(address).value.host == h + ":" + p && h != "" && p != ""
    requires env.splitHostPort(h + ":" + p) == Ok(HostPort(h, p))
    requires !env.serverRevise
    ensures RegisterAddress(address, "", env) == Ok(env.parseUrl(address).value.scheme + "://" + h + ":" + p)
  {
  }

  /**
   * registerService followed by Store.Add: an address already registered
   * for the name is not an error, it only refreshes the entry.
   */
  function RegisterService(s: Services, name: string, address: string, ipRevise: string, env: Environment, now: int): (r: Result<Services, string>)
    ensures r.Ok? ==> RegisterAddress(address, ipRevise, env).Ok?
                      && name in r.value && RegisterAddress(address, ipRevise, env).value in AddressesOf(r.value[name])
    ensures RegisterAddress(address, ipRevise, env).Ok? ==> r.Ok?
  {
    match RegisterAddress(address, ipRevise, env)
    case Err(e) => Err(e)
    case Ok(a) =>
      var out := Add(s, name, a, now);
      if out.err.Some? then
        var i :| 0 <= i < |s[name]| && s[name][i].address == a;
        assert AddressesOf(out.services[name])[i] == a;
        Ok(out.services)
      else
        var l := out.services[name];
        assert AddressesOf(l)[|l| - 1] == a;
        Ok(out.services)
  }
}

=== FILE: cover_vars.dfy ===
/**
 * declareCoverVars: the counter variable and long file name given to each
 * source file of a package before it is annotated. The SHA-256 of the
 * import path is an input; the suffix is its first six bytes in hex, and
 * the variable name formats that suffix with "%x" once more, so each of its
 * hex digits appears as two hex digits of its character code.
 */
module CoverVars {
  import opened Text
  import opened Decimal
  import opened Paths
  import opened GoList

  /** The variable and long file name of one source file. */
  datatype FileVar = FileVar(file: string, varName: string)

  function HexDigit(d: nat): (c: char)
    requires d < 16
    ensures d < 10 ==> '0' <= c <= '9'
    ensures d >= 10 ==> 'a' <= c <= 'f'
  {
    if d < 10 then ('0' as int + d) as char else ('a' as int + d - 10) as char
  }

  predicate AllBytes(bytes: seq<nat>)
  {
    forall i :: 0 <= i < |bytes| ==> bytes[i] < 256
  }

  /** "%x" of a byte slice: two lower-case hex digits per byte. */
  function Hex(bytes: seq<nat>): (r: string)
    requires AllBytes(bytes)
    ensures |r| == 2 * |bytes|
    ensures forall i :: 0 <= i < |r| ==> r[i] as int < 128
  {
    if |bytes| == 0 then ""
    else [HexDigit(bytes[0] / 16), HexDigit(bytes[0] % 16)] + Hex(bytes[1..])
  }

  /** The character codes of an ASCII text, as its bytes. */
  function Codes(s: string): (r: seq<nat>)
    requires forall i :: 0 <= i < |s| ==> s[i] as int < 128
    ensures |r| == |s| && AllBytes(r)
  {
    seq(|s|, i requires 0 <= i < |s| => s[i] as nat)
  }

  /** The suffix shared by all variables of a package: hex of the first six hash bytes. */
  function HashSuffix(sum: seq<nat>): (h: string)
    requires |sum| >= 6 && AllBytes(sum)
    ensures |h| == 12
  {
    Hex(sum[..6])
  }

  /** "GoCover_%d_%x" with the index and the hex suffix. */
  function VarName(i: nat, h: string): string
    requires forall k :: 0 <= k < |h| ==> h[k] as int < 128
  {
    "GoCover_" + NatToString(i) + "_" + Hex(Codes(h))
  }

  /** Different indices give different variable names. */
  lemma VarNameInjective(i: nat, j: nat, h: string)
    requires forall k :: 0 <= k < |h| ==> h[k] as int < 128
    requires VarName(i, h) == VarName(j, h)
    ensures i == j
  {
    var a, b := NatToString(i), NatToString(j);
    var x, y := VarName(i, h), VarName(j, h);
    assert |a| == |b|;
    assert x[8..8 + |a|] == a;
    assert y[8..8 + |b|] == b;
    NatToStringInjective(i, j);
  }

  /** The entry given to the file at position i. */
  function Entry(importPath: string, files: seq<string>, i: nat, h: string): FileVar
    requires i < |files|
    requires forall k :: 0 <= k < |h| ==> h[k] as int < 128
  {
    FileVar(PathJoin(importPath, files[i]), VarName(i, h))
  }

  /** No later file has the same name. */
  predicate LastOf(files: seq<string>, i: nat)
    requires i < |files|
  {
    forall j :: i < j < |files| ==> files[j] != files[i]
  }

  /**
   * The map the loop builds over `files`: keyed by the bare file name, the
   * later of two equal names overwriting the earlier.
   */
  function VarsOf(importPath: string, files: seq<string>, h: string): (m: map<string, FileVar>)
    requires forall k :: 0 <= k < |h| ==> h[k] as int < 128
    ensures forall i :: 0 <= i < |files| ==> files[i] in m
    ensures forall f :: f in m ==> f in files
    ensures forall i :: 0 <= i < |files| && LastOf(files, i) ==> m[files[i]] == Entry(importPath, files, i, h)
  {
    if |files| == 0 then map[]
    else
      var n := |files| - 1;
      var init := files[..n];
      var m0 := VarsOf(importPath, init, h);
      var m := m0[files[n] := Entry(importPath, files, n, h)];
      assert files == init + [files[n]];
      forall i | 0 <= i < |files| && LastOf(files, i) ensures m[files[i]] == Entry(importPath, files, i, h) {
        if i < n {
          assert init[i] == files[i];
          assert LastOf(init, i);
          assert files[i] != files[n];
          assert Entry(importPath, init, i, h) == Entry(importPath, files, i, h);
        }
      }
      m
  }

  /**
   * declareCoverVars: GoFiles then CgoFiles, numbered from 0, all with the
   * suffix of the one hash of the import path.
   */
  function DeclareCoverVars(p: Package, sum: seq<nat>): (m: map<string, FileVar>)
    requires |sum| >= 6 && AllBytes(sum)
    ensures forall f :: f in m <==> f in p.goFiles || f in p.cgoFiles
    ensures forall i :: 0 <= i < |p.goFiles + p.cgoFiles| && LastOf(p.goFiles + p.cgoFiles, i) ==>
              m[(p.goFiles + p.cgoFiles)[i]] == Entry(p.importPath, p.goFiles + p.cgoFiles, i, HashSuffix(sum))
  {
    var files := p.goFiles + p.cgoFiles;
    var m := VarsOf(p.importPath, files, HashSuffix(sum));
    assert forall f :: f in p.goFiles || f in p.cgoFiles ==> f in files;
    m
  }

  /** The variables of two different files have different names. */
  lemma CoverVarNamesDistinct(p: Package, sum: seq<nat>, f: string, g: string)
    requires |sum| >= 6 && AllBytes(sum)
    requires f in p.goFiles + p.cgoFiles && g in p.goFiles + p.cgoFiles && f != g
    ensures DeclareCoverVars(p, sum)[f].varName != DeclareCoverVars(p, sum)[g].varName
  {
    var files := p.goFiles + p.cgoFiles;
    var i := LastIndex(files, f);
    var j := LastIndex(files, g);
    if DeclareCoverVars(p, sum)[f].varName == DeclareCoverVars(p, sum)[g].varName {
      VarNameInjective(i, j, HashSuffix(sum));
    }
  }

  /** The last position of a member of a sequence. */
  function LastIndex(files: seq<string>, f: string): (i: nat)
    requires f in files
    ensures i < |files| && files[i] == f && LastOf(files, i)
  {
    if files[|files| - 1] == f then |files| - 1
    else
      var i := LastIndex(files[..|files| - 1], f);
      i
  }

  /** Every variable of a package carries the package's one hash suffix. */
  lemma SharedSuffix(p: Package, sum: seq<nat>, f: string)
    requires |sum| >= 6 && AllBytes(sum)
    requires f in p.goFiles + p.cgoFiles
    ensures IsSuffix("_" + Hex(Codes(HashSuffix(sum))), DeclareCoverVars(p, sum)[f].varName)
    ensures DeclareCoverVars(p, sum)[f].file == PathJoin(p.importPath, f)
  {
    var files := p.goFiles + p.cgoFiles;
    var i := LastIndex(files, f);
    assert DeclareCoverVars(p, sum)[f] == Entry(p.importPath, files, i, HashSuffix(sum));
    VarNameSuffix(i, HashSuffix(sum));
  }

  lemma VarNameSuffix(i: nat, h: string)
    requires forall k :: 0 <= k < |h| ==> h[k] as int < 128
    ensures IsSuffix("_" + Hex(Codes(h)), VarName(i, h))
  {
    var tail := "_" + Hex(Codes(h));
    var name := VarName(i, h);
    assert name == ("GoCover_" + NatToString(i)) + tail;
    assert name[|name| - |tail|..] == tail;
  }
}

=== FILE: decimal.dfy ===
/**
 * Decimal rendering and parsing of integers: Go's strconv.Itoa / "%d",
 * strconv.Atoi (64-bit, with its syntax and range errors), and the digit
 * runs a regular expression `\d+` captures.
 */
module Decimal {

  const MaxUint64: nat := 0xFFFF_FFFF_FFFF_FFFF
  const MaxInt64: int := 0x7FFF_FFFF_FFFF_FFFF
  const MinInt64: int := -0x8000_0000_0000_0000

  predicate IsDigit(c: char)
  {
    '0' <= c <= '9'
  }

  predicate AllDigits(s: string)
  {
    forall i :: 0 <= i < |s| ==> IsDigit(s[i])
  }

  function DigitValue(c: char): nat
    requires IsDigit(c)
  {
    c as int - '0' as int
  }

  function DigitChar(d: nat): (c: char)
    requires d < 10
    ensures IsDigit(c) && DigitValue(c) == d
  {
    (d + '0' as int) as char
  }

  /** The value of a string of decimal digits (leading zeros allowed). */
  function DigitsValue(s: string): nat
    requires AllDigits(s)
  {
    if |s| == 0 then 0 else DigitsValue(s[..|s| - 1]) * 10 + DigitValue(s[|s| - 1])
  }

  /** strconv.Itoa / "%d" of a non-negative number. */
  function NatToString(n: nat): (r: string)
    ensures |r| >= 1 && AllDigits(r)
    ensures DigitsValue(r) == n
    ensures r[0] == '0' ==> r == "0"
  {
    if n < 10 then [DigitChar(n)]
    else
      var r := NatToString(n / 10) + [DigitChar(n % 10)];
      assert r[..|r| - 1] == NatToString(n / 10);
      r
  }

  /** strconv.Itoa / "%d" of any integer. */
  function IntToString(n: int): (r: string)
    ensures |r| >= 1
    ensures n >= 0 <==> r[0] != '-'
  {
    if n < 0 then "-" + NatToString(-n) else NatToString(n)
  }

  /** Different numbers render differently. */
  lemma NatToStringInjective(a: nat, b: nat)
    requires NatToString(a) == NatToString(b)
    ensures a == b
  {
  }

  /** The outcome of strconv.ParseInt(s, 10, 64) / strconv.Atoi(s). */
  datatype IntParse = Parsed(value: int) | SyntaxError | RangeError(clamped: int)

  /** The outcome of the unsigned digit scan inside strconv.ParseUint. */
  datatype UintScan = UintOk(value: nat) | UintSyntax | UintRange

  /**
   * The digit scan of strconv.ParseUint, left to right: a non-digit is a
   * syntax error and a value above 2^64-1 is a range error, whichever is
   * met first.
   */
  function ScanUint(s: string, acc: nat): UintScan
    requires acc <= MaxUint64
  {
    if |s| == 0 then UintOk(acc)
    else if !IsDigit(s[0]) then UintSyntax
    else
      var n := acc * 10 + DigitValue(s[0]);
      if n > MaxUint64 then UintRange else ScanUint(s[1..], n)
  }

  /**
   * strconv.ParseInt(s, 10, 64): an optional sign, then at least one digit;
   * out-of-range values are clamped to the nearest 64-bit bound.
   */
  function ParseInt(s: string): (r: IntParse)
    ensures r.Parsed? ==> MinInt64 <= r.value <= MaxInt64
    ensures r.RangeError? ==> r.clamped == MaxInt64 || r.clamped == MinInt64
    ensures s == "" ==> r == SyntaxError
  {
    if s == "" then SyntaxError
    else
      var neg := s[0] == '-';
      var body := if s[0] == '-' || s[0] == '+' then s[1..] else s;
      if body == "" then SyntaxError
      else
        match ScanUint(body, 0)
        case UintSyntax => SyntaxError
        case UintRange => if neg then RangeError(MinInt64) else RangeError(MaxInt64)
        case UintOk(u) =>
          if !neg && u > MaxInt64 then RangeError(MaxInt64)
          else if neg && u > -MinInt64 then RangeError(MinInt64)
          else Parsed(if neg then -(u as int) else u as int)
  }

  /**
   * The int strconv.Atoi returns, ignoring its error: the value, the clamped
   * bound on a range error, 0 on a syntax error.
   */
  function AtoiValue(s: string): (v: int)
    ensures MinInt64 <= v <= MaxInt64
  {
    match ParseInt(s)
    case Parsed(v) => v
    case RangeError(c) => c
    case SyntaxError => 0
  }

  /** The left-to-right accumulation a scan performs. */
  function Accumulate(acc: nat, s: string): nat
    requires AllDigits(s)
    decreases |s|
  {
    if |s| == 0 then acc else Accumulate(acc * 10 + DigitValue(s[0]), s[1..])
  }

  lemma {:induction false} AccumulateGrows(acc: nat, s: string)
    requires AllDigits(s)
    ensures Accumulate(acc, s) >= acc
    decreases |s|
  {
    if |s| > 0 {
      AccumulateGrows(acc * 10 + DigitValue(s[0]), s[1..]);
    }
  }

  lemma {:induction false} AccumulateSnoc(acc: nat, s: string, c: char)
    requires AllDigits(s) && IsDigit(c)
    ensures AllDigits(s + [c])
    ensures Accumulate(acc, s + [c]) == Accumulate(acc, s) * 10 + DigitValue(c)
    decreases |s|
  {
    if |s| > 0 {
      assert (s + [c])[1..] == s[1..] + [c];
      AccumulateSnoc(acc * 10 + DigitValue(s[0]), s[1..], c);
    }
  }

  /** Accumulating from zero is the value of the digits. */
  lemma {:induction false} AccumulateIsValue(s: string)
    requires AllDigits(s)
    ensures Accumulate(0, s) == DigitsValue(s)
    decreases |s|
  {
    if |s| > 0 {
      var init := s[..|s| - 1];
      AccumulateIsValue(init);
      AccumulateSnoc(0, init, s[|s| - 1]);
      assert init + [s[|s| - 1]] == s;
    }
  }

  /** On digits only, the scan is a range error exactly when the value is too big. */
  lemma {:induction false} ScanDigits(s: string, acc: nat)
    requires acc <= MaxUint64 && AllDigits(s)
    ensures ScanUint(s, acc) == if Accumulate(acc, s) <= MaxUint64 then UintOk(Accumulate(acc, s)) else UintRange
    decreases |s|
  {
    if |s| > 0 {
      var n := acc * 10 + DigitValue(s[0]);
      AccumulateGrows(n, s[1..]);
      if n <= MaxUint64 {
        ScanDigits(s[1..], n);
      }
    }
  }

  /** A string of digits parses to its value, whenever that fits in 64 bits. */
  lemma DigitsParse(s: string)
    requires s != "" && AllDigits(s) && DigitsValue(s) <= MaxInt64
    ensures ParseInt(s) == Parsed(DigitsValue(s))
  {
    AccumulateIsValue(s);
    ScanDigits(s, 0);
  }

  /** Atoi inverts Itoa on the 64-bit range. */
  lemma ParseIntToString(n: int)
    requires MinInt64 <= n <= MaxInt64
    ensures ParseInt(IntToString(n)) == Parsed(n)
  {
    if n < 0 {
      var digits := NatToString(-n);
      assert IntToString(n)[1..] == digits;
      AccumulateIsValue(digits);
      ScanDigits(digits, 0);
    } else {
      DigitsParse(NatToString(n));
    }
  }
}

=== FILE: delta.dfy ===
/**
 * Delta coverage between a new and a base coverage list: one row per file
 * name found in either list, with each side's percentage or "None". The
 * float delta is a parameter `deltaText` from the two coverages to the text
 * that PercentStr prints; the map iteration orders are parameters too.
 */
module Delta {
  import opened Sums
  import opened Filter
  import opened Keyed
  import opened CoverList

  /** A percentage column of a delta row: "None" when the file is missing on that side. */
  datatype Column = NoneColumn | Column(percent: Percent)

  datatype DeltaCov = DeltaCov(fileName: string, basePer: Column, newPer: Column, deltaPer: string, lineCovLink: string)

  function FileNameOf(c: DeltaCov): string { c.fileName }

  /** The file names of a delta list, in order. */
  function Names(d: seq<DeltaCov>): (r: seq<string>)
    ensures |r| == |d| && forall i :: 0 <= i < |d| ==> r[i] == d[i].fileName
  {
    seq(|d|, i requires 0 <= i < |d| => d[i].fileName)
  }

  /** Some entry of the list has this file name. */
  predicate InList(g: seq<Coverage>, f: string)
  {
    exists i :: 0 <= i < |g| && g[i].fileName == f
  }

  /** The keys of CoverageList.Map are exactly the names in the list. */
  lemma MapListKeys(g: seq<Coverage>)
    ensures forall f :: f in MapList(g) <==> InList(g, f)
  {
    var m := MapList(g);
    forall f | f in m ensures InList(g, f) {
      assert m[f] in g;
      var i :| 0 <= i < |g| && g[i] == m[f];
    }
  }

  /** A lookup of a name missing from a Go map yields the zero Coverage. */
  function Lookup(m: map<string, Coverage>, f: string): Coverage
  {
    if f in m then m[f] else Coverage("", 0, 0, "")
  }

  /** The row written for file name `f`, whichever of the two loops writes it. */
  function RowFor(newMap: map<string, Coverage>, baseMap: map<string, Coverage>, f: string,
                  deltaText: (Coverage, Coverage) -> string): DeltaCov
  {
    DeltaCov(f,
      if f in baseMap then Column(PercentageOf(baseMap[f])) else NoneColumn,
      if f in newMap then Column(PercentageOf(newMap[f])) else NoneColumn,
      deltaText(Lookup(newMap, f), Lookup(baseMap, f)),
      "")
  }

  /** Every row is the one RowFor gives for its name. */
  predicate RowsOfMaps(d: seq<DeltaCov>, newMap: map<string, Coverage>, baseMap: map<string, Coverage>,
                       deltaText: (Coverage, Coverage) -> string)
  {
    forall i :: 0 <= i < |d| ==> d[i] == RowFor(newMap, baseMap, d[i].fileName, deltaText)
  }

  /** The names ranged over: those of the new map, then those only in the base map. */
  function FullNames(newOrder: seq<string>, baseOrder: seq<string>, newMap: map<string, Coverage>): seq<string>
  {
    newOrder + Keep(baseOrder, f => f !in newMap)
  }

  lemma FullNamesDistinct(newOrder: seq<string>, baseOrder: seq<string>, newMap: map<string, Coverage>)
    requires Distinct(newOrder) && Distinct(baseOrder)
    requires forall i :: 0 <= i < |newOrder| ==> newOrder[i] in newMap
    ensures Distinct(FullNames(newOrder, baseOrder, newMap))
  {
    var baseOnly := Keep(baseOrder, f => f !in newMap);
    KeepDistinct(baseOrder, f => f !in newMap);
    DistinctConcat(newOrder, baseOnly);
  }

  lemma FullNamesCover(newOrder: seq<string>, baseOrder: seq<string>,
                       newMap: map<string, Coverage>, baseMap: map<string, Coverage>)
    requires Enumerates(newOrder, newMap.Keys) && Enumerates(baseOrder, baseMap.Keys)
    ensures forall f :: f in FullNames(newOrder, baseOrder, newMap) <==> f in newMap || f in baseMap
  {
    forall f | f in baseMap && f !in newMap ensures f in FullNames(newOrder, baseOrder, newMap) {
      var j :| 0 <= j < |baseOrder| && baseOrder[j] == f;
    }
  }

  /** The two loops of GetFullDeltaCov over the maps themselves. */
  function FullOf(newMap: map<string, Coverage>, baseMap: map<string, Coverage>,
                  newOrder: seq<string>, baseOrder: seq<string>,
                  deltaText: (Coverage, Coverage) -> string): (d: seq<DeltaCov>)
    requires Enumerates(newOrder, newMap.Keys) && Enumerates(baseOrder, baseMap.Keys)
    ensures Distinct(Names(d))
    ensures forall f :: f in Names(d) <==> f in newMap || f in baseMap
    ensures RowsOfMaps(d, newMap, baseMap, deltaText)
  {
    var files := FullNames(newOrder, baseOrder, newMap);
    var d := seq(|files|, i requires 0 <= i < |files| => RowFor(newMap, baseMap, files[i], deltaText));
    assert Names(d) == files;
    FullNamesDistinct(newOrder, baseOrder, newMap);
    FullNamesCover(newOrder, baseOrder, newMap, baseMap);
    d
  }

  /**
   * GetFullDeltaCov: a row for each name of the new list in `newOrder`,
   * then a row for each name of the base list missing from the new list,
   * in `baseOrder`.
   */
  function GetFullDeltaCov(newList: seq<Coverage>, baseList: seq<Coverage>,
                           newOrder: seq<string>, baseOrder: seq<string>,
                           deltaText: (Coverage, Coverage) -> string): (d: seq<DeltaCov>)
    requires Enumerates(newOrder, MapList(newList).Keys)
    requires Enumerates(baseOrder, MapList(baseList).Keys)
    ensures Distinct(Names(d))
    ensures forall f :: f in Names(d) <==> InList(newList, f) || InList(baseList, f)
    ensures RowsOfMaps(d, MapList(newList), MapList(baseList), deltaText)
  {
    MapListKeys(newList);
    MapListKeys(baseList);
    FullOf(MapList(newList), MapList(baseList), newOrder, baseOrder, deltaText)
  }

  /**
   * The columns of each row: "None" on a side exactly when the file is
   * missing from that side's list, else that side's percentage.
   */
  lemma FullDeltaColumns(newList: seq<Coverage>, baseList: seq<Coverage>,
                         newOrder: seq<string>, baseOrder: seq<string>,
                         deltaText: (Coverage, Coverage) -> string, i: nat)
    requires Enumerates(newOrder, MapList(newList).Keys)
    requires Enumerates(baseOrder, MapList(baseList).Keys)
    requires i < |GetFullDeltaCov(newList, baseList, newOrder, baseOrder, deltaText)|
    ensures var r := GetFullDeltaCov(newList, baseList, newOrder, baseOrder, deltaText)[i];
      && (r.basePer.NoneColumn? <==> !InList(baseList, r.fileName))
      && (r.newPer.NoneColumn? <==> !InList(newList, r.fileName))
      && (r.basePer.Column? ==> r.basePer.percent == PercentageOf(MapList(baseList)[r.fileName]))
      && (r.newPer.Column? ==> r.newPer.percent == PercentageOf(MapList(newList)[r.fileName]))
      && r.lineCovLink == ""
  {
    var d := GetFullDeltaCov(newList, baseList, newOrder, baseOrder, deltaText);
    assert d[i] == RowFor(MapList(newList), MapList(baseList), d[i].fileName, deltaText);
    MapListKeys(newList);
    MapListKeys(baseList);
  }

  /** The full delta has the same rows whatever order the two maps are ranged in. */
  lemma FullDeltaOrderFree(newList: seq<Coverage>, baseList: seq<Coverage>,
                           newOrder: seq<string>, baseOrder: seq<string>,
                           newOrder': seq<string>, baseOrder': seq<string>,
                           deltaText: (Coverage, Coverage) -> string)
    requires Enumerates(newOrder, MapList(newList).Keys) && Enumerates(newOrder', MapList(newList).Keys)
    requires Enumerates(baseOrder, MapList(baseList).Keys) && Enumerates(baseOrder', MapList(baseList).Keys)
    ensures multiset(GetFullDeltaCov(newList, baseList, newOrder, baseOrder, deltaText))
         == multiset(GetFullDeltaCov(newList, baseList, newOrder', baseOrder', deltaText))
  {
    var nm, bm := MapList(newList), MapList(baseList);
    var a := GetFullDeltaCov(newList, baseList, newOrder, baseOrder, deltaText);
    var b := GetFullDeltaCov(newList, baseList, newOrder', baseOrder', deltaText);
    RowsDistinct(a);
    RowsDistinct(b);
    forall r ensures multiset(a)[r] == multiset(b)[r] {
      SameRow(a, b, r, nm, bm, deltaText);
      SameRow(b, a, r, nm, bm, deltaText);
      DistinctMultiplicity(a, r);
      DistinctMultiplicity(b, r);
    }
  }

  /** Rows with distinct names are distinct rows. */
  lemma RowsDistinct(d: seq<DeltaCov>)
    requires Distinct(Names(d))
    ensures Distinct(d)
  {
    forall i, j | 0 <= i < j < |d| ensures d[i] != d[j] {
      assert Names(d)[i] != Names(d)[j];
    }
  }

  /** Two lists of RowFor rows over the same names hold the same rows. */
  lemma SameRow(a: seq<DeltaCov>, b: seq<DeltaCov>, r: DeltaCov, newMap: map<string, Coverage>,
                baseMap: map<string, Coverage>, deltaText: (Coverage, Coverage) -> string)
    requires forall f :: f in Names(a) ==> f in Names(b)
    requires RowsOfMaps(a, newMap, baseMap, deltaText) && RowsOfMaps(b, newMap, baseMap, deltaText)
    ensures r in a ==> r in b
  {
    if r in a {
      var i :| 0 <= i < |a| && a[i] == r;
      assert Names(a)[i] == r.fileName;
      assert r.fileName in Names(b);
      var j :| 0 <= j < |b| && Names(b)[j] == r.fileName;
      assert b[j] == RowFor(newMap, baseMap, r.fileName, deltaText) == r;
    }
  }

  /** The text PercentStr prints for a zero delta. */
  const ZeroDelta := "0.0%"

  predicate NonZero(c: DeltaCov) { c.deltaPer != ZeroDelta }

  /** GetDeltaCov: the full delta without its zero-delta rows, in order. */
  function GetDeltaCov(newList: seq<Coverage>, baseList: seq<Coverage>,
                       newOrder: seq<string>, baseOrder: seq<string>,
                       deltaText: (Coverage, Coverage) -> string): (d: seq<DeltaCov>)
    requires Enumerates(newOrder, MapList(newList).Keys)
    requires Enumerates(baseOrder, MapList(baseList).Keys)
    ensures multiset(d) <= multiset(GetFullDeltaCov(newList, baseList, newOrder, baseOrder, deltaText))
    ensures forall i :: 0 <= i < |d| ==> d[i].deltaPer != ZeroDelta
    ensures forall c :: c in GetFullDeltaCov(newList, baseList, newOrder, baseOrder, deltaText) && c.deltaPer != ZeroDelta ==> c in d
  {
    var full := GetFullDeltaCov(newList, baseList, newOrder, baseOrder, deltaText);
    KeepMembers(full, NonZero);
    Keep(full, NonZero)
  }

  /** The rows GetDeltaCov drops are exactly the zero-delta rows of the full delta. */
  lemma DeltaDropsOnlyZero(newList: seq<Coverage>, baseList: seq<Coverage>,
                           newOrder: seq<string>, baseOrder: seq<string>,
                           deltaText: (Coverage, Coverage) -> string)
    requires Enumerates(newOrder, MapList(newList).Keys)
    requires Enumerates(baseOrder, MapList(baseList).Keys)
    ensures var full := GetFullDeltaCov(newList, baseList, newOrder, baseOrder, deltaText);
      multiset(GetDeltaCov(newList, baseList, newOrder, baseOrder, deltaText))
        + multiset(Keep(full, (c: DeltaCov) => c.deltaPer == ZeroDelta)) == multiset(full)
  {
    var full := GetFullDeltaCov(newList, baseList, newOrder, baseOrder, deltaText);
    KeepPartition(full, NonZero, (c: DeltaCov) => c.deltaPer == ZeroDelta);
  }

  /** DeltaCovList.Map: by file name, a later row replacing an earlier one. */
  function DeltaMap(d: seq<DeltaCov>): (m: map<string, DeltaCov>)
    ensures forall i :: 0 <= i < |d| ==> d[i].fileName in m
    ensures forall k :: k in m ==> m[k] in d && m[k].fileName == k
    ensures forall i :: 0 <= i < |d| && LastOfFile(d, i) ==> m[d[i].fileName] == d[i]
  {
    var m := MapBy(d, FileNameOf);
    forall i | 0 <= i < |d| && LastOfFile(d, i) ensures m[d[i].fileName] == d[i] {
      var k := d[i].fileName;
      var i' :| 0 <= i' < |d| && d[i'].fileName == k && m[k] == d[i']
                && forall j :: i' < j < |d| ==> d[j].fileName != k;
      assert i' == i;
    }
    m
  }

  /** No later row has the same file name. */
  predicate LastOfFile(d: seq<DeltaCov>, i: nat)
    requires i < |d|
  {
    forall j :: i < j < |d| ==> d[j].fileName != d[i].fileName
  }

  lemma NamesCons(x: DeltaCov, d: seq<DeltaCov>)
    ensures Names([x] + d) == [x.fileName] + Names(d)
  {
    assert Names([x] + d)[1..] == Names(d);
  }

  /** Each changed file present in the map gives its row, in the order and multiplicity listed. */
  function ChangedRows(changed: seq<string>, dMap: map<string, DeltaCov>, present: string -> bool): (r: seq<DeltaCov>)
    requires forall f :: present(f) <==> f in dMap
    requires forall k :: k in dMap ==> dMap[k].fileName == k
    ensures Names(r) == Keep(changed, present)
    ensures forall i :: 0 <= i < |r| ==> r[i].fileName in dMap && r[i] == dMap[r[i].fileName]
  {
    if |changed| == 0 then []
    else
      var rest := ChangedRows(changed[1..], dMap, present);
      ChangedRowsStep(changed, dMap, present, rest);
      if present(changed[0]) then [dMap[changed[0]]] + rest else rest
  }

  /** One step of ChangedRows: the first changed file's row, if present, goes before the rest's. */
  lemma ChangedRowsStep(changed: seq<string>, dMap: map<string, DeltaCov>, present: string -> bool, rest: seq<DeltaCov>)
    requires |changed| > 0
    requires forall f :: present(f) <==> f in dMap
    requires forall k :: k in dMap ==> dMap[k].fileName == k
    requires Names(rest) == Keep(changed[1..], present)
    requires forall i :: 0 <= i < |rest| ==> rest[i].fileName in dMap && rest[i] == dMap[rest[i].fileName]
    ensures var r := if present(changed[0]) then [dMap[changed[0]]] + rest else rest;
      Names(r) == Keep(changed, present)
      && forall i :: 0 <= i < |r| ==> r[i].fileName in dMap && r[i] == dMap[r[i].fileName]
  {
    var f := changed[0];
    KeepStep(changed, present);
    if present(f) {
      NamesCons(dMap[f], rest);
      RowsCons(dMap, rest, f);
    }
  }

  lemma RowsCons(dMap: map<string, DeltaCov>, rest: seq<DeltaCov>, f: string)
    requires f in dMap && dMap[f].fileName == f
    requires forall i :: 0 <= i < |rest| ==> rest[i].fileName in dMap && rest[i] == dMap[rest[i].fileName]
    ensures var r := [dMap[f]] + rest;
      forall i :: 0 <= i < |r| ==> r[i].fileName in dMap && r[i] == dMap[r[i].fileName]
  {
    var r := [dMap[f]] + rest;
    assert forall i :: 1 <= i < |r| ==> r[i] == rest[i - 1];
  }

  /** The keys of DeltaCovList.Map are the row names, each mapped to a row of the list. */
  lemma DeltaMapKeys(d: seq<DeltaCov>)
    ensures forall f :: f in DeltaMap(d) <==> f in Names(d)
  {
    var m := DeltaMap(d);
    forall f | f in m ensures f in Names(d) {
      var i :| 0 <= i < |d| && d[i] == m[f];
      assert Names(d)[i] == f;
    }
  }

  /**
   * GetChFileDeltaCov: the full delta's row of each changed file that has
   * one, following the changed files' order and repeating a file listed twice.
   */
  function GetChFileDeltaCov(newList: seq<Coverage>, baseList: seq<Coverage>,
                             newOrder: seq<string>, baseOrder: seq<string>,
                             changed: seq<string>, deltaText: (Coverage, Coverage) -> string): (r: seq<DeltaCov>)
    requires Enumerates(newOrder, MapList(newList).Keys)
    requires Enumerates(baseOrder, MapList(baseList).Keys)
    ensures Names(r) == Keep(changed, f => InList(newList, f) || InList(baseList, f))
    ensures RowsOfMaps(r, MapList(newList), MapList(baseList), deltaText)
  {
    var full := GetFullDeltaCov(newList, baseList, newOrder, baseOrder, deltaText);
    var dMap := DeltaMap(full);
    DeltaMapKeys(full);
    var r := ChangedRows(changed, dMap, f => InList(newList, f) || InList(baseList, f));
    ChangedRowsOfMaps(full, r, dMap, MapList(newList), MapList(baseList), deltaText);
    r
  }

  lemma ChangedRowsOfMaps(full: seq<DeltaCov>, r: seq<DeltaCov>, dMap: map<string, DeltaCov>,
                          newMap: map<string, Coverage>, baseMap: map<string, Coverage>,
                          deltaText: (Coverage, Coverage) -> string)
    requires RowsOfMaps(full, newMap, baseMap, deltaText)
    requires forall k :: k in dMap ==> dMap[k] in full
    requires forall i :: 0 <= i < |r| ==> r[i].fileName in dMap && r[i] == dMap[r[i].fileName]
    ensures RowsOfMaps(r, newMap, baseMap, deltaText)
  {
    forall i | 0 <= i < |r| ensures r[i] == RowFor(newMap, baseMap, r[i].fileName, deltaText) {
      var j :| 0 <= j < |full| && full[j] == dMap[r[i].fileName];
    }
  }

  /** DeltaCovList.Sort: a stable sort by file name. */
  function SortDelta(d: seq<DeltaCov>): (r: seq<DeltaCov>)
    ensures multiset(r) == multiset(d)
    ensures SortedBy(r, FileNameOf)
    ensures forall k :: WithKey(r, FileNameOf, k) == WithKey(d, FileNameOf, k)
  {
    SortBySorted(d, FileNameOf);
    forall k ensures WithKey(SortBy(d, FileNameOf), FileNameOf, k) == WithKey(d, FileNameOf, k) {
      SortByStable(d, FileNameOf, k);
    }
    SortBy(d, FileNameOf)
  }

  function GetLineCovLink(c: DeltaCov): string { c.lineCovLink }

  /** SetLineCovLink: the link is replaced and every other field kept. */
  function SetLineCovLink(c: DeltaCov, link: string): (r: DeltaCov)
    ensures GetLineCovLink(r) == link
    ensures r.fileName == c.fileName && r.basePer == c.basePer && r.newPer == c.newPer && r.deltaPer == c.deltaPer
  {
    c.(lineCovLink := link)
  }

  /** Setting a row's own link back undoes a change of link. */
  lemma SetLinkRestores(c: DeltaCov, link: string)
    ensures SetLineCovLink(SetLineCovLink(c, link), GetLineCovLink(c)) == c
  {
  }
}

=== FILE: editor_client.dfy ===
/**
 * The editor extension's client side: repairing the `go list -json`
 * output into one JSON array, choosing the file to render, updating the
 * highlight decorations, and the polling loop that re-renders only when
 * the profile served by the goc server changes.
 */
module EditorClient {
  import opened Wrappers
  import opened Text
  import opened EditorProfile
  import opened ProfileFormat

  /** One package of the `go list -json` output; GoFiles is absent when empty. */
  datatype GoPackage = GoPackage(dir: string, importPath: string, goFiles: Option<seq<string>>)

  /** A visible text editor and the file it shows. */
  datatype Editor = Editor(id: nat, fileName: string)

  /** The editor window: the active editor, if any, and the visible ones. */
  datatype Window = Window(active: Option<Editor>, visible: seq<Editor>)

  /** The highlight ranges currently set on each editor, by editor id. */
  type Decorations = map<nat, seq<Range>>

  // ---------------------------------------------------------------
  // getGoList
  // ---------------------------------------------------------------

  const ObjectBreak := "}\n{"
  const ObjectComma := "},\n{"

  /** The text handed to JSON.parse: separators inserted, brackets around. */
  function RepairListing(stdout: string): string
  {
    "[" + ReplaceAll(stdout, ObjectBreak, ObjectComma) + "]"
  }

  /** How the go command ended: could not be spawned, or its standard output. */
  datatype Spawn = SpawnFailed | Spawned(stdout: string)

  /**
   * getGoList, with the JSON parser as a parameter (None stands for the
   * exception JSON.parse throws). No workspace or a failed spawn give no
   * packages.
   */
  function GetGoList(workspaces: seq<string>, spawn: Spawn, parse: string -> Option<seq<GoPackage>>)
    : (r: Result<seq<GoPackage>, string>)
    ensures workspaces == [] ==> r == Ok([])
    ensures workspaces != [] && spawn.SpawnFailed? ==> r == Ok([])
    ensures workspaces != [] && spawn.Spawned? ==>
              r == (match parse(RepairListing(spawn.stdout))
                    case None => Err("SyntaxError")
                    case Some(ps) => Ok(ps))
  {
    if |workspaces| == 0 then Ok([])
    else if spawn.SpawnFailed? then Ok([])
    else
      match parse(RepairListing(spawn.stdout))
      case None => Err("SyntaxError")
      case Some(ps) => Ok(ps)
  }

  /** The text of one JSON object as the go command prints it. */
  predicate ObjectText(o: string)
  {
    && |o| >= 2 && o[0] == '{' && o[|o| - 1] == '}'
    && forall k :: 0 <= k < |o| - 2 ==> !IsPrefix(ObjectBreak, o[k..])
  }

  /** `pat` starts at none of the first `n` positions of `s`. */
  predicate NoMatchBefore(s: string, pat: string, n: nat)
  {
    forall k :: 0 <= k < n && k <= |s| ==> !IsPrefix(pat, s[k..])
  }

  lemma {:induction false} ReplaceSkipsPrefix(a: string, b: string, pat: string, rep: string)
    requires |pat| > 0 && NoMatchBefore(a + b, pat, |a|)
    ensures ReplaceAll(a + b, pat, rep) == a + ReplaceAll(b, pat, rep)
    decreases |a|
  {
    if |a| > 0 {
      assert !IsPrefix(pat, (a + b)[0..]);
      assert (a + b)[0..] == a + b;
      assert (a + b)[1..] == a[1..] + b;
      forall k | 0 <= k < |a[1..]| && k <= |a[1..] + b| ensures !IsPrefix(pat, (a[1..] + b)[k..]) {
        assert (a[1..] + b)[k..] == (a + b)[k + 1..];
      }
      ReplaceSkipsPrefix(a[1..], b, pat, rep);
    } else {
      assert a + b == b;
    }
  }

  /** An object's text holds no object break except possibly at its closing brace. */
  lemma NoBreakInside(o: string, t: string)
    requires ObjectText(o)
    ensures forall k :: 0 <= k < |o| - 1 ==> !IsPrefix(ObjectBreak, (o + t)[k..])
  {
    forall k | 0 <= k < |o| - 1 ensures !IsPrefix(ObjectBreak, (o + t)[k..]) {
      if k + 3 <= |o| {
        assert !IsPrefix(ObjectBreak, o[k..]);
        assert (o + t)[k..][..3] == o[k..][..3];
      } else {
        assert (o + t)[k..][1] == o[|o| - 1] == '}';
      }
    }
  }

  /** Under the go command's output shape, the repair separates the objects with commas. */
  lemma {:induction false} RepairObjects(objs: seq<string>)
    requires |objs| >= 1
    requires forall i :: 0 <= i < |objs| ==> ObjectText(objs[i])
    ensures ReplaceAll(Render(objs), ObjectBreak, ObjectComma) == JoinWith(objs, ",\n") + "\n"
    decreases |objs|
  {
    var o := objs[0];
    var rest := objs[1..];
    assert Render(objs) == o + ("\n" + Render(rest));
    if |objs| == 1 {
      assert Render(rest) == "";
      assert o + ("\n" + "") == o + "\n";
      assert JoinWith(objs, ",\n") == o;
      RepairOne(o);
    } else {
      assert objs[1] in objs;
      RepairObjects(rest);
      assert Render(rest)[0] == '{';
      RepairSeam(o, Render(rest));
      assert JoinWith(objs, ",\n") == o + ",\n" + JoinWith(rest, ",\n");
    }
  }

  /** The text of an object followed by more: the object's body is copied, then its closing brace is read. */
  lemma RepairBody(o: string, t: string)
    requires ObjectText(o)
    ensures ReplaceAll(o + t, ObjectBreak, ObjectComma) == o[..|o| - 1] + ReplaceAll("}" + t, ObjectBreak, ObjectComma)
  {
    var body := o[..|o| - 1];
    assert o == body + "}";
    NoBreakInside(o, t);
    assert o + t == body + ("}" + t);
    ReplaceSkipsPrefix(body, "}" + t, ObjectBreak, ObjectComma);
  }

  /** A single object is left as it is. */
  lemma RepairOne(o: string)
    requires ObjectText(o)
    ensures ReplaceAll(o + "\n", ObjectBreak, ObjectComma) == o + "\n"
  {
    RepairBody(o, "\n");
    assert ReplaceAll("}\n", ObjectBreak, ObjectComma) == "}\n" by {
      assert !IsPrefix(ObjectBreak, "}\n");
      assert "}\n"[1..] == "\n";
      assert !IsPrefix(ObjectBreak, "\n");
      assert "\n"[1..] == "";
    }
    assert o == o[..|o| - 1] + "}";
  }

  /** A closing brace, a newline and an opening brace become "},\n{". */
  lemma RepairBreak(tail: string)
    ensures ReplaceAll(ObjectBreak + tail, ObjectBreak, ObjectComma) == ObjectComma + ReplaceAll(tail, ObjectBreak, ObjectComma)
  {
    var x := ObjectBreak + tail;
    assert x[..3] == ObjectBreak;
    assert x[3..] == tail;
  }

  /** An opening brace is copied as it is. */
  lemma RepairOpen(r: string)
    requires |r| > 0 && r[0] == '{'
    ensures ReplaceAll(r, ObjectBreak, ObjectComma) == "{" + ReplaceAll(r[1..], ObjectBreak, ObjectComma)
  {
    assert !IsPrefix(ObjectBreak, r) by { assert r[0] != ObjectBreak[0]; }
  }

  /** An object in front of more objects is joined to them by a comma. */
  lemma RepairSeam(o: string, r: string)
    requires ObjectText(o) && |r| > 0 && r[0] == '{'
    ensures ReplaceAll(o + ("\n" + r), ObjectBreak, ObjectComma) == o + ",\n" + ReplaceAll(r, ObjectBreak, ObjectComma)
  {
    var body := o[..|o| - 1];
    var tail := r[1..];
    RepairBody(o, "\n" + r);
    assert "}" + ("\n" + r) == ObjectBreak + tail;
    RepairBreak(tail);
    RepairOpen(r);
    var t := ReplaceAll(tail, ObjectBreak, ObjectComma);
    assert o == body + "}";
    calc {
      ReplaceAll(o + ("\n" + r), ObjectBreak, ObjectComma);
      body + (ObjectComma + t);
      (body + "}") + ",\n" + ("{" + t);
    }
  }

  /**
   * What JSON.parse receives for a listing of one or more objects: a JSON
   * array of exactly those objects.
   */
  lemma RepairedListing(objs: seq<string>)
    requires |objs| >= 1
    requires forall i :: 0 <= i < |objs| ==> ObjectText(objs[i])
    ensures RepairListing(Render(objs)) == "[" + JoinWith(objs, ",\n") + "\n]"
  {
    RepairObjects(objs);
    ConcatShape(JoinWith(objs, ",\n"), ReplaceAll(Render(objs), ObjectBreak, ObjectComma));
  }

  lemma ConcatShape(j: string, x: string)
    requires x == j + "\n"
    ensures "[" + x + "]" == "[" + j + "\n]"
  {
    assert "[" + x + "]" == "[" + j + "\n" + "]";
  }

  // ---------------------------------------------------------------
  // renderFile and triggerUpdateDecoration
  // ---------------------------------------------------------------

  /** clearHightlight: every visible editor gets an empty set. */
  function ClearAll(w: Window, deco: Decorations): (r: Decorations)
    ensures forall i :: 0 <= i < |w.visible| ==> w.visible[i].id in r && r[w.visible[i].id] == []
    ensures forall id :: id in deco && (forall i :: 0 <= i < |w.visible| ==> w.visible[i].id != id)
              ==> id in r && r[id] == deco[id]
    ensures forall id :: id in r ==> id in deco || exists i :: 0 <= i < |w.visible| && w.visible[i].id == id
    decreases |w.visible|
  {
    if |w.visible| == 0 then deco
    else
      var r := ClearAll(Window(w.active, w.visible[1..]), deco)[w.visible[0].id := []];
      assert forall i :: 1 <= i < |w.visible| ==> w.visible[i] == w.visible[1..][i - 1];
      r
  }

  /**
   * triggerUpdateDecoration: nothing without an active editor; an empty
   * range list clears all visible editors; otherwise the active editor's
   * set is replaced.
   */
  function TriggerUpdate(w: Window, deco: Decorations, ranges: seq<Range>): (r: Decorations)
    ensures w.active.None? ==> r == deco
    ensures w.active.Some? && ranges != [] ==> r == deco[w.active.value.id := ranges]
    ensures w.active.Some? && ranges == [] ==> r == ClearAll(w, deco)
  {
    if w.active.None? then deco
    else if |ranges| == 0 then ClearAll(w, deco)
    else deco[w.active.value.id := ranges]
  }

  /** Which file renderFile picks: the import path to parse, none, or a thrown error. */
  datatype Pick = Picked(importPath: string) | NoPick | PickFault

  /**
   * The search of renderFile: the first package and GoFile whose joined
   * path is the active editor's file name. `join` is path.join. A package
   * without GoFiles reached by the search throws.
   */
  function PickFile(packages: seq<GoPackage>, active: Option<string>, join: (string, string) -> string): (r: Pick)
    ensures r.Picked? ==> active.Some?
    ensures r.PickFault? ==> exists i :: 0 <= i < |packages| && packages[i].goFiles.None?
    ensures (forall i :: 0 <= i < |packages| ==> packages[i].goFiles.Some?) && active.Some? ==> !r.PickFault?
  {
    if |packages| == 0 then NoPick
    else
      var p := packages[0];
      if p.goFiles.None? then PickFault
      else
        match PickIn(p, p.goFiles.value, active, join)
        case Some(path) => Picked(path)
        case None =>
          var rest := PickFile(packages[1..], active, join);
          assert rest.PickFault? ==> exists i :: 1 <= i < |packages| && packages[i].goFiles.None? by {
            if rest.PickFault? {
              var i :| 0 <= i < |packages[1..]| && packages[1..][i].goFiles.None?;
              assert packages[i + 1] == packages[1..][i];
            }
          }
          rest
  }

  function PickIn(p: GoPackage, files: seq<string>, active: Option<string>, join: (string, string) -> string)
    : (r: Option<string>)
    ensures active.None? ==> r.None?
  {
    if |files| == 0 then None
    else if active.Some? && join(p.dir, files[0]) == active.value then Some(join(p.importPath, files[0]))
    else PickIn(p, files[1..], active, join)
  }

  /** The pair (package, file) is the first one the search reaches that matches. */
  predicate FirstPackageMatch(packages: seq<GoPackage>, i: nat, j: nat, file: string, join: (string, string) -> string)
  {
    && i < |packages| && packages[i].goFiles.Some?
    && j < |packages[i].goFiles.value|
    && join(packages[i].dir, packages[i].goFiles.value[j]) == file
    && (forall i' :: 0 <= i' < i ==>
          (packages[i'].goFiles.Some?
           && forall j' :: 0 <= j' < |packages[i'].goFiles.value| ==>
                join(packages[i'].dir, packages[i'].goFiles.value[j']) != file))
    && (forall j' :: 0 <= j' < j ==> join(packages[i].dir, packages[i].goFiles.value[j']) != file)
  }

  lemma {:induction false} PickInFirst(p: GoPackage, files: seq<string>, file: string, join: (string, string) -> string)
    ensures PickIn(p, files, Some(file), join).Some? ==>
      exists j :: 0 <= j < |files| && join(p.dir, files[j]) == file
        && PickIn(p, files, Some(file), join).value == join(p.importPath, files[j])
        && forall j' :: 0 <= j' < j ==> join(p.dir, files[j']) != file
    ensures PickIn(p, files, Some(file), join).None? ==> forall j :: 0 <= j < |files| ==> join(p.dir, files[j]) != file
    decreases |files|
  {
    if |files| > 0 && join(p.dir, files[0]) != file {
      PickInFirst(p, files[1..], file, join);
      assert forall j :: 1 <= j < |files| ==> files[j] == files[1..][j - 1];
      if PickIn(p, files, Some(file), join).Some? {
        var j :| 0 <= j < |files[1..]| && join(p.dir, files[1..][j]) == file
          && PickIn(p, files[1..], Some(file), join).value == join(p.importPath, files[1..][j])
          && forall j' :: 0 <= j' < j ==> join(p.dir, files[1..][j']) != file;
        assert join(p.dir, files[j + 1]) == file;
      }
    }
  }

  /**
   * The file picked is the one of the first matching (package, GoFile)
   * pair, parsed under the package's import path joined with the file.
   */
  lemma {:induction false} PickFileFirst(packages: seq<GoPackage>, file: string, join: (string, string) -> string)
    ensures PickFile(packages, Some(file), join).Picked? ==>
      exists i: nat, j: nat :: FirstPackageMatch(packages, i, j, file, join)
        && PickFile(packages, Some(file), join).importPath == join(packages[i].importPath, packages[i].goFiles.value[j])
    decreases |packages|
  {
    if |packages| > 0 && packages[0].goFiles.Some? {
      var p := packages[0];
      PickInFirst(p, p.goFiles.value, file, join);
      if PickIn(p, p.goFiles.value, Some(file), join).Some? {
        var j :| 0 <= j < |p.goFiles.value| && join(p.dir, p.goFiles.value[j]) == file
          && PickIn(p, p.goFiles.value, Some(file), join).value == join(p.importPath, p.goFiles.value[j])
          && forall j' :: 0 <= j' < j ==> join(p.dir, p.goFiles.value[j']) != file;
        assert FirstPackageMatch(packages, 0, j, file, join);
      } else if PickFile(packages, Some(file), join).Picked? {
        PickFileFirst(packages[1..], file, join);
        var i: nat, j: nat :| FirstPackageMatch(packages[1..], i, j, file, join)
          && PickFile(packages[1..], Some(file), join).importPath
             == join(packages[1..][i].importPath, packages[1..][i].goFiles.value[j]);
        assert packages[1..][i] == packages[i + 1];
        assert FirstPackageMatch(packages, i + 1, j, file, join) by {
          forall i' | 0 <= i' < i + 1 ensures packages[i'].goFiles.Some?
            && forall j' :: 0 <= j' < |packages[i'].goFiles.value| ==>
                 join(packages[i'].dir, packages[i'].goFiles.value[j']) != file {
            if i' > 0 { assert packages[i'] == packages[1..][i' - 1]; }
          }
        }
      }
    }
  }

  /** What renderFile does to the decorations. */
  datatype RenderOutcome = Rendered(deco: Decorations) | RenderFault

  /** renderFile: parse the profile for the picked file and update the decorations. */
  function RenderFile(packages: seq<GoPackage>, profile: string, w: Window, deco: Decorations,
                      join: (string, string) -> string): (r: RenderOutcome)
    ensures (PickFile(packages, if w.active.Some? then Some(w.active.value.fileName) else None, join).NoPick?)
              ==> r == Rendered(deco)
    ensures r.Rendered? && r.deco != deco ==> w.active.Some?
  {
    var active := if w.active.Some? then Some(w.active.value.fileName) else None;
    match PickFile(packages, active, join)
    case NoPick => Rendered(deco)
    case PickFault => RenderFault
    case Picked(importPath) =>
      match ParseProfile(profile, importPath)
      case ParseFault => RenderFault
      case Ranges(rs) => Rendered(TriggerUpdate(w, deco, rs))
  }

  // ---------------------------------------------------------------
  // startQueryLoop / stopQueryLoop
  // ---------------------------------------------------------------

  /**
   * One running query loop: the package list it was started with, and
   * whether it is sleeping or waiting for the profile request to return.
   */
  datatype Loop = Loop(packages: seq<GoPackage>, fetching: bool)

  /**
   * The client state: the `timer` flag, the last profile fetched, the
   * query loops currently running, the editor window and the decorations.
   */
  datatype Client = Client(timer: bool, lastProfile: string, loops: seq<Loop>,
                           window: Window, deco: Decorations)

  function InitClient(w: Window): Client
  {
    Client(true, "", [], w, map[])
  }

  /** Every visible editor of `w` has no highlights in `d`. */
  predicate Cleared(w: Window, d: Decorations)
  {
    forall i :: 0 <= i < |w.visible| ==> w.visible[i].id in d && d[w.visible[i].id] == []
  }

  /** startQueryLoop: the flag is set and a new loop starts sleeping. */
  function Start(c: Client, packages: seq<GoPackage>): (r: Client)
    ensures r.timer && r.lastProfile == c.lastProfile && r.loops == c.loops + [Loop(packages, false)]
    ensures r.deco == c.deco && r.window == c.window
  {
    c.(timer := true, loops := c.loops + [Loop(packages, false)])
  }

  /** stopQueryLoop: the flag is cleared and every visible editor cleared at once. */
  function Stop(c: Client): (r: Client)
    ensures !r.timer && r.lastProfile == c.lastProfile && r.loops == c.loops
    ensures Cleared(c.window, r.deco)
  {
    c.(timer := false, deco := ClearAll(c.window, c.deco))
  }

  /** The editor window changes (focus, opening or closing editors); nothing is rendered. */
  function ChangeWindow(c: Client, w: Window): (r: Client)
    ensures r.deco == c.deco && r.lastProfile == c.lastProfile && r.window == w
  {
    c.(window := w)
  }

  function RemoveAt<T>(s: seq<T>, k: nat): (r: seq<T>)
    requires k < |s|
    ensures |r| == |s| - 1
  {
    s[..k] + s[k + 1..]
  }

  /**
   * Sleeping loop `k` wakes from its 2-second sleep. With the flag
   * cleared it clears the highlights and ends; otherwise it sends the
   * profile request and waits for it.
   */
  function Wake(c: Client, k: nat): (r: Client)
    requires k < |c.loops| && !c.loops[k].fetching
    ensures r.timer == c.timer && r.lastProfile == c.lastProfile && r.window == c.window
    ensures !c.timer ==> |r.loops| == |c.loops| - 1 && Cleared(c.window, r.deco)
    ensures c.timer ==> |r.loops| == |c.loops| && r.loops[k] == c.loops[k].(fetching := true) && r.deco == c.deco
  {
    if !c.timer then
      c.(deco := ClearAll(c.window, c.deco), loops := RemoveAt(c.loops, k))
    else c.(loops := c.loops[k := c.loops[k].(fetching := true)])
  }

  /**
   * Loop `k` ends, or goes back to sleep, at the `while` check that follows
   * every round: the check only ends it when the flag is cleared, without
   * clearing the highlights.
   */
  function Continue(c: Client, k: nat): (r: Client)
    requires k < |c.loops|
    ensures r.timer == c.timer && r.deco == c.deco && r.lastProfile == c.lastProfile && r.window == c.window
    ensures c.timer ==> |r.loops| == |c.loops| && r.loops[k] == c.loops[k].(fetching := false)
    ensures !c.timer ==> |r.loops| == |c.loops| - 1
  {
    if c.timer then c.(loops := c.loops[k := c.loops[k].(fetching := false)])
    else c.(loops := RemoveAt(c.loops, k))
  }

  /**
   * The profile request of loop `k` returns `profile` (the empty text when
   * it fails). The flag is not looked at before the render: an unchanged
   * profile goes straight to the `while` check; otherwise the profile is
   * recorded and rendered, and the check follows, unless the render throws
   * and ends the loop.
   */
  function Fetched(c: Client, k: nat, profile: string, join: (string, string) -> string): (r: Client)
    requires k < |c.loops| && c.loops[k].fetching
    ensures r.timer == c.timer && r.window == c.window
    ensures profile == c.lastProfile ==> r.deco == c.deco && r.lastProfile == c.lastProfile
    ensures profile != c.lastProfile ==> r.lastProfile == profile
    ensures var out := RenderFile(c.loops[k].packages, profile, c.window, c.deco, join);
            && (profile != c.lastProfile && out.Rendered? ==> r.deco == out.deco)
            && (profile != c.lastProfile && out.RenderFault? ==> r.deco == c.deco)
            && (c.timer && (profile == c.lastProfile || out.Rendered?) ==>
                  |r.loops| == |c.loops| && r.loops[k] == c.loops[k].(fetching := false))
            && (!c.timer || (profile != c.lastProfile && out.RenderFault?) ==> |r.loops| == |c.loops| - 1)
  {
    if profile == c.lastProfile then Continue(c, k)
    else
      match RenderFile(c.loops[k].packages, profile, c.window, c.deco, join)
      case RenderFault => c.(lastProfile := profile, loops := RemoveAt(c.loops, k))
      case Rendered(d) => Continue(c.(lastProfile := profile, deco := d), k)
  }

  /** One full round of a loop while the flag stays set: wake, then the request returns. */
  function Round(c: Client, k: nat, profile: string, join: (string, string) -> string): (r: Client)
    requires k < |c.loops| && !c.loops[k].fetching && c.timer
    ensures r.timer
  {
    Fetched(Wake(c, k), k, profile, join)
  }

  /** A round that fetches the last profile causes no work at all. */
  lemma {:induction false} RoundUnchanged(c: Client, k: nat, join: (string, string) -> string)
    requires k < |c.loops| && !c.loops[k].fetching && c.timer
    ensures Round(c, k, c.lastProfile, join) == c
  {
    var w := Wake(c, k);
    assert w.loops[k := w.loops[k].(fetching := false)] == c.loops;
  }

  /** A changed profile is recorded whatever the render does, and the flag stays set. */
  lemma RoundChanged(c: Client, k: nat, profile: string, join: (string, string) -> string)
    requires k < |c.loops| && !c.loops[k].fetching && c.timer && profile != c.lastProfile
    ensures Round(c, k, profile, join).lastProfile == profile
    ensures |Round(c, k, profile, join).loops| >= |c.loops| - 1
  {
  }

  /** Two requests returning the same profile render at most once. */
  lemma SecondFetchIsIdle(c: Client, k: nat, k2: nat, profile: string, join: (string, string) -> string)
    requires k < |c.loops| && c.loops[k].fetching
    requires var c1 := Fetched(c, k, profile, join);
             k2 < |c1.loops| && c1.loops[k2].fetching
    ensures var c1 := Fetched(c, k, profile, join);
            var c2 := Fetched(c1, k2, profile, join);
            c2.deco == c1.deco && c2.lastProfile == c1.lastProfile && c2.timer == c1.timer
  {
  }

  /** After a stop, a sleeping loop that wakes only clears the highlights and ends. */
  lemma WakeAfterStop(c: Client, k: nat)
    requires k < |c.loops| && !c.loops[k].fetching
    ensures var r := Wake(Stop(c), k);
            && !r.timer && r.lastProfile == c.lastProfile && |r.loops| == |c.loops| - 1
            && Cleared(c.window, r.deco)
  {
  }

  /**
   * A stop that arrives while a request is out does not prevent that
   * request's render: a changed profile is still rendered over the cleared
   * highlights, and the loop then ends at its `while` check without
   * clearing them, so what it painted stays after the stop.
   */
  lemma StopDuringFetchKeepsRender(c: Client, k: nat, profile: string, join: (string, string) -> string)
    requires k < |c.loops| && c.loops[k].fetching && profile != c.lastProfile
    requires RenderFile(c.loops[k].packages, profile, c.window, Stop(c).deco, join).Rendered?
    ensures var out := RenderFile(c.loops[k].packages, profile, c.window, Stop(c).deco, join);
            var r := Fetched(Stop(c), k, profile, join);
            && !r.timer && r.lastProfile == profile && r.deco == out.deco
            && |r.loops| == |c.loops| - 1
  {
  }

  /**
   * For instance: one loop with a request out, an active editor showing
   * the file of the one package, and an agent profile covering one block
   * `b` of it. After the stop the editor is cleared; after the request
   * returns it is highlighted again, and no loop is left to clear it.
   */
  lemma StopDuringFetchExample(b: ProfileBlock, text: string)
    requires b == ProfileBlock("m/f.go", 1, 1, 2, 2, 1, 1) && text == ProfileText("set", [b])
    ensures var e := Editor(0, "d/f.go");
            var c := Client(true, "", [Loop([GoPackage("d", "m", Some(["f.go"]))], true)], Window(Some(e), [e]), map[]);
            var s := Stop(c);
            var r := Fetched(s, 0, text, SlashJoin);
            && s.deco[0] == []
            && r.loops == [] && !r.timer
            && r.deco[0] == [Range(Position(0, 0), Position(1, 1))]
  {
    var e := Editor(0, "d/f.go");
    var w := Window(Some(e), [e]);
    var packages := [GoPackage("d", "m", Some(["f.go"]))];
    var c := Client(true, "", [Loop(packages, true)], w, map[]);
    var s := Stop(c);
    ExampleNotEmpty(b, text);
    ExampleRenders(b, text, packages, w, s.deco);
  }

  /** The example's render: the active editor gets the block's one range. */
  lemma ExampleRenders(b: ProfileBlock, text: string, packages: seq<GoPackage>, w: Window, d: Decorations)
    requires b == ProfileBlock("m/f.go", 1, 1, 2, 2, 1, 1) && text == ProfileText("set", [b])
    requires packages == [GoPackage("d", "m", Some(["f.go"]))]
    requires w == Window(Some(Editor(0, "d/f.go")), [Editor(0, "d/f.go")])
    ensures RenderFile(packages, text, w, d, SlashJoin) == Rendered(d[0 := [Range(Position(0, 0), Position(1, 1))]])
  {
    ExampleParses(b);
    ExamplePicks(packages);
  }

  /** The example's search picks the one file, under the package's import path. */
  lemma ExamplePicks(packages: seq<GoPackage>)
    requires packages == [GoPackage("d", "m", Some(["f.go"]))]
    ensures PickFile(packages, Some("d/f.go"), SlashJoin) == Picked("m/f.go")
  {
    assert SlashJoin("d", "f.go") == "d/f.go" && SlashJoin("m", "f.go") == "m/f.go";
    assert PickIn(packages[0], ["f.go"], Some("d/f.go"), SlashJoin) == Some("m/f.go");
  }

  lemma ExampleNotEmpty(b: ProfileBlock, text: string)
    requires text == ProfileText("set", [b])
    ensures text != ""
  {
    assert text[0] == 'm';
  }

  /** The example's profile gives the block's one range. */
  lemma ExampleParses(b: ProfileBlock)
    requires b == ProfileBlock("m/f.go", 1, 1, 2, 2, 1, 1)
    ensures ParseProfile(ProfileText("set", [b]), "m/f.go") == Ranges([Range(Position(0, 0), Position(1, 1))])
  {
    assert AgentBlock(b) && Renderable(b, "m/f.go");
    ParseAgentProfile("set", [b], "m/f.go");
    assert ExpectedRanges([b], "m/f.go") == [BlockRange(b)];
  }

  /** path.join for the clean operands of the example. */
  function SlashJoin(a: string, b: string): string
  {
    a + "/" + b
  }

  /** Stopping keeps the last profile, so a restarted loop does not re-render an unchanged profile. */
  lemma {:induction false} RestartKeepsLastProfile(c: Client, packages: seq<GoPackage>, join: (string, string) -> string)
    ensures var r := Start(Stop(c), packages);
            r.lastProfile == c.lastProfile && Round(r, |r.loops| - 1, c.lastProfile, join) == r
  {
    var r := Start(Stop(c), packages);
    RoundUnchanged(r, |r.loops| - 1, join);
  }

  /** A render changes at most the active editor, or clears the visible ones. */
  lemma RenderTouchesOnlyActive(packages: seq<GoPackage>, profile: string, w: Window, deco: Decorations,
                                join: (string, string) -> string)
    requires RenderFile(packages, profile, w, deco, join).Rendered?
    ensures var d := RenderFile(packages, profile, w, deco, join).deco;
            || d == deco
            || (w.active.Some? && d == ClearAll(w, deco))
            || (w.active.Some? && w.active.value.id in d && d == deco[w.active.value.id := d[w.active.value.id]])
  {
  }
}

=== FILE: editor_profile.dfy ===
/**
 * How the editor extension turns a profile text into the ranges it
 * highlights for one file: every line whose text before the first ':'
 * is the file's import path is matched against
 * `(\d+)\.(\d+),(\d+)\.(\d+)\s(\d+)\s(\d+)`, blocks with count "0" are
 * dropped and the others become zero-based editor ranges.
 */
module EditorProfile {
  import opened Wrappers
  import opened Text
  import opened Decimal
  import opened ProfileFormat

  /** JavaScript's `\s`: white space and line terminators. */
  predicate JsSpace(c: char)
  {
    c == ' ' || c == '\t' || c == '\n' || c == '\r' || c == '\U{B}' || c == '\U{C}'
    || c == '\U{A0}' || c == '\U{1680}' || ('\U{2000}' <= c <= '\U{200A}')
    || c == '\U{2028}' || c == '\U{2029}' || c == '\U{202F}' || c == '\U{205F}'
    || c == '\U{3000}' || c == '\U{FEFF}'
  }

  /** The six captured groups of a match. */
  datatype Match = Match(startLine: string, startCol: string, endLine: string, endCol: string,
                         stmts: string, count: string)

  /** The length of the longest run of digits at the start of `s`. */
  function DigitRun(s: string): (n: nat)
    ensures n <= |s| && AllDigits(s[..n])
    ensures n < |s| ==> !IsDigit(s[n])
  {
    if |s| == 0 || !IsDigit(s[0]) then 0
    else
      var n := DigitRun(s[1..]) + 1;
      assert s[..n] == [s[0]] + s[1..][..n - 1];
      n
  }

  /**
   * `(\d+)` followed by one character accepted by `sep`, at the start of
   * `s`: the digits and what follows the separator. A shorter digit run
   * can never be followed by the separator, so greedy matching is the only
   * way to match.
   */
  function DigitsThen(s: string, sep: char -> bool): (r: Option<(string, string)>)
    ensures r.Some? ==> r.value.0 != "" && AllDigits(r.value.0)
  {
    var n := DigitRun(s);
    if n == 0 || n == |s| || !sep(s[n]) then None else Some((s[..n], s[n + 1..]))
  }

  /** Every captured group is a non-empty run of digits. */
  predicate DigitGroups(m: Match)
  {
    && m.startLine != "" && AllDigits(m.startLine) && m.startCol != "" && AllDigits(m.startCol)
    && m.endLine != "" && AllDigits(m.endLine) && m.endCol != "" && AllDigits(m.endCol)
    && m.stmts != "" && AllDigits(m.stmts) && m.count != "" && AllDigits(m.count)
  }

  /** The regular expression matched at the very start of `s`. */
  function MatchAt(s: string): (r: Option<Match>)
    ensures r.Some? ==> DigitGroups(r.value)
  {
    match DigitsThen(s, c => c == '.')
    case None => None
    case Some((l0, s1)) =>
      match DigitsThen(s1, c => c == ',')
      case None => None
      case Some((c0, s2)) =>
        match DigitsThen(s2, c => c == '.')
        case None => None
        case Some((l1, s3)) =>
          match DigitsThen(s3, JsSpace)
          case None => None
          case Some((c1, s4)) =>
            match DigitsThen(s4, JsSpace)
            case None => None
            case Some((st, s5)) =>
              var n := DigitRun(s5);
              if n == 0 then None else Some(Match(l0, c0, l1, c1, st, s5[..n]))
  }

  /** RegExp.prototype.exec: the expression tried at every position, leftmost first. */
  function Exec(s: string): (r: Option<Match>)
    ensures r.Some? ==> DigitGroups(r.value)
    decreases |s|
  {
    if MatchAt(s).Some? then MatchAt(s)
    else if |s| == 0 then None
    else Exec(s[1..])
  }

  /** Exec finds the leftmost position where the expression matches, or none exists. */
  lemma {:induction false} ExecLeftmost(s: string)
    ensures Exec(s).Some? ==> exists k :: (0 <= k <= |s| && MatchAt(s[k..]) == Exec(s)
                              && forall j :: 0 <= j < k ==> MatchAt(s[j..]).None?)
    ensures Exec(s).None? <==> forall k :: 0 <= k <= |s| ==> MatchAt(s[k..]).None?
    decreases |s|
  {
    assert s[0..] == s;
    if MatchAt(s).Some? {
      assert MatchAt(s[0..]) == Exec(s);
    } else if |s| == 0 {
      assert forall k :: 0 <= k <= |s| ==> s[k..] == s;
    } else {
      ExecLeftmost(s[1..]);
      assert forall k :: 1 <= k <= |s| ==> s[k..] == s[1..][k - 1..];
      if Exec(s).Some? {
        var k :| 0 <= k <= |s[1..]| && MatchAt(s[1..][k..]) == Exec(s[1..])
                 && forall j :: 0 <= j < k ==> MatchAt(s[1..][j..]).None?;
        assert MatchAt(s[k + 1..]) == Exec(s);
        forall j | 0 <= j < k + 1 ensures MatchAt(s[j..]).None? {
          if j > 0 { assert s[j..] == s[1..][j - 1..]; }
        }
      }
    }
  }

  /** vscode.Position: zero-based line and character. */
  datatype Position = Position(line: nat, character: nat)

  /** vscode.Range: start is never after end. */
  datatype Range = Range(start: Position, end: Position)

  predicate Before(a: Position, b: Position)
  {
    a.line < b.line || (a.line == b.line && a.character < b.character)
  }

  /** The Range constructor, which swaps its ends when they are reversed. */
  function MkRange(a: Position, b: Position): (r: Range)
    ensures !Before(r.end, r.start)
    ensures {r.start, r.end} == {a, b}
  {
    if Before(b, a) then Range(b, a) else Range(a, b)
  }

  /** The Position constructor, which throws on a negative coordinate. */
  function MkPosition(line: int, character: int): (r: Option<Position>)
    ensures r.Some? <==> line >= 0 && character >= 0
  {
    if line < 0 || character < 0 then None else Some(Position(line, character))
  }

  /** What one profile line contributes. */
  datatype LineOutcome = Skip | AddRange(range: Range) | Throw

  /**
   * One iteration of the parse loop for the file `target`. A line of
   * the target without a ':' hands `undefined` to the expression, which
   * does not match; a non-match is a thrown error, as is a coordinate 0.
   */
  function ParseLine(line: string, target: string): (r: LineOutcome)
    ensures Split(line, ':')[0] != target ==> r == Skip
    ensures line == target && ':' !in line ==> r == Throw
    ensures r.AddRange? ==> !Before(r.range.end, r.range.start)
  {
    var parts := Split(line, ':');
    if parts[0] != target then Skip
    else if |parts| < 2 then Throw
    else ParseBlockInfo(parts[1])
  }

  /** The block text of a line of the target file. */
  function ParseBlockInfo(info: string): LineOutcome
  {
    match Exec(info)
    case None => Throw
    case Some(m) => ReadMatch(m)
  }

  /** What a matched block text contributes: nothing for count "0", else its one-based range made zero-based. */
  function ReadMatch(m: Match): (r: LineOutcome)
    requires DigitGroups(m)
    ensures r.Skip? <==> m.count == "0"
    ensures r.Throw? <==>
              m.count != "0"
              && (DigitsValue(m.startLine) == 0 || DigitsValue(m.startCol) == 0
                  || DigitsValue(m.endLine) == 0 || DigitsValue(m.endCol) == 0)
    ensures r.AddRange? ==>
              {r.range.start, r.range.end}
              == {Position(DigitsValue(m.startLine) - 1, DigitsValue(m.startCol) - 1),
                  Position(DigitsValue(m.endLine) - 1, DigitsValue(m.endCol) - 1)}
  {
    if m.count == "0" then Skip
    else
      var start := MkPosition(DigitsValue(m.startLine) - 1, DigitsValue(m.startCol) - 1);
      var end := MkPosition(DigitsValue(m.endLine) - 1, DigitsValue(m.endCol) - 1);
      if start.None? || end.None? then Throw else AddRange(MkRange(start.value, end.value))
  }

  /** The result of parseProfile: ranges in line order, or a thrown error. */
  datatype ParsedProfile = Ranges(ranges: seq<Range>) | ParseFault

  /**
   * The parse loop over every line: a thrown error on any line throws
   * out of the whole parse, and otherwise every range kept is well ordered
   * and comes from a distinct line.
   */
  function ParseLines(lines: seq<string>, target: string): (r: ParsedProfile)
    ensures r.ParseFault? <==> exists i :: 0 <= i < |lines| && ParseLine(lines[i], target).Throw?
    ensures r.Ranges? ==> |r.ranges| <= |lines|
    ensures r.Ranges? ==> forall i :: 0 <= i < |r.ranges| ==> !Before(r.ranges[i].end, r.ranges[i].start)
  {
    if |lines| == 0 then Ranges([])
    else
      ThrowsOnTail(lines, target);
      match ParseLine(lines[0], target)
      case Throw => ParseFault
      case Skip => ParseLines(lines[1..], target)
      case AddRange(r) =>
        match ParseLines(lines[1..], target)
        case ParseFault => ParseFault
        case Ranges(rs) => Ranges([r] + rs)
  }

  /** Some line throws exactly when the first one does or some later one does. */
  lemma ThrowsOnTail(lines: seq<string>, target: string)
    requires |lines| > 0
    ensures (exists i :: 0 <= i < |lines| && ParseLine(lines[i], target).Throw?)
            <==> ParseLine(lines[0], target).Throw?
                 || exists i :: 0 <= i < |lines[1..]| && ParseLine(lines[1..][i], target).Throw?
  {
    if exists i :: 0 <= i < |lines| && ParseLine(lines[i], target).Throw? {
      var i :| 0 <= i < |lines| && ParseLine(lines[i], target).Throw?;
      if i > 0 { assert lines[1..][i - 1] == lines[i]; }
    }
  }

  /** parseProfile: a text with no line break yields no ranges at all. */
  function ParseProfile(profile: string, target: string): (r: ParsedProfile)
    ensures '\n' !in profile ==> r == Ranges([])
  {
    var lines := Split(profile, '\n');
    if |lines| <= 1 then Ranges([]) else ParseLines(lines, target)
  }

  /** The range the editor shows for a block of the agent's profile. */
  function BlockRange(b: ProfileBlock): Range
    requires b.line0 >= 1 && b.col0 >= 1 && b.line1 >= 1 && b.col1 >= 1
  {
    MkRange(Position(b.line0 - 1, b.col0 - 1), Position(b.line1 - 1, b.col1 - 1))
  }

  /** A covered block of `target`: the ones the editor highlights. */
  predicate Highlighted(b: ProfileBlock, target: string)
  {
    b.name == target && b.count != 0
  }

  predicate HasHits(b: ProfileBlock)
  {
    b.line0 >= 1 && b.col0 >= 1 && b.line1 >= 1 && b.col1 >= 1
  }

  /** A block the editor can show if it is highlighted. */
  predicate Renderable(b: ProfileBlock, target: string)
  {
    Highlighted(b, target) ==> HasHits(b)
  }

  /** The ranges of the covered blocks of `target`, in profile order. */
  function ExpectedRanges(blocks: seq<ProfileBlock>, target: string): seq<Range>
    requires forall i :: 0 <= i < |blocks| ==> Renderable(blocks[i], target)
  {
    if |blocks| == 0 then []
    else
      assert Renderable(blocks[0], target);
      if Highlighted(blocks[0], target) then [BlockRange(blocks[0])] + ExpectedRanges(blocks[1..], target)
      else ExpectedRanges(blocks[1..], target)
  }

  lemma DigitsThenDigits(d: string, sep: char, rest: string, p: char -> bool)
    requires d != "" && AllDigits(d) && !IsDigit(sep) && p(sep)
    ensures DigitsThen(d + [sep] + rest, p) == Some((d, rest))
  {
    var s := d + [sep] + rest;
    DigitRunOf(d, [sep] + rest);
    assert s == d + ([sep] + rest);
    assert s[|d| + 1..] == rest;
  }

  lemma {:induction false} DigitRunOf(d: string, rest: string)
    requires AllDigits(d) && (rest == "" || !IsDigit(rest[0]))
    ensures DigitRun(d + rest) == |d|
    decreases |d|
  {
    if |d| > 0 {
      assert (d + rest)[1..] == d[1..] + rest;
      DigitRunOf(d[1..], rest);
    } else {
      assert d + rest == rest;
    }
  }

  /** The groups the expression captures from a block's text: its six numbers in decimal. */
  function BlockMatch(b: ProfileBlock): Match
  {
    Match(NatToString(b.line0), NatToString(b.col0), NatToString(b.line1), NatToString(b.col1),
          NatToString(b.stmts), NatToString(b.count))
  }

  /** A block's captured numbers read back as nothing, its range, or a throw on a zero coordinate. */
  lemma ReadBlockMatch(b: ProfileBlock)
    ensures ReadMatch(BlockMatch(b)) ==
      if b.count == 0 then Skip else if HasHits(b) then AddRange(BlockRange(b)) else Throw
  {
    NatToStringZero(b.count);
  }

  /** The expression matches the text the agent writes after "name:". */
  lemma MatchBlockInfo(b: ProfileBlock)
    ensures MatchAt(BlockInfo(b)) == Some(BlockMatch(b))
  {
    var l0, c0, l1, c1, st, ct := NatToString(b.line0), NatToString(b.col0), NatToString(b.line1),
      NatToString(b.col1), NatToString(b.stmts), NatToString(b.count);
    var s5 := ct;
    var s4 := st + " " + s5;
    var s3 := c1 + " " + s4;
    var s2 := l1 + "." + s3;
    var s1 := c0 + "," + s2;
    var s0 := l0 + "." + s1;
    assert BlockInfo(b) == s0;
    DigitsThenDigits(l0, '.', s1, c => c == '.');
    DigitsThenDigits(c0, ',', s2, c => c == ',');
    DigitsThenDigits(l1, '.', s3, c => c == '.');
    DigitsThenDigits(c1, ' ', s4, JsSpace);
    DigitsThenDigits(st, ' ', s5, JsSpace);
    DigitRunOf(ct, "");
    assert ct + "" == ct;
    assert s5[..|ct|] == ct;
  }

  /** How a line of the agent's profile is read back. */
  lemma ParseBlockLine(b: ProfileBlock, target: string)
    requires AgentBlock(b)
    requires Renderable(b, target)
    ensures ParseLine(BlockLine(b), target) ==
      if !Highlighted(b, target) then Skip else AddRange(BlockRange(b))
  {
    SplitBlockLine(b);
    if b.name == target {
      ParseAgentInfo(b);
    }
  }

  /** The block text the agent writes is read back as the block's range. */
  lemma ParseAgentInfo(b: ProfileBlock)
    requires b.count != 0 ==> HasHits(b)
    ensures ParseBlockInfo(BlockInfo(b)) == if b.count == 0 then Skip else AddRange(BlockRange(b))
  {
    MatchBlockInfo(b);
    assert Exec(BlockInfo(b)) == Some(BlockMatch(b));
    ReadBlockMatch(b);
  }

  lemma SplitBlockLine(b: ProfileBlock)
    requires AgentBlock(b)
    ensures Split(BlockLine(b), ':') == [b.name, BlockInfo(b)]
  {
    BlockInfoShape(b);
    SplitJoin([b.name, BlockInfo(b)], ':');
    assert Join([b.name, BlockInfo(b)], ':') == BlockLine(b);
  }

  lemma NatToStringZero(n: nat)
    ensures NatToString(n) == "0" <==> n == 0
  {
    if NatToString(n) == "0" {
      assert DigitsValue("0") == 0;
    }
  }

  lemma {:induction false} ParseBlockLines(blocks: seq<ProfileBlock>, target: string)
    requires target != ""
    requires forall i :: 0 <= i < |blocks| ==> AgentBlock(blocks[i])
    requires forall i :: 0 <= i < |blocks| ==> Renderable(blocks[i], target)
    ensures ParseLines(BlockLines(blocks) + [""], target) == Ranges(ExpectedRanges(blocks, target))
    decreases |blocks|
  {
    var lines := BlockLines(blocks) + [""];
    if |blocks| == 0 {
      assert lines == [""];
      assert Split("", ':') == [""];
    } else {
      var b := blocks[0];
      var tail := BlockLines(blocks[1..]) + [""];
      assert lines == [BlockLine(b)] + tail;
      ParseBlockLine(b, target);
      ParseBlockLines(blocks[1..], target);
      ParseLinesCons(BlockLine(b), tail, target);
    }
  }

  /** ParseLines on a first line and the rest. */
  lemma ParseLinesCons(l: string, t: seq<string>, target: string)
    ensures ParseLine(l, target) == Skip ==> ParseLines([l] + t, target) == ParseLines(t, target)
    ensures ParseLine(l, target).AddRange? && ParseLines(t, target).Ranges? ==>
              ParseLines([l] + t, target) == Ranges([ParseLine(l, target).range] + ParseLines(t, target).ranges)
  {
    assert ([l] + t)[0] == l && ([l] + t)[1..] == t;
  }

  /**
   * Reading back what the agent wrote: the editor highlights exactly the
   * covered blocks of the file, in profile order, as zero-based ranges.
   */
  lemma ParseAgentProfile(mode: string, blocks: seq<ProfileBlock>, target: string)
    requires '\n' !in mode && target != "" && target != "mode"
    requires forall i :: 0 <= i < |blocks| ==> AgentBlock(blocks[i])
    requires forall i :: 0 <= i < |blocks| ==> Renderable(blocks[i], target)
    ensures ParseProfile(ProfileText(mode, blocks), target) == Ranges(ExpectedRanges(blocks, target))
  {
    SplitProfileText(mode, blocks);
    var lines := [Header(mode)] + BlockLines(blocks) + [""];
    HeaderSkipped(mode, target);
    assert lines[1..] == BlockLines(blocks) + [""];
    ParseBlockLines(blocks, target);
    assert ParseLines(lines, target) == ParseLines(lines[1..], target);
  }

  /** The header line is read as a line of the file "mode". */
  lemma HeaderSkipped(mode: string, target: string)
    requires target != "mode"
    ensures ParseLine(Header(mode), target) == Skip
  {
    var h := Header(mode);
    assert h[4] == ':' && h[..4] == "mode";
    assert IndexOfChar(h, ':') == 4;
    assert Split(h, ':')[0] == "mode";
  }

  /** A covered block of the target with a zero coordinate makes the parse throw. */
  lemma ZeroCoordinateThrows(b: ProfileBlock, target: string)
    requires AgentBlock(b) && Highlighted(b, target) && !HasHits(b)
    ensures ParseLine(BlockLine(b), target) == Throw
  {
    SplitBlockLine(b);
    ParseZeroInfo(b);
  }

  lemma ParseZeroInfo(b: ProfileBlock)
    requires b.count != 0 && !HasHits(b)
    ensures ParseBlockInfo(BlockInfo(b)) == Throw
  {
    MatchBlockInfo(b);
    assert Exec(BlockInfo(b)) == Some(BlockMatch(b));
    ReadBlockMatch(b);
  }

  /** A line of the target whose block text does not match makes the parse throw. */
  lemma UnmatchedTargetLineThrows(line: string, target: string)
    requires |Split(line, ':')| >= 2 && Split(line, ':')[0] == target
    requires forall k :: 0 <= k <= |Split(line, ':')[1]| ==> MatchAt(Split(line, ':')[1][k..]).None?
    ensures ParseLine(line, target) == Throw
  {
    ExecLeftmost(Split(line, ':')[1]);
  }
}

=== FILE: filter.dfy ===
/**
 * Order-preserving filtering of a sequence, the shape of every Go loop
 * `for _, x := range xs { if p(x) { out = append(out, x) } }` in the
 * program, and the facts that such loops keep.
 */
module Filter {
  import opened Sums

  /** The elements of `xs` that satisfy `p`, in their order. */
  function Keep<T>(xs: seq<T>, p: T -> bool): (r: seq<T>)
    ensures |r| <= |xs|
    ensures forall i :: 0 <= i < |r| ==> r[i] in xs && p(r[i])
    ensures forall i :: 0 <= i < |xs| && p(xs[i]) ==> xs[i] in r
    ensures multiset(r) <= multiset(xs)
  {
    if |xs| == 0 then []
    else
      var rest := Keep(xs[1..], p);
      HeadMultiset(xs);
      assert forall x :: x in xs[1..] ==> x in xs;
      if p(xs[0]) then [xs[0]] + rest else rest
  }

  /** Every element of the input that passes the test is kept. */
  lemma KeepMembers<T>(xs: seq<T>, p: T -> bool)
    ensures forall x :: x in xs && p(x) ==> x in Keep(xs, p)
  {
    forall x | x in xs && p(x) ensures x in Keep(xs, p) {
      var i :| 0 <= i < |xs| && xs[i] == x;
    }
  }

  /** Filtering distributes over concatenation. */
  lemma {:induction false} KeepConcat<T>(a: seq<T>, b: seq<T>, p: T -> bool)
    ensures Keep(a + b, p) == Keep(a, p) + Keep(b, p)
    decreases |a|
  {
    if |a| == 0 {
      assert a + b == b;
    } else {
      assert (a + b)[0] == a[0];
      assert (a + b)[1..] == a[1..] + b;
      KeepConcat(a[1..], b, p);
    }
  }

  /** What is kept and what is dropped together are the input. */
  lemma {:induction false} KeepPartition<T>(xs: seq<T>, p: T -> bool, q: T -> bool)
    requires forall i :: 0 <= i < |xs| ==> q(xs[i]) == !p(xs[i])
    ensures multiset(Keep(xs, p)) + multiset(Keep(xs, q)) == multiset(xs)
    decreases |xs|
  {
    if |xs| > 0 {
      var t := xs[1..];
      forall i | 0 <= i < |t| ensures q(t[i]) == !p(t[i]) {
        assert t[i] == xs[i + 1];
      }
      KeepPartition(t, p, q);
      KeepHead(xs, p);
      KeepHead(xs, q);
      HeadMultiset(xs);
    }
  }

  /** A non-empty sequence's multiset is its head's plus its tail's. */
  lemma HeadMultiset<T>(xs: seq<T>)
    requires |xs| > 0
    ensures multiset(xs) == multiset{xs[0]} + multiset(xs[1..])
  {
    assert xs == [xs[0]] + xs[1..];
  }

  /** One step of filtering: the head is kept or not, then the tail is filtered. */
  lemma KeepHead<T>(xs: seq<T>, p: T -> bool)
    requires |xs| > 0
    ensures multiset(Keep(xs, p)) == (if p(xs[0]) then multiset{xs[0]} else multiset{}) + multiset(Keep(xs[1..], p))
  {
  }

  /** The first step of Keep, as an equation between sequences. */
  lemma KeepStep<T>(xs: seq<T>, p: T -> bool)
    requires |xs| > 0
    ensures Keep(xs, p) == if p(xs[0]) then [xs[0]] + Keep(xs[1..], p) else Keep(xs[1..], p)
  {
  }

  /** Filtering twice by the same test changes nothing. */
  lemma {:induction false} KeepIdempotent<T>(xs: seq<T>, p: T -> bool)
    ensures Keep(Keep(xs, p), p) == Keep(xs, p)
    decreases |xs|
  {
    if |xs| > 0 {
      KeepIdempotent(xs[1..], p);
      if p(xs[0]) {
        var r := Keep(xs, p);
        assert r[0] == xs[0] && r[1..] == Keep(xs[1..], p);
      }
    }
  }

  /** A test that holds everywhere keeps the whole input. */
  lemma {:induction false} KeepAll<T>(xs: seq<T>, p: T -> bool)
    requires forall i :: 0 <= i < |xs| ==> p(xs[i])
    ensures Keep(xs, p) == xs
    decreases |xs|
  {
    if |xs| > 0 {
      KeepAll(xs[1..], p);
      assert xs == [xs[0]] + xs[1..];
    }
  }

  /** A test that holds nowhere keeps nothing. */
  lemma {:induction false} KeepNone<T>(xs: seq<T>, p: T -> bool)
    requires forall i :: 0 <= i < |xs| ==> !p(xs[i])
    ensures Keep(xs, p) == []
    decreases |xs|
  {
    if |xs| > 0 {
      KeepNone(xs[1..], p);
    }
  }

  /** Filtering keeps distinctness. */
  lemma {:induction false} KeepDistinct<T>(xs: seq<T>, p: T -> bool)
    requires Distinct(xs)
    ensures Distinct(Keep(xs, p))
    decreases |xs|
  {
    if |xs| > 0 {
      var tail := xs[1..];
      assert xs == [xs[0]] + tail;
      DistinctCons(xs[0], tail);
      KeepDistinct(tail, p);
      if p(xs[0]) {
        assert xs[0] !in Keep(tail, p);
        DistinctCons(xs[0], Keep(tail, p));
      }
    }
  }

  /** A sequence with a head is distinct iff its tail is and misses the head. */
  lemma DistinctCons<T>(x: T, s: seq<T>)
    ensures Distinct([x] + s) <==> x !in s && Distinct(s)
  {
    var t := [x] + s;
    assert forall i :: 0 <= i < |s| ==> t[i + 1] == s[i];
    if x !in s && Distinct(s) {
      forall i, j | 0 <= i < j < |t| ensures t[i] != t[j] {
        assert t[j] == s[j - 1];
        if i > 0 { assert t[i] == s[i - 1]; }
      }
    }
    if Distinct(t) {
      forall j | 0 <= j < |s| ensures s[j] != x {
        assert t[j + 1] == s[j] && t[0] == x;
      }
      forall i, j | 0 <= i < j < |s| ensures s[i] != s[j] {
        assert t[i + 1] == s[i] && t[j + 1] == s[j];
      }
    }
  }

  /** Two distinct sequences with no common element concatenate to a distinct one. */
  lemma DistinctConcat<T>(a: seq<T>, b: seq<T>)
    requires Distinct(a) && Distinct(b)
    requires forall i :: 0 <= i < |a| ==> a[i] !in b
    ensures Distinct(a + b)
  {
    var c := a + b;
    forall i, j | 0 <= i < j < |c| ensures c[i] != c[j] {
      if j < |a| {
        assert c[i] == a[i] && c[j] == a[j];
      } else if i >= |a| {
        assert c[i] == b[i - |a|] && c[j] == b[j - |a|];
      } else {
        assert c[i] == a[i] && c[j] == b[j - |a|];
      }
    }
  }

  /** Tests that agree on the elements keep the same elements. */
  lemma {:induction false} KeepCongruent<T>(xs: seq<T>, p: T -> bool, q: T -> bool)
    requires forall i :: 0 <= i < |xs| ==> p(xs[i]) == q(xs[i])
    ensures Keep(xs, p) == Keep(xs, q)
    decreases |xs|
  {
    if |xs| > 0 {
      KeepCongruent(xs[1..], p, q);
    }
  }

  /**
   * The append loop itself: `acc` is what has been appended so far, and the
   * rest of `xs` is visited left to right, each passing element appended.
   */
  function AppendLoop<T>(xs: seq<T>, p: T -> bool, acc: seq<T>): (r: seq<T>)
    ensures |acc| <= |r| <= |acc| + |xs|
    decreases |xs|
  {
    if |xs| == 0 then acc
    else AppendLoop(xs[1..], p, if p(xs[0]) then acc + [xs[0]] else acc)
  }

  /** Running the append loop from `acc` appends exactly the filtered elements, in order. */
  lemma {:induction false} AppendLoopIsKeep<T>(xs: seq<T>, p: T -> bool, acc: seq<T>)
    ensures AppendLoop(xs, p, acc) == acc + Keep(xs, p)
    decreases |xs|
  {
    if |xs| > 0 {
      var acc' := if p(xs[0]) then acc + [xs[0]] else acc;
      var rest := Keep(xs[1..], p);
      AppendLoopIsKeep(xs[1..], p, acc');
      assert AppendLoop(xs, p, acc) == acc' + rest;
      assert Keep(xs, p) == if p(xs[0]) then [xs[0]] + rest else rest;
      if p(xs[0]) {
        assert acc' + rest == acc + ([xs[0]] + rest);
      }
    }
  }
}

=== FILE: go_list.dfy ===
/**
 * The part of a package description printed by `go list -json` that the
 * build and instrumentation steps read.
 */
module GoList {
  import opened Wrappers

  /** The module a package belongs to (absent for GOPATH projects). */
  datatype Module = Module(path: string, dir: string)

  datatype Package = Package(
    dir: string,
    importPath: string,
    name: string,
    root: string,
    modInfo: Option<Module>,
    goFiles: seq<string>,
    cgoFiles: seq<string>,
    deps: seq<string>)
}

=== FILE: inject_plan.dfy ===
/**
 * The instrumentation plan of `Inject`: which packages get counters, in
 * which order, and which package covers each main package's agent lists.
 * The two code bases differ in one place: the CLI build step
 * (pkg/build) still lists an already-annotated dependency in a later main's
 * covers, the library step (pkg/cover) leaves it out. Both are one model
 * with a `Variant` switch. Go map iteration order over the packages is the
 * parameter `order`.
 */
module InjectPlan {
  import opened Wrappers
  import opened Text
  import opened Sums
  import opened Paths
  import opened GoList
  import opened CoverVars

  datatype Variant = SkipSeen | AppendSeen

  /** The covers handed to one main package's agent, keyed as in the package map. */
  datatype MainPlan = MainPlan(main: string, covers: seq<string>)

  /**
   * `seen` is the set of dependencies already annotated, `depAnnotated` the
   * dependencies in the order they were annotated, `mains` one entry per
   * main package.
   */
  datatype Plan = Plan(seen: set<string>, depAnnotated: seq<string>, mains: seq<MainPlan>)

  /** The per-main state of the dependency loop. */
  datatype DepState = DepState(seen: set<string>, covers: seq<string>, depAnnotated: seq<string>)

  /** One dependency of a main package. */
  function DepStep(pkgs: map<string, Package>, v: Variant, st: DepState, dep: string): (r: DepState)
    ensures r.seen == st.seen + (if dep in pkgs then {dep} else {})
    ensures dep in st.seen ==> r.depAnnotated == st.depAnnotated
    ensures dep !in st.seen ==> r.depAnnotated == st.depAnnotated + (if dep in pkgs then [dep] else [])
  {
    if dep in st.seen then
      if v == AppendSeen then st.(covers := st.covers + [dep]) else st
    else if dep in pkgs then DepState(st.seen + {dep}, st.covers + [dep], st.depAnnotated + [dep])
    else st
  }

  /** The dependency loop, left to right. */
  function DepsLoop(pkgs: map<string, Package>, v: Variant, st: DepState, deps: seq<string>): (r: DepState)
    ensures r.seen == st.seen + (set i | 0 <= i < |deps| && deps[i] in pkgs :: deps[i])
    ensures |st.covers| <= |r.covers| && r.covers[..|st.covers|] == st.covers
    ensures |st.depAnnotated| <= |r.depAnnotated| && r.depAnnotated[..|st.depAnnotated|] == st.depAnnotated
  {
    if |deps| == 0 then st
    else DepStep(pkgs, v, DepsLoop(pkgs, v, st, deps[..|deps| - 1]), deps[|deps| - 1])
  }

  /** The plan after visiting the packages in `order`. */
  function Inject(pkgs: map<string, Package>, order: seq<string>, v: Variant): (r: Plan)
    requires forall i :: 0 <= i < |order| ==> order[i] in pkgs
    ensures r.seen <= pkgs.Keys
    ensures |r.mains| <= |order|
    ensures forall i :: 0 <= i < |r.mains| ==> r.mains[i].main in pkgs && pkgs[r.mains[i].main].name == "main"
  {
    if |order| == 0 then Plan({}, [], [])
    else
      var prev := Inject(pkgs, order[..|order| - 1], v);
      var key := order[|order| - 1];
      if pkgs[key].name == "main" then
        var st := DepsLoop(pkgs, v, DepState(prev.seen, [key], prev.depAnnotated), pkgs[key].deps);
        Plan(st.seen, st.depAnnotated, prev.mains + [MainPlan(key, st.covers)])
      else prev
  }

  /** The keys of the main packages, in visiting order. */
  function MainKeys(pkgs: map<string, Package>, order: seq<string>): seq<string>
    requires forall i :: 0 <= i < |order| ==> order[i] in pkgs
  {
    if |order| == 0 then []
    else
      var key := order[|order| - 1];
      MainKeys(pkgs, order[..|order| - 1]) + (if pkgs[key].name == "main" then [key] else [])
  }

  function Mains(plans: seq<MainPlan>): (r: seq<string>)
    ensures |r| == |plans| && forall i :: 0 <= i < |plans| ==> r[i] == plans[i].main
  {
    if |plans| == 0 then [] else Mains(plans[..|plans| - 1]) + [plans[|plans| - 1].main]
  }

  /** The dependencies of a main package that are part of the project, in order. */
  function InProject(pkgs: map<string, Package>, deps: seq<string>): (r: seq<string>)
    ensures forall i :: 0 <= i < |r| ==> r[i] in pkgs && r[i] in deps
  {
    if |deps| == 0 then []
    else InProject(pkgs, deps[..|deps| - 1]) + (if deps[|deps| - 1] in pkgs then [deps[|deps| - 1]] else [])
  }

  /** The covers after a main's own cover, all mains one after the other. */
  function DepCovers(plans: seq<MainPlan>): seq<string>
  {
    if |plans| == 0 then []
    else
      var last := plans[|plans| - 1];
      DepCovers(plans[..|plans| - 1]) + (if |last.covers| == 0 then [] else last.covers[1..])
  }

  /** The loop invariant: the annotated dependencies are exactly the seen ones, each once, all in the project. */
  predicate SeenInv(pkgs: map<string, Package>, seen: set<string>, annotated: seq<string>)
  {
    Distinct(annotated) && (forall x :: x in seen ==> x in annotated)
    && (forall i :: 0 <= i < |annotated| ==> annotated[i] in seen) && seen <= pkgs.Keys
  }

  lemma {:induction false} DepsLoopInv(pkgs: map<string, Package>, v: Variant, st: DepState, deps: seq<string>)
    requires SeenInv(pkgs, st.seen, st.depAnnotated)
    ensures SeenInv(pkgs, DepsLoop(pkgs, v, st, deps).seen, DepsLoop(pkgs, v, st, deps).depAnnotated)
    ensures st.seen <= DepsLoop(pkgs, v, st, deps).seen
    ensures forall d :: d in deps && d in pkgs ==> d in DepsLoop(pkgs, v, st, deps).seen
    decreases |deps|
  {
    if |deps| > 0 {
      var init := deps[..|deps| - 1];
      var d := deps[|deps| - 1];
      DepsLoopInv(pkgs, v, st, init);
      var mid := DepsLoop(pkgs, v, st, init);
      if d !in mid.seen && d in pkgs {
        assert d !in mid.depAnnotated;
        DistinctSnoc(mid.depAnnotated, d);
      }
      assert forall x :: x in deps ==> x in init || x == d;
    }
  }

  lemma DistinctSnoc(xs: seq<string>, x: string)
    requires Distinct(xs) && x !in xs
    ensures Distinct(xs + [x])
  {
    var ys := xs + [x];
    forall i, j | 0 <= i < j < |ys| ensures ys[i] != ys[j] {
      if j == |xs| { assert ys[i] == xs[i]; }
      else { assert ys[i] == xs[i] && ys[j] == xs[j]; }
    }
  }

  /**
   * Over the whole run every project dependency of a main is annotated, and
   * none is annotated twice.
   */
  lemma {:induction false} InjectAnnotatesOnce(pkgs: map<string, Package>, order: seq<string>, v: Variant)
    requires forall i :: 0 <= i < |order| ==> order[i] in pkgs
    ensures SeenInv(pkgs, Inject(pkgs, order, v).seen, Inject(pkgs, order, v).depAnnotated)
    ensures forall i, d :: 0 <= i < |order| && pkgs[order[i]].name == "main" && d in pkgs[order[i]].deps && d in pkgs ==>
              d in Inject(pkgs, order, v).seen
    decreases |order|
  {
    if |order| > 0 {
      var init := order[..|order| - 1];
      var key := order[|order| - 1];
      InjectAnnotatesOnce(pkgs, init, v);
      var prev := Inject(pkgs, init, v);
      if pkgs[key].name == "main" {
        DepsLoopInv(pkgs, v, DepState(prev.seen, [key], prev.depAnnotated), pkgs[key].deps);
      }
      assert forall i :: 0 <= i < |init| ==> init[i] == order[i];
    }
  }

  /** Only main packages get an agent, one each, in visiting order; each list starts with the main's own cover. */
  lemma InjectMains(pkgs: map<string, Package>, order: seq<string>, v: Variant)
    requires forall i :: 0 <= i < |order| ==> order[i] in pkgs
    ensures Mains(Inject(pkgs, order, v).mains) == MainKeys(pkgs, order)
    ensures forall i :: 0 <= i < |Inject(pkgs, order, v).mains| ==>
              var m := Inject(pkgs, order, v).mains[i]; |m.covers| >= 1 && m.covers[0] == m.main
  {
    InjectMainKeys(pkgs, order, v);
    InjectCoversHead(pkgs, order, v);
  }

  /** One main package more: the plan gains one entry, for it. */
  lemma InjectLast(pkgs: map<string, Package>, order: seq<string>, v: Variant)
    requires |order| > 0 && forall i :: 0 <= i < |order| ==> order[i] in pkgs
    ensures var prev := Inject(pkgs, order[..|order| - 1], v);
      var key := order[|order| - 1];
      var r := Inject(pkgs, order, v);
      if pkgs[key].name == "main" then
        r.mains == prev.mains + [MainPlan(key, DepsLoop(pkgs, v, DepState(prev.seen, [key], prev.depAnnotated), pkgs[key].deps).covers)]
      else r == prev
  {
  }

  lemma {:induction false} InjectMainKeys(pkgs: map<string, Package>, order: seq<string>, v: Variant)
    requires forall i :: 0 <= i < |order| ==> order[i] in pkgs
    ensures Mains(Inject(pkgs, order, v).mains) == MainKeys(pkgs, order)
    decreases |order|
  {
    if |order| > 0 {
      var init := order[..|order| - 1];
      InjectMainKeys(pkgs, init, v);
      InjectLast(pkgs, order, v);
      var prev := Inject(pkgs, init, v);
      var key := order[|order| - 1];
      if pkgs[key].name == "main" {
        var st := DepsLoop(pkgs, v, DepState(prev.seen, [key], prev.depAnnotated), pkgs[key].deps);
        MainsSnoc(prev.mains, MainPlan(key, st.covers));
      }
    }
  }

  lemma MainsSnoc(plans: seq<MainPlan>, m: MainPlan)
    ensures Mains(plans + [m]) == Mains(plans) + [m.main]
  {
    assert (plans + [m])[..|plans|] == plans;
  }

  lemma {:induction false} InjectCoversHead(pkgs: map<string, Package>, order: seq<string>, v: Variant)
    requires forall i :: 0 <= i < |order| ==> order[i] in pkgs
    ensures forall i :: 0 <= i < |Inject(pkgs, order, v).mains| ==>
              var m := Inject(pkgs, order, v).mains[i]; |m.covers| >= 1 && m.covers[0] == m.main
    decreases |order|
  {
    if |order| > 0 {
      var init := order[..|order| - 1];
      InjectCoversHead(pkgs, init, v);
      InjectLast(pkgs, order, v);
      var prev := Inject(pkgs, init, v);
      var key := order[|order| - 1];
      if pkgs[key].name == "main" {
        var st0 := DepState(prev.seen, [key], prev.depAnnotated);
        DepsLoopCovers(pkgs, v, st0, pkgs[key].deps);
        var r := Inject(pkgs, order, v);
        assert forall i :: 0 <= i < |prev.mains| ==> r.mains[i] == prev.mains[i];
      }
    }
  }

  /** The dependency loop only appends to the covers. */
  lemma {:induction false} DepsLoopCovers(pkgs: map<string, Package>, v: Variant, st: DepState, deps: seq<string>)
    ensures |st.covers| <= |DepsLoop(pkgs, v, st, deps).covers|
    ensures DepsLoop(pkgs, v, st, deps).covers[..|st.covers|] == st.covers
    decreases |deps|
  {
    if |deps| > 0 {
      DepsLoopCovers(pkgs, v, st, deps[..|deps| - 1]);
    }
  }

  /**
   * pkg/build: a main's covers are its own cover followed by every one of its
   * dependencies that belongs to the project, in order, seen before or not.
   */
  lemma {:induction false} AppendSeenCovers(pkgs: map<string, Package>, st: DepState, deps: seq<string>)
    requires st.seen <= pkgs.Keys
    ensures DepsLoop(pkgs, AppendSeen, st, deps).covers == st.covers + InProject(pkgs, deps)
    decreases |deps|
  {
    if |deps| > 0 {
      var init := deps[..|deps| - 1];
      AppendSeenCovers(pkgs, st, init);
      DepsLoopSeen(pkgs, AppendSeen, st, init);
    }
  }

  lemma {:induction false} DepsLoopSeen(pkgs: map<string, Package>, v: Variant, st: DepState, deps: seq<string>)
    requires st.seen <= pkgs.Keys
    ensures DepsLoop(pkgs, v, st, deps).seen <= pkgs.Keys
    decreases |deps|
  {
    if |deps| > 0 {
      DepsLoopSeen(pkgs, v, st, deps[..|deps| - 1]);
    }
  }

  /**
   * pkg/cover: a dependency enters a main's covers exactly when it is
   * annotated, so the dependency covers of all mains together are the
   * annotated dependencies: no package is listed for two mains.
   */
  lemma {:induction false} SkipSeenDepsLoop(pkgs: map<string, Package>, st: DepState, deps: seq<string>)
    ensures var r := DepsLoop(pkgs, SkipSeen, st, deps);
      exists added :: r.covers == st.covers + added && r.depAnnotated == st.depAnnotated + added
    decreases |deps|
  {
    if |deps| > 0 {
      SkipSeenDepsLoop(pkgs, st, deps[..|deps| - 1]);
      var mid := DepsLoop(pkgs, SkipSeen, st, deps[..|deps| - 1]);
      var added :| mid.covers == st.covers + added && mid.depAnnotated == st.depAnnotated + added;
      var d := deps[|deps| - 1];
      if d !in mid.seen && d in pkgs {
        assert st.covers + (added + [d]) == mid.covers + [d];
        assert st.depAnnotated + (added + [d]) == mid.depAnnotated + [d];
      } else {
        assert DepsLoop(pkgs, SkipSeen, st, deps) == mid;
      }
    } else {
      assert st.covers == st.covers + [] && st.depAnnotated == st.depAnnotated + [];
    }
  }

  lemma {:induction false} SkipSeenCovers(pkgs: map<string, Package>, order: seq<string>)
    requires forall i :: 0 <= i < |order| ==> order[i] in pkgs
    ensures DepCovers(Inject(pkgs, order, SkipSeen).mains) == Inject(pkgs, order, SkipSeen).depAnnotated
    ensures Distinct(DepCovers(Inject(pkgs, order, SkipSeen).mains))
    decreases |order|
  {
    if |order| > 0 {
      var init := order[..|order| - 1];
      var key := order[|order| - 1];
      SkipSeenCovers(pkgs, init);
      var prev := Inject(pkgs, init, SkipSeen);
      if pkgs[key].name == "main" {
        var st0 := DepState(prev.seen, [key], prev.depAnnotated);
        SkipSeenDepsLoop(pkgs, st0, pkgs[key].deps);
        var r := Inject(pkgs, order, SkipSeen);
        assert r.mains[..|r.mains| - 1] == prev.mains;
      }
      InjectAnnotatesOnce(pkgs, order, SkipSeen);
    }
  }

  /** The agent package's and the bridge file's names, written in pieces so that each piece is checked for '/'. */
  const InjectPkgName: string := "goc-cover-agent-" + "apis-auto-" + "generated-" + "11111-22222-" + "package"
  const InjectBridgeName: string := "goc-cover-agent-" + "apis-auto-" + "generated-" + "11111-22222-" + "bridge.go"

  /** The cover of one package: the package and its file variables. */
  datatype PackageCover = PackageCover(pkg: Package, vars: map<string, FileVar>)

  /** What injectGocAgent writes for one main package. */
  datatype AgentFiles = AgentFiles(
    agentDir: string,
    bridgeFile: string,
    bridgeImport: string,
    rpcAgentFile: string,
    rpcMode: string,
    watchAgentFile: Option<string>)

  /** The mode rendered into the rpc agent: "watch" runs as "cover". */
  function AgentMode(mode: string): (r: string)
    ensures mode == "watch" ==> r == "cover"
    ensures mode != "watch" ==> r == mode
  {
    if mode == "watch" then "cover" else mode
  }

  /**
   * The layout injectGocAgent writes next to a main package in `where`:
   * the agent dir and the bridge file are elements of `where`, the bridge
   * imports the agent dir's element under the main's import path, the rpc
   * agent (and, in watch mode only, the watch agent) sit inside the agent
   * dir, and the rpc agent runs in AgentMode.
   */
  predicate AgentLayout(a: AgentFiles, where: string, mainImportPath: string, mode: string)
  {
    && Base(a.agentDir) == InjectPkgName
    && Base(a.bridgeFile) == InjectBridgeName
    && (where != "" && where[|where| - 1] != '/' ==> Dir(a.agentDir) == where && Dir(a.bridgeFile) == where)
    && a.bridgeImport == mainImportPath + "/" + Base(a.agentDir)
    && LastElement(a.bridgeImport) == Base(a.agentDir)
    && Dir(a.rpcAgentFile) == a.agentDir && Base(a.rpcAgentFile) == "rpcagent.go"
    && a.rpcMode == AgentMode(mode)
    && (a.watchAgentFile.Some? <==> mode == "watch")
    && (a.watchAgentFile.Some? ==>
          Dir(a.watchAgentFile.value) == a.agentDir && Base(a.watchAgentFile.value) == "watchagent.go")
  }

  /** The files of the agent next to a main package in `where`. */
  function AgentFilesFor(where: string, mainImportPath: string, mode: string): (a: AgentFiles)
    ensures AgentLayout(a, where, mainImportPath, mode)
  {
    var dir := PathJoin(where, InjectPkgName);
    var a := AgentFiles(dir, PathJoin(where, InjectBridgeName), mainImportPath + "/" + InjectPkgName,
      PathJoin(dir, "rpcagent.go"), AgentMode(mode),
      if mode == "watch" then Some(PathJoin(dir, "watchagent.go")) else None);
    AgentFilesLayout(a, where, mainImportPath, mode);
    a
  }

  lemma NamesHaveNoSlash()
    ensures InjectPkgName != "" && '/' !in InjectPkgName
    ensures InjectBridgeName != "" && '/' !in InjectBridgeName
    ensures '/' !in "rpcagent.go" && '/' !in "watchagent.go"
  {
  }

  lemma AgentFilesLayout(a: AgentFiles, where: string, mainImportPath: string, mode: string)
    requires a.agentDir == PathJoin(where, InjectPkgName)
    requires a.bridgeFile == PathJoin(where, InjectBridgeName)
    requires a.bridgeImport == mainImportPath + "/" + InjectPkgName
    requires a.rpcAgentFile == PathJoin(a.agentDir, "rpcagent.go") && a.rpcMode == AgentMode(mode)
    requires a.watchAgentFile == if mode == "watch" then Some(PathJoin(a.agentDir, "watchagent.go")) else None
    ensures AgentLayout(a, where, mainImportPath, mode)
  {
    NamesHaveNoSlash();
    JoinElement(where, InjectPkgName);
    JoinElement(where, InjectBridgeName);
    JoinElement(a.agentDir, "rpcagent.go");
    JoinElement(a.agentDir, "watchagent.go");
    LastElementAppended(mainImportPath, InjectPkgName);
  }

  /** pkg/build injectGocAgent: nothing when there is no cover or the main has no variables. */
  function BuildInjectAgent(where: string, covers: seq<PackageCover>, mode: string): (r: Option<AgentFiles>)
    ensures r.None? <==> |covers| == 0 || |covers[0].vars| == 0
    ensures r.Some? ==> AgentLayout(r.value, where, covers[0].pkg.importPath, mode)
  {
    if |covers| == 0 || |covers[0].vars| == 0 then None
    else Some(AgentFilesFor(where, covers[0].pkg.importPath, mode))
  }

  /** pkg/cover injectGocAgent: covers[0] is read unguarded, so there must be one. */
  function CoverInjectAgent(where: string, covers: seq<PackageCover>, mode: string): (r: AgentFiles)
    requires |covers| > 0
    ensures AgentLayout(r, where, covers[0].pkg.importPath, mode)
  {
    AgentFilesFor(where, covers[0].pkg.importPath, mode)
  }

  /** When the main package has cover variables, both code bases write the same agent. */
  lemma InjectAgentsAgree(where: string, covers: seq<PackageCover>, mode: string)
    requires |covers| > 0 && |covers[0].vars| > 0
    ensures BuildInjectAgent(where, covers, mode) == Some(CoverInjectAgent(where, covers, mode))
  {
  }

  /** The one divergence: for a main without cover variables pkg/cover still writes an agent, pkg/build does not. */
  lemma InjectAgentsDiverge(where: string, covers: seq<PackageCover>, mode: string)
    requires |covers| > 0 && |covers[0].vars| == 0
    ensures BuildInjectAgent(where, covers, mode).None?
    ensures AgentLayout(CoverInjectAgent(where, covers, mode), where, covers[0].pkg.importPath, mode)
  {
  }

  /**
   * getPkgTmpDir: the package dir relative to the original project dir,
   * joined onto the temporary project dir (filepath.Rel then filepath.Join).
   */
  function Rebase(dir: string, cur: string, tmp: string): (r: string)
    requires dir == cur || IsPrefix(cur + "/", dir)
    ensures dir == cur ==> r == tmp
    ensures dir != cur ==> r == tmp + dir[|cur|..] && r[|tmp|] == '/'
  {
    if dir == cur then tmp
    else
      assert dir[|cur|] == (cur + "/")[|cur|];
      tmp + dir[|cur|..]
  }

  /** Rebasing back onto the original project dir gives the package dir again. */
  lemma RebaseInverse(dir: string, cur: string, tmp: string)
    requires dir == cur || IsPrefix(cur + "/", dir)
    ensures Rebase(dir, cur, tmp) == tmp || IsPrefix(tmp + "/", Rebase(dir, cur, tmp))
    ensures Rebase(Rebase(dir, cur, tmp), tmp, cur) == dir
  {
    if dir != cur {
      var r := Rebase(dir, cur, tmp);
      assert r[..|tmp| + 1] == tmp + "/";
      assert r[|tmp|..] == dir[|cur|..];
      assert dir == cur + dir[|cur|..];
    }
  }
}

=== FILE: keyed.dfy ===
/**
 * Lists of records keyed by a file name: Go's string order, the stable
 * sort `sort.SliceStable` by name, and turning a list into a map where a
 * later record with the same name replaces an earlier one.
 */
module Keyed {

  /**
   * Go's `<` on strings: lexicographic on bytes. On characters this is
   * code-point order, which UTF-8 byte order agrees with.
   */
  predicate LexLess(a: string, b: string)
    decreases |a|
  {
    |b| > 0 && (|a| == 0 || a[0] < b[0] || (a[0] == b[0] && LexLess(a[1..], b[1..])))
  }

  lemma {:induction false} LexIrreflexive(a: string)
    ensures !LexLess(a, a)
    decreases |a|
  {
    if |a| > 0 { LexIrreflexive(a[1..]); }
  }

  lemma {:induction false} LexTotal(a: string, b: string)
    ensures a == b || LexLess(a, b) || LexLess(b, a)
    decreases |a|
  {
    if |a| > 0 && |b| > 0 && a[0] == b[0] {
      LexTotal(a[1..], b[1..]);
      if a[1..] == b[1..] {
        assert a == [a[0]] + a[1..] && b == [b[0]] + b[1..];
      }
    }
  }

  lemma {:induction false} LexAsymmetric(a: string, b: string)
    ensures !(LexLess(a, b) && LexLess(b, a))
    decreases |a|
  {
    if |a| > 0 && |b| > 0 && a[0] == b[0] { LexAsymmetric(a[1..], b[1..]); }
  }

  lemma {:induction false} LexTransitive(a: string, b: string, c: string)
    requires LexLess(a, b) && LexLess(b, c)
    ensures LexLess(a, c)
    decreases |a|
  {
    if |a| > 0 && a[0] == b[0] && b[0] == c[0] {
      LexTransitive(a[1..], b[1..], c[1..]);
    }
  }

  /** Keys never decrease along the list. */
  predicate SortedBy<T>(xs: seq<T>, key: T -> string)
  {
    forall i, j :: 0 <= i < j < |xs| ==> !LexLess(key(xs[j]), key(xs[i]))
  }

  /** Insert `x` after every element whose key is not greater than its own. */
  function Insert<T>(x: T, s: seq<T>, key: T -> string): (r: seq<T>)
    ensures multiset(r) == multiset(s) + multiset{x}
    ensures |r| == |s| + 1
  {
    if |s| == 0 then [x]
    else if LexLess(key(x), key(s[0])) then [x] + s
    else
      var r := [s[0]] + Insert(x, s[1..], key);
      assert s == [s[0]] + s[1..];
      r
  }

  /** sort.SliceStable by key: insertion of each element, left to right. */
  function SortBy<T>(xs: seq<T>, key: T -> string): (r: seq<T>)
    ensures multiset(r) == multiset(xs)
    ensures |r| == |xs|
  {
    if |xs| == 0 then []
    else
      var r := Insert(xs[|xs| - 1], SortBy(xs[..|xs| - 1], key), key);
      assert xs == xs[..|xs| - 1] + [xs[|xs| - 1]];
      r
  }

  lemma {:induction false} InsertSorted<T>(x: T, s: seq<T>, key: T -> string)
    requires SortedBy(s, key)
    ensures SortedBy(Insert(x, s, key), key)
    decreases |s|
  {
    if |s| > 0 && !LexLess(key(x), key(s[0])) {
      SortedTail(s, key);
      InsertSorted(x, s[1..], key);
      InsertSortedBehind(x, s, key);
    } else if |s| > 0 {
      InsertSortedFront(x, s, key);
    }
  }

  /** What Insert returns holds `x` and the elements of the list, nothing else. */
  lemma InsertElements<T>(x: T, s: seq<T>, key: T -> string, y: T)
    requires y in Insert(x, s, key)
    ensures y == x || y in s
  {
    assert y in multiset(Insert(x, s, key));
  }

  /** A head whose key is not above any key of a sorted tail keeps the list sorted. */
  lemma ConsSorted<T>(h: T, t: seq<T>, key: T -> string)
    requires SortedBy(t, key)
    requires forall j :: 0 <= j < |t| ==> !LexLess(key(t[j]), key(h))
    ensures SortedBy([h] + t, key)
  {
    var r := [h] + t;
    forall i, j | 0 <= i < j < |r| ensures !LexLess(key(r[j]), key(r[i])) {
      assert r[j] == t[j - 1];
      if i > 0 {
        assert r[i] == t[i - 1];
      }
    }
  }

  lemma InsertSortedBehind<T>(x: T, s: seq<T>, key: T -> string)
    requires |s| > 0 && !LexLess(key(x), key(s[0])) && SortedBy(s, key)
    requires SortedBy(Insert(x, s[1..], key), key)
    ensures SortedBy(Insert(x, s, key), key)
  {
    var tail := Insert(x, s[1..], key);
    assert Insert(x, s, key) == [s[0]] + tail;
    forall j | 0 <= j < |tail| ensures !LexLess(key(tail[j]), key(s[0])) {
      InsertElements(x, s[1..], key, tail[j]);
      if tail[j] != x {
        var k :| 0 <= k < |s[1..]| && s[1..][k] == tail[j];
        assert s[k + 1] == tail[j];
      }
    }
    ConsSorted(s[0], tail, key);
  }

  lemma InsertSortedFront<T>(x: T, s: seq<T>, key: T -> string)
    requires |s| > 0 && LexLess(key(x), key(s[0])) && SortedBy(s, key)
    ensures SortedBy(Insert(x, s, key), key)
  {
    assert Insert(x, s, key) == [x] + s;
    forall j | 0 <= j < |s| ensures !LexLess(key(s[j]), key(x)) {
      if LexLess(key(s[j]), key(x)) {
        LexTransitive(key(s[j]), key(x), key(s[0]));
        if j == 0 {
          LexIrreflexive(key(s[0]));
        }
      }
    }
    ConsSorted(x, s, key);
  }

  /** The stable sort orders the list by key. */
  lemma {:induction false} SortBySorted<T>(xs: seq<T>, key: T -> string)
    ensures SortedBy(SortBy(xs, key), key)
    decreases |xs|
  {
    if |xs| > 0 {
      SortBySorted(xs[..|xs| - 1], key);
      InsertSorted(xs[|xs| - 1], SortBy(xs[..|xs| - 1], key), key);
    }
  }

  /** The elements with key `k`, in order. */
  function WithKey<T>(xs: seq<T>, key: T -> string, k: string): (r: seq<T>)
    ensures |r| <= |xs|
  {
    if |xs| == 0 then []
    else (if key(xs[0]) == k then [xs[0]] else []) + WithKey(xs[1..], key, k)
  }

  lemma {:induction false} WithKeyConcat<T>(a: seq<T>, b: seq<T>, key: T -> string, k: string)
    ensures WithKey(a + b, key, k) == WithKey(a, key, k) + WithKey(b, key, k)
    decreases |a|
  {
    if |a| > 0 {
      assert (a + b)[1..] == a[1..] + b;
      WithKeyConcat(a[1..], b, key, k);
    } else {
      assert a + b == b;
    }
  }

  lemma {:induction false} WithKeyNone<T>(s: seq<T>, key: T -> string, k: string)
    requires forall i :: 0 <= i < |s| ==> key(s[i]) != k
    ensures WithKey(s, key, k) == []
    decreases |s|
  {
    if |s| > 0 { WithKeyNone(s[1..], key, k); }
  }

  lemma SortedTail<T>(s: seq<T>, key: T -> string)
    requires |s| > 0 && SortedBy(s, key)
    ensures SortedBy(s[1..], key)
  {
    forall i, j | 0 <= i < j < |s[1..]| ensures !LexLess(key(s[1..][j]), key(s[1..][i])) {
      assert s[1..][i] == s[i + 1] && s[1..][j] == s[j + 1];
    }
  }

  /** In a sorted list whose head is above `k`, no element has key `k`. */
  lemma NoKeyAbove<T>(s: seq<T>, key: T -> string, k: string)
    requires |s| > 0 && SortedBy(s, key) && LexLess(k, key(s[0]))
    ensures WithKey(s, key, k) == []
  {
    LexIrreflexive(k);
    assert forall i :: 0 < i < |s| ==> !LexLess(key(s[i]), key(s[0]));
    WithKeyNone(s, key, k);
  }

  /** Inserting in front of a sorted list whose head is above `x`. */
  lemma InsertFrontWithKey<T>(x: T, s: seq<T>, key: T -> string, k: string)
    requires SortedBy(s, key) && |s| > 0 && LexLess(key(x), key(s[0]))
    ensures WithKey(Insert(x, s, key), key, k) == WithKey(s, key, k) + (if key(x) == k then [x] else [])
  {
    assert Insert(x, s, key) == [x] + s;
    WithKeyConcat([x], s, key, k);
    if key(x) == k {
      NoKeyAbove(s, key, k);
    }
  }

  /** Inserting behind the head: the head's contribution comes first on both sides. */
  lemma InsertBehindWithKey<T>(x: T, s: seq<T>, key: T -> string, k: string)
    requires |s| > 0 && !LexLess(key(x), key(s[0]))
    requires WithKey(Insert(x, s[1..], key), key, k) == WithKey(s[1..], key, k) + (if key(x) == k then [x] else [])
    ensures WithKey(Insert(x, s, key), key, k) == WithKey(s, key, k) + (if key(x) == k then [x] else [])
  {
    var h := if key(s[0]) == k then [s[0]] else [];
    var b := WithKey(s[1..], key, k);
    var e := if key(x) == k then [x] else [];
    InsertBehind(x, s, key);
    WithKeyCons(s[0], Insert(x, s[1..], key), key, k);
    WithKeyCons(s[0], s[1..], key, k);
    assert s == [s[0]] + s[1..];
    ConcatAssoc(h, b, e);
  }

  lemma ConcatAssoc<T>(a: seq<T>, b: seq<T>, c: seq<T>)
    ensures a + (b + c) == (a + b) + c
  {
  }

  lemma InsertBehind<T>(x: T, s: seq<T>, key: T -> string)
    requires |s| > 0 && !LexLess(key(x), key(s[0]))
    ensures Insert(x, s, key) == [s[0]] + Insert(x, s[1..], key)
  {
  }

  lemma WithKeyCons<T>(y: T, t: seq<T>, key: T -> string, k: string)
    ensures WithKey([y] + t, key, k) == (if key(y) == k then [y] else []) + WithKey(t, key, k)
  {
    assert ([y] + t)[1..] == t;
  }

  /** Inserting into a sorted list puts `x` after every element with its key. */
  lemma {:induction false} InsertWithKey<T>(x: T, s: seq<T>, key: T -> string, k: string)
    requires SortedBy(s, key)
    ensures WithKey(Insert(x, s, key), key, k) == WithKey(s, key, k) + (if key(x) == k then [x] else [])
    decreases |s|
  {
    if |s| == 0 {
      assert Insert(x, s, key) == [x];
    } else if LexLess(key(x), key(s[0])) {
      InsertFrontWithKey(x, s, key, k);
    } else {
      SortedTail(s, key);
      InsertWithKey(x, s[1..], key, k);
      InsertBehindWithKey(x, s, key, k);
    }
  }

  /** The last step of the sort keeps the order among equal keys. */
  lemma SortStepWithKey<T>(xs: seq<T>, key: T -> string, k: string)
    requires |xs| > 0
    requires WithKey(SortBy(xs[..|xs| - 1], key), key, k) == WithKey(xs[..|xs| - 1], key, k)
    ensures WithKey(SortBy(xs, key), key, k) == WithKey(xs, key, k)
  {
    var init := xs[..|xs| - 1];
    var x := xs[|xs| - 1];
    var sorted := SortBy(init, key);
    assert SortBy(xs, key) == Insert(x, sorted, key);
    SortBySorted(init, key);
    InsertWithKey(x, sorted, key, k);
    assert xs == init + [x];
    WithKeyConcat(init, [x], key, k);
    assert WithKey([x], key, k) == (if key(x) == k then [x] else []);
  }

  /** Stability: the elements with any one key keep their relative order. */
  lemma {:induction false} SortByStable<T>(xs: seq<T>, key: T -> string, k: string)
    ensures WithKey(SortBy(xs, key), key, k) == WithKey(xs, key, k)
    decreases |xs|
  {
    if |xs| > 0 {
      SortByStable(xs[..|xs| - 1], key, k);
      SortStepWithKey(xs, key, k);
    }
  }

  /**
   * A map from each key to the last element with that key, as a Go loop
   * `m[key(x)] = x` over the list builds it.
   */
  function MapBy<T>(xs: seq<T>, key: T -> string): (m: map<string, T>)
    ensures forall i :: 0 <= i < |xs| ==> key(xs[i]) in m
    ensures forall k :: k in m ==>
              exists i :: (0 <= i < |xs| && key(xs[i]) == k && m[k] == xs[i]
                           && forall j :: i < j < |xs| ==> key(xs[j]) != k)
  {
    if |xs| == 0 then map[]
    else
      var init := xs[..|xs| - 1];
      var x := xs[|xs| - 1];
      var m0 := MapBy(init, key);
      assert xs == init + [x];
      MapByStep(init, x, key, m0);
      m0[key(x) := x]
  }

  /** One more element: its key now maps to it, and every other key keeps its last element. */
  lemma MapByStep<T>(init: seq<T>, x: T, key: T -> string, m0: map<string, T>)
    requires forall i :: 0 <= i < |init| ==> key(init[i]) in m0
    requires forall k :: k in m0 ==>
              exists i :: (0 <= i < |init| && key(init[i]) == k && m0[k] == init[i]
                           && forall j :: i < j < |init| ==> key(init[j]) != k)
    ensures var xs, m := init + [x], m0[key(x) := x];
      (forall i :: 0 <= i < |xs| ==> key(xs[i]) in m) &&
      (forall k :: k in m ==>
        exists i :: (0 <= i < |xs| && key(xs[i]) == k && m[k] == xs[i]
                     && forall j :: i < j < |xs| ==> key(xs[j]) != k))
  {
    var xs := init + [x];
    var n := |init|;
    var m := m0[key(x) := x];
    assert forall i :: 0 <= i < n ==> xs[i] == init[i];
    forall k | k in m
      ensures exists i :: (0 <= i < |xs| && key(xs[i]) == k && m[k] == xs[i]
                           && forall j :: i < j < |xs| ==> key(xs[j]) != k)
    {
      if k == key(x) {
        assert key(xs[n]) == k && m[k] == xs[n];
      } else {
        var i :| 0 <= i < n && key(init[i]) == k && m0[k] == init[i]
                 && forall j :: i < j < n ==> key(init[j]) != k;
        assert key(xs[i]) == k && m[k] == xs[i];
        assert forall j :: i < j < |xs| ==> key(xs[j]) != k;
      }
    }
  }
}

=== FILE: kv_file_store.dfy ===
/**
 * The goc server's persistent key/value store: a text file of lines
 * "key value", read with a line scanner and rewritten whole by every
 * change. The key of a line is its text before the first space and the
 * value everything after it, so values may hold spaces but keys may not.
 * Opening, truncating and writing the file are left out; the file's
 * contents are the state.
 */
module KvFileStore {
  import opened Text
  import opened Filter

  /** The key of a stored line: strings.SplitN(line, " ", 2)[0]. */
  function KeyOf(line: string): (r: string)
    ensures IsPrefix(r, line) && ' ' !in r
    ensures ' ' !in line ==> r == line
    ensures ' ' in line ==> |r| < |line| && line[|r|] == ' '
  {
    var i := IndexOfChar(line, ' ');
    if i < 0 then line else line[..i]
  }

  /** The value of a stored line: strings.SplitN(line, " ", 2)[1], which exists only when there is a space. */
  function ValueOf(line: string): (r: string)
    requires ' ' in line
    ensures KeyOf(line) + " " + r == line
  {
    var i := IndexOfChar(line, ' ');
    assert line == line[..i] + " " + line[i + 1..];
    line[i + 1..]
  }

  /** The line Set writes. */
  function EntryLine(key: string, value: string): string
  {
    key + " " + value
  }

  /** A key without spaces reads back from its entry, and so does the value. */
  lemma EntryReadsBack(key: string, value: string)
    requires ' ' !in key
    ensures ' ' in EntryLine(key, value)
    ensures KeyOf(EntryLine(key, value)) == key && ValueOf(EntryLine(key, value)) == value
  {
    var e := EntryLine(key, value);
    assert e[|key|] == ' ';
    assert IndexOfChar(e, ' ') == |key| by {
      assert e[..|key|] == key;
    }
  }

  /**
   * What a read of one key finds: its value, nothing ("no key found"), or
   * an index-out-of-range fault on a line without a space.
   */
  datatype KeyLookup = Found(value: string) | NoKey | Crash

  /** Where a read of `key` stops: the first line that lacks a space or holds the key, or the end. */
  function KeyIndex(lines: seq<string>, key: string): (r: nat)
    ensures r <= |lines|
    ensures forall j :: 0 <= j < r ==> ' ' in lines[j] && KeyOf(lines[j]) != key
    ensures r < |lines| ==> ' ' !in lines[r] || KeyOf(lines[r]) == key
  {
    if |lines| == 0 || ' ' !in lines[0] || KeyOf(lines[0]) == key then 0
    else
      assert forall j :: 1 <= j < |lines| ==> lines[j] == lines[1..][j - 1];
      KeyIndex(lines[1..], key) + 1
  }

  /** Get over the scanned lines: the first line with the key answers; a line without a space before it faults. */
  function GetLines(lines: seq<string>, key: string): (r: KeyLookup)
    ensures var k := KeyIndex(lines, key);
            r == if k == |lines| then NoKey else if ' ' !in lines[k] then Crash else Found(ValueOf(lines[k]))
  {
    if |lines| == 0 then NoKey
    else if ' ' !in lines[0] then Crash
    else if KeyOf(lines[0]) == key then Found(ValueOf(lines[0]))
    else
      assert KeyIndex(lines, key) == KeyIndex(lines[1..], key) + 1;
      GetLines(lines[1..], key)
  }

  /** A read finds nothing exactly when every line is well split and none holds the key. */
  lemma GetNoKey(lines: seq<string>, key: string)
    ensures GetLines(lines, key) == NoKey <==> forall i :: 0 <= i < |lines| ==> ' ' in lines[i] && KeyOf(lines[i]) != key
  {
  }

  /** Set over the scanned lines: every line with the key is rewritten, and the entry is appended when there is none. */
  function SetLines(lines: seq<string>, key: string, value: string): (r: seq<string>)
    ensures |r| == |lines| || (|r| == |lines| + 1 && r[|lines|] == EntryLine(key, value))
    ensures |r| == |lines| <==> exists i :: 0 <= i < |lines| && KeyOf(lines[i]) == key
    ensures forall i :: 0 <= i < |lines| ==> r[i] == (if KeyOf(lines[i]) == key then EntryLine(key, value) else lines[i])
  {
    var replaced := Rewrite(lines, key, value);
    if exists i :: 0 <= i < |lines| && KeyOf(lines[i]) == key then replaced
    else replaced + [EntryLine(key, value)]
  }

  /** The scan loop of Set: each line with the key becomes the new entry. */
  function Rewrite(lines: seq<string>, key: string, value: string): (r: seq<string>)
    ensures |r| == |lines|
    ensures forall i :: 0 <= i < |lines| ==> r[i] == (if KeyOf(lines[i]) == key then EntryLine(key, value) else lines[i])
  {
    if |lines| == 0 then []
    else
      var line := if KeyOf(lines[0]) == key then EntryLine(key, value) else lines[0];
      var rest := Rewrite(lines[1..], key, value);
      assert forall i :: 1 <= i < |lines| ==> lines[i] == lines[1..][i - 1];
      [line] + rest
  }

  /** Remove over the scanned lines: the lines with exactly that key go, the rest stay in order. */
  function RemoveLines(lines: seq<string>, key: string): (r: seq<string>)
    ensures forall i :: 0 <= i < |r| ==> KeyOf(r[i]) != key && r[i] in lines
    ensures forall i :: 0 <= i < |lines| && KeyOf(lines[i]) != key ==> lines[i] in r
    ensures |r| <= |lines|
  {
    if |lines| == 0 then []
    else
      var rest := RemoveLines(lines[1..], key);
      assert forall i :: 1 <= i < |lines| ==> lines[i] == lines[1..][i - 1];
      if KeyOf(lines[0]) == key then rest else [lines[0]] + rest
  }

  /** What a prefix read finds: the values in file order, nothing ("no key found"), or a fault. */
  datatype Ranged = Values(values: seq<string>) | NoMatch | Fault

  /** The values of the lines whose key starts with the pattern, in file order. */
  function MatchingValues(lines: seq<string>, pattern: string): (r: seq<string>)
    requires forall i :: 0 <= i < |lines| ==> ' ' in lines[i]
    ensures |r| <= |lines|
    ensures forall i :: 0 <= i < |lines| && IsPrefix(pattern, KeyOf(lines[i])) ==> ValueOf(lines[i]) in r
    ensures (forall i :: 0 <= i < |lines| ==> !IsPrefix(pattern, KeyOf(lines[i]))) ==> r == []
  {
    if |lines| == 0 then []
    else
      var rest := MatchingValues(lines[1..], pattern);
      MatchingStep(lines, pattern, rest);
      if IsPrefix(pattern, KeyOf(lines[0])) then [ValueOf(lines[0])] + rest else rest
  }

  /** One step of MatchingValues: the first line's value, if its key matches, goes before the rest's. */
  lemma MatchingStep(lines: seq<string>, pattern: string, rest: seq<string>)
    requires |lines| > 0 && forall i :: 0 <= i < |lines| ==> ' ' in lines[i]
    requires forall i :: 0 <= i < |lines| - 1 && IsPrefix(pattern, KeyOf(lines[1..][i])) ==> ValueOf(lines[1..][i]) in rest
    requires (forall i :: 0 <= i < |lines| - 1 ==> !IsPrefix(pattern, KeyOf(lines[1..][i]))) ==> rest == []
    ensures var r := if IsPrefix(pattern, KeyOf(lines[0])) then [ValueOf(lines[0])] + rest else rest;
      (forall i :: 0 <= i < |lines| && IsPrefix(pattern, KeyOf(lines[i])) ==> ValueOf(lines[i]) in r)
      && ((forall i :: 0 <= i < |lines| ==> !IsPrefix(pattern, KeyOf(lines[i]))) ==> r == [])
  {
    var t := lines[1..];
    assert forall i :: 1 <= i < |lines| ==> lines[i] == t[i - 1];
  }

  /** The value part of every line, in order. */
  function ValuesOf(lines: seq<string>): (r: seq<string>)
    requires Separated(lines)
    ensures |r| == |lines| && forall i :: 0 <= i < |lines| ==> KeyOf(lines[i]) + " " + r[i] == lines[i]
  {
    if |lines| == 0 then []
    else
      assert forall i :: 1 <= i < |lines| ==> lines[1..][i - 1] == lines[i];
      [ValueOf(lines[0])] + ValuesOf(lines[1..])
  }

  /** The prefix read's values are the values of the lines its filter keeps: the key test picks lines, nothing else. */
  lemma {:induction false} MatchingValuesIsFilter(lines: seq<string>, pattern: string, keep: string -> bool)
    requires Separated(lines)
    requires forall l :: keep(l) == IsPrefix(pattern, KeyOf(l))
    ensures Separated(Keep(lines, keep))
    ensures MatchingValues(lines, pattern) == ValuesOf(Keep(lines, keep))
    decreases |lines|
  {
    if |lines| > 0 {
      assert forall i :: 1 <= i < |lines| ==> lines[1..][i - 1] == lines[i];
      MatchingValuesIsFilter(lines[1..], pattern, keep);
      KeepStep(lines, keep);
    }
  }

  /** Range over the scanned lines: every line is split, so one without a space faults wherever it is. */
  function RangeLines(lines: seq<string>, pattern: string): (r: Ranged)
    ensures r == Fault <==> exists i :: 0 <= i < |lines| && ' ' !in lines[i]
    ensures r == NoMatch <==> (forall i :: 0 <= i < |lines| ==> ' ' in lines[i] && !IsPrefix(pattern, KeyOf(lines[i])))
    ensures r.Values? ==> |r.values| > 0 && r.values == MatchingValues(lines, pattern)
  {
    if exists i :: 0 <= i < |lines| && ' ' !in lines[i] then Fault
    else
      var vs := MatchingValues(lines, pattern);
      assert (exists i :: 0 <= i < |lines| && IsPrefix(pattern, KeyOf(lines[i]))) ==> |vs| > 0;
      if |vs| == 0 then NoMatch else Values(vs)
  }

  /** RangeRemove over the scanned lines: the lines whose key starts with the pattern go. */
  function RangeRemoveLines(lines: seq<string>, pattern: string): (r: seq<string>)
    ensures forall i :: 0 <= i < |r| ==> !IsPrefix(pattern, KeyOf(r[i])) && r[i] in lines
    ensures forall i :: 0 <= i < |lines| && !IsPrefix(pattern, KeyOf(lines[i])) ==> lines[i] in r
  {
    if |lines| == 0 then []
    else
      var rest := RangeRemoveLines(lines[1..], pattern);
      assert forall i :: 1 <= i < |lines| ==> lines[i] == lines[1..][i - 1];
      if IsPrefix(pattern, KeyOf(lines[0])) then rest else [lines[0]] + rest
  }

  /** Remove is the filter on "key differs". */
  lemma {:induction false} RemoveIsFilter(lines: seq<string>, key: string, keep: string -> bool)
    requires forall l :: keep(l) == (KeyOf(l) != key)
    ensures RemoveLines(lines, key) == Keep(lines, keep)
    decreases |lines|
  {
    if |lines| > 0 {
      RemoveIsFilter(lines[1..], key, keep);
    }
  }

  /** RangeRemove is the filter on "key does not start with the pattern". */
  lemma {:induction false} RangeRemoveIsFilter(lines: seq<string>, pattern: string, keep: string -> bool)
    requires forall l :: keep(l) == !IsPrefix(pattern, KeyOf(l))
    ensures RangeRemoveLines(lines, pattern) == Keep(lines, keep)
    decreases |lines|
  {
    if |lines| > 0 {
      RangeRemoveIsFilter(lines[1..], pattern, keep);
    }
  }

  /** Every line holds a key and a value. */
  predicate Separated(lines: seq<string>)
  {
    forall i :: 0 <= i < |lines| ==> ' ' in lines[i]
  }

  /** A read of the key just set, with a space-free key, returns the value set. */
  lemma GetAfterSetLines(lines: seq<string>, key: string, value: string)
    requires Separated(lines) && ' ' !in key
    ensures GetLines(SetLines(lines, key, value), key) == Found(value)
  {
    var r := SetLines(lines, key, value);
    EntryReadsBack(key, value);
    forall i | 0 <= i < |r| ensures ' ' in r[i] && (KeyOf(r[i]) == key ==> r[i] == EntryLine(key, value)) {
      if i < |lines| {
        assert ' ' in lines[i];
      }
    }
    var k := KeyIndex(r, key);
    assert k < |r| by {
      if exists i :: 0 <= i < |lines| && KeyOf(lines[i]) == key {
        var i :| 0 <= i < |lines| && KeyOf(lines[i]) == key;
        assert KeyOf(r[i]) == key;
      } else {
        assert KeyOf(r[|lines|]) == key;
      }
    }
    assert r[k] == EntryLine(key, value);
  }

  /** In well-split lines, setting one key leaves what a read of another key finds unchanged. */
  lemma {:induction false} GetOtherKeyLines(lines: seq<string>, key: string, value: string, other: string)
    requires Separated(lines) && ' ' !in key && other != key
    ensures GetLines(SetLines(lines, key, value), other) == GetLines(lines, other)
  {
    EntryReadsBack(key, value);
    var r := SetLines(lines, key, value);
    var w := Rewrite(lines, key, value);
    forall i | 0 <= i < |lines| ensures ' ' in w[i] && KeyOf(w[i]) == KeyOf(lines[i]) && (KeyOf(w[i]) != key ==> w[i] == lines[i]) {
      assert ' ' in lines[i];
    }
    KeyIndexSame(lines, w, other);
    var k := KeyIndex(lines, other);
    if k < |lines| {
      assert KeyOf(lines[k]) == other != key;
      assert w[k] == lines[k];
    }
    if |r| == |lines| + 1 {
      assert r == w + [EntryLine(key, value)];
      KeyIndexAppend(w, EntryLine(key, value), other);
    } else {
      assert r == w;
    }
  }

  /** Lines with the same keys, all well split, stop a read at the same place. */
  lemma {:induction false} KeyIndexSame(a: seq<string>, b: seq<string>, key: string)
    requires |a| == |b|
    requires forall i :: 0 <= i < |a| ==> ' ' in a[i] && ' ' in b[i] && KeyOf(a[i]) == KeyOf(b[i])
    ensures KeyIndex(a, key) == KeyIndex(b, key)
    decreases |a|
  {
    if |a| > 0 {
      assert forall i :: 1 <= i < |a| ==> a[i] == a[1..][i - 1] && b[i] == b[1..][i - 1];
      KeyIndexSame(a[1..], b[1..], key);
    }
  }

  /** A well-split line with another key, appended, does not change where a read stops in front of it. */
  lemma {:induction false} KeyIndexAppend(lines: seq<string>, e: string, key: string)
    requires ' ' in e && KeyOf(e) != key
    ensures KeyIndex(lines + [e], key) == KeyIndex(lines, key)
            || (KeyIndex(lines, key) == |lines| && KeyIndex(lines + [e], key) == |lines| + 1)
    ensures KeyIndex(lines, key) < |lines| ==> KeyIndex(lines + [e], key) == KeyIndex(lines, key)
    decreases |lines|
  {
    var l := lines + [e];
    if |lines| == 0 {
      assert l == [e] && l[1..] == [];
    } else {
      assert l[0] == lines[0] && l[1..] == lines[1..] + [e];
      KeyIndexAppend(lines[1..], e, key);
    }
  }

  /** After removing a key there is nothing to read under it. */
  lemma GetAfterRemoveLines(lines: seq<string>, key: string)
    requires Separated(lines)
    ensures GetLines(RemoveLines(lines, key), key) == NoKey
  {
  }

  /** After removing a prefix no key under it can be read, and a prefix read finds nothing. */
  lemma RangeAfterRangeRemoveLines(lines: seq<string>, pattern: string, key: string)
    requires Separated(lines) && IsPrefix(pattern, key)
    ensures GetLines(RangeRemoveLines(lines, pattern), key) == NoKey
    ensures RangeLines(RangeRemoveLines(lines, pattern), pattern) == NoMatch
  {
    var r := RangeRemoveLines(lines, pattern);
    forall i | 0 <= i < |r| ensures ' ' in r[i] && KeyOf(r[i]) != key {
      var j :| 0 <= j < |lines| && lines[j] == r[i];
    }
  }

  /** Whether a store file's lines survive being written out and scanned again. */
  predicate WellFormed(text: string)
  {
    forall i :: 0 <= i < |ScanLines(text)| ==> PlainLine(ScanLines(text)[i]) && ' ' in ScanLines(text)[i]
  }

  /** Get reads the file's lines: a found value is the rest of a line "key value". */
  function GetValue(text: string, key: string): (r: KeyLookup)
    ensures r == NoKey <==>
              forall i :: 0 <= i < |ScanLines(text)| ==> ' ' in ScanLines(text)[i] && KeyOf(ScanLines(text)[i]) != key
    ensures r.Found? ==> exists i :: 0 <= i < |ScanLines(text)| && ScanLines(text)[i] == EntryLine(key, r.value)
    ensures var lines := ScanLines(text);
            var k := KeyIndex(lines, key);
            (k < |lines| && ' ' in lines[k] ==> r == Found(ValueOf(lines[k])))
            && (k < |lines| && ' ' !in lines[k] ==> r == Crash)
  {
    var lines := ScanLines(text);
    GetNoKey(lines, key);
    var k := KeyIndex(lines, key);
    assert k < |lines| && ' ' in lines[k] ==> lines[k] == EntryLine(key, ValueOf(lines[k]));
    GetLines(lines, key)
  }

  /** Set rewrites the file with the key's entry; a well-formed file stays well formed and the key reads back. */
  function Set(text: string, key: string, value: string): (r: string)
    ensures WellFormed(text) && ' ' !in key && PlainLine(EntryLine(key, value)) ==>
              ScanLines(r) == SetLines(ScanLines(text), key, value) && WellFormed(r)
              && GetValue(r, key) == Found(value)
  {
    var out := SetLines(ScanLines(text), key, value);
    if WellFormed(text) && ' ' !in key && PlainLine(EntryLine(key, value)) then
      SetRendered(text, key, value);
      Render(out)
    else Render(out)
  }

  /** The file Set writes scans back to the new lines, and the key reads back its value. */
  lemma SetRendered(text: string, key: string, value: string)
    requires WellFormed(text) && ' ' !in key && PlainLine(EntryLine(key, value))
    ensures var r := Render(SetLines(ScanLines(text), key, value));
            ScanLines(r) == SetLines(ScanLines(text), key, value) && WellFormed(r)
            && GetValue(r, key) == Found(value)
  {
    var lines := ScanLines(text);
    var out := SetLines(lines, key, value);
    SetLinesPlain(lines, key, value);
    ScanRender(out);
    GetAfterSetLines(lines, key, value);
  }

  /** Remove rewrites the file without the key's lines; a well-formed file stays so and the key is gone. */
  function RemoveKey(text: string, key: string): (r: string)
    ensures WellFormed(text) ==>
              ScanLines(r) == RemoveLines(ScanLines(text), key) && WellFormed(r) && GetValue(r, key) == NoKey
  {
    var out := RemoveLines(ScanLines(text), key);
    if WellFormed(text) then
      RemoveRendered(text, key);
      Render(out)
    else Render(out)
  }

  /** The file Remove writes scans back to the remaining lines, and the key is gone. */
  lemma RemoveRendered(text: string, key: string)
    requires WellFormed(text)
    ensures var r := Render(RemoveLines(ScanLines(text), key));
            ScanLines(r) == RemoveLines(ScanLines(text), key) && WellFormed(r) && GetValue(r, key) == NoKey
  {
    ScanRender(RemoveLines(ScanLines(text), key));
  }

  /** Range reads the values under a key prefix: those of the matching lines, in file order. */
  function RangeValues(text: string, pattern: string): (r: Ranged)
    ensures r == Fault <==> exists i :: 0 <= i < |ScanLines(text)| && ' ' !in ScanLines(text)[i]
    ensures r.Values? ==> r.values == MatchingValues(ScanLines(text), pattern) && |r.values| > 0
    ensures r == NoMatch <==>
              forall i :: 0 <= i < |ScanLines(text)| ==> ' ' in ScanLines(text)[i] && !IsPrefix(pattern, KeyOf(ScanLines(text)[i]))
  {
    RangeLines(ScanLines(text), pattern)
  }

  /** RangeRemove rewrites the file without the lines under a key prefix; nothing under it is left to read. */
  function RangeRemove(text: string, pattern: string): (r: string)
    ensures WellFormed(text) ==>
              ScanLines(r) == RangeRemoveLines(ScanLines(text), pattern) && WellFormed(r)
              && RangeValues(r, pattern) == NoMatch
  {
    var out := RangeRemoveLines(ScanLines(text), pattern);
    if WellFormed(text) then
      RangeRemoveRendered(text, pattern);
      Render(out)
    else Render(out)
  }

  /** The file RangeRemove writes scans back to the remaining lines, and none of them matches. */
  lemma RangeRemoveRendered(text: string, pattern: string)
    requires WellFormed(text)
    ensures var r := Render(RangeRemoveLines(ScanLines(text), pattern));
            ScanLines(r) == RangeRemoveLines(ScanLines(text), pattern) && WellFormed(r)
            && RangeValues(r, pattern) == NoMatch
  {
    var lines := ScanLines(text);
    var out := RangeRemoveLines(lines, pattern);
    RangeRemovePlain(lines, pattern);
    ScanRender(out);
    RangeAfterRangeRemoveLines(lines, pattern, pattern);
  }

  lemma RangeRemovePlain(lines: seq<string>, pattern: string)
    requires forall i :: 0 <= i < |lines| ==> PlainLine(lines[i]) && ' ' in lines[i]
    ensures var r := RangeRemoveLines(lines, pattern);
      forall i :: 0 <= i < |r| ==> PlainLine(r[i]) && ' ' in r[i]
  {
    var r := RangeRemoveLines(lines, pattern);
    forall i | 0 <= i < |r| ensures PlainLine(r[i]) && ' ' in r[i] {
      var j :| 0 <= j < |lines| && lines[j] == r[i];
    }
  }

  /** An entry that is one plain line keeps a well-formed file well formed, and reads back. */
  lemma SetFile(text: string, key: string, value: string)
    requires WellFormed(text) && ' ' !in key && PlainLine(EntryLine(key, value))
    ensures ScanLines(Set(text, key, value)) == SetLines(ScanLines(text), key, value)
    ensures WellFormed(Set(text, key, value))
    ensures GetValue(Set(text, key, value), key) == Found(value)
  {
    var lines := ScanLines(text);
    var r := SetLines(lines, key, value);
    SetLinesPlain(lines, key, value);
    ScanRender(r);
    assert ScanLines(Set(text, key, value)) == r;
    GetAfterSetLines(lines, key, value);
  }

  /** Setting a plain entry among plain, well-split lines keeps every line plain and split. */
  lemma SetLinesPlain(lines: seq<string>, key: string, value: string)
    requires forall i :: 0 <= i < |lines| ==> PlainLine(lines[i]) && ' ' in lines[i]
    requires ' ' !in key && PlainLine(EntryLine(key, value))
    ensures var r := SetLines(lines, key, value);
      forall i :: 0 <= i < |r| ==> PlainLine(r[i]) && ' ' in r[i]
  {
    var r := SetLines(lines, key, value);
    EntryReadsBack(key, value);
    forall i | 0 <= i < |r| ensures PlainLine(r[i]) && ' ' in r[i] {
      if i < |lines| && KeyOf(lines[i]) != key {
        assert r[i] == lines[i];
      } else {
        assert r[i] == EntryLine(key, value);
      }
    }
  }

  /** Removing a key from a well-formed file leaves it well formed and without that key. */
  lemma RemoveFile(text: string, key: string)
    requires WellFormed(text)
    ensures ScanLines(RemoveKey(text, key)) == RemoveLines(ScanLines(text), key)
    ensures WellFormed(RemoveKey(text, key))
    ensures GetValue(RemoveKey(text, key), key) == NoKey
  {
    var r := RemoveLines(ScanLines(text), key);
    ScanRender(r);
  }

  /** Removing a prefix from a well-formed file leaves it well formed and without any key under it. */
  lemma RangeRemoveFile(text: string, pattern: string)
    requires WellFormed(text)
    ensures ScanLines(RangeRemove(text, pattern)) == RangeRemoveLines(ScanLines(text), pattern)
    ensures WellFormed(RangeRemove(text, pattern))
    ensures RangeValues(RangeRemove(text, pattern), pattern) == NoMatch
  {
    var lines := ScanLines(text);
    var r := RangeRemoveLines(lines, pattern);
    ScanRender(r);
    RangeAfterRangeRemoveLines(lines, pattern, pattern);
  }

  /** Removing one key never brings back another that was absent. */
  lemma RemoveKeepsNoKey(text: string, k: string, key: string)
    requires WellFormed(text) && GetValue(text, key) == NoKey
    ensures WellFormed(RemoveKey(text, k)) && GetValue(RemoveKey(text, k), key) == NoKey
  {
    var lines := ScanLines(text);
    RemoveFile(text, k);
    var r := RemoveLines(lines, k);
    GetNoKey(lines, key);
    forall i | 0 <= i < |r| ensures ' ' in r[i] && KeyOf(r[i]) != key {
      var j :| 0 <= j < |lines| && lines[j] == r[i];
    }
    GetNoKey(r, key);
  }
}

=== FILE: paths.dfy ===
/**
 * Slash-separated paths as Go's `path` and `path/filepath` packages treat
 * them on Unix, for paths that are already clean: no "." or ".."
 * elements, no doubled separator and no trailing '/'.
 */
module Paths {
  import opened Text

  /**
   * path.Join / filepath.Join of two clean operands: an empty operand is
   * ignored, and exactly one '/' separates the two at the seam.
   */
  function PathJoin(a: string, b: string): (r: string)
    ensures a == "" ==> r == b
    ensures b == "" ==> r == a
    ensures a != "" ==> IsPrefix(a, r)
    ensures a != "" && b != "" && a[|a| - 1] != '/' && b[0] != '/' ==> r == a + "/" + b
    ensures a != "" && b != "" && b[0] == '/' ==> IsSuffix(b, r)
  {
    if a == "" then b
    else if b == "" then a
    else if a[|a| - 1] == '/' && b[0] == '/' then a + b[1..]
    else if a[|a| - 1] == '/' || b[0] == '/' then a + b
    else a + "/" + b
  }

  /** The position of the last `c` in `s`, or -1. */
  function LastIndexOfChar(s: string, c: char): (r: int)
    ensures -1 <= r < |s|
    ensures 0 <= r ==> s[r] == c && c !in s[r + 1..]
    ensures r < 0 ==> c !in s
  {
    if |s| == 0 then -1
    else if s[|s| - 1] == c then |s| - 1
    else
      var r := LastIndexOfChar(s[..|s| - 1], c);
      assert r >= 0 ==> s[r + 1..] == s[..|s| - 1][r + 1..] + [s[|s| - 1]];
      assert r < 0 ==> s == s[..|s| - 1] + [s[|s| - 1]];
      r
  }

  /** The file part of filepath.Split: everything after the last '/'. */
  function LastElement(p: string): (r: string)
    ensures IsSuffix(r, p) && '/' !in r
    ensures '/' !in p ==> r == p
  {
    var i := LastIndexOfChar(p, '/');
    p[i + 1..]
  }

  /** The directory part of filepath.Split: everything up to and including the last '/'. */
  function DirPart(p: string): (r: string)
    ensures r + LastElement(p) == p
  {
    var i := LastIndexOfChar(p, '/');
    assert LastElement(p) == p[i + 1..];
    TakeDrop(p, i + 1);
    p[..i + 1]
  }

  lemma TakeDrop(p: string, k: nat)
    requires k <= |p|
    ensures p[..k] + p[k..] == p
  {
  }

  /**
   * filepath.Dir of a clean path: everything before the last '/', "/" when
   * that '/' is the first character, and "." when there is none.
   */
  function Dir(p: string): (r: string)
    ensures r != ""
    ensures '/' !in p ==> r == "."
    ensures '/' in p ==> IsPrefix(r, p) || r == "/"
    ensures |r| <= |p| || r == "." || r == "/"
  {
    var i := LastIndexOfChar(p, '/');
    if i < 0 then "."
    else if i == 0 then "/"
    else p[..i]
  }

  /** filepath.Base of a clean path: the last element; "." for "" and "/" for the root. */
  function Base(p: string): (r: string)
    ensures r != ""
    ensures p != "" && p != "/" && p[|p| - 1] != '/' ==> r == LastElement(p)
  {
    if p == "" then "."
    else if p == "/" then "/"
    else
      var i := LastIndexOfChar(p, '/');
      assert i < |p| - 1 ==> p[i + 1..] != "";
      if LastElement(p) == "" then "/" else LastElement(p)
  }

  /** Splitting an absolute file path into Dir and Base and joining them again gives the path back. */
  lemma DirBaseJoin(p: string)
    requires |p| > 1 && p[0] == '/' && p[|p| - 1] != '/'
    requires forall k :: 0 < k < |p| && p[k] == '/' ==> p[k - 1] != '/'
    ensures PathJoin(Dir(p), Base(p)) == p
  {
    var i := LastIndexOfChar(p, '/');
    assert 0 <= i < |p| - 1;
    var b := p[i + 1..];
    assert b[0] != '/' by { assert b[0] == p[i + 1]; assert '/' !in p[i + 1..]; }
    assert Base(p) == b;
    if i == 0 {
      assert Dir(p) == "/";
      assert p == "/" + b;
    } else {
      var d := p[..i];
      assert Dir(p) == d;
      assert d[|d| - 1] == p[i - 1] != '/';
      assert p == d + "/" + b;
    }
  }

  /** After a prefix that is empty or ends in '/', a slash-free tail leaves the last '/' where it was. */
  lemma {:induction false} LastSlashBefore(p: string, b: string)
    requires '/' !in b && (p == "" || p[|p| - 1] == '/')
    ensures LastIndexOfChar(p + b, '/') == |p| - 1
    decreases |b|
  {
    if b == "" {
      assert p + b == p;
    } else {
      var s := p + b;
      assert s[|s| - 1] == b[|b| - 1];
      assert s[..|s| - 1] == p + b[..|b| - 1];
      LastSlashBefore(p, b[..|b| - 1]);
    }
  }

  /**
   * Joining one slash-free element onto a dir: Base gives the element back,
   * Dir gives the dir back when it is clean, and the result has no trailing '/'.
   */
  lemma JoinElement(where: string, name: string)
    requires name != "" && '/' !in name
    ensures Base(PathJoin(where, name)) == name
    ensures where != "" && where[|where| - 1] != '/' ==> Dir(PathJoin(where, name)) == where
    ensures var j := PathJoin(where, name); j != "" && j[|j| - 1] != '/'
  {
    var p := if where == "" then "" else if where[|where| - 1] == '/' then where else where + "/";
    assert PathJoin(where, name) == p + name;
    ElementAfter(p, name);
  }

  lemma ElementAfter(p: string, name: string)
    requires name != "" && '/' !in name && (p == "" || p[|p| - 1] == '/')
    ensures Base(p + name) == name
    ensures |p| > 1 ==> Dir(p + name) == p[..|p| - 1]
    ensures (p + name)[|p + name| - 1] != '/'
  {
    var s := p + name;
    LastSlashBefore(p, name);
    assert s[|s| - 1] == name[|name| - 1];
    assert s[|p|..] == name;
    assert LastElement(s) == name;
  }

  /** The last element of an import path with one more element appended is that element. */
  lemma LastElementAppended(path: string, name: string)
    requires '/' !in name
    ensures LastElement(path + "/" + name) == name
  {
    LastSlashBefore(path + "/", name);
    assert (path + "/" + name) == (path + "/") + name;
    assert (path + "/" + name)[|path| + 1..] == name;
  }
}

=== FILE: profile_format.dfy ===
/**
 * The coverage profile text exchanged between the instrumented agent, the
 * CLI and the editor extension: a header line "mode: <mode> " followed by
 * one line "name:line0.col0,line1.col1 stmts count" per block, every line
 * ending in '\n'.
 */
module ProfileFormat {
  import opened Text
  import opened Decimal

  /** One block of a profile, as it appears on a profile line. */
  datatype ProfileBlock = ProfileBlock(
    name: string,
    line0: nat, col0: nat,
    line1: nat, col1: nat,
    stmts: nat, count: nat)

  const U16Limit: nat := 0x1_0000
  const U32Limit: nat := 0x1_0000_0000

  /**
   * A block the agent can emit: lines and counts are uint32, columns and
   * statement counts uint16, and the file name contains no ':', ' ' or
   * line break (Go file paths of packages built by goc).
   */
  predicate AgentBlock(b: ProfileBlock)
  {
    b.line0 < U32Limit && b.line1 < U32Limit && b.col0 < U16Limit && b.col1 < U16Limit
    && b.stmts < U16Limit && b.count < U32Limit
    && ':' !in b.name && ' ' !in b.name && '\n' !in b.name && '\r' !in b.name
  }

  /** The text of a block after the file name and ':'. */
  function BlockInfo(b: ProfileBlock): string
  {
    NatToString(b.line0) + "." + NatToString(b.col0) + ","
    + NatToString(b.line1) + "." + NatToString(b.col1) + " "
    + NatToString(b.stmts) + " " + NatToString(b.count)
  }

  /** The profile line of one block ("%s:%d.%d,%d.%d %d %d"). */
  function BlockLine(b: ProfileBlock): string
  {
    b.name + ":" + BlockInfo(b)
  }

  function BlockLines(blocks: seq<ProfileBlock>): (r: seq<string>)
    ensures |r| == |blocks| && forall i :: 0 <= i < |blocks| ==> r[i] == BlockLine(blocks[i])
  {
    if |blocks| == 0 then [] else [BlockLine(blocks[0])] + BlockLines(blocks[1..])
  }

  /** The header line, with the trailing space the agent writes. */
  function Header(mode: string): string
  {
    "mode: " + mode + " "
  }

  /** A whole profile text. */
  function ProfileText(mode: string, blocks: seq<ProfileBlock>): string
  {
    Render([Header(mode)] + BlockLines(blocks))
  }

  lemma BlockInfoShape(b: ProfileBlock)
    ensures '\n' !in BlockInfo(b) && ':' !in BlockInfo(b) && '\r' !in BlockInfo(b)
  {
    var parts := [NatToString(b.line0), NatToString(b.col0), NatToString(b.line1),
                  NatToString(b.col1), NatToString(b.stmts), NatToString(b.count)];
    assert forall i :: 0 <= i < |parts| ==> AllDigits(parts[i]);
  }

  /** Every line of a profile written from agent blocks is a plain line. */
  lemma ProfileLinesPlain(mode: string, blocks: seq<ProfileBlock>)
    requires '\n' !in mode
    requires forall i :: 0 <= i < |blocks| ==> AgentBlock(blocks[i])
    ensures forall i :: 0 <= i < |[Header(mode)] + BlockLines(blocks)| ==>
              PlainLine(([Header(mode)] + BlockLines(blocks))[i])
    ensures ScanLines(ProfileText(mode, blocks)) == [Header(mode)] + BlockLines(blocks)
  {
    var lines := [Header(mode)] + BlockLines(blocks);
    forall i | 0 <= i < |lines| ensures PlainLine(lines[i]) {
      if i > 0 {
        var b := blocks[i - 1];
        BlockInfoShape(b);
        var info := BlockInfo(b);
        assert info == NatToString(b.line0) + "." + NatToString(b.col0) + ","
          + NatToString(b.line1) + "." + NatToString(b.col1) + " "
          + NatToString(b.stmts) + " " + (NatToString(b.count));
        var last := NatToString(b.count);
        assert lines[i] == b.name + ":" + info;
        assert lines[i][|lines[i]| - 1] == last[|last| - 1];
      }
    }
    ScanRender(lines);
  }

  /** The lines of a profile text, split on '\n' the way JavaScript's split does. */
  lemma SplitProfileText(mode: string, blocks: seq<ProfileBlock>)
    requires '\n' !in mode
    requires forall i :: 0 <= i < |blocks| ==> AgentBlock(blocks[i])
    ensures Split(ProfileText(mode, blocks), '\n') == [Header(mode)] + BlockLines(blocks) + [""]
  {
    ProfileLinesPlain(mode, blocks);
    var lines := [Header(mode)] + BlockLines(blocks);
    assert forall i :: 0 <= i < |lines| ==> '\n' !in lines[i] by {
      forall i | 0 <= i < |lines| ensures '\n' !in lines[i] {
        assert PlainLine(lines[i]);
      }
    }
    SplitRender(lines);
  }
}

=== FILE: prow_job.dfy ===
/**
 * The presubmit job goc runs inside Prow (pkg/prow/job.go): the changed
 * files of a pull request are matched against the local profile, a delta
 * against the last healthy post-submit profile is computed, every row gets
 * a link into the uploaded HTML report, and a "Total" row closes a
 * non-empty table. GitHub, the cloud bucket, the `go tool cover` run and
 * the float percentages are parameters.
 */
module ProwJob {
  import opened Wrappers
  import opened Text
  import opened Decimal
  import opened Sums
  import opened Filter
  import opened Keyed
  import opened Paths
  import opened CoverList
  import opened Delta

  /** The fields of a job that the names below are built from. */
  datatype Job = Job(jobName: string, org: string, repoName: string, prNumStr: string, buildId: string)

  // ---------------------------------------------------------------------
  // Changed files
  // ---------------------------------------------------------------------

  /** trimGhFileToProfile: one leading "src/" is dropped from each name. */
  function TrimGhFileToProfile(ghFiles: seq<string>): (r: seq<string>)
    ensures |r| == |ghFiles|
    ensures forall i :: 0 <= i < |r| ==> IsSuffix(r[i], ghFiles[i])
    ensures forall i :: 0 <= i < |r| ==> if IsPrefix("src/", ghFiles[i]) then "src/" + r[i] == ghFiles[i] else r[i] == ghFiles[i]
  {
    if |ghFiles| == 0 then []
    else
      var f := ghFiles[0];
      assert IsSuffix(TrimPrefix(f, "src/"), f) by {
        if IsPrefix("src/", f) { assert f == "src/" + f[4..]; }
      }
      [TrimPrefix(f, "src/")] + TrimGhFileToProfile(ghFiles[1..])
  }

  /** A GOPATH-style listing: each profile name under "src/". */
  function UnderSrc(pFiles: seq<string>): (r: seq<string>)
    ensures |r| == |pFiles| && forall i :: 0 <= i < |r| ==> r[i] == "src/" + pFiles[i]
  {
    if |pFiles| == 0 then [] else ["src/" + pFiles[0]] + UnderSrc(pFiles[1..])
  }

  /** Trimming takes a GOPATH-style listing back to the profile's names, even names that themselves start with "src/". */
  lemma TrimUnderSrc(pFiles: seq<string>)
    ensures TrimGhFileToProfile(UnderSrc(pFiles)) == pFiles
  {
    var g := UnderSrc(pFiles);
    var r := TrimGhFileToProfile(g);
    forall i | 0 <= i < |r| ensures r[i] == pFiles[i] {
      assert IsPrefix("src/", g[i]);
      assert "src/" + r[i] == "src/" + pFiles[i];
      assert r[i] == ("src/" + r[i])[4..];
    }
  }

  /** Some changed file prefixes the row. */
  predicate Matched(line: string, files: seq<string>)
  {
    exists f :: f in files && IsPrefix(f, line)
  }

  /** The copies of a profile row WriteChangedCov writes: one per changed file that prefixes it. */
  function Copies(line: string, files: seq<string>): (r: seq<string>)
    ensures |r| == |Keep(files, f => IsPrefix(f, line))|
    ensures forall i :: 0 <= i < |r| ==> r[i] == line
    ensures |r| > 0 <==> Matched(line, files)
  {
    assert Matched(line, files) ==> |Keep(files, f => IsPrefix(f, line))| > 0 by {
      if Matched(line, files) {
        var f :| f in files && IsPrefix(f, line);
        assert f in Keep(files, f => IsPrefix(f, line));
      }
    }
    seq(|Keep(files, f => IsPrefix(f, line))|, _ => line)
  }

  /** The rows after the header, each repeated once per matching changed file, in order. */
  function ChangedProfileRows(rows: seq<string>, files: seq<string>): (r: seq<string>)
    ensures forall x :: x in r <==> x in rows && Matched(x, files)
    decreases |rows|
  {
    if |rows| == 0 then []
    else
      var c := Copies(rows[0], files);
      var rest := ChangedProfileRows(rows[1..], files);
      assert forall x :: x in rows <==> x == rows[0] || x in rows[1..];
      assert |c| > 0 ==> c[0] == rows[0];
      assert forall x :: x in c <==> |c| > 0 && x == rows[0];
      c + rest
  }

  /** How many rows are written: for each row, the number of changed files that prefix it. */
  lemma {:induction false} ChangedProfileRowsCount(rows: seq<string>, files: seq<string>)
    ensures |ChangedProfileRows(rows, files)| == Sum(rows, (l: string) => |Keep(files, f => IsPrefix(f, l))|)
    decreases |rows|
  {
    if |rows| > 0 {
      ChangedProfileRowsCount(rows[1..], files);
    }
  }

  /** With a single changed file the rows are filtered, each kept at most once. */
  lemma {:induction false} ChangedProfileRowsSingle(rows: seq<string>, file: string)
    ensures ChangedProfileRows(rows, [file]) == Keep(rows, (l: string) => IsPrefix(file, l))
    decreases |rows|
  {
    if |rows| > 0 {
      ChangedProfileRowsSingle(rows[1..], file);
      var l := rows[0];
      if IsPrefix(file, l) {
        assert Keep([file], f => IsPrefix(f, l)) == [file];
      } else {
        assert Keep([file], f => IsPrefix(f, l)) == [];
      }
    }
  }

  /**
   * WriteChangedCov: a read failure is returned; otherwise the first line
   * (the empty text when the profile is empty) is copied unconditionally
   * and the changed rows follow. When the output file could not be
   * created nothing is written.
   */
  function WriteChangedCov(profile: Result<string, string>, created: bool, files: seq<string>): (r: Result<seq<string>, string>)
    ensures profile.Err? <==> r.Err?
    ensures r.Ok? && created ==> var lines := ScanLines(profile.value);
      |r.value| >= 1 && r.value[0] == (if |lines| == 0 then "" else lines[0])
      && r.value[1..] == ChangedProfileRows(if |lines| == 0 then [] else lines[1..], files)
    ensures r.Ok? && !created ==> r.value == []
  {
    match profile
    case Err(e) => Err(e)
    case Ok(text) =>
      var lines := ScanLines(text);
      if !created then Ok([])
      else if |lines| == 0 then Ok([""])
      else Ok([lines[0]] + ChangedProfileRows(lines[1..], files))
  }

  // ---------------------------------------------------------------------
  // Names in the bucket
  // ---------------------------------------------------------------------

  /** path.Join of already-clean elements, empty ones skipped. */
  function JoinPath(parts: seq<string>): string
  {
    if |parts| == 0 then "" else PathJoin(parts[0], JoinPath(parts[1..]))
  }

  /** Elements that are non-empty and free of '/' are joined with single slashes. */
  lemma {:induction false} JoinPathPlain(parts: seq<string>)
    requires forall i :: 0 <= i < |parts| ==> parts[i] != "" && '/' !in parts[i]
    ensures JoinPath(parts) == Join(parts, '/')
    decreases |parts|
  {
    if |parts| > 1 {
      JoinPathPlain(parts[1..]);
      var rest := Join(parts[1..], '/');
      assert rest != "" && rest[0] != '/' by {
        if |parts[1..]| == 1 {
          assert rest == parts[1];
        } else {
          assert rest == parts[1] + ['/'] + Join(parts[2..], '/') by {
            assert parts[1..][1..] == parts[2..];
          }
          assert rest[0] == parts[1][0];
        }
        assert parts[1][0] in parts[1];
      }
      assert parts[0][|parts[0]| - 1] in parts[0];
    }
  }

  /** JobPrefixOnQiniu: pr-logs/pull/<org>_<repo>/<pr>/<job>/<build>. */
  function JobPrefixOnQiniu(j: Job): string
  {
    JoinPath(["pr-logs", "pull", j.org + "_" + j.repoName, j.prNumStr, j.jobName, j.buildId])
  }

  /** Fields free of '/' can be read back from the prefix by splitting it on '/'. */
  lemma JobPrefixSplits(j: Job)
    requires j.org != "" && j.prNumStr != "" && j.jobName != "" && j.buildId != ""
    requires '/' !in j.org && '/' !in j.repoName && '/' !in j.prNumStr && '/' !in j.jobName && '/' !in j.buildId
    ensures Split(JobPrefixOnQiniu(j), '/') == ["pr-logs", "pull", j.org + "_" + j.repoName, j.prNumStr, j.jobName, j.buildId]
  {
    var parts := ["pr-logs", "pull", j.org + "_" + j.repoName, j.prNumStr, j.jobName, j.buildId];
    assert '/' !in j.org + "_" + j.repoName;
    JoinPathPlain(parts);
    SplitJoin(parts, '/');
  }

  /** HtmlProfile: "<org>-<repo>-pr<n>-coverage.html". */
  function HtmlProfile(j: Job): (r: string)
    ensures IsSuffix("-coverage.html", r)
  {
    j.org + "-" + j.repoName + "-pr" + j.prNumStr + "-coverage.html"
  }

  /** Fields free of '-' can be read back from the report's name by splitting it on '-'. */
  lemma HtmlProfileSplits(j: Job)
    requires '-' !in j.org && '-' !in j.repoName && '-' !in j.prNumStr
    ensures Split(HtmlProfile(j), '-') == [j.org, j.repoName, "pr" + j.prNumStr, "coverage.html"]
  {
    var parts := [j.org, j.repoName, "pr" + j.prNumStr, "coverage.html"];
    assert parts == [j.org] + [j.repoName, "pr" + j.prNumStr, "coverage.html"];
    JoinCons(j.org, [j.repoName, "pr" + j.prNumStr, "coverage.html"], '-');
    JoinThree(j.repoName, "pr" + j.prNumStr, "coverage.html", '-');
    HtmlProfilePieces(j.org, j.repoName, j.prNumStr);
    assert '-' !in "pr" + j.prNumStr;
    SplitJoin(parts, '-');
  }

  lemma HtmlProfilePieces(org: string, repo: string, pr: string)
    ensures org + ['-'] + (repo + ['-'] + ("pr" + pr) + ['-'] + "coverage.html")
            == org + "-" + repo + "-pr" + pr + "-coverage.html"
  {
  }

  /** The link of row `i`: the signed report URL with the anchor "#file<i>". */
  function RowLink(url: string, i: nat): string
  {
    url + "#file" + NatToString(i)
  }

  /** Different rows get different links. */
  lemma RowLinksDiffer(url: string, i: nat, k: nat)
    requires i != k
    ensures RowLink(url, i) != RowLink(url, k)
  {
    var n := |url + "#file"|;
    assert RowLink(url, i)[n..] == NatToString(i);
    assert RowLink(url, k)[n..] == NatToString(k);
  }

  /**
   * SetDeltaCovLinks: the list is sorted by file name (in place, so the
   * caller sees the order too), then row i's link is the report URL with
   * "#file<i>". The URL is the bucket's signed link for the report key.
   */
  function SetDeltaCovLinks(c: seq<DeltaCov>, j: Job, accessUrl: string -> string): (r: seq<DeltaCov>)
    ensures |r| == |c| && Names(r) == Names(SortDelta(c))
    ensures SortedBy(r, FileNameOf)
    ensures forall i :: 0 <= i < |r| ==> SetLineCovLink(SortDelta(c)[i], r[i].lineCovLink) == r[i]
    ensures forall i :: 0 <= i < |r| ==>
      r[i].lineCovLink == RowLink(accessUrl(JoinPath([JobPrefixOnQiniu(j), "artifacts", HtmlProfile(j)])), i)
  {
    var sorted := SortDelta(c);
    var url := accessUrl(JoinPath([JobPrefixOnQiniu(j), "artifacts", HtmlProfile(j)]));
    var r := seq(|sorted|, i requires 0 <= i < |sorted| => SetLineCovLink(sorted[i], RowLink(url, i)));
    assert forall i :: 0 <= i < |r| ==> FileNameOf(r[i]) == FileNameOf(sorted[i]);
    r
  }

  /** Every row's link is its own. */
  lemma DeltaCovLinksDistinct(c: seq<DeltaCov>, j: Job, accessUrl: string -> string, i: nat, k: nat)
    requires i < k < |c|
    ensures SetDeltaCovLinks(c, j, accessUrl)[i].lineCovLink != SetDeltaCovLinks(c, j, accessUrl)[k].lineCovLink
  {
    RowLinksDiffer(accessUrl(JoinPath([JobPrefixOnQiniu(j), "artifacts", HtmlProfile(j)])), i, k);
  }

  // ---------------------------------------------------------------------
  // RunPresubmit
  // ---------------------------------------------------------------------

  /** CoverageList.TotalPercentage: "N/A" when the list has no statements. */
  function TotalPercentage(g: seq<Coverage>): (p: Percent)
    ensures p.NotAvailable? <==> Sum(g, AllOf) == 0
  {
    match TotalRatio(g)
    case Ok(r) => Percent(r)
    case Err(_) => NotAvailable
  }

  /** The closing row of a non-empty table. */
  function TotalRow(local: seq<Coverage>, base: seq<Coverage>, totalDelta: string): DeltaCov
  {
    DeltaCov("Total", Column(TotalPercentage(base)), Column(TotalPercentage(local)), totalDelta, "")
  }

  /** How a presubmit run ends. */
  datatype Presubmit =
    | NothingChanged
    | NoHealthyBase
    | Fatal(msg: string)
    | Crashed
    | Commented(changedFiles: seq<string>, changedProfile: seq<string>, rows: seq<DeltaCov>)

  /**
   * What the job reads from the outside world: the pull request's changed
   * files, the local and remote profiles, the creation of the changed
   * profile, the HTML run and the comment post, plus the float delta text
   * and the map-iteration order of a coverage list.
   */
  datatype World = World(
    prChangedFiles: Result<seq<string>, string>,
    localProfileText: Result<string, string>,
    baseProfile: Result<Option<string>, string>,
    changedProfileName: string,
    changedProfileCreated: bool,
    htmlError: Option<string>,
    commentError: Option<string>,
    accessUrl: string -> string,
    deltaText: (Coverage, Coverage) -> string,
    totalDelta: string,
    orderOf: seq<Coverage> -> seq<string>)

  /** `orderOf` lists each coverage list's names once: one possible Go map order. */
  ghost predicate Orders(w: World)
  {
    forall g :: Enumerates(w.orderOf(g), MapList(g).Keys)
  }

  const ErrRemoteProfile := "failed to get remote cover profile"

  /** A posted table: empty, or sorted rows closed by "Total". */
  predicate TableShape(rows: seq<DeltaCov>)
  {
    |rows| == 0 || (|rows| >= 2 && rows[|rows| - 1].fileName == "Total" && SortedBy(rows[..|rows| - 1], FileNameOf))
  }

  /** Each named file has a row of the table (before "Total") with a non-zero delta. */
  predicate NonZeroRowsFor(files: seq<string>, rows: seq<DeltaCov>)
  {
    forall f :: f in files ==> exists i :: 0 <= i < |rows| - 1 && rows[i].fileName == f && rows[i].deltaPer != ZeroDelta
  }

  const ErrChangedFiles := "Get pull request changed file failed."
  const ErrChangedHtml := "create changed file related coverage html failed"
  const ErrComment := "Post comment to github failed."

  /** The Fatal text of a failed changed-profile write. */
  function ErrWriteChanged(name: string): string
  {
    "filter local profile to " + name + " with changed files failed"
  }

  /** ReadFileToCoverList on the local profile: a read failure is an error, the text is listed by CovList. */
  function ReadLocalList(w: World): ListOutcome
  {
    match w.localProfileText
    case Err(e) => ListError(e)
    case Ok(text) => CovList(text)
  }

  /** The run gets past step one: full-diff mode, or a pull request with changed files. */
  predicate PastChangedFiles(fullDiff: bool, w: World)
  {
    fullDiff || (w.prChangedFiles.Ok? && |w.prChangedFiles.value| > 0)
  }

  /** The changed files step one hands on: none in full-diff mode, the trimmed pull request files otherwise. */
  function ChangedOf(fullDiff: bool, w: World): seq<string>
    requires PastChangedFiles(fullDiff, w)
  {
    if fullDiff then [] else TrimGhFileToProfile(w.prChangedFiles.value)
  }

  /** The posted table for a delta list: nothing for no delta, else the linked rows and the "Total" row. */
  predicate LinkedTable(rows: seq<DeltaCov>, delta: seq<DeltaCov>, local: seq<Coverage>, base: seq<Coverage>, j: Job, w: World)
  {
    if |delta| == 0 then rows == []
    else |rows| == |delta| + 1 && rows[..|delta|] == SetDeltaCovLinks(delta, j, w.accessUrl)
         && rows[|delta|] == TotalRow(local, base, w.totalDelta)
  }

  /**
   * RunPresubmit: outside full-diff mode an empty pull request ends the
   * run early; a missing healthy base ends it quietly; each failure is
   * fatal with its own text, and a profile the lister panics on crashes
   * the run; the rows are linked and, when there are any, closed by "Total".
   */
  function RunPresubmit(j: Job, fullDiff: bool, w: World): (r: Presubmit)
    requires Orders(w)
    ensures !fullDiff && w.prChangedFiles.Err? ==> r == Fatal(ErrChangedFiles)
    ensures r == NothingChanged <==> !fullDiff && w.prChangedFiles == Ok([])
    ensures PastChangedFiles(fullDiff, w) ==>
              (ReadLocalList(w).ListError? ==> r == Fatal(ErrRemoteProfile))
              && (ReadLocalList(w).ListPanic? ==> r == Crashed)
    ensures PastChangedFiles(fullDiff, w) && ReadLocalList(w).Listed? && w.baseProfile.Err? ==> r == Fatal(ErrRemoteProfile)
    ensures r == NoHealthyBase <==> PastChangedFiles(fullDiff, w) && ReadLocalList(w).Listed? && w.baseProfile == Ok(None)
    ensures PastChangedFiles(fullDiff, w) && ReadLocalList(w).Listed? && w.baseProfile.Ok? && w.baseProfile.value.Some? ==>
              var b := CovList(w.baseProfile.value.value);
              (b.ListError? ==> r == Fatal(ErrRemoteProfile))
              && (b.ListPanic? ==> r == Crashed)
              && (b.Listed? ==> r == DeltaStage(j, fullDiff, w, ChangedOf(fullDiff, w), ReadLocalList(w).list, b.list))
    ensures r.Commented? ==> TableShape(r.rows)
    ensures r.Commented? && !fullDiff ==> w.prChangedFiles.Ok? && r.changedFiles == TrimGhFileToProfile(w.prChangedFiles.value)
    ensures r.Commented? && fullDiff ==> NonZeroRowsFor(r.changedFiles, r.rows)
  {
    if !fullDiff && w.prChangedFiles.Err? then Fatal(ErrChangedFiles)
    else if !fullDiff && |w.prChangedFiles.value| == 0 then NothingChanged
    else
      var changed := ChangedOf(fullDiff, w);
      match ReadLocalList(w)
      case ListError(_) => Fatal(ErrRemoteProfile)
      case ListPanic => Crashed
      case Listed(local) =>
        match w.baseProfile
        case Err(_) => Fatal(ErrRemoteProfile)
        case Ok(None) => NoHealthyBase
        case Ok(Some(text)) =>
          match CovList(text)
          case ListError(_) => Fatal(ErrRemoteProfile)
          case ListPanic => Crashed
          case Listed(base) => DeltaStage(j, fullDiff, w, changed, local, base)
  }

  /**
   * Step four of RunPresubmit: the delta of the changed files, or in
   * full-diff mode every non-zero delta with its names as the changed
   * files; the table posted is that delta, linked, closed by "Total".
   */
  function DeltaStage(j: Job, fullDiff: bool, w: World, changed: seq<string>,
                      local: seq<Coverage>, base: seq<Coverage>): (r: Presubmit)
    requires Orders(w)
    ensures !r.NothingChanged? && !r.NoHealthyBase? && !r.Crashed?
    ensures r.Commented? ==> TableShape(r.rows)
    ensures !fullDiff ==>
              var d := GetChFileDeltaCov(local, base, w.orderOf(local), w.orderOf(base), changed, w.deltaText);
              r.Commented? ==> r.changedFiles == changed && LinkedTable(r.rows, d, local, base, j, w)
    ensures fullDiff ==>
              var d := GetDeltaCov(local, base, w.orderOf(local), w.orderOf(base), w.deltaText);
              r.Commented? ==> r.changedFiles == Names(d) && LinkedTable(r.rows, d, local, base, j, w)
    ensures r.Commented? && fullDiff ==> NonZeroRowsFor(r.changedFiles, r.rows)
  {
    var newOrder, baseOrder := w.orderOf(local), w.orderOf(base);
    if fullDiff then
      var delta := GetDeltaCov(local, base, newOrder, baseOrder, w.deltaText);
      FinishNonZero(j, w, local, base, delta);
      Finish(j, w, local, base, Names(delta), delta)
    else
      var delta := GetChFileDeltaCov(local, base, newOrder, baseOrder, changed, w.deltaText);
      Finish(j, w, local, base, changed, delta)
  }

  /**
   * A pull request with changed files, both profiles listed and every
   * write and post succeeding ends in a comment whose table is the changed
   * files' delta, linked and closed by "Total".
   */
  lemma PresubmitPosts(j: Job, w: World, local: seq<Coverage>, base: seq<Coverage>, text: string)
    requires Orders(w)
    requires w.prChangedFiles.Ok? && |w.prChangedFiles.value| > 0
    requires ReadLocalList(w) == Listed(local)
    requires w.baseProfile == Ok(Some(text)) && CovList(text) == Listed(base)
    requires WriteChangedCov(w.localProfileText, w.changedProfileCreated, TrimGhFileToProfile(w.prChangedFiles.value)).Ok?
    requires w.htmlError.None? && w.commentError.None?
    ensures var r := RunPresubmit(j, false, w);
      var changed := TrimGhFileToProfile(w.prChangedFiles.value);
      r.Commented? && r.changedFiles == changed
      && LinkedTable(r.rows, GetChFileDeltaCov(local, base, w.orderOf(local), w.orderOf(base), changed, w.deltaText), local, base, j, w)
  {
    var changed := TrimGhFileToProfile(w.prChangedFiles.value);
    assert PastChangedFiles(false, w) && ChangedOf(false, w) == changed;
    var r := RunPresubmit(j, false, w);
    assert r == DeltaStage(j, false, w, changed, local, base);
    var d := GetChFileDeltaCov(local, base, w.orderOf(local), w.orderOf(base), changed, w.deltaText);
    assert r == Finish(j, w, local, base, changed, d);
  }

  /** With non-zero deltas only, each file named in the comment has a non-zero row of its own. */
  lemma FinishNonZero(j: Job, w: World, local: seq<Coverage>, base: seq<Coverage>, delta: seq<DeltaCov>)
    requires forall i :: 0 <= i < |delta| ==> delta[i].deltaPer != ZeroDelta
    ensures var r := Finish(j, w, local, base, Names(delta), delta);
      r.Commented? ==> NonZeroRowsFor(r.changedFiles, r.rows)
  {
    var r := Finish(j, w, local, base, Names(delta), delta);
    if r.Commented? {
      var linked := SetDeltaCovLinks(delta, j, w.accessUrl);
      LinkedNonZero(delta, j, w.accessUrl);
      forall f | f in r.changedFiles
        ensures exists i :: 0 <= i < |r.rows| - 1 && r.rows[i].fileName == f && r.rows[i].deltaPer != ZeroDelta
      {
        var i :| 0 <= i < |delta| && linked[i].fileName == f && linked[i].deltaPer != ZeroDelta;
        assert r.rows[i] == r.rows[..|delta|][i];
      }
    }
  }

  /** With no zero delta in the list, every listed file has a linked row with a non-zero delta. */
  lemma LinkedNonZero(delta: seq<DeltaCov>, j: Job, accessUrl: string -> string)
    requires forall i :: 0 <= i < |delta| ==> delta[i].deltaPer != ZeroDelta
    ensures var linked := SetDeltaCovLinks(delta, j, accessUrl);
      forall f :: f in Names(delta) ==>
        exists i :: 0 <= i < |delta| && linked[i].fileName == f && linked[i].deltaPer != ZeroDelta
  {
    var linked := SetDeltaCovLinks(delta, j, accessUrl);
    LinkedRowsCover(delta, j, accessUrl);
    forall f | f in Names(delta)
      ensures exists i :: 0 <= i < |delta| && linked[i].fileName == f && linked[i].deltaPer != ZeroDelta
    {
      var k :| 0 <= k < |delta| && Names(delta)[k] == f;
      var i :| 0 <= i < |delta| && linked[i].fileName == delta[k].fileName && linked[i].deltaPer == delta[k].deltaPer;
    }
  }

  /** Every row of the list has a linked row with the same name and delta. */
  lemma LinkedRowsCover(delta: seq<DeltaCov>, j: Job, accessUrl: string -> string)
    ensures forall k :: 0 <= k < |delta| ==> exists i :: (0 <= i < |delta|
      && SetDeltaCovLinks(delta, j, accessUrl)[i].fileName == delta[k].fileName
      && SetDeltaCovLinks(delta, j, accessUrl)[i].deltaPer == delta[k].deltaPer)
  {
    var sorted := SortDelta(delta);
    var linked := SetDeltaCovLinks(delta, j, accessUrl);
    forall k | 0 <= k < |delta|
      ensures exists i :: 0 <= i < |delta| && linked[i].fileName == delta[k].fileName && linked[i].deltaPer == delta[k].deltaPer
    {
      assert delta[k] in multiset(sorted);
      var i :| 0 <= i < |sorted| && sorted[i] == delta[k];
      assert SetLineCovLink(sorted[i], linked[i].lineCovLink) == linked[i];
    }
  }

  /** Steps five and six of RunPresubmit: the changed profile, the report, the links, the comment. */
  function Finish(j: Job, w: World, local: seq<Coverage>, base: seq<Coverage>,
                  files: seq<string>, delta: seq<DeltaCov>): (r: Presubmit)
    ensures !r.NothingChanged? && !r.NoHealthyBase? && !r.Crashed?
    ensures r.Commented? ==> r.changedFiles == files && TableShape(r.rows)
    ensures r.Commented? ==> |r.rows| == (if |delta| == 0 then 0 else |delta| + 1)
    ensures r.Commented? ==> LinkedTable(r.rows, delta, local, base, j, w)
    ensures var written := WriteChangedCov(w.localProfileText, w.changedProfileCreated, files);
      && (written.Err? ==> r == Fatal(ErrWriteChanged(w.changedProfileName)))
      && (written.Ok? && w.htmlError.Some? ==> r == Fatal(ErrChangedHtml))
      && (written.Ok? && w.htmlError.None? && w.commentError.Some? ==> r == Fatal(ErrComment))
      && (r.Commented? <==> written.Ok? && w.htmlError.None? && w.commentError.None?)
      && (r.Commented? ==> r.changedProfile == written.value)
  {
    match WriteChangedCov(w.localProfileText, w.changedProfileCreated, files)
    case Err(_) => Fatal(ErrWriteChanged(w.changedProfileName))
    case Ok(written) =>
      if w.htmlError.Some? then Fatal(ErrChangedHtml)
      else
        var linked := SetDeltaCovLinks(delta, j, w.accessUrl);
        var rows := if |linked| > 0 then linked + [TotalRow(local, base, w.totalDelta)] else linked;
        assert |linked| > 0 ==> rows[..|linked|] == linked;
        if w.commentError.Some? then Fatal(ErrComment)
        else Commented(files, written, rows)
  }
}

=== FILE: qiniu.dfy ===
/**
 * The CI storage helpers of goc's prow integration (package qiniu):
 * finding the base coverage profile of the latest healthy build, the
 * paginated and retried bucket listings, the ranged object reader with its
 * retry policy, and the small path and command-line helpers.
 *
 * The bucket, the HTTP transport, JSON decoding, URL signing, clocks and
 * sleeping are outside the model: what they answer is a parameter.
 */
module Qiniu {
  import opened Wrappers
  import opened Text
  import opened Decimal
  import opened Paths

  /** The JSON file holding a build's outcome. */
  const StatusJson := "finished.json"
  /** The directory prow stores test artifacts in. */
  const ArtifactsDirName := "artifacts"
  /** The coverage profile a postsubmit job stores. */
  const PostSubmitCoverProfile := "filtered.cov"
  /** The profile restricted to the files a pull request changes. */
  const ChangedProfileName := "changed-file-profile.cov"

  // ---------------------------------------------------------------------
  // Build numbers: sortBuilds
  // ---------------------------------------------------------------------

  /** Build numbers from the highest down. */
  predicate Descending(s: seq<int>)
  {
    forall i, j :: 0 <= i < j < |s| ==> s[i] >= s[j]
  }

  /** The listed build names strconv.Atoi accepts, as numbers, in listing order. */
  function ParsedBuilds(strs: seq<string>): (r: seq<int>)
    ensures |r| <= |strs|
  {
    if |strs| == 0 then []
    else
      var head := if ParseInt(strs[0]).Parsed? then [ParseInt(strs[0]).value] else [];
      head + ParsedBuilds(strs[1..])
  }

  /** A number is among the parsed builds iff some listed name parses to it. */
  lemma {:induction false} ParsedBuildsMember(strs: seq<string>, x: int)
    ensures x in ParsedBuilds(strs) <==> exists i :: 0 <= i < |strs| && ParseInt(strs[i]) == Parsed(x)
    decreases |strs|
  {
    if |strs| > 0 {
      ParsedBuildsMember(strs[1..], x);
      if exists i :: 1 <= i < |strs| && ParseInt(strs[i]) == Parsed(x) {
        var i :| 1 <= i < |strs| && ParseInt(strs[i]) == Parsed(x);
        assert strs[1..][i - 1] == strs[i];
      }
      if exists i :: 0 <= i < |strs| - 1 && ParseInt(strs[1..][i]) == Parsed(x) {
        var i :| 0 <= i < |strs| - 1 && ParseInt(strs[1..][i]) == Parsed(x);
        assert strs[i + 1] == strs[1..][i];
      }
    }
  }

  /** Inserting a number into a descending sequence at its place. */
  function InsertDesc(x: int, s: seq<int>): (r: seq<int>)
    requires Descending(s)
    ensures Descending(r)
    ensures multiset(r) == multiset(s) + multiset{x}
  {
    if |s| == 0 then [x]
    else if x >= s[0] then [x] + s
    else
      DescendingTail(s);
      var t := InsertDesc(x, s[1..]);
      MultisetTail(s);
      HeadBounds(s, x, t);
      DescendingCons(s[0], t);
      [s[0]] + t
  }

  /** The multiset of a tail: the whole without the head. */
  lemma MultisetTail(s: seq<int>)
    requires |s| > 0
    ensures multiset(s) == multiset{s[0]} + multiset(s[1..])
  {
    assert s == [s[0]] + s[1..];
  }

  /** What is inserted below the head of a descending sequence stays below it. */
  lemma HeadBounds(s: seq<int>, x: int, t: seq<int>)
    requires |s| > 0 && Descending(s) && x < s[0]
    requires multiset(t) == multiset(s[1..]) + multiset{x}
    ensures forall k :: 0 <= k < |t| ==> t[k] <= s[0]
  {
    forall k | 0 <= k < |t| ensures t[k] <= s[0] {
      assert t[k] in multiset(t);
      if t[k] != x {
        assert t[k] in multiset(s[1..]);
        var m :| 0 <= m < |s[1..]| && s[1..][m] == t[k];
        assert s[m + 1] == t[k];
      }
    }
  }

  /** A head no smaller than a descending tail makes a descending sequence. */
  lemma DescendingCons(h: int, t: seq<int>)
    requires Descending(t) && forall k :: 0 <= k < |t| ==> t[k] <= h
    ensures Descending([h] + t)
  {
    var r := [h] + t;
    forall i, j | 0 <= i < j < |r| ensures r[i] >= r[j] {
      assert r[j] == t[j - 1];
      if i > 0 {
        assert r[i] == t[i - 1];
      }
    }
  }

  /** Sorting into descending order, by insertion. */
  function SortDesc(xs: seq<int>): (r: seq<int>)
    ensures Descending(r)
    ensures multiset(r) == multiset(xs)
  {
    if |xs| == 0 then []
    else
      assert xs == [xs[0]] + xs[1..];
      InsertDesc(xs[0], SortDesc(xs[1..]))
  }

  /**
   * sortBuilds: the listed names that parse as integers, highest first;
   * the others are dropped.
   */
  function SortBuilds(strs: seq<string>): (r: seq<int>)
    ensures Descending(r)
    ensures multiset(r) == multiset(ParsedBuilds(strs))
  {
    SortDesc(ParsedBuilds(strs))
  }

  /** A number is in the sorted builds iff some listed name parses to it. */
  lemma SortBuildsMember(strs: seq<string>, x: int)
    ensures x in SortBuilds(strs) <==> exists i :: 0 <= i < |strs| && ParseInt(strs[i]) == Parsed(x)
  {
    ParsedBuildsMember(strs, x);
    assert x in SortBuilds(strs) <==> x in multiset(SortBuilds(strs));
    assert x in ParsedBuilds(strs) <==> x in multiset(ParsedBuilds(strs));
  }

  /**
   * There is only one descending arrangement of a multiset of numbers, so
   * any sorting algorithm (Go's sort.Sort is not stable) gives the same
   * sequence.
   */
  lemma {:induction false} DescendingUnique(a: seq<int>, b: seq<int>)
    requires Descending(a) && Descending(b)
    requires multiset(a) == multiset(b)
    ensures a == b
    decreases |a|
  {
    assert |a| == |multiset(a)| == |multiset(b)| == |b|;
    if |a| > 0 {
      assert a[0] in multiset(b) && b[0] in multiset(a);
      DescendingHeadIsMax(a, b[0]);
      DescendingHeadIsMax(b, a[0]);
      DescendingTail(a);
      DescendingTail(b);
      assert a[0] == b[0];
      MultisetTail(a);
      MultisetTail(b);
      MultisetCancel(a[0], multiset(a[1..]), multiset(b[1..]));
      DescendingUnique(a[1..], b[1..]);
      assert a == [a[0]] + a[1..] && b == [b[0]] + b[1..];
    }
  }

  /** Equal multisets stay equal after one element is taken out of each. */
  lemma MultisetCancel(h: int, x: multiset<int>, y: multiset<int>)
    requires multiset{h} + x == multiset{h} + y
    ensures x == y
  {
    forall v ensures x[v] == y[v] {
      assert (multiset{h} + x)[v] == (multiset{h} + y)[v];
    }
  }

  /** The head of a descending sequence is its largest element. */
  lemma DescendingHeadIsMax(s: seq<int>, x: int)
    requires Descending(s) && x in multiset(s)
    ensures |s| > 0 && s[0] >= x
  {
    assert x in s;
    var i :| 0 <= i < |s| && s[i] == x;
    if i > 0 {
      assert s[0] >= s[i];
    }
  }

  /** The tail of a descending sequence is descending. */
  lemma DescendingTail(s: seq<int>)
    requires Descending(s) && |s| > 0
    ensures Descending(s[1..])
  {
    forall i, j | 0 <= i < j < |s| - 1 ensures s[1..][i] >= s[1..][j] {
      assert s[1..][i] == s[i + 1] && s[1..][j] == s[j + 1];
    }
  }

  // ---------------------------------------------------------------------
  // FindBaseProfileFromQiniu
  // ---------------------------------------------------------------------

  /**
   * isBuildSucceeded: finished.json decodes and its "passed" field is true.
   * `decode` stands for json.Unmarshal into the status record: None when
   * the text does not decode, else the passed field.
   */
  predicate IsBuildSucceeded(jsonText: string, decode: string -> Option<bool>)
  {
    decode(jsonText) == Some(true)
  }

  /** path.Join("logs", job): the directory of a job's builds. */
  function JobDir(job: string): string
  {
    PathJoin("logs", job)
  }

  /** The directory of one build of a job. */
  function BuildDir(job: string, build: int): string
  {
    PathJoin(JobDir(job), IntToString(build))
  }

  /** The key of a build's finished.json. */
  function StatusKey(job: string, build: int): string
  {
    PathJoin(BuildDir(job, build), StatusJson)
  }

  /** The key of a profile among a build's artifacts. */
  function ProfileKey(job: string, build: int, name: string): string
  {
    PathJoin(PathJoin(BuildDir(job, build), ArtifactsDirName), name)
  }

  /** A build whose finished.json can be read and reports success. */
  predicate Healthy(job: string, build: int, read: string -> Result<string, string>, decode: string -> Option<bool>)
  {
    read(StatusKey(job, build)).Ok? && IsBuildSucceeded(read(StatusKey(job, build)).value, decode)
  }

  /** The position of the first build of `builds` that passes `ok`, if any: the loop's break. */
  function FirstHealthy(builds: seq<int>, ok: int -> bool): (r: Option<nat>)
    ensures r.Some? ==> r.value < |builds| && ok(builds[r.value])
    ensures r.Some? ==> forall j :: 0 <= j < r.value ==> !ok(builds[j])
    ensures r.None? ==> forall j :: 0 <= j < |builds| ==> !ok(builds[j])
  {
    if |builds| == 0 then None
    else if ok(builds[0]) then Some(0)
    else
      var rest := FirstHealthy(builds[1..], ok);
      assert forall j :: 1 <= j < |builds| ==> builds[j] == builds[1..][j - 1];
      match rest
      case None => None
      case Some(k) => Some(k + 1)
  }

  /** The message a failed listing is reported with. */
  function ListingError(job: string, err: string): string
  {
    "error listing qiniu objects, prowjob:" + job + ", err:" + err
  }

  /**
   * FindBaseProfileFromQiniu. `list` answers ListSubDirs for a prefix and
   * `read` answers ReadObject for a key. Ok(None) is Go's (nil, nil): no
   * build listed, or no healthy one.
   */
  function FindBaseProfile(job: string, name: string, list: string -> Result<seq<string>, string>,
                           read: string -> Result<string, string>, decode: string -> Option<bool>)
    : (r: Result<Option<string>, string>)
    ensures list(JobDir(job) + "/").Err? ==> r == Err(ListingError(job, list(JobDir(job) + "/").error))
    ensures list(JobDir(job) + "/") == Ok([]) ==> r == Ok(None)
    ensures r.Ok? && r.value.Some? ==> exists b :: read(ProfileKey(job, b, name)) == Ok(r.value.value)
  {
    match list(JobDir(job) + "/")
    case Err(e) => Err(ListingError(job, e))
    case Ok(dirs) =>
      if |dirs| == 0 then Ok(None)
      else
        var builds := SortBuilds(dirs);
        match FirstHealthy(builds, b => Healthy(job, b, read, decode))
        case None => Ok(None)
        case Some(k) =>
          match read(ProfileKey(job, builds[k], name))
          case Ok(text) => Ok(Some(text))
          case Err(e) => Err(e)
  }

  /**
   * The profile is read from the highest-numbered listed build that is
   * healthy.
   */
  lemma FindBaseProfileHighest(job: string, name: string, list: string -> Result<seq<string>, string>,
                               read: string -> Result<string, string>, decode: string -> Option<bool>,
                               dirs: seq<string>, i: nat)
    requires list(JobDir(job) + "/") == Ok(dirs)
    requires i < |dirs| && ParseInt(dirs[i]).Parsed?
    requires Healthy(job, ParseInt(dirs[i]).value, read, decode)
    requires forall j :: 0 <= j < |dirs| && ParseInt(dirs[j]).Parsed? && ParseInt(dirs[j]).value > ParseInt(dirs[i]).value
               ==> !Healthy(job, ParseInt(dirs[j]).value, read, decode)
    ensures FindBaseProfile(job, name, list, read, decode)
            == match read(ProfileKey(job, ParseInt(dirs[i]).value, name))
               case Ok(text) => Ok(Some(text))
               case Err(e) => Err(e)
  {
    var b := ParseInt(dirs[i]).value;
    var builds := SortBuilds(dirs);
    SortBuildsMember(dirs, b);
    var m :| 0 <= m < |builds| && builds[m] == b;
    var first := FirstHealthy(builds, b => Healthy(job, b, read, decode));
    assert first.Some?;
    var k := first.value;
    assert k <= m;
    SortBuildsMember(dirs, builds[k]);
    var i' :| 0 <= i' < |dirs| && ParseInt(dirs[i']) == Parsed(builds[k]);
    assert builds[k] >= b;
    assert builds[k] == b;
  }

  /** With no healthy build listed, nothing is read and the result is (nil, nil). */
  lemma FindBaseProfileNone(job: string, name: string, list: string -> Result<seq<string>, string>,
                            read: string -> Result<string, string>, decode: string -> Option<bool>,
                            dirs: seq<string>)
    requires list(JobDir(job) + "/") == Ok(dirs)
    requires forall j :: 0 <= j < |dirs| && ParseInt(dirs[j]).Parsed? ==> !Healthy(job, ParseInt(dirs[j]).value, read, decode)
    ensures FindBaseProfile(job, name, list, read, decode) == Ok(None)
  {
    var builds := SortBuilds(dirs);
    forall k | 0 <= k < |builds| ensures !Healthy(job, builds[k], read, decode) {
      SortBuildsMember(dirs, builds[k]);
    }
  }

  /**
   * For a job name and profile name free of '/', the profile key is
   * logs/<job>/<build>/artifacts/<name>.
   */
  lemma ProfileKeySplits(job: string, build: int, name: string)
    requires job != "" && name != "" && '/' !in job && '/' !in name
    ensures Split(ProfileKey(job, build, name), '/') == ["logs", job, IntToString(build), ArtifactsDirName, name]
  {
    var n := IntToString(build);
    IntToStringPlain(build);
    ProfileKeyIs(job, build, name);
    var parts := ["logs", job, n, ArtifactsDirName, name];
    JoinFive(parts, '/');
    assert forall i :: 0 <= i < |parts| ==> '/' !in parts[i];
    SplitJoin(parts, '/');
  }

  /** Five pieces joined: each pair separated by one `c`. */
  lemma JoinFive(parts: seq<string>, c: char)
    requires |parts| == 5
    ensures Join(parts, c) == parts[0] + [c] + parts[1] + [c] + parts[2] + [c] + parts[3] + [c] + parts[4]
  {
    var t := parts[2..];
    assert parts[1..][1..] == t;
    assert t == [parts[2], parts[3], parts[4]];
    JoinThree(parts[2], parts[3], parts[4], c);
  }

  /** A rendered integer is non-empty and holds no '/'. */
  lemma IntToStringPlain(build: int)
    ensures IntToString(build) != "" && '/' !in IntToString(build)
    ensures IntToString(build)[|IntToString(build)| - 1] != '/'
  {
    if build < 0 {
      var d := NatToString(-build);
      assert IntToString(build) == "-" + d;
      assert '/' !in d by { assert AllDigits(d); }
    } else {
      assert AllDigits(IntToString(build));
    }
  }

  /** The profile key as a concatenation, for '/'-free job and profile names. */
  lemma ProfileKeyIs(job: string, build: int, name: string)
    requires job != "" && name != "" && '/' !in job && '/' !in name
    ensures ProfileKey(job, build, name) == "logs" + "/" + job + "/" + IntToString(build) + "/" + ArtifactsDirName + "/" + name
  {
    var n := IntToString(build);
    IntToStringPlain(build);
    assert n[0] != '/' by { assert n[0] in n; }
    assert job[0] != '/' && job[|job| - 1] != '/' by {
      assert job[0] in job && job[|job| - 1] in job;
    }
    assert name[0] != '/' by { assert name[0] in name; }
    var d1 := "logs" + "/" + job;
    assert JobDir(job) == d1;
    var d2 := d1 + "/" + n;
    assert BuildDir(job, build) == d2;
    var d3 := d2 + "/" + ArtifactsDirName;
    assert PathJoin(d2, ArtifactsDirName) == d3;
    assert PathJoin(d3, name) == d3 + "/" + name;
  }

  /**
   * The listing of a job's directory names a build by its directory
   * "logs/<job>/<n>/"; the build id read back from it is n.
   */
  lemma BuildDirRoundTrip(job: string, n: nat)
    requires job != "" && job[0] != '/' && job[|job| - 1] != '/'
    ensures BuildId(BuildDir(job, n) + "/") == NatToString(n)
  {
    var p := "logs/" + job + "/";
    var d := NatToString(n);
    assert BuildDir(job, n) + "/" == p + d + "/";
    BuildIdOf(p, d);
  }

  /** ProfileArtifacts, the rule by which prow stores test artifacts. */
  datatype ProfileArtifacts = ProfileArtifacts(directory: string, profileName: string, changedProfileName: string)

  /** ProfileArtifacts.ProfilePath: path.Join(Directory, ProfileName). */
  function ProfilePath(a: ProfileArtifacts): (r: string)
    ensures a.directory == "" ==> r == a.profileName
    ensures a.directory != "" ==> IsPrefix(a.directory, r)
  {
    PathJoin(a.directory, a.profileName)
  }

  /** A directory and a name free of '/' come back out of the profile path. */
  lemma ProfilePathSplits(a: ProfileArtifacts)
    requires a.directory != "" && a.profileName != ""
    requires '/' !in a.directory && '/' !in a.profileName
    ensures Split(ProfilePath(a), '/') == [a.directory, a.profileName]
  {
    var parts := [a.directory, a.profileName];
    assert parts[1..] == [a.profileName];
    assert Join(parts, '/') == ProfilePath(a);
    SplitJoin(parts, '/');
  }

  // ---------------------------------------------------------------------
  // getBuildId
  // ---------------------------------------------------------------------

  /** Where the run of digits that ends just before `end` starts. */
  function DigitRunStart(s: string, end: nat): (k: nat)
    requires end <= |s|
    ensures k <= end
    ensures AllDigits(s[k..end])
    ensures k > 0 ==> !IsDigit(s[k - 1])
    decreases end
  {
    if end == 0 || !IsDigit(s[end - 1]) then end
    else
      var k := DigitRunStart(s, end - 1);
      assert s[k..end] == s[k..end - 1] + [s[end - 1]];
      k
  }

  /** A run of digits preceded by the start or by a non-digit starts where it does. */
  lemma {:induction false} DigitRunStartOf(s: string, end: nat, k: nat)
    requires k <= end <= |s|
    requires AllDigits(s[k..end])
    requires k == 0 || !IsDigit(s[k - 1])
    ensures DigitRunStart(s, end) == k
    decreases end
  {
    if end > k {
      assert s[end - 1] == s[k..end][end - 1 - k];
      assert s[k..end - 1] == s[k..end][..end - 1 - k];
      DigitRunStartOf(s, end - 1, k);
    }
  }

  /**
   * getBuildId: the match of `([0-9]+)/$`, that is the longest run of
   * digits just before a final '/', or "" when there is none.
   */
  function BuildId(dir: string): (r: string)
    ensures r != "" <==> |dir| >= 2 && dir[|dir| - 1] == '/' && IsDigit(dir[|dir| - 2])
    ensures r != "" ==> AllDigits(r) && IsSuffix(r + "/", dir)
    ensures r != "" && |r| + 1 < |dir| ==> !IsDigit(dir[|dir| - |r| - 2])
  {
    if |dir| >= 1 && dir[|dir| - 1] == '/' then
      var k := DigitRunStart(dir, |dir| - 1);
      assert dir[k..] == dir[k..|dir| - 1] + "/";
      dir[k..|dir| - 1]
    else ""
  }

  /** The digits before the final '/' of "<p><d>/" are d when p does not end in a digit. */
  lemma BuildIdOf(p: string, d: string)
    requires d != "" && AllDigits(d)
    requires p == "" || !IsDigit(p[|p| - 1])
    ensures BuildId(p + d + "/") == d
  {
    var s := p + d + "/";
    assert s[|p|..|s| - 1] == d;
    DigitRunStartOf(s, |s| - 1, |p|);
  }

  // ---------------------------------------------------------------------
  // Bucket listings: listEntries, ListAll, GetArtifactDetails, ListSubDirs
  // ---------------------------------------------------------------------

  /** The pauses, in milliseconds before jitter, between failed list calls. */
  const RetryWaitsMs: seq<int> := [16, 32, 64, 128, 256, 256, 512, 512]

  /** The prefix of the error a listing gives up with. */
  const TimedOutPrefix := "timed out: error accessing QINIU artifact: "

  /** One object of a listing: its key, its size in bytes and its upload time. */
  datatype ListItem = ListItem(key: string, fsize: Int64, putTime: Int64)

  /** Go's int64. */
  type Int64 = x: int | -0x8000_0000_0000_0000 <= x <= 0x7FFF_FFFF_FFFF_FFFF

  /** The bucket's answer to one ListFiles call. */
  datatype PageAnswer = PageFailed(err: string) | Page(entries: seq<ListItem>, nextMarker: string, hasNext: bool)

  /**
   * How a listing loop ended: the last page was read, it gave up, or the
   * answers supplied ran out while it was still asking (Go keeps asking).
   */
  datatype ListStatus = Done | TimedOut(msg: string) | Pending

  /**
   * What a listing loop collected, how it ended, how many calls it made
   * and the marker it sent with each call.
   */
  datatype Listing<T> = Listing(items: seq<T>, status: ListStatus, calls: nat, markers: seq<string>)

  /** The failed answers among `answers`. */
  function PageFailures(answers: seq<PageAnswer>): nat
  {
    if |answers| == 0 then 0
    else (if answers[0].PageFailed? then 1 else 0) + PageFailures(answers[1..])
  }

  /** The entries of the pages among `answers`, in order. */
  function PageEntries(answers: seq<PageAnswer>): seq<ListItem>
  {
    if |answers| == 0 then []
    else (if answers[0].Page? then answers[0].entries else []) + PageEntries(answers[1..])
  }

  /** The marker sent with the call after `a`, when `m` was sent with the call that got `a`. */
  function NextPageMarker(a: PageAnswer, m: string): string
  {
    if a.Page? then a.nextMarker else m
  }

  /** A listing with one more call in front, made with marker `m`. */
  function Prepend<T>(m: string, l: Listing<T>): (r: Listing<T>)
    ensures r.items == l.items && r.status == l.status && r.calls == l.calls
    ensures r.markers == [m] + l.markers
  {
    l.(markers := [m] + l.markers)
  }

  /**
   * The loop of listEntries from the k-th answer on, with `marker` to send
   * and `errs` errors met so far. The error count is never reset.
   */
  function ListEntriesFrom(answers: seq<PageAnswer>, k: nat, marker: string, errs: nat, acc: seq<ListItem>)
    : (r: Listing<ListItem>)
    requires k <= |answers| && errs <= |RetryWaitsMs|
    ensures k <= r.calls <= |answers|
    ensures |r.markers| == r.calls - k
    decreases |answers| - k
  {
    if k == |answers| then Listing(acc, Pending, k, [])
    else
      match answers[k]
      case PageFailed(e) =>
        if errs >= |RetryWaitsMs| then Listing(acc, TimedOut(TimedOutPrefix + e), k + 1, [marker])
        else Prepend(marker, ListEntriesFrom(answers, k + 1, marker, errs + 1, acc))
      case Page(entries, next, more) =>
        if more then Prepend(marker, ListEntriesFrom(answers, k + 1, next, errs, acc + entries))
        else Listing(acc + entries, Done, k + 1, [marker])
  }

  /**
   * The markers listEntries sends: first the one it starts with, then the
   * next marker of each page it read.
   */
  lemma {:induction false} ListEntriesFromMarkers(answers: seq<PageAnswer>, k: nat, marker: string, errs: nat, acc: seq<ListItem>)
    requires k <= |answers| && errs <= |RetryWaitsMs|
    ensures var r := ListEntriesFrom(answers, k, marker, errs, acc);
      && (r.calls > k ==> r.markers[0] == marker)
      && (forall j :: k <= j < r.calls - 1 ==> r.markers[j + 1 - k] == NextPageMarker(answers[j], r.markers[j - k]))
    decreases |answers| - k
  {
    if k < |answers| {
      var a := answers[k];
      var stop := if a.PageFailed? then errs >= |RetryWaitsMs| else !a.hasNext;
      if !stop {
        var errs' := if a.PageFailed? then errs + 1 else errs;
        var acc' := if a.Page? then acc + a.entries else acc;
        var next := NextPageMarker(a, marker);
        var r := ListEntriesFrom(answers, k, marker, errs, acc);
        var rest := ListEntriesFrom(answers, k + 1, next, errs', acc');
        assert r.markers == [marker] + rest.markers;
        ListEntriesFromMarkers(answers, k + 1, next, errs', acc');
        forall j | k <= j < r.calls - 1 ensures r.markers[j + 1 - k] == NextPageMarker(answers[j], r.markers[j - k]) {
          if j > k {
            assert r.markers[j + 1 - k] == rest.markers[j - k] && r.markers[j - k] == rest.markers[j - k - 1];
          }
        }
      }
    }
  }

  /** The entries and the failures of answers k..n: those of answer k, then the rest. */
  lemma PageSliceStep(answers: seq<PageAnswer>, k: nat, n: nat)
    requires k < n <= |answers|
    ensures PageEntries(answers[k..n]) == (if answers[k].Page? then answers[k].entries else []) + PageEntries(answers[k + 1..n])
    ensures PageFailures(answers[k..n]) == (if answers[k].PageFailed? then 1 else 0) + PageFailures(answers[k + 1..n])
  {
    assert answers[k..n][0] == answers[k];
    assert answers[k..n][1..] == answers[k + 1..n];
  }

  /** What listEntries collects: the entries of the pages it read, in order. */
  lemma {:induction false} ListEntriesFromItems(answers: seq<PageAnswer>, k: nat, marker: string, errs: nat, acc: seq<ListItem>)
    requires k <= |answers| && errs <= |RetryWaitsMs|
    ensures var r := ListEntriesFrom(answers, k, marker, errs, acc);
      r.items == acc + PageEntries(answers[k..r.calls])
    decreases |answers| - k
  {
    var r := ListEntriesFrom(answers, k, marker, errs, acc);
    if k < |answers| {
      var a := answers[k];
      PageSliceStep(answers, k, r.calls);
      if a.PageFailed? && errs < |RetryWaitsMs| {
        ListEntriesFromItems(answers, k + 1, marker, errs + 1, acc);
      } else if a.Page? && a.hasNext {
        ListEntriesFromItems(answers, k + 1, a.nextMarker, errs, acc + a.entries);
      } else {
        assert answers[k + 1..r.calls] == [];
      }
    }
  }

  /**
   * When listEntries stops: it gives up on the ninth error counted over
   * the whole listing, with that error in the message, and it finishes at
   * the first page without a next one.
   */
  lemma ListEntriesFromStatus(answers: seq<PageAnswer>, k: nat, marker: string, errs: nat, acc: seq<ListItem>)
    requires k <= |answers| && errs <= |RetryWaitsMs|
    ensures var r := ListEntriesFrom(answers, k, marker, errs, acc);
      && (r.status.TimedOut? ==>
            errs + PageFailures(answers[k..r.calls]) == |RetryWaitsMs| + 1
            && r.calls > k && answers[r.calls - 1].PageFailed?
            && r.status.msg == TimedOutPrefix + answers[r.calls - 1].err)
      && (r.status.Done? ==>
            errs + PageFailures(answers[k..r.calls]) <= |RetryWaitsMs|
            && r.calls > k && answers[r.calls - 1].Page? && !answers[r.calls - 1].hasNext)
  {
    ListEntriesFromTimedOut(answers, k, marker, errs, acc);
    ListEntriesFromDone(answers, k, marker, errs, acc);
  }

  /** A time-out comes with the error count reaching nine, on a failed page. */
  lemma {:induction false} ListEntriesFromTimedOut(answers: seq<PageAnswer>, k: nat, marker: string, errs: nat, acc: seq<ListItem>)
    requires k <= |answers| && errs <= |RetryWaitsMs|
    ensures var r := ListEntriesFrom(answers, k, marker, errs, acc);
      r.status.TimedOut? ==>
        errs + PageFailures(answers[k..r.calls]) == |RetryWaitsMs| + 1
        && r.calls > k && answers[r.calls - 1].PageFailed?
        && r.status.msg == TimedOutPrefix + answers[r.calls - 1].err
    decreases |answers| - k
  {
    var r := ListEntriesFrom(answers, k, marker, errs, acc);
    if k < |answers| && r.status.TimedOut? {
      PageSliceStep(answers, k, r.calls);
      match answers[k]
      case PageFailed(e) =>
        if errs < |RetryWaitsMs| {
          ListEntriesFromTimedOut(answers, k + 1, marker, errs + 1, acc);
        } else {
          assert answers[k + 1..r.calls] == [];
        }
      case Page(entries, next, more) =>
        ListEntriesFromTimedOut(answers, k + 1, next, errs, acc + entries);
    }
  }

  /** A finished listing ends on a page without a next one, with at most eight errors. */
  lemma {:induction false} ListEntriesFromDone(answers: seq<PageAnswer>, k: nat, marker: string, errs: nat, acc: seq<ListItem>)
    requires k <= |answers| && errs <= |RetryWaitsMs|
    ensures var r := ListEntriesFrom(answers, k, marker, errs, acc);
      r.status.Done? ==>
        errs + PageFailures(answers[k..r.calls]) <= |RetryWaitsMs|
        && r.calls > k && answers[r.calls - 1].Page? && !answers[r.calls - 1].hasNext
    decreases |answers| - k
  {
    var r := ListEntriesFrom(answers, k, marker, errs, acc);
    if k < |answers| && r.status.Done? {
      PageSliceStep(answers, k, r.calls);
      match answers[k]
      case PageFailed(e) =>
        ListEntriesFromDone(answers, k + 1, marker, errs + 1, acc);
      case Page(entries, next, more) =>
        if more {
          ListEntriesFromDone(answers, k + 1, next, errs, acc + entries);
        } else {
          assert answers[k + 1..r.calls] == [];
        }
    }
  }

  /** listEntries: the whole loop from an empty marker and no errors. */
  function ListEntries(answers: seq<PageAnswer>): (r: Listing<ListItem>)
    ensures r.calls <= |answers| && |r.markers| == r.calls
    ensures r.calls > 0 ==> r.markers[0] == ""
    ensures forall j :: 0 <= j < r.calls - 1 ==> r.markers[j + 1] == NextPageMarker(answers[j], r.markers[j])
    ensures r.items == PageEntries(answers[..r.calls])
    ensures r.status.TimedOut? ==> PageFailures(answers[..r.calls]) == 9
    ensures r.status.TimedOut? ==> r.calls > 0 && answers[r.calls - 1].PageFailed? && r.status.msg == TimedOutPrefix + answers[r.calls - 1].err
    ensures r.status.Done? ==> PageFailures(answers[..r.calls]) < 9
  {
    ListEntriesFromMarkers(answers, 0, "", 0, []);
    ListEntriesFromItems(answers, 0, "", 0, []);
    ListEntriesFromStatus(answers, 0, "", 0, []);
    var r := ListEntriesFrom(answers, 0, "", 0, []);
    assert answers[0..r.calls] == answers[..r.calls];
    r
  }

  /** The keys of listed objects. */
  function Keys(items: seq<ListItem>): (r: seq<string>)
    ensures |r| == |items| && forall i :: 0 <= i < |r| ==> r[i] == items[i].key
  {
    seq(|items|, i requires 0 <= i < |items| => items[i].key)
  }

  /**
   * ListAll: the keys of every listed object, or the listing's error (the
   * entries collected before the error are dropped). None: the answers
   * supplied ran out before the listing ended.
   */
  function ListAll(answers: seq<PageAnswer>): (r: Option<Result<seq<string>, string>>)
    ensures r.Some? && r.value.Ok? <==> ListEntries(answers).status.Done?
    ensures r.Some? && r.value.Ok? ==> r.value.value == Keys(PageEntries(answers[..ListEntries(answers).calls]))
    ensures r.Some? && r.value.Err? ==> IsPrefix(TimedOutPrefix, r.value.error)
  {
    var l := ListEntries(answers);
    match l.status
    case Done => Some(Ok(Keys(l.items)))
    case TimedOut(msg) => Some(Err(msg))
    case Pending => None
  }

  /** splitKey: the key with the listing prefix removed. */
  function SplitKey(item: string, key: string): (r: string)
    ensures IsPrefix(key, item) ==> key + r == item
    ensures !IsPrefix(key, item) ==> r == item
  {
    TrimPrefix(item, key)
  }

  /** size: the byte count in decimal, a space, and "bytes". */
  function SizeText(fsize: Int64): (r: string)
    ensures ReadsAsSize(r, fsize)
  {
    var parts := [IntToString(fsize), "bytes"];
    assert parts[1..] == ["bytes"];
    assert JoinWith(["bytes"], " ") == "bytes";
    var r := JoinWith(parts, " ");
    assert r == IntToString(fsize) + " bytes";
    assert r[..|r| - 6] == IntToString(fsize);
    ParseIntToString(fsize);
    r
  }

  /** One row of the artifact page of a build. */
  datatype LogHistoryItem = LogHistoryItem(name: string, size: string, time: string, url: string)

  /** `s` is a byte count followed by " bytes", and the count parses back to `n`. */
  predicate ReadsAsSize(s: string, n: int)
  {
    IsSuffix(" bytes", s) && ParseInt(s[..|s| - 6]) == Parsed(n)
  }

  /**
   * GetArtifactDetails: one row per object under `key`. The row's time is
   * `timeConv` of the upload time and its URL is `accessUrl` of the key
   * (a signed private URL valid for an hour).
   */
  function ArtifactDetails(key: string, answers: seq<PageAnswer>, timeConv: int -> string, accessUrl: string -> string)
    : (r: Option<Result<seq<LogHistoryItem>, string>>)
    ensures r.Some? && r.value.Ok? ==> |r.value.value| == |ListEntries(answers).items|
    ensures r.Some? && r.value.Ok? ==> forall i :: 0 <= i < |r.value.value| ==>
      var e := ListEntries(answers).items[i];
      (IsPrefix(key, e.key) ==> key + r.value.value[i].name == e.key)
      && r.value.value[i].url == accessUrl(e.key)
      && ReadsAsSize(r.value.value[i].size, e.fsize)
    ensures r.Some? && r.value.Ok? ==> forall i :: 0 <= i < |r.value.value| ==>
      var e := ListEntries(answers).items[i];
      r.value.value[i].time == timeConv(e.putTime) && (!IsPrefix(key, e.key) ==> r.value.value[i].name == e.key)
    ensures r.None? <==> ListEntries(answers).status.Pending?
    ensures ListEntries(answers).status.Done? ==> r.Some? && r.value.Ok?
    ensures ListEntries(answers).status.TimedOut? ==>
              r == Some(Err(ListEntries(answers).status.msg)) && IsPrefix(TimedOutPrefix, r.value.error)
  {
    var l := ListEntries(answers);
    match l.status
    case Pending => None
    case TimedOut(msg) => Some(Err(msg))
    case Done =>
      Some(Ok(seq(|l.items|, i requires 0 <= i < |l.items| =>
        LogHistoryItem(SplitKey(l.items[i].key, key), SizeText(l.items[i].fsize),
                       timeConv(l.items[i].putTime), accessUrl(l.items[i].key)))))
  }

  /**
   * The artifact page lists the same objects as ListAll: it is shown
   * exactly when the listing ends, with one row per key, named by the key
   * without the build's prefix; a listing that times out fails both alike.
   */
  lemma ArtifactRowsAreListedKeys(key: string, answers: seq<PageAnswer>, timeConv: int -> string, accessUrl: string -> string)
    ensures var d := ArtifactDetails(key, answers, timeConv, accessUrl);
      var l := ListAll(answers);
      (d.Some? && d.value.Ok? <==> l.Some? && l.value.Ok?)
      && (d.Some? && d.value.Ok? ==>
            |d.value.value| == |l.value.value|
            && forall i :: 0 <= i < |d.value.value| ==> d.value.value[i].name == SplitKey(l.value.value[i], key))
      && (d.Some? && d.value.Err? <==> l.Some? && l.value.Err?)
      && (d.Some? && d.value.Err? ==> d.value.error == l.value.error)
  {
    var d := ArtifactDetails(key, answers, timeConv, accessUrl);
    var le := ListEntries(answers);
    if d.Some? && d.value.Ok? {
      var ks := ListAll(answers).value.value;
      assert ks == Keys(le.items);
      forall i | 0 <= i < |d.value.value| ensures d.value.value[i].name == SplitKey(ks[i], key) {
        var e := le.items[i];
        assert ks[i] == e.key;
        if IsPrefix(key, e.key) {
          assert key + d.value.value[i].name == e.key;
          assert d.value.value[i].name == e.key[|key|..];
        }
      }
    }
  }

  /** One entry of ListBucketContext: a sub-directory (or "") and the marker after it. */
  datatype DirEntry = DirEntry(dir: string, marker: string)

  /** The bucket's answer to one ListBucketContext call. */
  datatype DirAnswer = DirsFailed(err: string) | Dirs(entries: seq<DirEntry>)

  /** The marker after a page: that of its last entry, or the one before when it is empty. */
  function LastMarker(entries: seq<DirEntry>, marker: string): string
  {
    if |entries| == 0 then marker else entries[|entries| - 1].marker
  }

  /** The marker sent with the call after `a`, when `m` was sent with the call that got `a`. */
  function NextDirMarker(a: DirAnswer, m: string): string
  {
    if a.Dirs? then LastMarker(a.entries, m) else m
  }

  /** The build ids of a page's sub-directories; entries without a valid one are skipped. */
  function PageBuildIds(entries: seq<DirEntry>): seq<string>
  {
    if |entries| == 0 then []
    else
      var id := BuildId(entries[0].dir);
      (if entries[0].dir != "" && id != "" then [id] else []) + PageBuildIds(entries[1..])
  }

  /** What `ids` yields for the pages among `answers`, in order. */
  function AnswerIds(answers: seq<DirAnswer>, ids: seq<DirEntry> -> seq<string>): seq<string>
  {
    if |answers| == 0 then []
    else (if answers[0].Dirs? then ids(answers[0].entries) else []) + AnswerIds(answers[1..], ids)
  }

  /** Every build id a page yields is a non-empty run of digits. */
  lemma {:induction false} PageBuildIdsDigits(entries: seq<DirEntry>)
    ensures forall d :: d in PageBuildIds(entries) ==> d != "" && AllDigits(d)
    decreases |entries|
  {
    if |entries| > 0 {
      var id := BuildId(entries[0].dir);
      var head := if entries[0].dir != "" && id != "" then [id] else [];
      PageBuildIdsDigits(entries[1..]);
      assert PageBuildIds(entries) == head + PageBuildIds(entries[1..]);
      forall d | d in head ensures d != "" && AllDigits(d) {
        assert d == id;
      }
    }
  }

  /** Every build id a listing yields is a non-empty run of digits. */
  lemma {:induction false} AnswerBuildIdsDigits(answers: seq<DirAnswer>)
    ensures forall d :: d in AnswerIds(answers, PageBuildIds) ==> d != "" && AllDigits(d)
    decreases |answers|
  {
    if |answers| > 0 {
      if answers[0].Dirs? {
        PageBuildIdsDigits(answers[0].entries);
      }
      AnswerBuildIdsDigits(answers[1..]);
    }
  }

  /** The failures right before position k, `errs` of them, as the loop below assumes. */
  predicate FailedRun(answers: seq<DirAnswer>, k: nat, errs: nat)
    requires k <= |answers|
  {
    errs <= k && forall j :: k - errs <= j < k ==> answers[j].DirsFailed?
  }

  /**
   * The loop of ListSubDirs from the k-th answer on, `ids` giving the build
   * ids of a page: a failure counts against the retry budget, and every
   * page after which a marker remains resets the count.
   */
  function ListSubDirsFrom(answers: seq<DirAnswer>, ids: seq<DirEntry> -> seq<string>,
                           k: nat, marker: string, errs: nat, acc: seq<string>): (r: Listing<string>)
    requires k <= |answers| && errs <= |RetryWaitsMs|
    ensures k <= r.calls <= |answers|
    ensures |r.markers| == r.calls - k
    decreases |answers| - k
  {
    if k == |answers| then Listing(acc, Pending, k, [])
    else
      match answers[k]
      case DirsFailed(e) =>
        if errs >= |RetryWaitsMs| then Listing(acc, TimedOut(TimedOutPrefix + e), k + 1, [marker])
        else Prepend(marker, ListSubDirsFrom(answers, ids, k + 1, marker, errs + 1, acc))
      case Dirs(entries) =>
        var m := LastMarker(entries, marker);
        var acc' := acc + ids(entries);
        if m != "" then Prepend(marker, ListSubDirsFrom(answers, ids, k + 1, m, 0, acc'))
        else Listing(acc', Done, k + 1, [marker])
  }

  /**
   * The markers ListSubDirs sends: first the one it starts with, then the
   * marker of the last entry of each page it read.
   */
  lemma {:induction false} ListSubDirsFromMarkers(answers: seq<DirAnswer>, ids: seq<DirEntry> -> seq<string>,
                                                  k: nat, marker: string, errs: nat, acc: seq<string>)
    requires k <= |answers| && errs <= |RetryWaitsMs|
    ensures var r := ListSubDirsFrom(answers, ids, k, marker, errs, acc);
      && (r.calls > k ==> r.markers[0] == marker)
      && (forall j :: k <= j < r.calls - 1 ==> r.markers[j + 1 - k] == NextDirMarker(answers[j], r.markers[j - k]))
    decreases |answers| - k
  {
    if k < |answers| {
      var a := answers[k];
      var next := NextDirMarker(a, marker);
      var stop := if a.DirsFailed? then errs >= |RetryWaitsMs| else next == "";
      if !stop {
        var errs' := if a.DirsFailed? then errs + 1 else 0;
        var acc' := if a.Dirs? then acc + ids(a.entries) else acc;
        var r := ListSubDirsFrom(answers, ids, k, marker, errs, acc);
        var rest := ListSubDirsFrom(answers, ids, k + 1, next, errs', acc');
        assert r.markers == [marker] + rest.markers;
        ListSubDirsFromMarkers(answers, ids, k + 1, next, errs', acc');
        forall j | k <= j < r.calls - 1 ensures r.markers[j + 1 - k] == NextDirMarker(answers[j], r.markers[j - k]) {
          if j > k {
            assert r.markers[j + 1 - k] == rest.markers[j - k] && r.markers[j - k] == rest.markers[j - k - 1];
          }
        }
      }
    }
  }

  /** The ids of answers k..n: those of answer k, then the rest. */
  lemma DirSliceStep(answers: seq<DirAnswer>, ids: seq<DirEntry> -> seq<string>, k: nat, n: nat)
    requires k < n <= |answers|
    ensures AnswerIds(answers[k..n], ids)
            == (if answers[k].Dirs? then ids(answers[k].entries) else []) + AnswerIds(answers[k + 1..n], ids)
  {
    assert answers[k..n][0] == answers[k];
    assert answers[k..n][1..] == answers[k + 1..n];
  }

  /** What ListSubDirs collects: the ids of the pages it read, in order. */
  lemma {:induction false} ListSubDirsFromItems(answers: seq<DirAnswer>, ids: seq<DirEntry> -> seq<string>,
                                                k: nat, marker: string, errs: nat, acc: seq<string>)
    requires k <= |answers| && errs <= |RetryWaitsMs|
    ensures var r := ListSubDirsFrom(answers, ids, k, marker, errs, acc);
      r.items == acc + AnswerIds(answers[k..r.calls], ids)
    decreases |answers| - k
  {
    var r := ListSubDirsFrom(answers, ids, k, marker, errs, acc);
    if k < |answers| {
      DirSliceStep(answers, ids, k, r.calls);
      match answers[k]
      case DirsFailed(e) =>
        if errs < |RetryWaitsMs| {
          ListSubDirsFromItems(answers, ids, k + 1, marker, errs + 1, acc);
        } else {
          assert answers[k + 1..r.calls] == [];
        }
      case Dirs(entries) =>
        var m := LastMarker(entries, marker);
        if m != "" {
          ListSubDirsFromItems(answers, ids, k + 1, m, 0, acc + ids(entries));
        } else {
          assert answers[k + 1..r.calls] == [];
        }
    }
  }

  /** When ListSubDirs gives up: only after nine failures in a row, with the last error in the message. */
  lemma {:induction false} ListSubDirsFromTimeout(answers: seq<DirAnswer>, ids: seq<DirEntry> -> seq<string>,
                                                  k: nat, marker: string, errs: nat, acc: seq<string>)
    requires k <= |answers| && errs <= |RetryWaitsMs|
    requires FailedRun(answers, k, errs)
    ensures var r := ListSubDirsFrom(answers, ids, k, marker, errs, acc);
      r.status.TimedOut? ==>
        && r.calls >= |RetryWaitsMs| + 1
        && (forall j :: r.calls - |RetryWaitsMs| - 1 <= j < r.calls ==> answers[j].DirsFailed?)
        && r.status.msg == TimedOutPrefix + answers[r.calls - 1].err
    decreases |answers| - k
  {
    if k < |answers| {
      match answers[k]
      case DirsFailed(e) =>
        if errs < |RetryWaitsMs| {
          ListSubDirsFromTimeout(answers, ids, k + 1, marker, errs + 1, acc);
        }
      case Dirs(entries) =>
        var m := LastMarker(entries, marker);
        if m != "" {
          ListSubDirsFromTimeout(answers, ids, k + 1, m, 0, acc + ids(entries));
        }
    }
  }

  /** When ListSubDirs finishes: at the first page after which no marker remains. */
  lemma {:induction false} ListSubDirsFromDone(answers: seq<DirAnswer>, ids: seq<DirEntry> -> seq<string>,
                                               k: nat, marker: string, errs: nat, acc: seq<string>)
    requires k <= |answers| && errs <= |RetryWaitsMs|
    ensures var r := ListSubDirsFrom(answers, ids, k, marker, errs, acc);
      r.status.Done? ==>
        && r.calls > k && answers[r.calls - 1].Dirs?
        && LastMarker(answers[r.calls - 1].entries, r.markers[r.calls - 1 - k]) == ""
    decreases |answers| - k
  {
    if k < |answers| {
      match answers[k]
      case DirsFailed(e) =>
        if errs < |RetryWaitsMs| {
          ListSubDirsFromDone(answers, ids, k + 1, marker, errs + 1, acc);
        }
      case Dirs(entries) =>
        var m := LastMarker(entries, marker);
        if m != "" {
          ListSubDirsFromDone(answers, ids, k + 1, m, 0, acc + ids(entries));
        }
    }
  }

  /** ListSubDirs: the whole loop from an empty marker and no errors. */
  function ListSubDirs(answers: seq<DirAnswer>): (r: Listing<string>)
    ensures r.calls <= |answers| && |r.markers| == r.calls
    ensures r.calls > 0 ==> r.markers[0] == ""
    ensures forall j :: 0 <= j < r.calls - 1 ==> r.markers[j + 1] == NextDirMarker(answers[j], r.markers[j])
    ensures r.items == AnswerIds(answers[..r.calls], PageBuildIds)
    ensures forall d :: d in r.items ==> d != "" && AllDigits(d)
    ensures r.status.TimedOut? ==> r.calls >= 9 && forall j :: r.calls - 9 <= j < r.calls ==> answers[j].DirsFailed?
    ensures r.status.Done? ==> r.calls > 0 && answers[r.calls - 1].Dirs?
    ensures r.status.Done? ==> LastMarker(answers[r.calls - 1].entries, r.markers[r.calls - 1]) == ""
  {
    var r := ListSubDirsFrom(answers, PageBuildIds, 0, "", 0, []);
    ListSubDirsFromMarkers(answers, PageBuildIds, 0, "", 0, []);
    ListSubDirsFromItems(answers, PageBuildIds, 0, "", 0, []);
    ListSubDirsFromTimeout(answers, PageBuildIds, 0, "", 0, []);
    ListSubDirsFromDone(answers, PageBuildIds, 0, "", 0, []);
    assert answers[0..r.calls] == answers[..r.calls];
    AnswerBuildIdsDigits(answers[..r.calls]);
    r
  }

  // ---------------------------------------------------------------------
  // The ranged reader: runWithRetry, shouldRetry, NewRangeReader
  // ---------------------------------------------------------------------

  /** What one invocation of a retried function reports: try again?, and its error. */
  datatype Attempt = Attempt(retry: bool, err: Option<string>)

  /** An attempt that ends the retries: no retry wanted and no error. */
  predicate Settled(a: Attempt)
  {
    !a.retry && a.err.None?
  }

  /** How a retried call ended: how many invocations were made and the error it returns. */
  datatype RetryOutcome = RetryOutcome(calls: nat, err: Option<string>)

  /** The retry loop with `left` tries left after `done` invocations, the last reporting `err`. */
  function RetryLoop(left: int, f: nat -> Attempt, done: nat, err: Option<string>): (r: RetryOutcome)
    ensures r.calls >= done
    ensures r.calls <= done + (if left > 0 then left else 0)
    ensures left > 0 ==> r.calls > done
    ensures forall j :: done <= j < r.calls - 1 ==> !Settled(f(j))
    ensures r.calls < done + left ==> r.calls > done && Settled(f(r.calls - 1))
    ensures r.err == (if r.calls == done then err else f(r.calls - 1).err)
    decreases left
  {
    if left <= 0 then RetryOutcome(done, err)
    else
      var a := f(done);
      if Settled(a) then RetryOutcome(done + 1, a.err)
      else RetryLoop(left - 1, f, done + 1, a.err)
  }

  /**
   * runWithRetry: invocation j of the function answers f(j). At most
   * maxTry invocations; the first settled one ends the loop; the error
   * returned is that of the last invocation.
   */
  function RunWithRetry(maxTry: int, f: nat -> Attempt): (r: RetryOutcome)
    ensures r.calls <= (if maxTry > 0 then maxTry else 0)
    ensures maxTry > 0 ==> r.calls >= 1
    ensures forall j :: 0 <= j < r.calls - 1 ==> !Settled(f(j))
    ensures r.calls < maxTry ==> Settled(f(r.calls - 1))
    ensures r.err == (if r.calls == 0 then None else f(r.calls - 1).err)
  {
    RetryLoop(maxTry, f, 0, None)
  }

  /** shouldRetry: the storage throttles with 571 and 573. */
  predicate ShouldRetry(status: int)
  {
    status == 571 || status == 573
  }

  /** The error a 404 is reported with. */
  const ErrObjectNotExist := "qiniu storage: object not exists"

  /** The transport's answer to one request: an error, or a response status. */
  datatype Response = TransportError(err: string) | HttpStatus(code: int)

  /** How one request of NewRangeReader reports to the retry loop. */
  function AttemptOf(res: Response): (a: Attempt)
    ensures res.TransportError? ==> a == Attempt(true, Some(res.err))
    ensures res == HttpStatus(404) ==> a == Attempt(true, Some(ErrObjectNotExist))
    ensures a.err.None? <==> res.HttpStatus? && res.code != 404
    ensures Settled(a) <==> res.HttpStatus? && res.code != 404 && !ShouldRetry(res.code)
  {
    match res
    case TransportError(e) => Attempt(true, Some(e))
    case HttpStatus(c) => if c == 404 then Attempt(true, Some(ErrObjectNotExist)) else Attempt(ShouldRetry(c), None)
  }

  /** Two's-complement wrap-around into int64. */
  function Wrap64(n: int): (r: int)
    ensures MinInt64 <= r <= MaxInt64
    ensures (r - n) % 0x1_0000_0000_0000_0000 == 0
    ensures MinInt64 <= n <= MaxInt64 ==> r == n
  {
    (n - MinInt64) % 0x1_0000_0000_0000_0000 + MinInt64
  }

  /** The Range header of a request for `length` bytes from `offset`, when there is one. */
  function RangeHeader(offset: int, length: int): (r: Option<string>)
    ensures r.None? <==> length == 0 || (length < 0 && offset < 0)
    ensures r.Some? ==> IsPrefix("bytes=" + IntToString(offset) + "-", r.value)
  {
    if length < 0 && offset >= 0 then Some("bytes=" + IntToString(offset) + "-")
    else if length > 0 then Some("bytes=" + IntToString(offset) + "-" + IntToString(Wrap64(offset + length - 1)))
    else None
  }

  /** The HTTP verb: HEAD when no byte is wanted, else GET. */
  function Verb(length: int): (r: string)
    ensures r == "HEAD" <==> length == 0
    ensures r == "GET" <==> length != 0
  {
    if length == 0 then "HEAD" else "GET"
  }

  /**
   * The first and last byte a "bytes=<first>-[<last>]" header names, for
   * headers with non-negative positions.
   */
  function ParseByteRange(h: string): Option<(nat, Option<nat>)>
  {
    if !IsPrefix("bytes=", h) then None
    else
      var parts := Split(h[6..], '-');
      if |parts| != 2 || parts[0] == "" || !AllDigits(parts[0]) || !AllDigits(parts[1]) then None
      else Some((DigitsValue(parts[0]), if parts[1] == "" then None else Some(DigitsValue(parts[1]))))
  }

  /** Two digit strings joined by '-' split back into themselves. */
  lemma SplitDash(a: string, b: string)
    requires AllDigits(a) && AllDigits(b)
    ensures Split(a + "-" + b, '-') == [a, b]
  {
    var parts := [a, b];
    assert parts[1..] == [b];
    assert Join(parts, '-') == a + "-" + b;
    SplitJoin(parts, '-');
  }

  /** A header "bytes=<a>-<b>" of digit strings parses to their values. */
  lemma ParseByteRangeOf(a: string, b: string)
    requires a != "" && AllDigits(a) && AllDigits(b)
    ensures ParseByteRange("bytes=" + a + "-" + b)
            == Some((DigitsValue(a), if b == "" then None else Some(DigitsValue(b))))
  {
    var h := "bytes=" + a + "-" + b;
    assert IsPrefix("bytes=", h);
    assert h[6..] == a + "-" + b;
    SplitDash(a, b);
  }

  /**
   * The Range header names exactly the bytes asked for: from `offset` to
   * the end when the length is negative, and `length` bytes from `offset`
   * when the last position fits in int64.
   */
  lemma RangeHeaderParses(offset: nat, length: int)
    requires offset <= MaxInt64 && MinInt64 <= length <= MaxInt64
    ensures length < 0 ==> ParseByteRange(RangeHeader(offset, length).value) == Some((offset, None))
    ensures length > 0 && offset + length - 1 <= MaxInt64
            ==> ParseByteRange(RangeHeader(offset, length).value) == Some((offset, Some(offset + length - 1)))
  {
    var a := NatToString(offset);
    assert IntToString(offset) == a;
    if length < 0 {
      assert RangeHeader(offset, length).value == "bytes=" + a + "-" + "";
      ParseByteRangeOf(a, "");
    } else if length > 0 && offset + length - 1 <= MaxInt64 {
      var last: nat := offset + length - 1;
      var b := NatToString(last);
      assert IntToString(Wrap64(offset + length - 1)) == b;
      ParseByteRangeOf(a, b);
    }
  }

  /** The request NewRangeReader sends. */
  datatype Request = Request(verb: string, range: Option<string>)

  /** An opened reader: the request sent, the status of the response kept, and the requests made. */
  datatype Reader = Reader(request: Request, status: int, attempts: nat)

  /** The retry loop of NewRangeReader: up to three requests, request j answered by responses(j). */
  function ReadAttempts(responses: nat -> Response): (r: RetryOutcome)
    ensures 1 <= r.calls <= 3
    ensures forall j :: 0 <= j < r.calls - 1 ==> !Settled(AttemptOf(responses(j)))
    ensures r.calls < 3 ==> Settled(AttemptOf(responses(r.calls - 1)))
    ensures r.err == AttemptOf(responses(r.calls - 1)).err
  {
    var f := (j: nat) => AttemptOf(responses(j));
    var o := RunWithRetry(3, f);
    assert forall j :: 0 <= j < o.calls - 1 ==> !Settled(AttemptOf(responses(j))) by {
      forall j | 0 <= j < o.calls - 1 ensures !Settled(AttemptOf(responses(j))) {
        assert !Settled(f(j));
      }
    }
    o
  }

  /**
   * NewRangeReader: the request is retried up to three times; a transport
   * error or a 404 fails the attempt with its error, a 571 or 573 asks for
   * another try. Request j gets the answer responses(j).
   */
  function NewRangeReader(offset: int, length: int, responses: nat -> Response): (r: Result<Reader, string>)
    ensures r.Ok? ==> r.value.request == Request(Verb(length), RangeHeader(offset, length))
    ensures r.Ok? ==> 1 <= r.value.attempts <= 3 && responses(r.value.attempts - 1) == HttpStatus(r.value.status)
    ensures r.Ok? ==> r.value.status != 404
    ensures r.Ok? && r.value.attempts < 3 ==> !ShouldRetry(r.value.status)
    ensures r.Ok? ==> forall j :: 0 <= j < r.value.attempts - 1 ==> !Settled(AttemptOf(responses(j)))
    ensures r.Err? ==> exists j :: 0 <= j < 3 && AttemptOf(responses(j)).err == Some(r.error)
    ensures r.Err? <==> ReadAttempts(responses).err.Some?
    ensures r.Err? ==> r.error == ReadAttempts(responses).err.value
    ensures r.Ok? ==> r.value.attempts == ReadAttempts(responses).calls
  {
    var o := ReadAttempts(responses);
    match o.err
    case Some(e) => Err(e)
    case None =>
      var last := responses(o.calls - 1);
      Ok(Reader(Request(Verb(length), RangeHeader(offset, length)), last.code, o.calls))
  }

  /** NewReader reads the whole object: a GET from byte 0 to the end. */
  lemma NewReaderRequest(responses: nat -> Response)
    ensures NewRangeReader(0, -1, responses).Ok?
            ==> NewRangeReader(0, -1, responses).value.request == Request("GET", Some("bytes=0-"))
  {
    assert NatToString(0) == "0";
    assert IntToString(0) == "0";
    assert "bytes=" + IntToString(0) + "-" == "bytes=0-";
    assert Verb(-1) == "GET";
  }

  /**
   * Only the last attempt's outcome counts: a 404 that is followed by an
   * answer that is neither a 404 nor throttled opens the reader on the
   * second request.
   */
  lemma NotFoundThenFound(offset: int, length: int, responses: nat -> Response, code: int)
    requires responses(0) == HttpStatus(404) && responses(1) == HttpStatus(code)
    requires code != 404 && !ShouldRetry(code)
    ensures NewRangeReader(offset, length, responses).Ok?
    ensures NewRangeReader(offset, length, responses).value.attempts == 2
    ensures NewRangeReader(offset, length, responses).value.status == code
  {
    var o := ReadAttempts(responses);
    assert !Settled(AttemptOf(responses(0)));
    assert Settled(AttemptOf(responses(1)));
    assert o.calls == 2;
  }

  /** Two failed requests and a 404 report the 404, not the earlier transport errors. */
  lemma LastErrorReported(offset: int, length: int, responses: nat -> Response, e0: string, e1: string)
    requires responses(0) == TransportError(e0) && responses(1) == TransportError(e1)
    requires responses(2) == HttpStatus(404)
    ensures NewRangeReader(offset, length, responses) == Err(ErrObjectNotExist)
  {
    var o := ReadAttempts(responses);
    assert !Settled(AttemptOf(responses(0))) && !Settled(AttemptOf(responses(1)));
    assert o.calls == 3;
  }

  /** A 404 on every attempt fails the read with the not-exists error. */
  lemma MissingObjectFails(offset: int, length: int, responses: nat -> Response)
    requires forall j :: responses(j) == HttpStatus(404)
    ensures NewRangeReader(offset, length, responses) == Err(ErrObjectNotExist)
  {
    var o := ReadAttempts(responses);
    assert !Settled(AttemptOf(responses(o.calls - 1)));
  }

  /**
   * When every response is a throttling 571 or 573, the reader gives up
   * after three requests but reports no error: it returns the throttled
   * response.
   */
  lemma ThrottledReadSucceeds(offset: int, length: int, responses: nat -> Response)
    requires forall j :: responses(j).HttpStatus? && ShouldRetry(responses(j).code)
    ensures NewRangeReader(offset, length, responses).Ok?
    ensures NewRangeReader(offset, length, responses).value.attempts == 3
  {
    var o := ReadAttempts(responses);
    assert !Settled(AttemptOf(responses(o.calls - 1)));
  }

  /** The prefix of the error ReadObject reports when no reader can be opened. */
  const ReaderErrorPrefix := "error getting qiniu artifact reader: "

  /**
   * ReadObject: the whole object through NewReader; `bodyOf(j)` is what
   * ioutil.ReadAll gives for the body of the response to request j, the
   * bytes read or the read error, which ReadObject passes on unwrapped.
   */
  function ReadObject(responses: nat -> Response, bodyOf: nat -> Result<string, string>): (r: Result<string, string>)
    ensures NewRangeReader(0, -1, responses).Err? ==>
              r == Err(ReaderErrorPrefix + NewRangeReader(0, -1, responses).error)
    ensures NewRangeReader(0, -1, responses).Ok? ==>
              r == bodyOf(NewRangeReader(0, -1, responses).value.attempts - 1)
    ensures r.Err? <==> ReadAttempts(responses).err.Some? || bodyOf(ReadAttempts(responses).calls - 1).Err?
    ensures ReadAttempts(responses).err.Some? ==> r.error == ReaderErrorPrefix + ReadAttempts(responses).err.value
    ensures ReadAttempts(responses).err.None? ==> r == bodyOf(ReadAttempts(responses).calls - 1)
  {
    match NewRangeReader(0, -1, responses)
    case Err(e) => Err(ReaderErrorPrefix + e)
    case Ok(reader) => bodyOf(reader.attempts - 1)
  }

  /**
   * A reader that opens on the first request but whose body cannot be read
   * makes ReadObject fail with the read error itself, without the reader
   * prefix.
   */
  lemma ReadErrorPassedOn(responses: nat -> Response, bodyOf: nat -> Result<string, string>, e: string)
    requires responses(0).HttpStatus? && responses(0).code == 200
    requires bodyOf(0) == Err(e)
    ensures ReadObject(responses, bodyOf) == Err(e)
  {
    assert Settled(AttemptOf(responses(0)));
  }

  // ---------------------------------------------------------------------
  // tools.go
  // ---------------------------------------------------------------------

  /** strings.ReplaceAll with a one-character pattern and replacement replaces that character. */
  lemma {:induction false} ReplaceAllOneChar(s: string, a: char, b: char)
    ensures ReplaceAll(s, [a], [b]) == ReplaceChar(s, a, b)
    decreases |s|
  {
    if |s| > 0 {
      ReplaceAllOneChar(s[1..], a, b);
      assert IsPrefix([a], s) <==> s[0] == a;
      assert s[|[a]|..] == s[1..];
    }
  }

  /** ToSlash: every '\' becomes '/', and nothing else changes. */
  function ToSlash(path: string): (r: string)
    ensures |r| == |path|
    ensures '\\' !in r
    ensures forall i :: 0 <= i < |path| ==> r[i] == (if path[i] == '\\' then '/' else path[i])
  {
    ReplaceAllOneChar(path, '\\', '/');
    ReplaceAll(path, "\\", "/")
  }

  /** Converting twice is converting once. */
  lemma ToSlashIdempotent(path: string)
    ensures ToSlash(ToSlash(path)) == ToSlash(path)
  {
    var r := ToSlash(path);
    assert forall i :: 0 <= i < |r| ==> r[i] != '\\';
  }

  /** Artifact: the build artifact's name is the name with the platform's extension appended. */
  function Artifact(name: string, artifactExt: string): (r: string)
    ensures IsPrefix(name, r) && IsSuffix(artifactExt, r)
    ensures |r| == |name| + |artifactExt|
  {
    name + artifactExt
  }

  /**
   * ShellCommand: the argument vector of the shell, its command option and
   * one command string that joins the name and the arguments with single
   * spaces.
   */
  function ShellCommand(shell: string, optCmd: string, name: string, args: seq<string>): (r: seq<string>)
    ensures |r| == 3 && r[0] == shell && r[1] == optCmd
    ensures IsPrefix(name, r[2])
    ensures args == [] ==> r[2] == name
  {
    var parts := [name] + args;
    assert parts[0] == name;
    JoinStartsWithFirst(parts, ' ');
    [shell, optCmd, Join(parts, ' ')]
  }

  /** A join starts with its first piece. */
  lemma JoinStartsWithFirst(parts: seq<string>, c: char)
    requires |parts| >= 1
    ensures IsPrefix(parts[0], Join(parts, c))
  {
    if |parts| > 1 {
      assert Join(parts, c) == parts[0] + ([c] + Join(parts[1..], c));
    }
  }

  /** A name and arguments free of spaces are recovered by splitting the command string on spaces. */
  lemma ShellCommandSplits(shell: string, optCmd: string, name: string, args: seq<string>)
    requires ' ' !in name && forall i :: 0 <= i < |args| ==> ' ' !in args[i]
    ensures Split(ShellCommand(shell, optCmd, name, args)[2], ' ') == [name] + args
  {
    var parts := [name] + args;
    assert forall i :: 1 <= i < |parts| ==> parts[i] == args[i - 1];
    SplitJoin(parts, ' ');
  }
}

=== FILE: service_store.dfy ===
/**
 * The registry of services under test kept by the cover server: a map
 * from service name to its addresses, each with the time it was last
 * seen, and the "name&address&time" line file it is persisted to. Times
 * are milliseconds; the clock, the time format and its parser are inputs.
 */
module ServiceStore {
  import opened Wrappers
  import opened Text
  import opened Sums
  import opened Filter

  /** Addresses not seen for longer than this are evicted. */
  const TimeoutMillis := 20000

  const ErrServiceAlreadyRegistered := "service already registered"
  const ErrNoServiceFound := "no service found"

  datatype ServiceAddress = ServiceAddress(address: string, active: int)

  type Services = map<string, seq<ServiceAddress>>

  /** The outcome of a store operation: the new contents and the error returned, if any. */
  datatype Outcome = Outcome(services: Services, err: Option<string>)

  /** serviceAddress.isTimeout at time `now`. */
  predicate IsTimeout(a: ServiceAddress, now: int)
  {
    now - a.active > TimeoutMillis
  }

  /** The addresses of a list of entries, in order. */
  function AddressesOf(addrs: seq<ServiceAddress>): (r: seq<string>)
    ensures |r| == |addrs| && forall i :: 0 <= i < |addrs| ==> r[i] == addrs[i].address
  {
    seq(|addrs|, i requires 0 <= i < |addrs| => addrs[i].address)
  }

  predicate HasAddress(addrs: seq<ServiceAddress>, address: string)
  {
    exists i :: 0 <= i < |addrs| && addrs[i].address == address
  }

  /** The store keeps no name without addresses. */
  predicate NoEmptyLists(s: Services)
  {
    forall n :: n in s ==> |s[n]| > 0
  }

  /** The position of the first entry with this address, or -1. */
  function FirstWithAddress(addrs: seq<ServiceAddress>, address: string): (r: int)
    ensures -1 <= r < |addrs|
    ensures r >= 0 ==> addrs[r].address == address && forall j :: 0 <= j < r ==> addrs[j].address != address
    ensures r < 0 <==> !HasAddress(addrs, address)
  {
    if |addrs| == 0 then -1
    else if addrs[|addrs| - 1].address == address && FirstWithAddress(addrs[..|addrs| - 1], address) < 0 then |addrs| - 1
    else
      var r := FirstWithAddress(addrs[..|addrs| - 1], address);
      if r < 0 then
        assert forall j :: 0 <= j < |addrs| - 1 ==> addrs[j] == addrs[..|addrs| - 1][j];
        -1
      else
        assert addrs[r] == addrs[..|addrs| - 1][r];
        r
  }

  /**
   * memoryStore.Add: a known address of the name only has its time
   * refreshed (the first entry with it) and the call reports that it was
   * already registered; otherwise the address is appended to the name's
   * list, which is created when the name is new.
   */
  function Add(s: Services, name: string, address: string, now: int): (r: Outcome)
    ensures r.err.Some? <==> name in s && HasAddress(s[name], address)
    ensures r.err.Some? ==> r.err.value == ErrServiceAlreadyRegistered
    ensures r.err.None? ==> r.services == s[name := (if name in s then s[name] else []) + [ServiceAddress(address, now)]]
    ensures r.err.Some? ==> r.services.Keys == s.Keys && AddressesOf(r.services[name]) == AddressesOf(s[name])
    ensures forall n :: n in s && n != name ==> n in r.services && r.services[n] == s[n]
  {
    if name in s then
      var addrs := s[name];
      var i := FirstWithAddress(addrs, address);
      if i >= 0 then
        var refreshed := addrs[i := ServiceAddress(address, now)];
        assert AddressesOf(refreshed) == AddressesOf(addrs);
        Outcome(s[name := refreshed], Some(ErrServiceAlreadyRegistered))
      else Outcome(s[name := addrs + [ServiceAddress(address, now)]], None)
    else
      assert [] + [ServiceAddress(address, now)] == [ServiceAddress(address, now)];
      Outcome(s[name := [ServiceAddress(address, now)]], None)
  }

  /** memoryStore.Get: a name's addresses in insertion order, or nil for an unknown name. */
  function Get(s: Services, name: string): (r: Option<seq<string>>)
    ensures r.None? <==> name !in s
    ensures r.Some? ==> |r.value| == |s[name]| && forall i :: 0 <= i < |s[name]| ==> r.value[i] == s[name][i].address
  {
    if name in s then Some(AddressesOf(s[name])) else None
  }

  /** A new address is returned last by Get; a known one leaves every Get unchanged. */
  lemma GetAfterAdd(s: Services, name: string, address: string, now: int, other: string)
    ensures var r := Add(s, name, address, now);
      && (r.err.None? ==> Get(r.services, name) == Some((if name in s then AddressesOf(s[name]) else []) + [address]))
      && (r.err.Some? ==> Get(r.services, other) == Get(s, other))
      && (other != name ==> Get(r.services, other) == Get(s, other))
  {
    var r := Add(s, name, address, now);
    if r.err.None? {
      var before := if name in s then s[name] else [];
      assert AddressesOf(before + [ServiceAddress(address, now)]) == AddressesOf(before) + [address];
    }
  }

  /** Adding the same address twice reports the second call and keeps one entry. */
  lemma AddTwice(s: Services, name: string, address: string, t0: int, t1: int)
    ensures var r0 := Add(s, name, address, t0);
      var r1 := Add(r0.services, name, address, t1);
      r1.err == Some(ErrServiceAlreadyRegistered) && Get(r1.services, name) == Get(r0.services, name)
  {
    var r0 := Add(s, name, address, t0);
    if r0.err.None? {
      var l := r0.services[name];
      assert l[|l| - 1].address == address;
    }
  }

  /** Adding keeps the store free of empty lists. */
  lemma AddNoEmptyLists(s: Services, name: string, address: string, now: int)
    requires NoEmptyLists(s)
    ensures NoEmptyLists(Add(s, name, address, now).services)
  {
  }

  /** memoryStore.GetAll: every name with its addresses. */
  function GetAll(s: Services): (r: map<string, seq<string>>)
    ensures r.Keys == s.Keys
    ensures forall n :: Get(s, n) == (if n in r then Some(r[n]) else None)
  {
    map n | n in s :: AddressesOf(s[n])
  }

  /** memoryStore.Init: the store is emptied. */
  function Init(s: Services): (r: Services)
    ensures forall n :: Get(r, n).None?
  {
    map[]
  }

  /** The entries of a list that do not carry the address. */
  function Without(addrs: seq<ServiceAddress>, address: string): seq<ServiceAddress>
  {
    Keep(addrs, (a: ServiceAddress) => a.address != address)
  }

  /**
   * memoryStore.Remove: the address is taken out of every name's list, and
   * names left empty are deleted; "no service found" when no list had it.
   * Each iteration of the loop touches only its own name, so the order of
   * the range does not matter.
   */
  function Remove(s: Services, address: string): (r: Outcome)
    ensures r.err.Some? <==> forall n :: n in s ==> !HasAddress(s[n], address)
    ensures r.err.Some? ==> r.err.value == ErrNoServiceFound
    ensures NoEmptyLists(r.services)
    ensures forall n :: n in r.services ==> n in s && !HasAddress(r.services[n], address)
    ensures forall n, i :: n in s && 0 <= i < |s[n]| && s[n][i].address != address ==> n in r.services && s[n][i] in r.services[n]
    ensures forall n :: n in r.services ==> multiset(r.services[n]) <= multiset(s[n])
  {
    var m := map n | n in s && |Without(s[n], address)| > 0 :: Without(s[n], address);
    var found := exists n :: n in s && HasAddress(s[n], address);
    forall n, i | n in s && 0 <= i < |s[n]| && s[n][i].address != address ensures n in m && s[n][i] in m[n] {
      assert s[n][i] in Without(s[n], address);
    }
    forall n | n in m ensures !HasAddress(m[n], address) {
      assert forall i :: 0 <= i < |m[n]| ==> m[n][i].address != address;
    }
    if !found then Outcome(m, Some(ErrNoServiceFound))
    else Outcome(m, None)
  }

  /**
   * Remove keeps each surviving list in its original order: a name's new
   * list is what the inner append loop of the source builds from its old
   * list, the order-preserving filter on "another address", and a name
   * stays exactly when that filter leaves something.
   */
  lemma RemoveKeepsOrder(s: Services, address: string, keep: ServiceAddress -> bool)
    requires forall a :: keep(a) == (a.address != address)
    ensures var r := Remove(s, address).services;
      forall n :: n in r ==> r[n] == Keep(s[n], keep) && r[n] == AppendLoop(s[n], keep, [])
    ensures var r := Remove(s, address).services;
      forall n :: n in s ==> (n in r <==> Keep(s[n], keep) != [])
  {
    forall n | n in s ensures Without(s[n], address) == Keep(s[n], keep) == AppendLoop(s[n], keep, []) {
      KeepCongruent(s[n], (a: ServiceAddress) => a.address != address, keep);
      AppendLoopIsKeep(s[n], keep, []);
    }
  }

  /** Removing an address a second time finds nothing and changes nothing. */
  lemma RemoveTwice(s: Services, address: string)
    ensures var r0 := Remove(s, address);
      var r1 := Remove(r0.services, address);
      r1.err == Some(ErrNoServiceFound) && r1.services == r0.services
  {
    var s0 := Remove(s, address).services;
    RemoveAbsent(s0, address);
  }

  /** Removing an address no list has reports it and changes a store without empty lists in no way. */
  lemma RemoveAbsent(s: Services, address: string)
    requires NoEmptyLists(s)
    requires forall n :: n in s ==> !HasAddress(s[n], address)
    ensures Remove(s, address) == Outcome(s, Some(ErrNoServiceFound))
  {
    forall n | n in s ensures Without(s[n], address) == s[n] {
      WithoutAbsent(s[n], address);
    }
    var m := map n | n in s && |Without(s[n], address)| > 0 :: Without(s[n], address);
    assert m == s;
  }

  lemma WithoutAbsent(addrs: seq<ServiceAddress>, address: string)
    requires !HasAddress(addrs, address)
    ensures Without(addrs, address) == addrs
  {
    KeepAll(addrs, (a: ServiceAddress) => a.address != address);
  }

  /** The entries of a list still alive at `now`. */
  function Alive(addrs: seq<ServiceAddress>, now: int): seq<ServiceAddress>
  {
    Keep(addrs, (a: ServiceAddress) => !IsTimeout(a, now))
  }

  /** The names with live entries left, each with those entries. */
  function AliveMap(s: Services, now: int): Services
  {
    map n | n in s && |Alive(s[n], now)| > 0 :: Alive(s[n], now)
  }

  /** The outcome of Evict: the new contents and whether anything was removed. */
  datatype Eviction = Eviction(services: Services, removed: bool)

  /**
   * memoryStore.Evict: the timed-out entries are dropped, names left empty
   * are deleted, and the result says whether anything was dropped.
   */
  function Evict(s: Services, now: int): (r: Eviction)
    ensures r.removed <==> exists n, i :: n in s && 0 <= i < |s[n]| && IsTimeout(s[n][i], now)
    ensures NoEmptyLists(r.services)
    ensures forall n :: n in r.services ==> n in s
    ensures forall n, i :: n in r.services && 0 <= i < |r.services[n]| ==> !IsTimeout(r.services[n][i], now)
    ensures forall n, i :: n in s && 0 <= i < |s[n]| && !IsTimeout(s[n][i], now) ==> n in r.services && s[n][i] in r.services[n]
    ensures forall n :: n in r.services ==> multiset(r.services[n]) <= multiset(s[n])
  {
    var m := AliveMap(s, now);
    forall n, i | n in s && 0 <= i < |s[n]| && !IsTimeout(s[n][i], now) ensures n in m && s[n][i] in m[n] {
      assert s[n][i] in Alive(s[n], now);
    }
    forall n, i | n in m && 0 <= i < |m[n]| ensures !IsTimeout(m[n][i], now) {
      assert m[n][i] in Alive(s[n], now);
    }
    Eviction(m, exists n, i :: n in s && 0 <= i < |s[n]| && IsTimeout(s[n][i], now))
  }

  /**
   * Evict keeps each surviving list in its original order: a name's new
   * list is what the inner append loop of the source builds from its old
   * list, the order-preserving filter on "not timed out", and a name stays
   * exactly when that filter leaves something.
   */
  lemma EvictKeepsOrder(s: Services, now: int, keep: ServiceAddress -> bool)
    requires forall a :: keep(a) == !IsTimeout(a, now)
    ensures var r := Evict(s, now).services;
      forall n :: n in r ==> r[n] == Keep(s[n], keep) && r[n] == AppendLoop(s[n], keep, [])
    ensures var r := Evict(s, now).services;
      forall n :: n in s ==> (n in r <==> Keep(s[n], keep) != [])
  {
    var r := Evict(s, now).services;
    assert r == AliveMap(s, now);
    forall n | n in s ensures Alive(s[n], now) == Keep(s[n], keep) == AppendLoop(s[n], keep, []) {
      AliveIsLoop(s[n], now, keep);
    }
  }

  lemma AliveIsLoop(addrs: seq<ServiceAddress>, now: int, keep: ServiceAddress -> bool)
    requires forall a :: keep(a) == !IsTimeout(a, now)
    ensures Alive(addrs, now) == Keep(addrs, keep) == AppendLoop(addrs, keep, [])
  {
    KeepCongruent(addrs, (a: ServiceAddress) => !IsTimeout(a, now), keep);
    AppendLoopIsKeep(addrs, keep, []);
  }

  /** Evicting again at the same time removes nothing. */
  lemma EvictTwice(s: Services, now: int)
    ensures var r0 := Evict(s, now);
      var r1 := Evict(r0.services, now);
      !r1.removed && r1.services == r0.services
  {
    var r0 := Evict(s, now);
    var r1 := Evict(r0.services, now);
    forall n | n in r0.services ensures n in r1.services && r1.services[n] == r0.services[n] {
      KeepAll(r0.services[n], (a: ServiceAddress) => !IsTimeout(a, now));
    }
  }

  /** One persisted entry: a service name and one of its addresses. */
  datatype Record = Record(name: string, addr: ServiceAddress)

  /** The records of one name, in list order. */
  function Block(name: string, addrs: seq<ServiceAddress>): (r: seq<Record>)
    ensures |r| == |addrs| && forall i :: 0 <= i < |addrs| ==> r[i] == Record(name, addrs[i])
  {
    seq(|addrs|, i requires 0 <= i < |addrs| => Record(name, addrs[i]))
  }

  /** The records fileStore.save visits: the names in map order, each name's list in order. */
  function SaveRecords(s: Services, order: seq<string>): seq<Record>
    requires forall i :: 0 <= i < |order| ==> order[i] in s
  {
    if |order| == 0 then [] else Block(order[0], s[order[0]]) + SaveRecords(s, order[1..])
  }

  /** "name&address&time" for one record. */
  function LineOf(r: Record, fmtTime: int -> string): string
  {
    r.name + "&" + r.addr.address + "&" + fmtTime(r.addr.active)
  }

  function LinesOf(rs: seq<Record>, fmtTime: int -> string): (r: seq<string>)
    ensures |r| == |rs| && forall i :: 0 <= i < |rs| ==> r[i] == LineOf(rs[i], fmtTime)
  {
    seq(|rs|, i requires 0 <= i < |rs| => LineOf(rs[i], fmtTime))
  }

  /** fileStore.save: one line per entry, each ended by '\n'. */
  function SaveText(s: Services, order: seq<string>, fmtTime: int -> string): string
    requires Enumerates(order, s.Keys)
  {
    Render(LinesOf(SaveRecords(s, order), fmtTime))
  }

  /**
   * One line of fileStore.load: the '&'-separated non-empty fields must be
   * exactly three and the third must parse as a time.
   */
  function LoadLine(line: string, parseTime: string -> Option<int>): (r: Option<Record>)
    ensures r.Some? ==> |Fields(line, '&')| == 3 && parseTime(Fields(line, '&')[2]) == Some(r.value.addr.active)
    ensures r.Some? ==> r.value.name == Fields(line, '&')[0] && r.value.addr.address == Fields(line, '&')[1]
    ensures r.None? <==> |Fields(line, '&')| != 3 || parseTime(Fields(line, '&')[2]).None?
  {
    var ss := Fields(line, '&');
    if |ss| != 3 then None
    else match parseTime(ss[2])
      case None => None
      case Some(t) => Some(Record(ss[0], ServiceAddress(ss[1], t)))
  }

  /** The records of the lines that load, in file order. */
  function LoadRecords(lines: seq<string>, parseTime: string -> Option<int>): seq<Record>
  {
    if |lines| == 0 then []
    else match LoadLine(lines[0], parseTime)
      case None => LoadRecords(lines[1..], parseTime)
      case Some(r) => [r] + LoadRecords(lines[1..], parseTime)
  }

  /** The addresses recorded for `name`, in order. */
  function AddrsOf(rs: seq<Record>, name: string): seq<ServiceAddress>
  {
    if |rs| == 0 then []
    else
      var init := AddrsOf(rs[..|rs| - 1], name);
      if rs[|rs| - 1].name == name then init + [rs[|rs| - 1].addr] else init
  }

  /** The map load builds: each record appended to its name's list. */
  function Group(rs: seq<Record>): (m: Services)
    ensures forall n :: n in m <==> exists i :: 0 <= i < |rs| && rs[i].name == n
    ensures forall n :: n in m ==> m[n] == AddrsOf(rs, n)
  {
    if |rs| == 0 then map[]
    else
      var init := rs[..|rs| - 1];
      var last := rs[|rs| - 1];
      var m0 := Group(init);
      var m := m0[last.name := (if last.name in m0 then m0[last.name] else []) + [last.addr]];
      assert forall i :: 0 <= i < |init| ==> init[i] == rs[i];
      forall n | n !in m0 ensures AddrsOf(init, n) == [] {
        AddrsOfAbsent(init, n);
      }
      m
  }

  lemma {:induction false} AddrsOfAbsent(rs: seq<Record>, name: string)
    requires forall i :: 0 <= i < |rs| ==> rs[i].name != name
    ensures AddrsOf(rs, name) == []
    decreases |rs|
  {
    if |rs| > 0 {
      AddrsOfAbsent(rs[..|rs| - 1], name);
    }
  }

  /** fileStore.load of a text. */
  function Load(text: string, parseTime: string -> Option<int>): Services
  {
    Group(LoadRecords(ScanLines(text), parseTime))
  }

  lemma {:induction false} AddrsOfConcat(a: seq<Record>, b: seq<Record>, name: string)
    ensures AddrsOf(a + b, name) == AddrsOf(a, name) + AddrsOf(b, name)
    decreases |b|
  {
    if |b| == 0 {
      assert a + b == a;
    } else {
      var c := a + b;
      assert c[..|c| - 1] == a + b[..|b| - 1];
      assert c[|c| - 1] == b[|b| - 1];
      AddrsOfConcat(a, b[..|b| - 1], name);
    }
  }

  lemma {:induction false} AddrsOfBlock(n: string, addrs: seq<ServiceAddress>, name: string)
    ensures AddrsOf(Block(n, addrs), name) == if n == name then addrs else []
    decreases |addrs|
  {
    if |addrs| > 0 {
      var init := addrs[..|addrs| - 1];
      assert Block(n, addrs)[..|addrs| - 1] == Block(n, init);
      AddrsOfBlock(n, init, name);
      assert init + [addrs[|addrs| - 1]] == addrs;
    }
  }

  /** What save writes for a name is that name's list, whatever the map order. */
  lemma {:induction false} AddrsOfSave(s: Services, order: seq<string>, name: string)
    requires forall i :: 0 <= i < |order| ==> order[i] in s
    requires Distinct(order)
    ensures AddrsOf(SaveRecords(s, order), name) == if name in order then s[name] else []
    decreases |order|
  {
    if |order| > 0 {
      var tail := order[1..];
      assert order == [order[0]] + tail;
      DistinctCons(order[0], tail);
      AddrsOfSave(s, tail, name);
      AddrsOfConcat(Block(order[0], s[order[0]]), SaveRecords(s, tail), name);
      AddrsOfBlock(order[0], s[order[0]], name);
    }
  }

  /** The names of the records save writes are the names with entries. */
  lemma {:induction false} SaveNames(s: Services, order: seq<string>, name: string)
    requires forall i :: 0 <= i < |order| ==> order[i] in s
    ensures (exists i :: 0 <= i < |SaveRecords(s, order)| && SaveRecords(s, order)[i].name == name)
            <==> name in order && |s[name]| > 0
    decreases |order|
  {
    if |order| > 0 {
      var b := Block(order[0], s[order[0]]);
      var rest := SaveRecords(s, order[1..]);
      SaveNames(s, order[1..], name);
      var rs := SaveRecords(s, order);
      assert rs == b + rest;
      if name in order && |s[name]| > 0 {
        if name == order[0] {
          assert rs[0] == b[0];
        } else {
          assert name in order[1..];
          var i :| 0 <= i < |rest| && rest[i].name == name;
          assert rs[|b| + i] == rest[i];
        }
      }
      if exists i :: 0 <= i < |rs| && rs[i].name == name {
        var i :| 0 <= i < |rs| && rs[i].name == name;
        if i >= |b| {
          assert rest[i - |b|] == rs[i];
        } else {
          assert rs[i] == b[i] == Record(order[0], s[order[0]][i]);
          assert name == order[0] && |s[name]| > 0;
        }
      }
    }
  }

  /** What can be written and read back: no '&' or line break where a field needs none. */
  predicate Storable(s: Services, fmtTime: int -> string, parseTime: string -> Option<int>)
  {
    && NoEmptyLists(s)
    && (forall n :: n in s ==> FieldText(n))
    && (forall n, i :: n in s && 0 <= i < |s[n]| ==>
          FieldText(s[n][i].address)
          && FieldText(fmtTime(s[n][i].active)) && PlainLine(fmtTime(s[n][i].active))
          && parseTime(fmtTime(s[n][i].active)) == Some(s[n][i].active))
  }

  /** A non-empty field without '&' or '\n'. */
  predicate FieldText(t: string)
  {
    t != "" && '&' !in t && '\n' !in t
  }

  /** A storable record's line loads back as the record. */
  lemma LineRoundTrip(r: Record, fmtTime: int -> string, parseTime: string -> Option<int>)
    requires FieldText(r.name) && FieldText(r.addr.address) && FieldText(fmtTime(r.addr.active))
    requires parseTime(fmtTime(r.addr.active)) == Some(r.addr.active)
    ensures LoadLine(LineOf(r, fmtTime), parseTime) == Some(r)
  {
    var parts := [r.name, r.addr.address, fmtTime(r.addr.active)];
    JoinThree(parts[0], parts[1], parts[2], '&');
    assert Join(parts, '&') == LineOf(r, fmtTime);
    SplitJoin(parts, '&');
    assert NonEmpty(parts[2..]) == [parts[2]];
    assert NonEmpty(parts[1..]) == parts[1..];
    assert Fields(LineOf(r, fmtTime), '&') == parts;
  }

  lemma {:induction false} LoadLinesOf(rs: seq<Record>, fmtTime: int -> string, parseTime: string -> Option<int>)
    requires forall i :: 0 <= i < |rs| ==> LoadLine(LineOf(rs[i], fmtTime), parseTime) == Some(rs[i])
    ensures LoadRecords(LinesOf(rs, fmtTime), parseTime) == rs
    decreases |rs|
  {
    if |rs| > 0 {
      assert LinesOf(rs, fmtTime)[1..] == LinesOf(rs[1..], fmtTime);
      LoadLinesOf(rs[1..], fmtTime, parseTime);
    }
  }

  /** Every record save writes comes from the store. */
  lemma {:induction false} SaveRecordsFrom(s: Services, order: seq<string>, k: nat)
    requires forall i :: 0 <= i < |order| ==> order[i] in s
    requires k < |SaveRecords(s, order)|
    ensures var r := SaveRecords(s, order)[k];
      r.name in s && exists i :: 0 <= i < |s[r.name]| && s[r.name][i] == r.addr
    decreases |order|
  {
    var b := Block(order[0], s[order[0]]);
    var rs := SaveRecords(s, order);
    assert rs == b + SaveRecords(s, order[1..]);
    if k < |b| {
      assert rs[k] == b[k];
    } else {
      assert rs[k] == SaveRecords(s, order[1..])[k - |b|];
      SaveRecordsFrom(s, order[1..], k - |b|);
    }
  }

  /** The lines save writes load back as the records it visited. */
  lemma SaveLoadsRecords(s: Services, order: seq<string>, fmtTime: int -> string, parseTime: string -> Option<int>)
    requires Enumerates(order, s.Keys)
    requires Storable(s, fmtTime, parseTime)
    ensures LoadRecords(ScanLines(SaveText(s, order, fmtTime)), parseTime) == SaveRecords(s, order)
  {
    var rs := SaveRecords(s, order);
    var lines := LinesOf(rs, fmtTime);
    forall k | 0 <= k < |rs| ensures LoadLine(LineOf(rs[k], fmtTime), parseTime) == Some(rs[k]) && PlainLine(lines[k]) {
      SaveRecordsFrom(s, order, k);
      LineRoundTrip(rs[k], fmtTime, parseTime);
      assert PlainLine(fmtTime(rs[k].addr.active));
      assert lines[k] == (rs[k].name + "&" + rs[k].addr.address + "&") + fmtTime(rs[k].addr.active);
    }
    ScanRender(lines);
    LoadLinesOf(rs, fmtTime, parseTime);
  }

  /** Grouping the records save visits rebuilds the store. */
  lemma GroupSave(s: Services, order: seq<string>)
    requires Enumerates(order, s.Keys)
    requires NoEmptyLists(s)
    ensures Group(SaveRecords(s, order)) == s
  {
    var rs := SaveRecords(s, order);
    var m := Group(rs);
    forall n ensures n in m <==> n in s {
      SaveNames(s, order, n);
      if n in m {
        var i :| 0 <= i < |rs| && rs[i].name == n;
        assert SaveRecords(s, order)[i].name == n;
      }
      assert n in s ==> n in order && |s[n]| > 0;
    }
    forall n | n in m ensures m[n] == s[n] {
      AddrsOfSave(s, order, n);
    }
  }

  /** Loading what save wrote gives back the store, whatever order save ranged in. */
  lemma LoadSave(s: Services, order: seq<string>, fmtTime: int -> string, parseTime: string -> Option<int>)
    requires Enumerates(order, s.Keys)
    requires Storable(s, fmtTime, parseTime)
    ensures Load(SaveText(s, order, fmtTime), parseTime) == s
  {
    SaveLoadsRecords(s, order, fmtTime, parseTime);
    GroupSave(s, order);
  }
}

=== FILE: sums.dfy ===
/**
 * Sums over sequences, and the fact that a sum does not depend on the
 * order in which the terms are visited. Go ranges over maps in an
 * unspecified order; totals computed that way are modelled with these.
 */
module Sums {

  function Sum<T>(xs: seq<T>, f: T -> int): int
  {
    if |xs| == 0 then 0 else f(xs[0]) + Sum(xs[1..], f)
  }

  lemma {:induction false} SumConcat<T>(a: seq<T>, b: seq<T>, f: T -> int)
    ensures Sum(a + b, f) == Sum(a, f) + Sum(b, f)
    decreases |a|
  {
    if |a| > 0 {
      assert (a + b)[1..] == a[1..] + b;
      SumConcat(a[1..], b, f);
    } else {
      assert a + b == b;
    }
  }

  /** Taking one term out of a sum. */
  lemma SumRemove<T>(b: seq<T>, j: nat, f: T -> int)
    requires j < |b|
    ensures Sum(b, f) == f(b[j]) + Sum(b[..j] + b[j + 1..], f)
  {
    assert b == b[..j] + ([b[j]] + b[j + 1..]);
    SumConcat(b[..j], [b[j]] + b[j + 1..], f);
    SumConcat(b[..j], b[j + 1..], f);
  }

  /** Visiting the same terms in another order gives the same sum. */
  lemma {:induction false} SumPermutation<T>(a: seq<T>, b: seq<T>, f: T -> int)
    requires multiset(a) == multiset(b)
    ensures Sum(a, f) == Sum(b, f)
    decreases |a|
  {
    if |a| == 0 {
      assert |b| == |multiset(b)| == 0;
    } else {
      var j := PermutationRemove(a, b);
      SumPermutation(a[1..], b[..j] + b[j + 1..], f);
      SumRemove(b, j, f);
    }
  }

  /** Where the head of `a` sits in its permutation `b`, and what remains on both sides. */
  lemma PermutationRemove<T>(a: seq<T>, b: seq<T>) returns (j: nat)
    requires |a| > 0 && multiset(a) == multiset(b)
    ensures j < |b| && b[j] == a[0]
    ensures multiset(a[1..]) == multiset(b[..j] + b[j + 1..])
  {
    assert a[0] in multiset(b);
    j :| 0 <= j < |b| && b[j] == a[0];
    MultisetRemove(a, 0);
    MultisetRemove(b, j);
    assert a[..0] + a[1..] == a[1..];
  }

  lemma MultisetRemove<T>(b: seq<T>, j: nat)
    requires j < |b|
    ensures multiset(b[..j] + b[j + 1..]) == multiset(b) - multiset{b[j]}
  {
    assert b == b[..j] + [b[j]] + b[j + 1..];
  }

  /** A sum of terms each bounded by the matching term of another sum. */
  lemma {:induction false} SumMonotone<T>(xs: seq<T>, f: T -> int, g: T -> int)
    requires forall x :: x in xs ==> f(x) <= g(x)
    ensures Sum(xs, f) <= Sum(xs, g)
    decreases |xs|
  {
    if |xs| > 0 {
      assert xs[0] in xs;
      assert forall x :: x in xs[1..] ==> x in xs;
      SumMonotone(xs[1..], f, g);
    }
  }

  lemma {:induction false} SumNonNegative<T>(xs: seq<T>, f: T -> int)
    requires forall x :: x in xs ==> f(x) >= 0
    ensures Sum(xs, f) >= 0
    decreases |xs|
  {
    if |xs| > 0 {
      assert xs[0] in xs;
      assert forall x :: x in xs[1..] ==> x in xs;
      SumNonNegative(xs[1..], f);
    }
  }

  /** Pairwise different elements. */
  predicate Distinct<T(==)>(xs: seq<T>)
  {
    forall i, j :: 0 <= i < j < |xs| ==> xs[i] != xs[j]
  }

  /**
   * `order` lists every key exactly once: one possible order of a Go range
   * over a map with these keys.
   */
  predicate Enumerates<T(==)>(order: seq<T>, keys: set<T>)
  {
    Distinct(order) && (forall i :: 0 <= i < |order| ==> order[i] in keys) && (forall k :: k in keys ==> k in order)
  }

  lemma {:induction false} DistinctMultiplicity<T>(xs: seq<T>, x: T)
    requires Distinct(xs)
    ensures multiset(xs)[x] == if x in xs then 1 else 0
    decreases |xs|
  {
    if |xs| > 0 {
      assert xs == [xs[0]] + xs[1..];
      assert multiset(xs) == multiset{xs[0]} + multiset(xs[1..]);
      assert Distinct(xs[1..]) by {
        forall i, j | 0 <= i < j < |xs[1..]| ensures xs[1..][i] != xs[1..][j] {
          assert xs[1..][i] == xs[i + 1] && xs[1..][j] == xs[j + 1];
        }
      }
      assert xs[0] !in xs[1..] by {
        forall j | 0 <= j < |xs[1..]| ensures xs[1..][j] != xs[0] {
          assert xs[1..][j] == xs[j + 1];
        }
      }
      DistinctMultiplicity(xs[1..], x);
    }
  }

  /** Two enumerations of the same keys are permutations of each other. */
  lemma EnumerationsPermute<T>(a: seq<T>, b: seq<T>, keys: set<T>)
    requires Enumerates(a, keys) && Enumerates(b, keys)
    ensures multiset(a) == multiset(b)
  {
    forall x ensures multiset(a)[x] == multiset(b)[x] {
      DistinctMultiplicity(a, x);
      DistinctMultiplicity(b, x);
    }
  }

  /** A sum over an enumeration of map keys does not depend on the order. */
  lemma SumOverKeys<T>(a: seq<T>, b: seq<T>, keys: set<T>, f: T -> int)
    requires Enumerates(a, keys) && Enumerates(b, keys)
    ensures Sum(a, f) == Sum(b, f)
  {
    EnumerationsPermute(a, b, keys);
    SumPermutation(a, b, f);
  }
}

=== FILE: text.dfy ===
/**
 * String helpers with the semantics of Go's `strings` package (and of the
 * equivalent JavaScript string methods) that the rest of the model is
 * written against. Strings are sequences of characters.
 */
module Text {

  /** strings.HasPrefix */
  predicate IsPrefix(p: string, s: string)
  {
    |p| <= |s| && s[..|p|] == p
  }

  /** strings.HasSuffix */
  predicate IsSuffix(p: string, s: string)
  {
    |p| <= |s| && s[|s| - |p|..] == p
  }

  /** strings.Index: the first position at which `sub` occurs, or -1. */
  function IndexOf(s: string, sub: string): (r: int)
    ensures -1 <= r <= |s|
    ensures 0 <= r ==> r + |sub| <= |s| && IsPrefix(sub, s[r..])
    ensures 0 <= r ==> forall k :: 0 <= k < r ==> !IsPrefix(sub, s[k..])
    ensures r < 0 ==> forall k :: 0 <= k <= |s| ==> !IsPrefix(sub, s[k..])
    decreases |s|
  {
    if IsPrefix(sub, s) then 0
    else if |s| == 0 then -1
    else
      var r := IndexOf(s[1..], sub);
      assert forall k :: 1 <= k <= |s| ==> s[k..] == s[1..][k - 1..];
      if r < 0 then -1 else r + 1
  }

  /** strings.Contains */
  predicate Contains(s: string, sub: string)
  {
    IndexOf(s, sub) >= 0
  }

  /** `sub` occurs in `s` at some position. */
  lemma ContainsAt(s: string, sub: string, k: nat)
    requires k + |sub| <= |s| && s[k..k + |sub|] == sub
    ensures Contains(s, sub)
  {
    assert IsPrefix(sub, s[k..]);
  }

  /** strings.IndexByte: the first position of `c`, or -1. */
  function IndexOfChar(s: string, c: char): (r: int)
    ensures -1 <= r < |s|
    ensures 0 <= r ==> s[r] == c && c !in s[..r]
    ensures r < 0 ==> c !in s
  {
    if c in s then FirstIndex(s, c) else -1
  }

  function FirstIndex(s: string, c: char): (r: nat)
    requires c in s
    ensures r < |s| && s[r] == c && c !in s[..r]
  {
    if s[0] == c then 0
    else
      var r := FirstIndex(s[1..], c);
      assert s[..r + 1] == [s[0]] + s[1..][..r];
      r + 1
  }

  /**
   * strings.Split with a one-character separator: the pieces between
   * separators, always at least one.
   */
  function Split(s: string, c: char): (r: seq<string>)
    ensures |r| >= 1
    ensures forall i :: 0 <= i < |r| ==> c !in r[i]
    ensures c !in s ==> r == [s]
    decreases |s|
  {
    var i := IndexOfChar(s, c);
    if i < 0 then [s] else [s[..i]] + Split(s[i + 1..], c)
  }

  /** strings.Join with a one-character separator. */
  function Join(parts: seq<string>, c: char): string
  {
    if |parts| == 0 then ""
    else if |parts| == 1 then parts[0]
    else parts[0] + [c] + Join(parts[1..], c)
  }

  /** strings.Join with an arbitrary separator. */
  function JoinWith(parts: seq<string>, sep: string): string
  {
    if |parts| == 0 then ""
    else if |parts| == 1 then parts[0]
    else parts[0] + sep + JoinWith(parts[1..], sep)
  }

  /** Joining the pieces of a split gives back the text. */
  lemma {:induction false} JoinSplit(s: string, c: char)
    ensures Join(Split(s, c), c) == s
    decreases |s|
  {
    var i := IndexOfChar(s, c);
    if i >= 0 {
      var rest := Split(s[i + 1..], c);
      SplitStep(s, c, i);
      JoinCons(s[..i], rest, c);
      JoinSplit(s[i + 1..], c);
      assert s == s[..i] + [c] + s[i + 1..];
    }
  }

  /** A piece in front of at least one more is followed by one `c`. */
  lemma JoinCons(a: string, rest: seq<string>, c: char)
    requires |rest| >= 1
    ensures Join([a] + rest, c) == a + [c] + Join(rest, c)
  {
    assert ([a] + rest)[1..] == rest;
  }

  /** Three pieces joined: each pair separated by one `c`. */
  lemma JoinThree(a: string, b: string, d: string, c: char)
    ensures Join([a, b, d], c) == a + [c] + b + [c] + d
  {
    var parts := [a, b, d];
    assert parts[1..] == [b, d] && parts[1..][1..] == [d];
    assert Join([d], c) == d;
    assert Join([b, d], c) == b + [c] + d;
    assert Join(parts, c) == a + [c] + (b + [c] + d);
  }

  /** Splitting the join of separator-free pieces gives back the pieces. */
  lemma {:induction false} SplitJoin(parts: seq<string>, c: char)
    requires |parts| >= 1
    requires forall i :: 0 <= i < |parts| ==> c !in parts[i]
    ensures Split(Join(parts, c), c) == parts
    decreases |parts|
  {
    if |parts| > 1 {
      var s := Join(parts, c);
      var rest := Join(parts[1..], c);
      assert s == parts[0] + [c] + rest;
      assert s[|parts[0]|] == c;
      assert s[..|parts[0]|] == parts[0];
      assert IndexOfChar(s, c) == |parts[0]|;
      assert s[|parts[0]| + 1..] == rest;
      SplitJoin(parts[1..], c);
    }
  }

  /** Every character `a` replaced by `b` (strings.ReplaceAll on one character). */
  function ReplaceChar(s: string, a: char, b: char): (r: string)
    ensures |r| == |s|
    ensures forall i :: 0 <= i < |s| ==> r[i] == (if s[i] == a then b else s[i])
  {
    if |s| == 0 then "" else [if s[0] == a then b else s[0]] + ReplaceChar(s[1..], a, b)
  }

  /**
   * strings.ReplaceAll / a global JavaScript replace: non-overlapping
   * occurrences of `pat`, found left to right, replaced by `rep`.
   */
  function ReplaceAll(s: string, pat: string, rep: string): string
    requires |pat| > 0
    decreases |s|
  {
    if |s| == 0 then ""
    else if IsPrefix(pat, s) then rep + ReplaceAll(s[|pat|..], pat, rep)
    else [s[0]] + ReplaceAll(s[1..], pat, rep)
  }

  /** strings.TrimPrefix */
  function TrimPrefix(s: string, p: string): (r: string)
    ensures IsPrefix(p, s) ==> p + r == s
    ensures !IsPrefix(p, s) ==> r == s
  {
    if IsPrefix(p, s) then s[|p|..] else s
  }

  /** The characters Go's unicode.IsSpace accepts. */
  predicate IsSpace(c: char)
  {
    c == ' ' || c == '\t' || c == '\n' || c == '\r' || c == '\U{B}' || c == '\U{C}'
    || c == '\U{85}' || c == '\U{A0}' || c == '\U{1680}' || ('\U{2000}' <= c <= '\U{200A}')
    || c == '\U{2028}' || c == '\U{2029}' || c == '\U{202F}' || c == '\U{205F}' || c == '\U{3000}'
  }

  /** strings.TrimSpace */
  function TrimSpace(s: string): (r: string)
    ensures |r| <= |s|
    ensures |r| > 0 ==> !IsSpace(r[0]) && !IsSpace(r[|r| - 1])
    ensures (forall i :: 0 <= i < |s| ==> IsSpace(s[i])) <==> r == ""
  {
    TrimRight(TrimLeft(s))
  }

  function TrimLeft(s: string): (r: string)
    ensures |r| <= |s| && r == s[|s| - |r|..]
    ensures |r| > 0 ==> !IsSpace(r[0])
    ensures (forall i :: 0 <= i < |s| ==> IsSpace(s[i])) <==> r == ""
  {
    if |s| > 0 && IsSpace(s[0]) then
      var r := TrimLeft(s[1..]);
      assert forall i :: 1 <= i < |s| ==> s[i] == s[1..][i - 1];
      r
    else s
  }

  function TrimRight(s: string): (r: string)
    ensures |r| <= |s| && r == s[..|r|]
    ensures |r| > 0 ==> !IsSpace(r[|r| - 1])
    ensures (forall i :: 0 <= i < |s| ==> IsSpace(s[i])) <==> r == ""
  {
    if |s| > 0 && IsSpace(s[|s| - 1]) then
      var r := TrimRight(s[..|s| - 1]);
      assert forall i :: 0 <= i < |s| - 1 ==> s[i] == s[..|s| - 1][i];
      r
    else s
  }

  /**
   * strings.FieldsFunc with "is `c`" as the separator test: the maximal
   * runs of characters other than `c`; empty runs are dropped.
   */
  function Fields(s: string, c: char): (r: seq<string>)
    ensures forall i :: 0 <= i < |r| ==> r[i] != "" && c !in r[i]
  {
    NonEmpty(Split(s, c))
  }

  /** The non-empty members of a sequence of strings, in order. */
  function NonEmpty(ss: seq<string>): (r: seq<string>)
    ensures forall i :: 0 <= i < |r| ==> r[i] != "" && r[i] in ss
    ensures forall x :: x in ss && x != "" ==> x in r
    ensures |r| <= |ss|
  {
    if |ss| == 0 then []
    else if ss[0] == "" then NonEmpty(ss[1..])
    else [ss[0]] + NonEmpty(ss[1..])
  }

  /**
   * bufio.Scanner with ScanLines: the text split on '\n', with one trailing
   * '\r' dropped from every line, and with no final empty line when the
   * text ends in '\n' (or is empty).
   */
  function ScanLines(text: string): seq<string>
  {
    var pieces := Split(text, '\n');
    var lines := if pieces[|pieces| - 1] == "" then pieces[..|pieces| - 1] else pieces;
    DropCRs(lines)
  }

  function DropCR(line: string): (r: string)
  {
    if |line| > 0 && line[|line| - 1] == '\r' then line[..|line| - 1] else line
  }

  function DropCRs(lines: seq<string>): (r: seq<string>)
    ensures |r| == |lines| && forall i :: 0 <= i < |lines| ==> r[i] == DropCR(lines[i])
  {
    if |lines| == 0 then [] else [DropCR(lines[0])] + DropCRs(lines[1..])
  }

  /** A line a writer may emit: no newline inside and no trailing '\r'. */
  predicate PlainLine(line: string)
  {
    '\n' !in line && (|line| == 0 || line[|line| - 1] != '\r')
  }

  /** Lines written one after the other, each followed by '\n'. */
  function Render(lines: seq<string>): string
  {
    if |lines| == 0 then "" else lines[0] + "\n" + Render(lines[1..])
  }

  lemma {:induction false} RenderIsJoin(lines: seq<string>)
    ensures Render(lines) == Join(lines + [""], '\n')
    decreases |lines|
  {
    if |lines| > 0 {
      RenderIsJoin(lines[1..]);
      assert (lines + [""])[1..] == lines[1..] + [""];
    }
  }

  lemma SplitRender(lines: seq<string>)
    requires forall i :: 0 <= i < |lines| ==> '\n' !in lines[i]
    ensures Split(Render(lines), '\n') == lines + [""]
  {
    var pieces := lines + [""];
    assert forall i :: 0 <= i < |pieces| ==> '\n' !in pieces[i] by {
      forall i | 0 <= i < |pieces| ensures '\n' !in pieces[i] {
        if i < |lines| { assert pieces[i] == lines[i]; }
      }
    }
    RenderIsJoin(lines);
    SplitJoin(pieces, '\n');
  }

  lemma DropCRsPlain(lines: seq<string>)
    requires forall i :: 0 <= i < |lines| ==> PlainLine(lines[i])
    ensures DropCRs(lines) == lines
  {
    var dropped := DropCRs(lines);
    assert forall i :: 0 <= i < |lines| ==> dropped[i] == lines[i];
  }

  /** Scanning rendered plain lines gives back the lines. */
  lemma ScanRender(lines: seq<string>)
    requires forall i :: 0 <= i < |lines| ==> PlainLine(lines[i])
    ensures ScanLines(Render(lines)) == lines
  {
    SplitRender(lines);
    DropCRsPlain(lines);
    var pieces := lines + [""];
    assert pieces[..|pieces| - 1] == lines;
  }

  /**
   * strings.Split(s, sep)[0] for a non-empty separator: the text before the
   * first occurrence of `sep`, or all of `s`.
   */
  function BeforeFirst(s: string, sep: string): (r: string)
    ensures IsPrefix(r, s)
    ensures Contains(s, sep) ==> IsPrefix(sep, s[|r|..]) && forall k :: 0 <= k < |r| ==> !IsPrefix(sep, s[k..])
    ensures !Contains(s, sep) ==> r == s
  {
    var i := IndexOf(s, sep);
    if i >= 0 then s[..i] else s
  }

  /** `x` sits at position i of `s` as a whole `c`-separated element. */
  predicate ElementAt(s: string, x: string, i: nat, c: char)
  {
    && i + |x| <= |s| && s[i..i + |x|] == x
    && (i == 0 || s[i - 1] == c)
    && (i + |x| == |s| || s[i + |x|] == c)
  }

  /** The pieces of a split are exactly the separator-free texts that sit between separators. */
  lemma SplitElement(s: string, x: string, c: char)
    requires c !in x
    ensures x in Split(s, c) <==> exists i: nat :: ElementAt(s, x, i, c)
  {
    if x in Split(s, c) {
      SplitElementAt(s, x, c);
    }
    if exists i: nat :: ElementAt(s, x, i, c) {
      var i: nat :| ElementAt(s, x, i, c);
      ElementInSplit(s, x, i, c);
    }
  }

  lemma SplitStep(s: string, c: char, j: int)
    requires j == IndexOfChar(s, c) && j >= 0
    ensures Split(s, c) == [s[..j]] + Split(s[j + 1..], c)
  {
  }

  /** A slice of a suffix is a slice of the whole. */
  lemma SliceShift(s: string, d: nat, a: nat, b: nat)
    requires d <= |s| && a <= b <= |s| - d
    ensures s[d..][a..b] == s[d + a..d + b]
  {
    assert forall k :: 0 <= k < b - a ==> s[d..][a..b][k] == s[d + a + k];
  }

  lemma ShiftElement(s: string, x: string, c: char, j: int, i': nat)
    requires j == IndexOfChar(s, c) && j >= 0
    requires ElementAt(s[j + 1..], x, i', c)
    ensures ElementAt(s, x, j + 1 + i', c)
  {
    var rest := s[j + 1..];
    var i := j + 1 + i';
    SliceShift(s, j + 1, i', i' + |x|);
    assert s[i - 1] == c by {
      if i' > 0 { assert s[i - 1] == rest[i' - 1]; }
    }
    assert i + |x| == |s| || s[i + |x|] == c by {
      if i' + |x| < |rest| { assert s[i + |x|] == rest[i' + |x|]; }
    }
  }

  lemma {:induction false} SplitElementAt(s: string, x: string, c: char)
    requires x in Split(s, c)
    ensures exists i: nat :: ElementAt(s, x, i, c)
    decreases |s|
  {
    var j := IndexOfChar(s, c);
    if j < 0 {
      assert Split(s, c) == [s];
      assert x == s && s[0..|s|] == s;
      assert ElementAt(s, x, 0, c);
    } else {
      SplitStep(s, c, j);
      if x == s[..j] {
        assert ElementAt(s, x, 0, c);
      } else {
        SplitElementAt(s[j + 1..], x, c);
        var i': nat :| ElementAt(s[j + 1..], x, i', c);
        ShiftElement(s, x, c, j, i');
      }
    }
  }

  lemma {:induction false} ElementInSplit(s: string, x: string, i: nat, c: char)
    requires c !in x && ElementAt(s, x, i, c)
    ensures x in Split(s, c)
    decreases |s|
  {
    var j := IndexOfChar(s, c);
    if j < 0 {
      NoSeparatorElement(s, x, i, c);
    } else {
      SplitStep(s, c, j);
      if i == 0 {
        FirstElement(s, x, c, j);
      } else {
        var i' := LaterElement(s, x, i, c, j);
        ElementInSplit(s[j + 1..], x, i', c);
      }
    }
  }

  lemma NoSeparatorElement(s: string, x: string, i: nat, c: char)
    requires c !in s && ElementAt(s, x, i, c)
    ensures x == s
  {
    assert forall k :: 0 <= k < |s| ==> s[k] != c;
  }

  lemma FirstElement(s: string, x: string, c: char, j: int)
    requires c !in x && ElementAt(s, x, 0, c)
    requires j == IndexOfChar(s, c) && j >= 0
    ensures x == s[..j]
  {
    assert forall k :: 0 <= k < |x| ==> s[k] == x[k] && x[k] != c;
    assert forall k :: 0 <= k < j ==> s[..j][k] == s[k];
  }

  lemma LaterElement(s: string, x: string, i: nat, c: char, j: int) returns (i': nat)
    requires c !in x && ElementAt(s, x, i, c) && i > 0
    requires j == IndexOfChar(s, c) && j >= 0
    ensures i' == i - j - 1 && ElementAt(s[j + 1..], x, i', c)
  {
    assert forall k :: 0 <= k < j ==> s[..j][k] == s[k];
    assert i - 1 >= j;
    var rest := s[j + 1..];
    i' := i - j - 1;
    SliceShift(s, j + 1, i', i' + |x|);
    assert i' == 0 || rest[i' - 1] == c by {
      if i' > 0 { assert rest[i' - 1] == s[i - 1]; }
    }
    assert i' + |x| == |rest| || rest[i' + |x|] == c by {
      if i' + |x| < |rest| { assert rest[i' + |x|] == s[i + |x|]; }
    }
  }
}

=== FILE: wrappers.dfy ===
/**
 * Small result and option types shared by every module of the model.
 * A Go `(value, error)` pair becomes a `Result`, a nil-able value becomes
 * an `Option`.
 */
module Wrappers {

  datatype Option<T> = None | Some(value: T)

  datatype Result<T, E> = Ok(value: T) | Err(error: E)
}
